=== FILE: README.md ===
# Locatus back end: a Dafny model of its rules

Locatus is a property-management back end. Owners keep properties and tenants in a Firebase Realtime Database, take rent through Stripe Checkout, and mail their tenants. This project models the decisions the service takes, as pure functions with contracts:

- **Billing calendar.** Month arithmetic with end-of-month clamping (`add_months_safe`). The next due date of a tenant from the entry date and a cycle of 1 to 12 months. The two entry-date readers (`DD/MM/YYYY`, `YYYY-MM-DD` and general ISO text).
- **Late-payment sweep.** The sweep sets tenants' statuses back to `active` and counts what it checked and updated.
- **Monthly reminder.**
  - The scheduler's firing day, seven days before the end of the month.
  - Tenant selection by due month.
  - The `{{ token }}` template renderer.
  - The reminder endpoints: the upcoming preview, the manual send, and the history.
- **Messages.** The endpoints build an HTML mail, list the log, send to a batch, and log one message.
- **Tenants and properties.** Input sanitisers, patch filters, record mappers, the update merge as a dict union, the response-model validation of the list and update answers, and the property status writes that follow tenant creation and deletion.
- **Payments.** The checkout request checks and Stripe metadata, the payment history filter and page, and the webhook's guards and receipt.
- **Auth and users.** Registration, login, `me`, the default administrator, and `authenticate`.
- **Plumbing.** The settings' list parser, boolean normaliser and derived flags. The decisions `send_mail` takes before it talks to SMTP. The Firebase URL builder and response classification.

Python values are modelled explicitly:
- JSON values are `Value` (`Null`, `Bool`, `Int`, `Str`), with Python truthiness and `or` defaults.
- `str.strip`, ASCII `lower`, `str.split` and `int()` are written out, including `int()`'s sign and underscore rules.
- An HTTP error is `Fail(status)` of a `Result`.

Anything outside the process is a parameter:
- "today", the clock, and generated ids;
- the database snapshot read;
- the sets of ids whose mail or log write fails;
- whether Stripe is configured and a signature verifies;
- password hashing and verification;
- the general `datetime.fromisoformat` reader for non-fixed-shape text.

Modules follow the source files. Shared models sit in `Wrappers`, `Text` (Python string functions), `Values` (JSON values), `Lists` (filter, stable sort, slices), `Calendar` and `IsoDate`.

## Model

| member | source | states |
|---|---|---|
| Calendar.DaysInMonth | app/services/late_payment_service.py:31 | The month-length table: 28 to 31 days, and February has 29 exactly in leap years (divisible by 4, not by 100 unless by 400). |
| Calendar.MakeDate | app/services/late_payment_service.py:19 | `date(year, month, day)` succeeds exactly for a real calendar day in years 1 to 9999, and then holds exactly those fields. |
| Calendar.AddMonthsSafe | app/services/late_payment_service.py:26-32 | The month index moves by exactly `months`, including the year carry and for negative counts. The day is kept when the target month has it and clamped to the month's last day otherwise. The result is a real day whenever the input day is positive. |
| Calendar.AddMonthsSafeExamples | app/services/reminder_service.py:37-42 | Worked example: The reminder service's copy of `add_months_safe`, on concrete dates. January 31 plus one month lands on February 29 in 2024 and 2000, and on February 28 in 2023 and 1900. December rolls into January of the next year. March 31 plus 25 months is April 30 two years later. |
| Calendar.AddMonthsSafeAdvances | app/services/late_payment_service.py:38-41 | Adding at least one month always gives a strictly later date, so each pass of the due-date loop makes progress. |
| Calendar.IterateMonthsAndDay | app/services/late_payment_service.py:40-41 | After `k` passes of the loop, the month index has moved by `months * k` and the day has never grown: once a day is clamped it stays clamped. |
| Calendar.IterateWithoutClamping | app/services/late_payment_service.py:40-41 | For days up to the 28th, stepping `k` times by `months` equals one addition of `months * k`. |
| Calendar.StickyClampExample | app/services/late_payment_service.py:40-41 | Stepping month by month is not one big addition: January 31 stepped twice reaches March 28, while adding two months at once reaches March 31. |
| Calendar.NextPrevRoundTrip | app/cron/scheduler.py:23 | Stepping a real day back by `date.resolution` and forward again, or forward and back, returns the same day. |
| Calendar.MinusPlusRoundTrip | app/cron/scheduler.py:24 | Going back `k` days and forward `k` days returns the starting day. |
| Calendar.MinusDaysSameMonth | app/cron/scheduler.py:24 | Going back fewer days than the day number stays in the same month and just lowers the day. |
| Calendar.MinusDaysYear | app/api/reminders.py:54 | Going back at most 28 days stays in the same year unless it passes the first of January, and then lands in the year before. |
| Calendar.MinusWeekInRange | app/api/reminders.py:54 | `d - 7 days` is a Python date exactly when `d` is after 7 January of year 1; before that the subtraction raises `OverflowError`. |
| Calendar.LastDayOfMonth | app/cron/scheduler.py:20-23 | The first day of the next month minus one day, with the December year carry, is the last day of today's month. It is in the same year and month, the next day is a first, and it is never before today. |
| DueDates.Advance | app/services/late_payment_service.py:40-41 | The `while due < today` loop ends on a date that is not before today. The result is the input when that is already not before today, and otherwise strictly later. |
| DueDates.AdvanceIsFirstIterate | app/services/late_payment_service.py:40-42 | The loop's result is the first iterate of `add_months_safe` that is not before today. Every earlier iterate is before today. |
| DueDates.NextDueIsFirstIterate | app/services/late_payment_service.py:35-43 | The next due date is the entry date stepped `K` times by the cycle, for the smallest `K >= 1` whose iterate is not before today. |
| DueDates.NextDueAfterEntry | app/services/late_payment_service.py:35-43 | The next due date is strictly after the entry date and never before today. |
| DueDates.AdvanceBound | app/services/late_payment_service.py:40-41 | The due date lies at most one cycle of months past today's month. |
| DueDates.ZeroCycleStandsStill | app/services/late_payment_service.py:74 | A zero-month cycle never moves the date, so without the clamp to at least one month the loop would never end for a past entry date. |
| DueDates.ComputeNextDueDate | app/services/late_payment_service.py:35-43 | The loop as the source runs it returns the first cycle iterate not before today, and that date is strictly after the entry date. |
| IsoDate.IsoFormat | app/services/reminder_service.py:32 | `date.isoformat()` always has the `YYYY-MM-DD` shape. |
| IsoDate.ParseIso10 | app/services/late_payment_service.py:15-16 | `fromisoformat` on the `YYYY-MM-DD` shape accepts only digit fields that name a real date. |
| IsoDate.IsoRoundTrip | app/services/reminder_service.py:31-32 | Reading back what `isoformat` writes gives the same date. |
| IsoDate.ParseIsoFormats | app/services/reminder_service.py:26-27 | Every `YYYY-MM-DD` text that parses is the `isoformat` of its date, so the text is canonical. |
| IsoDate.IsoOrder | app/api/reminders.py:51 | Comparing `isoformat` texts compares the dates, so sorting by the text sorts by date. |
| IsoDate.FromIsoFormat | app/services/late_payment_service.py:16-20 | The `YYYY-MM-DD` shape is read by the fixed-width reader. Any other text goes to the general timestamp reader. |
| IsoDate.ParseIsoRejectsMonth | app/services/late_payment_service.py:15-16 | Worked example: A month 13 in the right shape is rejected. |
| IsoDate.ParseIsoLeapDay | app/services/late_payment_service.py:15-16 | Worked example: `2024-02-29` reads as February 29, 2024. |
| IsoDate.ParseIsoNoLeapDay | app/services/late_payment_service.py:15-16 | Worked example: `2023-02-29` is rejected. |
| LatePaymentService.NormalizeEntryDate | app/services/late_payment_service.py:10-23 | Falsy values and non-text values give `None`. The `YYYY-MM-DD` shape is read as ISO. Other text of neither fixed shape goes to the general reader. |
| LatePaymentService.SlashParts | app/services/late_payment_service.py:18-19 | Splitting `dd/mm/yyyy` on `/` gives the three fields. The date is `date(int(yyyy), int(mm), int(dd))` when every field is an integer and `None` otherwise. |
| LatePaymentService.SlashDateDigits | app/services/late_payment_service.py:17-19 | `DD/MM/YYYY` written in digits gives exactly the date the digits name, and `None` when no such date exists. |
| LatePaymentService.SlashTextShape | app/services/late_payment_service.py:15-17 | Two characters, a slash, two, a slash and four make the slash shape. They do not make the ISO shape when the month does not end in `-`. |
| LatePaymentService.NormalizeSlashShaped | app/services/late_payment_service.py:17-19 | Text of the slash shape, and not of the ISO shape, goes to the slash reader. |
| LatePaymentService.NormalizeEntryDateReadsIso | app/services/late_payment_service.py:15-16 | The ISO text of any date normalises back to that date. |
| LatePaymentService.NormalizeEntryDateSlashDigits | app/services/late_payment_service.py:17-19 | `DD/MM/YYYY` in digits normalises to the date those digits name, or to `None`. |
| LatePaymentService.NormalizeEntryDateReadsSlash | app/services/late_payment_service.py:17-19 | The zero-padded `DD/MM/YYYY` text of any date normalises back to that date. |
| LatePaymentService.SlashDateAcceptsSignedDay | app/services/late_payment_service.py:18-19 | `int()` accepts a sign, so `+D/MM/YYYY` is slash-shaped and reads as day `D`. |
| LatePaymentService.PyIntSignedDigit | app/services/late_payment_service.py:19 | Worked example: `int("+7")` is 7. |
| Text.PyInt | app/services/late_payment_service.py:19 | `int()` on text: a run of digits reads as its decimal value, and blank text never reads. |
| LatePaymentService.NormalizeEntryDateSignedDay | app/services/late_payment_service.py:17-19 | The sweep's reader takes `+D/MM/YYYY` as day `D`. |
| LatePaymentService.CycleMonths | app/services/late_payment_service.py:74 | The cycle always lies in 1..12. A falsy value gives 1, and an integer in range is kept. |
| LatePaymentService.Decide | app/services/late_payment_service.py:62-103 | The loop body only ever writes `late` or `active`. |
| LatePaymentService.DecideCharacterised | app/services/late_payment_service.py:77-103 | The late branch is dead, because the due date is never before today. A tenant goes back to `active` exactly when its stored status is `late` and its entry date and cycle are readable. The loop crashes exactly when the date is readable and the cycle is not. |
| LatePaymentService.PendingUntouched | app/services/late_payment_service.py:80-103 | A tenant whose status is missing (read as `pending`) or anything other than `late` is never patched. |
| LatePaymentService.Sweep | app/services/late_payment_service.py:60-105 | When the loop returns, `checked` is the number of records and `updated` the number of patches. Every patch writes `active`. |
| LatePaymentService.CheckAndUpdateLatePayments | app/services/late_payment_service.py:46-105 | A non-dict snapshot gives zero counts and no writes. Otherwise every record is checked, and `updated` counts the writes. |
| LatePaymentService.SweepPatchesBackToActive | app/services/late_payment_service.py:82-103 | A sweep that returns patches exactly the `late` tenants with a readable entry date and cycle, in snapshot order, whatever today is. |
| LatePaymentService.ApplyPatches | app/services/late_payment_service.py:93-102 | Writing the patches keeps every record and its id, in order. |
| LatePaymentService.PatchedStatusActive | app/services/late_payment_service.py:93-102 | When every patch writes `active`, any patched status is `active`. |
| LatePaymentService.NoneBackToActiveAfterPatches | app/services/late_payment_service.py:60-105 | Once every tenant due to go back to `active` has been patched, a second sweep writes nothing and reports `updated = 0`. |
| LatePaymentService.SweepIdempotent | app/services/late_payment_service.py:60-105 | Sweeping twice is sweeping once. After a sweep's patches are written, a second sweep with the same reference date patches nobody. |
| ReminderService.ToCleanString | app/services/reminder_service.py:14-18 | `None` exactly for `None` and for blank text. Any result is stripped, non-empty, and has no blank at either end. |
| ReminderService.SlashToIso | app/services/reminder_service.py:28-30 | The `DD/MM/YYYY` branch succeeds exactly when the split has three parts. It then yields text of the ISO shape, without checking the fields. |
| ReminderService.NormalizeEntryText | app/services/reminder_service.py:21-34 | A value with no cleaned text gives `None`. Every result has the ISO shape. Cleaned text already in the ISO shape is returned verbatim, unvalidated. |
| ReminderService.ClampCycle | app/services/reminder_service.py:55 | The cycle lies in 1..12, keeps values in range, and turns 0 into 1. |
| ReminderService.ComputeNextDueDate | app/services/reminder_service.py:45-60 | There is a due date exactly when the entry date normalises and parses. It is then the first iterate of the clamped cycle not before today, as in `DueDates.NextDueIsFirstIterate`. |
| ReminderService.ComputeNextDueDateRejects | app/services/reminder_service.py:46-54 | A missing entry date, an empty one, and one shaped like `2024-13-45` all give no due date. |
| ReminderService.ImpossibleIsoRejected | app/services/reminder_service.py:26-54 | Trimmed ISO-shaped text that names no calendar day passes the normaliser verbatim and is then rejected by `fromisoformat`. |
| ReminderService.CopiesAgreeOnIso | app/services/reminder_service.py:21-34 | On a trimmed `YYYY-MM-DD` entry the reminder service and the sweep's `normalize_entry_date` read the same start date. |
| ReminderService.EntryTextOfSlash | app/services/reminder_service.py:28-30 | A trimmed `DD/MM/YYYY`-shaped entry is reordered as text into `YYYY-MM-DD`, whatever its fields hold. |
| ReminderService.SlashToIsoOf | app/services/reminder_service.py:29-30 | Three slash-free fields joined by slashes come back reordered as `yyyy-mm-dd`. |
| ReminderService.CopiesAgreeOnSlashDigits | app/services/reminder_service.py:28-30 | On `DD/MM/YYYY` written in digits, both services read the same date, or both read none. |
| ReminderService.OtherEntryText | app/services/reminder_service.py:31-32 | Any other trimmed timestamp is parsed by the general reader and then reread from its ISO text. |
| ReminderService.CopiesAgreeOnGeneral | app/services/reminder_service.py:31-32 | On any other trimmed timestamp both services read the same date, because the ISO write-back round-trips. |
| ReminderService.CopiesDisagreeOnSignedDay | app/services/reminder_service.py:28-30 | The two copies differ on a signed day. The sweep reads `+D/MM/YYYY` as day `D`. The reminder service builds `YYYY-MM-+D`, which no ISO reader accepts. |
| ReminderService.MapTenant | app/services/reminder_service.py:75-88 | The tenant keeps its id. The email is lower-cased and defaults to "". The status defaults to `pending` and the owner to the configured owner. The cycle lies in 1..12. Mapping fails exactly when a set email is not text or the cycle is unreadable. |
| ReminderService.MapProperty | app/services/reminder_service.py:93-104 | The property keeps its id, name and address. The status defaults to `vacant`, bedrooms to 0 and the owner to the configured owner. Mapping fails exactly when `int()` on bedrooms raises or `float()` on rent or charges raises; `None` is never passed to `float()`, because `or 0` replaces it. |
| ReminderService.MapTenants | app/services/reminder_service.py:72-89 | A non-dict snapshot gives no tenants. When the read succeeds, there is one tenant per record, in snapshot order, carrying the record's id. |
| ReminderService.MapTenantsSomeIff | app/services/reminder_service.py:72-89 | The tenant read succeeds exactly when every stored record maps: one record with a non-text email or an unreadable cycle aborts the whole fetch. The k-th tenant is then the k-th record mapped. |
| ReminderService.MapProperties | app/services/reminder_service.py:90-104 | A non-dict snapshot gives no properties. When the read succeeds, every record id is a key and each property carries its own key as its id. |
| ReminderService.MapPropertiesSomeIff | app/services/reminder_service.py:90-104 | The property read succeeds exactly when every stored record maps: one record whose `int()` or `float()` raises aborts the whole fetch. |
| ReminderService.MapPropertyRentWords | app/services/reminder_service.py:101 | A rent stored as a word (a first letter other than `i` or `n`, so neither `inf` nor `nan`) makes the property read fail. |
| ReminderService.FetchTenantsAndProperties | app/services/reminder_service.py:67-105 | Two non-dict snapshots give no tenants and no properties. A successful fetch holds one tenant per tenant record, with its id, and every property record under its own id; it succeeds only when both reads succeed. |
| ReminderService.FetchSomeIff | app/services/reminder_service.py:67-105 | The fetch succeeds exactly when every tenant record and every property record maps; otherwise it raises. |
| ReminderService.FetchFailsOnWordRent | app/services/reminder_service.py:101 | One property whose rent is written as a word makes the whole fetch raise, whatever the tenants are. |
| ReminderService.PropertyOf | app/api/reminders.py:35 | A property is found only under the tenant's text `propertyId`, or under "" when that id is falsy; a numeric id finds none. The message send loop looks properties up the same way (`app/api/messages.py:130`). |
| ReminderService.PropertyOfMapped | app/services/reminder_service.py:90-104 | A tenant whose `propertyId` is a stored property's key finds that property in the mapped properties. |
| ReminderService.EmitMonthlyReminderFetched | app/services/reminder_service.py:120-156 | Over fetched tenants: a run that completes mails exactly the selected tenants, in order. Selected means a non-empty email and a due date in `last_day`'s month and year. A run a failing mail stops mails a prefix of them. With no failing mail the run completes. |
| ReminderService.EmitMonthlyReminder | app/services/reminder_service.py:118-156 | When the fetch raises, nobody is mailed and the run does not complete. Otherwise it is the run over the fetched tenants. A completed run implies a successful fetch. |
| Scheduler.CreateScheduler | app/cron/scheduler.py:13-46 | No scheduler unless reminders are active. Otherwise there are exactly two jobs: reminders at 9:00 and late payments at 1:00. |
| Scheduler.ReminderTarget | app/cron/scheduler.py:19-24 | The target day is in today's month, seven days before its last day. |
| Scheduler.ReminderFiresOncePerMonth | app/cron/scheduler.py:24-26 | The job mails on exactly one day of each month, the last day minus seven, which falls between the 21st and the 24th. |
| Scheduler.ReminderJob | app/cron/scheduler.py:18-30 | The job runs exactly on the target day. When the store read raises, it mails nobody. Otherwise it is the run over the fetched tenants. |
| Scheduler.ReminderJobFetched | app/cron/scheduler.py:18-30 | Over fetched tenants, the job mails exactly on the target day. What it mails is a prefix of the selected tenants, and all of them when the loop completes. |
| Scheduler.ReminderJobFailsOnWordRent | app/cron/scheduler.py:27-30 | On its day, a job facing a property whose rent is written as a word mails nobody. |
| Scheduler.SelectedIdsFrom | app/services/reminder_service.py:124-130 | Every selected id belongs to a tenant with an email whose due date falls in the target month. |
| Scheduler.MailedDueInLastWeek | app/cron/scheduler.py:24-28 | Every tenant the job mails has a due date that is not before today and not after the last day of the month. |
| Template.PlaceholderAt | app/services/reminder_service.py:115 | A match of `{{\s*(\w+)\s*}}` starts with `{{`, holds a non-empty word token, and is at least five characters long. |
| Template.RenderPlainPrefix | app/services/reminder_service.py:115 | Text without `{` is copied unchanged in front of the rendering of what follows. |
| Template.RenderWithoutPlaceholders | app/services/reminder_service.py:115 | A template without `{{` renders as itself. |
| Template.PlaceholderMatches | app/services/reminder_service.py:115 | The pattern matches a placeholder with any run of blanks around its word token. |
| Template.RenderPlaceholder | app/services/reminder_service.py:111-115 | A placeholder with any inner blanks and any letter case becomes the context value of its lower-cased token. The rest of the template is rendered on its own, so the value is never rescanned. |
| Template.RenderWithoutTokens | app/services/reminder_service.py:108-115 | A template in which the pattern `{{\s*(\w+)\s*}}` matches nowhere renders as itself, whatever the context. |
| Template.TextContext | app/services/reminder_service.py:113 | The context as `re.sub` uses it: the same keys, text values as they are and `None` as nothing. |
| Template.RenderValues | app/services/reminder_service.py:108-115 | Rendering succeeds exactly when every placeholder that names a context key finds text or `None` there, because `re.sub` raises on any other replacement; it then equals rendering the text context. |
| Template.RenderTextValues | app/services/reminder_service.py:108-115 | A context of text and `None` values always renders. |
| Template.RenderValuesFailsAt | app/services/reminder_service.py:111-115 | A placeholder whose lower-cased token names a non-text value makes the render fail. |
| Html.ReplaceChainConcat | app/api/messages.py:25-26 | The builder's replacement chain distributes over concatenation. |
| Html.ReplaceChainOne | app/api/messages.py:25-26 | One character passes the chain `&`, `<`, `>`, line break as its own entity. `&` goes first, so a later step never rewrites an earlier entity. |
| Html.ReplaceChainEscapes | app/api/messages.py:25-26 | The chain equals the character-wise escape, so it loses nothing. |
| Html.EscapeRoundTrip | app/api/messages.py:25-26 | Reading the escaped text back, entity by entity and `<br>` by line break, gives the original text. |
| Html.EscapeConcat | app/api/messages.py:25-26 | Escaping a concatenation escapes each part. |
| Html.FormatHtmlConcat | app/core/email_utils.py:11 | `format_html_from_text` distributes over concatenation. |
| Html.FormatHtmlOne | app/core/email_utils.py:11 | One character passes the six replacements as its own entity. |
| Html.FormatHtmlEscapes | app/core/email_utils.py:11 | `format_html_from_text` is the character-wise escape with quotes, so its output can be read back. |
| Html.FormatHtmlFromTextSafe | app/core/email_utils.py:11 | The output holds no raw line break, double quote or single quote. |
| Html.ReplaceChain | app/api/messages.py:25-26 | The escaped body has no raw line break, and text with none of `&`, `<`, `>` and line break is unchanged. |
| Html.FormatHtmlFromText | app/core/email_utils.py:11 | The output has no raw line break, and text with none of the six escaped characters is unchanged. |
| MessagesApi.MatchLength | app/api/messages.py:24 | A match starts with `http://` or `https://` and is longer than the scheme. As written, it needs a backslash right after the scheme. As intended, it runs over non-blanks up to a blank or the end. |
| MessagesApi.StripLinksUnchanged | app/api/messages.py:24 | Text in which the pattern matches nowhere comes back unchanged. |
| MessagesApi.StripLinksShortens | app/api/messages.py:24 | Text in which the pattern matches anywhere comes back strictly shorter. |
| MessagesApi.StripLinksChangesIff | app/api/messages.py:24 | The cleaner changes the body exactly when the pattern occurs in it. |
| MessagesApi.StripLinks | app/api/messages.py:24 | The cleaned body is never longer than the body. |
| MessagesApi.StripLinksPlainPrefix | app/api/messages.py:24 | Text without an `h` is kept in front of the cleaned rest. |
| MessagesApi.LinkRemoved | app/api/messages.py:24 | With the intended pattern, a scheme and its non-blank run up to a blank or the end are dropped whole. |
| MessagesApi.NoBackslashUnchanged | app/api/messages.py:24 | The pattern as written never changes a body without a backslash. |
| MessagesApi.LinkKeptAsWritten | app/api/messages.py:24 | As written, an ordinary link after a greeting survives the cleaner. |
| MessagesApi.LinkRemovedAfterGreeting | app/api/messages.py:24 | With the intended pattern, the same link is removed and the greeting kept. |
| MessagesApi.LinkAloneRemoved | app/api/messages.py:24 | With the intended pattern, a body that is only a link cleans to empty text. |
| MessagesApi.FirstLink | app/api/messages.py:146-149 | The call-to-action link, when there is one, is a non-empty non-blank run starting with `h`. |
| MessagesApi.FirstLinkIff | app/api/messages.py:146-149 | The send loop finds a call-to-action link exactly when the intended cleaner has a link to remove. |
| MessagesApi.BuildHtmlEmail | app/api/messages.py:20-33 | The button appears exactly for a non-empty link and carries it. The greeting appears exactly for a truthy name. The escaped body has no raw line break, and reading it back gives the stripped, link-cleaned body. |
| MessagesApi.WithId | app/api/messages.py:94 | Every stored field is kept and `id` is added. A stored `id` wins over the key. |
| MessagesApi.KeptMessages | app/api/messages.py:90-99 | A non-dict snapshot gives nothing. Otherwise every kept message passes both filters and comes from the snapshot. Every snapshot message that passes is kept. |
| MessagesApi.ListMessages | app/api/messages.py:81-102 | A 500 exactly when the kept messages mix a text `sentAt` with a number, because Python cannot compare them. Otherwise exactly `min(max(1, min(100, limit)), kept)` messages, all passing the filters and drawn from the kept ones, newest `sentAt` first. No kept message left out is newer than one returned. When the kept messages fit the cap, they are all returned. |
| MessagesApi.ListMessagesFailsOnMixedStamps | app/api/messages.py:100 | One kept message with a text `sentAt` and another with a non-zero number make the listing a 500. |
| MessagesApi.ListMessagesTextStamps | app/api/messages.py:100 | When every stored `sentAt` is text or missing, the listing never fails. |
| MessagesApi.LogMessage | app/api/messages.py:182-204 | 400 exactly when the tenant id, tenant name, subject or body is falsy. Otherwise exactly seven fields are stored: the tenant id and name, subject and body as sent; the channel, owner and `sentAt` as sent when truthy, and otherwise `email`, the configured owner and `now`. |
| MessagesApi.LoggedMessageListed | app/api/messages.py:182-207 | A logged message is listed back, under its own owner and tenant filters, exactly as the response showed it. |
| MessagesApi.LogResponse | app/api/messages.py:207 | The response keeps every stored field and adds the new id, unless the stored data already has one. |
| MessagesApi.ListMessagesPrefix | app/api/messages.py:100-102 | The limit never decides whether the listing fails, and a smaller limit gives a prefix of the list a larger one gives. |
| MessagesApi.StrippedText | app/api/messages.py:114-115 | A falsy value gives "". Text is stripped. Any other truthy value fails with 500, because it has no `.strip`. |
| MessagesApi.MessageOwner | app/api/messages.py:117 | A truthy owner id is used stripped, and a 500 when it is not text. A falsy one gives the configured owner, stripped. |
| MessagesApi.Recipients | app/api/messages.py:123-124 | The recipients are exactly the snapshot tenants with a chosen id, the sender's owner id and an email. |
| MessagesApi.PropertyValue | app/api/messages.py:137-140 | The property's name or address as stored, and "" without a property. |
| MessagesApi.MessageContext | app/api/messages.py:130-142 | Exactly the nine placeholders, holding the stored values. `prenom` and `first` are the first word of the name. The French and English keys agree. The property's name and address are passed as stored, whatever their type, and are `""` without a property. Fails with 500 exactly when the name is set but is not text. |
| MessagesApi.Compose | app/api/messages.py:143-151 | Fails with 500 exactly when the subject or body names a placeholder whose value is not text (a numeric property name, say). Otherwise the mail goes to the tenant's email, with the subject and body rendered, the button carrying the first link of the body, and the escaped body cleaned by the pattern as written. |
| MessagesApi.ComposeKeepsLink | app/api/messages.py:24-26 | The model uses the cleaner as written: a composed mail whose body has no backslash carries the whole stripped body, links included. |
| MessagesApi.ComposeFailsOnNumberName | app/api/messages.py:136-144 | A body with a `{{ logement }}` placeholder fails with 500 when the tenant's property name is stored as a number. |
| MessagesApi.ComposeAll | app/api/messages.py:129-151 | Succeeds exactly when every recipient's mail can be rendered, and then holds one mail per recipient in order. Otherwise it fails with 500. |
| MessagesApi.DeliverMessages | app/api/messages.py:127-178 | Fails with 500 exactly when some recipient's mail cannot be rendered. Otherwise one result and one mail per recipient, in order. `sent` is the number of mails accepted, `failed` the total minus `sent`, and the total the recipient count. |
| MessagesApi.Tally | app/api/messages.py:168-178 | The response counts: per-recipient results, and `sent` as the number of mails `send_mail` accepted. |
| MessagesApi.SendInputs | app/api/messages.py:111-121 | The checks before the store is read: 503 without a mailer, 500 for a set non-text subject, body or owner, 400 for a blank subject or body, 400 without tenant ids; otherwise the stripped subject, body and owner. |
| MessagesApi.SendMessagesFetched | app/api/messages.py:111-178 | The input checks' failures pass through, and 404 without a recipient. Valid inputs with at least one recipient give exactly the send loop over the fetched tenants that are chosen, owned by the sender and have an email, and a success is always that loop. |
| MessagesApi.SendMessages | app/api/messages.py:106-178 | The input checks come first; then a 500 when the store read raises; otherwise the send over the fetched collections, with the same guarantees as `SendMessagesFetched`. |
| MessagesApi.SendMessagesOkIff | app/api/messages.py:106-178 | The send succeeds exactly when the inputs pass, the store read succeeds, some fetched tenant is a recipient and every recipient's mail renders. |
| MessagesApi.SendMessagesFailsOnWordRent | app/api/messages.py:122 | With valid inputs, one property whose rent is written as a word makes the send a 500. |
| MessagesApi.SentAtLeastSentResults | app/api/messages.py:151-176 | `sent` is at least the number of results marked `sent`. It is strictly more once a log write after an accepted mail fails. |
| MessagesApi.SentIsSentResults | app/api/messages.py:151-176 | Without a failing log write, `sent` equals the number of results marked `sent`. |
| RemindersApi.DefaultDueAsWritten | app/api/reminders.py:30 | As written, the default due date exists exactly outside December, because `date(y, 13, 1)` raises. |
| RemindersApi.DefaultDueAsWrittenFailsInDecember | app/api/reminders.py:30 | In every December of every year, the expression as written has no value. |
| RemindersApi.DefaultDue | app/api/reminders.py:30 | The intended default is the last day of today's month, so it is never before today. |
| RemindersApi.DefaultDueAgrees | app/api/reminders.py:30 | Wherever the written expression is defined, it equals the intended default. |
| RemindersApi.SlashText | app/api/reminders.py:92 | `strftime("%d/%m/%Y")` gives text of the `DD/MM/YYYY` shape. |
| RemindersApi.SlashTextReadsBack | app/api/reminders.py:92 | The date written into every reminder reads back as the due date itself through the `DD/MM/YYYY` branch of `normalize_entry_date`. |
| RemindersApi.DueOrDefault | app/api/reminders.py:36-37 | The default when no due date is computed. Otherwise the computed date, which is never before today, and no date at all when it lies outside years 1 to 9999, where `date(year, month, day)` in `add_months_safe` raises `ValueError`. |
| RemindersApi.ReminderFor | app/api/reminders.py:32-50 | The reminder exists exactly when a due date is found, the name is text and a found property's name is text; otherwise a 500. It carries the tenant's id, name, email and cycle, the ISO text of the computed-or-default date, and the property's name or `Logement`. |
| RemindersApi.Summarize | app/api/reminders.py:51-60 | The reminders are a permutation of the input, sorted by due date, with the total as the count. The summary due date is the first reminder's, or the default when there is none. The reminder date reads back as seven days earlier. |
| RemindersApi.SortedFirstEarliest | app/api/reminders.py:51-52 | With ISO due dates, the first reminder after sorting carries the earliest due date. |
| RemindersApi.SummarizeOkIff | app/api/reminders.py:51-54 | With ISO due dates, the summary fails exactly when its earliest date, or the default without reminders, lies in the first week of year 1. |
| RemindersApi.UpcomingFetched | app/api/reminders.py:28-60 | Over fetched collections: fails with 500 whenever the default due date cannot be built, that is every December. Otherwise it is the preview built with the last day of today's month as default. |
| RemindersApi.Upcoming | app/api/reminders.py:21-60 | A 500 when the store read raises, and in every December. Otherwise the preview over the fetched collections. |
| RemindersApi.UpcomingWith | app/api/reminders.py:28-60 | A preview is the summary of the candidates' reminders, and exists only when all of them can be built and that summary can be made. |
| RemindersApi.UpcomingWithOkIff | app/api/reminders.py:28-60 | The preview exists exactly when every candidate's reminder can be built and every due date it uses, or the default one without candidates, is after 7 January of year 1, where `summary_date - 7 days` would raise. |
| RemindersApi.UpcomingFailsInDecember | app/api/reminders.py:30 | In December the preview is always a 500. |
| RemindersApi.UpcomingFromCandidates | app/api/reminders.py:28-34 | Every reminder of the preview belongs to a tenant of the owner that has an email. |
| RemindersApi.CandidatesInUpcoming | app/api/reminders.py:28-58 | Every tenant of the owner with an email has a reminder in the preview. The total counts exactly those tenants. |
| RemindersApi.UpcomingEarliest | app/api/reminders.py:51-53 | No reminder of the preview is due before the summary's due date. |
| RemindersApi.SummaryEarliest | app/api/reminders.py:51-53 | A reminder in a summary is due no earlier than the summary's due date. |
| RemindersApi.EligibleTenants | app/api/reminders.py:77-80 | Exactly the snapshot tenants of the owner with an email, narrowed to the listed ids when the list is non-empty. |
| RemindersApi.SendTemplate | app/api/reminders.py:93 | A present message is stripped. An absent or empty one gives the default template. |
| RemindersApi.ReminderContext | app/api/reminders.py:100-106 | Exactly the five placeholders. The date and amount are those of the send, and `prenom` is the first word of the name. The property's name is passed as stored, and `votre logement` stands in without a property. Fails with 500 exactly for a set non-text name. |
| RemindersApi.SendOne | app/api/reminders.py:97-136 | Fails with 500 exactly when the template names a placeholder whose value is not text. Otherwise the mail goes to the tenant's email with the due date in the subject. Its text part is the rendered body followed by `\n\nMontant dû : `, the formatted amount, a line break and the configured app URL. The result says `sent` exactly when the tenant's mail does not fail. |
| RemindersApi.SendOneFailsOnNumberName | app/api/reminders.py:104-107 | A template with a `{{ logement }}` placeholder fails with 500 when the tenant's property name is stored as a number. |
| RemindersApi.SendEach | app/api/reminders.py:97-136 | Succeeds exactly when every eligible tenant's body renders, and then gives one result and one mail per eligible tenant, in order, each the one `SendOne` gives, so each mail's text ends with the amount due and the app URL. |
| RemindersApi.Respond | app/api/reminders.py:137-159 | `sent` is the number of `sent` results, and `sent + failed` is the total. The log keeps the first 25 results, the first 280 template characters and the same counts and due date. |
| RemindersApi.Deliver | app/api/reminders.py:97-159 | Fails with 500 exactly when some body does not render. Otherwise per-tenant results and mails in order, `sent` counting the `sent` results, `sent + failed` the total, and a log with the first 25 results, the first 280 template characters and the same counts and due date. |
| RemindersApi.SendDueDate | app/api/reminders.py:83-91 | A given due date is read by `fromisoformat`, and is a 400 exactly when it does not parse. Without one, the last day of today's month, except in December, where building it fails with 500. |
| RemindersApi.SendRemindersFetched | app/api/reminders.py:64-159 | Over fetched collections: 503 when reminders are off. 404 without an eligible tenant. Then the due date's failure, 400 or the December 500. With reminders on, an eligible tenant and a readable due date, it is exactly the send loop over the eligible tenants with the request's template, due date and the configured app URL, and a success is always that loop. |
| RemindersApi.SendReminders | app/api/reminders.py:64-159 | 503 when reminders are off, before the store is read. Then a 500 when the store read raises. Otherwise the send over the fetched collections, with the same guarantees as `SendRemindersFetched`. |
| RemindersApi.SendRemindersOkIff | app/api/reminders.py:64-159 | The send succeeds exactly when reminders are on, the store read succeeds, some fetched tenant is eligible, the due date reads and every eligible tenant's mail renders. |
| RemindersApi.EndpointsFailOnWordRent | app/api/reminders.py:27-76 | With reminders on, one property whose rent is written as a word makes both the preview and the send a 500. |
| RemindersApi.DecemberFailures | app/api/reminders.py:30-91 | In December, with reminders on, eligible tenants and no due date in the request, both the preview and the send fail with 500. |
| RemindersApi.SendAllDelivered | app/api/reminders.py:118-141 | With no failing mail every result is `sent`, none failed, and `sent` is the total. |
| RemindersApi.DeliverAllSent | app/api/reminders.py:118-127 | The send loop with no failing mail sends every mail. |
| RemindersApi.CountField | app/api/reminders.py:178-180 | `int(value or 0)`: a falsy count is 0, and an integer count is kept. |
| RemindersApi.BuildLogEntry | app/api/reminders.py:175-184 | The entry keeps its log id. A missing owner becomes the configured one, and missing counts become 0. It fails exactly when a count cannot be read as an integer. |
| RemindersApi.Validate | app/api/reminders.py:189 | The response model accepts an entry only with a text owner, and keeps its id and counts. |
| RemindersApi.LogEntries | app/api/reminders.py:174-185 | One entry per stored log, in order, or a 500 exactly when some log's counts do not read as integers. |
| RemindersApi.OwnedEntries | app/api/reminders.py:186-187 | With an owner, exactly the entries of that owner; without one, all entries. |
| RemindersApi.SelectEntries | app/api/reminders.py:186-189 | A 500 exactly when the owned entries mix a text `createdAt` with a number. Otherwise exactly `min(max(1, min(50, limit)), owned)` entries of the requested owner, newest `createdAt` first. No owned entry left out is newer than one kept, and all of them are kept when they fit. |
| RemindersApi.History | app/api/reminders.py:163-189 | A non-dict snapshot gives an empty history. Otherwise the history exists exactly when every stored entry's counts read as integers, the owned entries' `createdAt` values can be compared, and every selected entry validates; it is then the validated page of `SelectEntries`, and any failure is a 500. |
| RemindersApi.HistoryFailsOnMixedStamps | app/api/reminders.py:188 | Without an owner filter, one log with a text `createdAt` and another with a non-zero number make the history a 500. |
| RemindersApi.ValidatePage | app/api/reminders.py:189 | Every entry of the page validates, or a 500; one item per entry, in order. |
| RemindersApi.HistoryPage | app/api/reminders.py:186-189 | A history holds at most `max(1, min(50, limit))` items, all of the requested owner. |
| RemindersApi.HistoryPrefix | app/api/reminders.py:188-189 | When a larger limit gives a history, a smaller one does too, and it is a prefix of it. |
| TenantsApi.OptionalValueText | app/api/tenants.py:21 | A stored optional text is truthy exactly when it is present and non-empty, and it then reads back as itself. |
| TenantsApi.SanitizedNote | app/api/tenants.py:23 | A missing or empty note is stored as `None`. Any other note is stored stripped. |
| TenantsApi.SanitizeTenantInput | app/api/tenants.py:13-26 | 400 exactly for a blank name. Otherwise the name is trimmed and non-empty, the email lower-cased, the phone and note trimmed, and the owner defaulted. The remaining fields are kept. |
| TenantsApi.SanitizeTenantInputIdempotent | app/api/tenants.py:13-26 | Sanitising a sanitised body again changes nothing, except for a note made only of blanks. |
| TenantsApi.SameSanitized | app/api/tenants.py:13-26 | Bodies whose fields sanitise alike give the same record. |
| TenantsApi.ResubmittedNote | app/api/tenants.py:23 | A stripped note that was not blank sanitises back to itself. |
| TenantsApi.BlankNoteNotIdempotent | app/api/tenants.py:23 | A note of a single blank is stored as "" the first time and as `None` the second, so the sanitiser is not idempotent there. |
| TenantsApi.SanitizeTenantPatch | app/api/tenants.py:29-38 | The filter touches only two fields. A sent `propertyId` is kept but a falsy one becomes `None`. A sent empty note is dropped. |
| TenantsApi.SanitizeTenantPatchIdempotent | app/api/tenants.py:29-38 | Filtering an already filtered patch changes nothing. |
| TenantsApi.MapTenantRecord | app/api/tenants.py:64-77 | The stored fields are copied. A falsy status becomes `pending`, a falsy owner the configured one, and falsy months 1. Truthy values are kept. |
| TenantsApi.StoredPropertyId | app/api/tenants.py:154-155 | The stored form of a record is never empty and holds its property id. |
| TenantsApi.MapTenantRecordIdempotent | app/api/tenants.py:64-77 | Mapping a mapped record again changes nothing. |
| TenantsApi.StoredReadsBack | app/api/tenants.py:64-77 | Every field of a stored record reads back as it was written. |
| TenantsApi.MapTenantSnapshot | app/api/tenants.py:41-61 | A non-dict snapshot gives no tenants. Otherwise there is one per record, in order, under its own id. |
| TenantsApi.SnapshotAgreesWithSingle | app/api/tenants.py:41-77 | The list mapper and the single-record mapper show a stored tenant the same way. |
| TenantsApi.ApplyTenantPatch | app/api/tenants.py:138 | Merging a patch never changes the owner, and an empty patch changes nothing. |
| TenantsApi.ApplyTenantPatchIsUnion | app/api/tenants.py:138 | The merge is the dict union `mapped | patch`: the stored form of the merged fields is the stored form of the mapped fields overridden by exactly the sent entries. |
| TenantsApi.MergeTenant | app/api/tenants.py:127-138 | The merged record keeps the mapped owner, takes a sent name, reads a falsy sent `propertyId` as `None`, keeps the stored note when an empty one is sent, and defaults falsy months to 1. |
| TenantsApi.ValidateTenantOut | app/models/tenant.py:6-46 | `TenantOut.model_validate`: succeeds exactly when every field has its declared type and the email validates, else a 500. The fields are kept, the email normalised, and the month count clamped into 1..12 by `validate_months`. |
| TenantsApi.ListTenants | app/api/tenants.py:84-91 | A non-dict snapshot gives an empty list. Otherwise a 500 exactly when some mapped tenant fails validation, and else one validated tenant per record, in order, under its own id. |
| TenantsApi.UpdateTenant | app/api/tenants.py:119-139 | 404 exactly when the record is missing. Otherwise the answer is the merged record validated as a `TenantOut`, and a 500 exactly when a merged field lacks its declared type. The id is the path's, the owner never changes, a sent name wins, a falsy sent `propertyId` reads `None`, and the month count is clamped into 1..12. |
| TenantsApi.UpdateAnswersClampedMonths | app/api/tenants.py:138-139 | A stored month count of 24 is answered as 12. |
| TenantsApi.UpdateFailsWithoutPhone | app/api/tenants.py:138-139 | A stored record without a phone, patched without one, fails with 500. |
| TenantsApi.ReminderReadsAsListed | app/services/reminder_service.py:75-88 | The reminder service and the tenant list read a stored tenant alike: the same name, phone, status, property, owner, note and entry date, and the same month count whenever the list validates it and it is not text. |
| TenantsApi.UpdateTenantProperties | app/api/tenants.py:127-138 | An empty patch only fills in the defaults. Merging a merged record with the same patch changes nothing. |
| TenantsApi.CreateTenant | app/api/tenants.py:94-116 | Fails exactly for a blank name. The stored record is the sanitised body. The tenant's property, when it names one, is the only property marked `occupied`. |
| TenantsApi.DeleteTenant | app/api/tenants.py:142-163 | At most one property write; the DELETE of the tenant is always issued. The stored record's property is marked `vacant` exactly when the record exists and names one. |
| TenantsApi.Released | app/api/tenants.py:155-163 | The same property writes, with every status `vacant`. |
| TenantsApi.CreateThenDelete | app/api/tenants.py:94-163 | Deleting a tenant just created frees exactly the property its creation occupied. A tenant created without a property frees none. |
| TenantsApi.DeleteStored | app/api/tenants.py:154-163 | Deleting a stored record frees its property exactly when it names one. |
| PropertiesApi.SanitizePropertyInput | app/api/properties.py:13-25 | 400 exactly when the name, address or type is blank. Otherwise those three are trimmed and non-empty and the owner is defaulted. The rest is kept. |
| PropertiesApi.SanitizePropertyInputIdempotent | app/api/properties.py:13-25 | Sanitising a sanitised body again changes nothing. |
| PropertiesApi.StripTwice | app/api/properties.py:14-20 | A field that passed the blank check passes it again once trimmed, and trimming again changes nothing. |
| PropertiesApi.MapPropertyRecord | app/api/properties.py:60-72 | The stored fields are copied. A falsy status becomes `vacant`. Falsy bedrooms, rent and charges become 0, and a falsy owner becomes the configured one. |
| PropertiesApi.MapPropertyRecordIdempotent | app/api/properties.py:60-72 | Mapping a mapped record again changes nothing. |
| PropertiesApi.CreatedPropertyReadsBack | app/api/properties.py:13-72 | A created property reads back as stored when its bedrooms, rent and charges are truthy. Otherwise the mapper's 0 defaults replace them. |
| PropertiesApi.StoredReadsBack | app/api/properties.py:60-72 | A record whose defaulted fields are all truthy reads back unchanged. |
| PropertiesApi.MapPropertySnapshot | app/api/properties.py:35-54 | A non-dict snapshot gives no properties. Otherwise there is one per record, in order, under its own id. |
| PropertiesApi.PropertySnapshotAgreesWithSingle | app/api/properties.py:35-72 | The list mapper and the single-record mapper show a stored property the same way. |
| PropertiesApi.SanitizePropertyPatch | app/api/properties.py:28-32 | The filter returns the patch unchanged: the fields it pops are never in the dumped patch. |
| PropertiesApi.ApplyPropertyPatch | app/api/properties.py:112 | Merging a patch never changes the owner, and an empty patch changes nothing. |
| PropertiesApi.ApplyPropertyPatchIsUnion | app/api/properties.py:112 | The merge is the dict union `mapped | patch`: the stored form of the merged fields is the stored form of the mapped fields overridden by exactly the sent entries. |
| PropertiesApi.MergeProperty | app/api/properties.py:103-112 | The merged record keeps the mapped owner, takes a sent name, and reads a missing status as `vacant`. |
| PropertiesApi.ValidatePropertyOut | app/models/property.py:6-32 | `PropertyOut.model_validate`: succeeds exactly when every field has its declared type, bedrooms read as an integer and rent and charges as numbers, else a 500. The text fields are kept. |
| PropertiesApi.ListProperties | app/api/properties.py:75-79 | A non-dict snapshot gives an empty list. Otherwise a 500 exactly when some mapped property fails validation, and else one validated property per record, in order, under its own id. |
| PropertiesApi.UpdateProperty | app/api/properties.py:95-113 | 404 exactly when the record is missing. Otherwise the answer is the merged record validated as a `PropertyOut`, and a 500 exactly when a merged field lacks its declared type. The id is the path's, the owner never changes, a sent name wins, and missing status and bedrooms read `vacant` and 0. |
| PropertiesApi.UpdateFailsWithoutAddress | app/api/properties.py:112-113 | A stored record without an address, patched without one, fails with 500. |
| PropertiesApi.ReminderReadsAsListed | app/services/reminder_service.py:93-104 | The reminder service and the property list read a stored property alike: the same name, address, status, type and owner, and the same bedrooms whenever the list validates them and no number is text. |
| PropertiesApi.UpdatePropertyProperties | app/api/properties.py:103-112 | An empty patch only fills in the defaults. Merging a merged record with the same patch changes nothing. |
| PaymentsApi.CheckoutMonths | app/api/payments.py:38 | The checkout's month count lies in 1..12 and keeps an in-range count. |
| PaymentsApi.CheckoutFieldsAt | app/api/payments.py:39-50 | The metadata fields carry the lower-cased email and the clamped month count. |
| PaymentsApi.CreateCheckout | app/api/payments.py:23-77 | 500 without Stripe. 400 exactly for an amount outside `(0, 655 959 993]`. Otherwise the session uses the configured currency and the lower-cased email. Its metadata is the filtered fields. The success and cancel pages default to the client origin. |
| PaymentsApi.CheckoutMonthsInMetadata | app/api/payments.py:38-50 | The clamped month count always reaches the metadata and reads back as that number. |
| PaymentsApi.CheckoutEmailInMetadata | app/api/payments.py:42 | A trimmed non-empty lower-cased address reaches the metadata as it is. |
| PaymentsApi.FirstCharge | app/api/payments.py:96-97 | An expanded intent whose charge list is empty raises, giving a 500. Any charge found is the first of the list. |
| PaymentsApi.HistoryItemOf | app/api/payments.py:96-122 | Fails with 500 exactly when the charge list is empty or a set `paymentMonths` is not an integer. The item keeps the session id, creation time, owner and tenant, and reads the month count back. `paidAt` is set exactly for a paid session whose first charge has a creation time, and is that time. The receipt is the charge's. The email falls back to the customer's, and the currency to `xof`. |
| PaymentsApi.PaymentHistory | app/api/payments.py:80-124 | 500 without Stripe. The page exists exactly when every matching session converts. It then holds `min(limit, matches)` items, in Stripe's order, each from a session that passes the filters. |
| PaymentsApi.HistoryUnfiltered | app/api/payments.py:87-124 | With no filter, the page is the first sessions Stripe listed, in order. |
| PaymentsApi.EmptyChargeListFails | app/api/payments.py:97 | One listed session with an empty charge list fails the whole history with a 500. |
| PaymentsApi.CheckoutThenHistory | app/api/payments.py:38-118 | A session created with a checkout's metadata is listed in the history with the checkout's clamped month count. |
| PaymentsApi.StripeWebhook | app/api/payments.py:127-248 | 500 without Stripe or a webhook secret. 400 without a signature or with an invalid one. Once those guards pass, it fails exactly for a completed checkout with an address whose stored month count is present but not a number, and that failure is a 500. Otherwise a receipt is sent exactly for a completed checkout with an address, to that address. Its month count is the metadata's, or 1. |
| PaymentsApi.CheckoutThenWebhook | app/api/payments.py:38-162 | The metadata of a checkout, once the checkout completes, sends the receipt to the checkout's lower-cased address with the clamped month count. |
| PaymentsApi.WebhookReadsMetadata | app/api/payments.py:143-162 | A completed checkout whose metadata names an address and a month count sends the receipt there, with that count. |
| PaymentService.BuildMetadata | app/services/payment_service.py:12-13 | The keys are exactly the fields that are set and not blank. Each value is its trimmed text, so no value is empty or has blanks at either end. |
| PaymentService.MetadataText | app/services/payment_service.py:12-13 | A set, trimmed, non-empty text field is kept as it is. |
| PaymentService.MetadataNumber | app/services/payment_service.py:12-13 | A number field is kept as its decimal text, which reads back as the number. |
| PaymentService.NumberKept | app/services/payment_service.py:13 | The text of a number is trimmed, not empty, and reads back as the number. |
| PaymentService.BuildMetadataIdempotent | app/services/payment_service.py:12-13 | Filtering the metadata again changes nothing. |
| PaymentService.CleanMetadataFixed | app/services/payment_service.py:12-13 | Metadata whose values are all trimmed and non-empty passes the filter unchanged. |
| Models.ValidateMonths | app/models/tenant.py:17-20 | Any count is clamped into 1..12, and an in-range count is kept. |
| Models.ValidateOptionalMonths | app/models/tenant.py:37-42 | An unset count stays unset. A set count is clamped. |
| Models.CapLimit | app/models/payment.py:31-34 | Any page size is clamped into 1..50, and an in-range size is kept. |
| Models.ClampsIdempotentMonotone | app/models/payment.py:19-34 | Both clamps are idempotent and keep the order of their inputs. |
| Models.LaxInt | app/models/tenant.py:15 | Pydantic's lax `int`: integers are kept, booleans read as 0 and 1, `None` is refused, and text goes to the text parser. |
| Models.LaxFloat | app/models/property.py:12-13 | Pydantic's lax `float`: numbers and booleans are accepted, `None` is refused, and text goes to the text parser. |
| Models.OptionalText | app/models/tenant.py:11-13 | An `Optional[str]` field accepts exactly `None` and text, and keeps it; anything else is a 500. |
| AuthApi.Register | app/api/auth.py:12-30 | 409 when the address is taken, compared case-insensitively, checked first. 400 for a password shorter than 8. Otherwise the stored list gains exactly one user at its end, with a lower-cased email, the `user` role and the hash of the password. |
| AuthApi.FirstWithEmail | app/api/auth.py:36 | `next(...)`: the index of the first stored user with the address, compared case-insensitively, or none. |
| AuthApi.Login | app/api/auth.py:33-44 | 401 unless the first user with the address has a hash that the password verifies against. It then returns that user and the user's claims. |
| AuthApi.ClaimsOf | app/api/auth.py:29 | The token's claims are the user's id, email and role. |
| AuthApi.Me | app/api/auth.py:47-49 | `me` answers the token's `sub`, `email` and `role`. |
| AuthApi.MeEchoesClaims | app/api/auth.py:29-49 | `me` gives back the claims a token was issued with. |
| AuthApi.RegisterThenLogin | app/api/auth.py:12-44 | A user just registered logs in with the same password and gets the same claims. |
| AuthApi.LoginStopsAtFirstMatch | app/api/auth.py:36-42 | Worked example: Two accounts share an address and only the second verifies the password. `login` refuses it and `authenticate` accepts it. |
| Users.AddDefaultAdmin | app/models/user.py:57-75 | Nothing changes when a user has the admin address. Otherwise exactly one administrator is appended. Either way an admin exists afterwards. |
| Users.AddDefaultAdminIdempotent | app/models/user.py:57-75 | Running it a second time adds no second administrator. |
| Users.Authenticate | app/models/user.py:78-83 | A user whose address matches case-insensitively and whose hash the password verifies, or none exactly when no stored user qualifies. |
| Users.AuthenticateFirst | app/models/user.py:80-82 | The user found is the first that qualifies. |
| Settings.SplitCsv | app/core/settings.py:8-11 | `None` or "" gives `[]`. Every item is non-empty, trimmed and free of commas. |
| Settings.SplitCsvJoin | app/core/settings.py:8-11 | A non-empty list of non-empty, trimmed, comma-free items, joined by commas, reads back as itself. |
| Settings.FillOrigins | app/core/settings.py:44-50 | A configured list is kept. Otherwise the origins come from the client origin or its default. |
| Settings.FillOriginsDefault | app/core/settings.py:20-50 | With nothing configured, the one allowed origin is `http://localhost:3000`. |
| Settings.NormalizeBool | app/core/settings.py:52-64 | `None` and booleans pass through. Other values are true or false exactly for the listed words, after trimming and lower-casing. |
| Settings.WordsDisjoint | app/core/settings.py:60-63 | No word is read both ways. |
| Settings.NormalizeBoolCanonical | app/core/settings.py:59 | Text normalises like its trimmed lower-cased form. |
| Settings.NormalizeBoolByWord | app/core/settings.py:59 | Two texts with the same trimmed lower-cased form normalise alike. |
| Settings.ReminderActive | app/core/settings.py:66-74 | The explicit flag when it is set. Otherwise whether an SMTP host is set. |
| Mailer.SendMail | app/core/email_utils.py:14-48 | 503 without SMTP. 400 exactly for an empty collection. The sender falls back through `mail_from`, `smtp_user` and `no-reply@locatus.local`. The Reply-To falls back to the configured one. Without HTML the escaped text is used. TLS is the explicit flag or port 465, STARTTLS is its negation, and login needs a user and a password. |
| Mailer.RecipientList | app/core/email_utils.py:25 | A single address becomes a list of one, and a collection keeps its addresses. |
| Mailer.AddressesReadBack | app/core/email_utils.py:30 | The `To` header, cut at its commas, gives the addresses back, each after the first with its leading space. |
| Mailer.EmptyAddressAccepted | app/core/email_utils.py:25-27 | A single empty address is accepted, and only an empty collection is refused. |
| Firebase.BuildFirebaseUrl | app/core/firebase.py:9-17 | 500 exactly without a database URL. The URL starts with the path. The secret, when set, follows as `auth=` after `?`, or after `&` when the path has a `?`. |
| Firebase.SecretIsTheQuery | app/core/firebase.py:12-16 | Cutting the URL at `?` gives back the path and `auth=<secret>`. |
| Firebase.SecretUrlShape | app/core/firebase.py:15-16 | Without a `?` in the path, the secret follows a `?`. |
| Firebase.RecordPathSegments | app/core/firebase.py:12-13 | After the base, a record path splits at `/` into the resource and the record id with `.json`. |
| Firebase.Classify | app/core/firebase.py:30-38 | 502 exactly for a status of 400 or more. No data for 204 or an empty body. Otherwise the parsed body, with the status code kept. |
| Firebase.ClassifyReadsBack | app/core/firebase.py:30-38 | A success response carrying a value's JSON reads back as that value with its status code, and any status of 400 or more is a 502. |

Notes on behaviour the model makes explicit:

- **The sweep never writes `late`.**
  - Its next due date is the first step of the cycle that is not before today, so the `late` branch (`app/services/late_payment_service.py:82`) can never be taken.
  - The sweep only ever moves `late` tenants back to `active` (`LatePaymentService.DecideCharacterised`).
  - A reading of the service's purpose as "mark overdue tenants late" disagrees. The model follows the code.
- **The two copies of the entry-date reader differ on one input.**
  - The sweep reads `+5/03/2024` as 5 March 2024, because `int()` accepts a sign.
  - The reminder service reorders it into `2024-03-+5`, which it then rejects.
  - They agree on every other shape (`ReminderService.CopiesDisagreeOnSignedDay` and the `CopiesAgreeOn…` lemmas).
- **Only a collection of addresses is checked for emptiness.** `send_mail` refuses an empty collection but accepts a single empty address (`Mailer.EmptyAddressAccepted`).
- **A blank note is not stable under resubmission.** A tenant note of blanks only is stored as "" and becomes `None` when the record is submitted again (`TenantsApi.BlankNoteNotIdempotent`).
- **One bad session fails the whole history.** An expanded payment intent with an empty charge list makes the payment history fail with a 500 (`PaymentsApi.EmptyChargeListFails`).
- **Login and `authenticate` differ on shared addresses.**
  - `login` checks the password of the first account with the address only.
  - `authenticate` looks for the first account that verifies.
  - `AuthApi.LoginStopsAtFirstMatch` shows two accounts on which they differ.
- **`sent` can exceed the `sent` results.** In the message batch send, `sent` counts mails the mailer accepted, while a result is only marked `sent` after its log write returns (`MessagesApi.SentAtLeastSentResults`).

## Left out

- Money: rent times cycle, `format_currency`, `compute_unit_amount`, `amount_total / 100` and the checkout's `float` amount are floating point and are not modelled. The checkout amount bound is checked on `real`.
- Unicode case mapping: `lower()` maps ASCII letters only, and `\w` is the ASCII word class. `strip()` and `\s` use Python's white-space set.
- Years beyond 9999: date arithmetic is unbounded in the model. The `ValueError` that `date(year, month, day)` in `add_months_safe` raises past year 9999 is modelled only for the date the upcoming preview finally uses (`RemindersApi.DueOrDefault`), not at each step of the loop.
- Timestamps: `datetime.utcnow().isoformat()`, `utcfromtimestamp` and `strftime` of times are not modelled. The creation time and "now" are inputs. A stored `createdAt` or `sentAt` is sorted as Python sorts the value itself: text, or a number, whose mix raises.
- Sort stability: the sorts are modelled by their ordering and permutation contracts. Ties between equal keys are not pinned to Python's stable order.
- Ids: `uuid4()` and the id the database returns on insert are inputs.
- External services: the HTTP calls to Firebase, the SMTP session, the Stripe SDK calls, JWT encoding and decoding, bcrypt, and reading and writing the users JSON file are not modelled. Their outcomes are parameters.
- HTML markup: the fixed markup around the mails is not modelled. Only the parts that depend on the inputs are: the escaped body, the greeting, the button link and the subject. The reminder mail's text part is modelled in full, with its amount-due line and app URL.
- Scheduling: APScheduler, the event loop and `async` are not modelled. A scheduled job that raises is logged and swallowed by the scheduler, and that is not modelled either.
- Response models: the list and update endpoints' `TenantOut`, `PropertyOut` and `ReminderHistoryItem` validation is modelled. The create endpoints validate the sanitised body, whose fields already have their declared types, and that validation is not modelled. Pydantic's text-to-number parsers and `email-validator` are parameters (`Models.Coercions`).
- Text.PyInt: digits are ASCII only, whereas Python's `int()` and `float()` also accept other Unicode decimal digits; the float text recognizer is limited the same way.
- Snapshot: every stored child of a collection is taken to be a JSON object, or a falsy value that `raw or {}` reads as `{}`. A truthy scalar child (a non-empty string stored under `messages/<id>`, say) makes the source raise a 500, because `{**value}` (app/api/messages.py:94) and `record.get(...)` in the mappers fail on it. That child cannot be represented, so those 500s are not modelled.
- Floats: `Value` has no float variant, so a float stored in the database is not represented, and `PropertyOut` does not carry rent and charges.
- Partial batches: in both send loops, the mails sent before a later recipient's render fails stay sent, while the response is a 500. The model gives the 500 and not the mails already sent.
- `delete_property` issues one DELETE and decides nothing, so it is not modelled.
- Parsing: the general `datetime.fromisoformat` reader, used for text that has neither fixed shape, is a parameter. Only the `YYYY-MM-DD` shape is parsed in the model.
- Set recipients: a `set` of recipients passed to `send_mail` is modelled as a list in one iteration order.
- Declarations only: `app/models/reminder.py` holds only request and response declarations, used here as the datatypes of the endpoints.
- `app/api/payments_backup.py` is an unused copy of the payment endpoints and is not part of this model.
- Exceptions in the monthly job: when `send_mail` raises for one tenant, the job stops. The model reports the ids mailed before the failure and that the loop did not complete, not the exception itself. A store read that raises is reported the same way, with nobody mailed.
- The `isinstance(next_due, str)` test of the summary is always true on the modelled values, so its `else` branch is not modelled.

## Findings

| source | as written | input that shows it | evidently intended | confidence | as-written member | corrected member |
|---|---|---|---|---|---|---|
| app/api/reminders.py:30 | `date(today.year, today.month + 1, 1) - date.resolution` builds month 13 in December and raises `ValueError`. Both the upcoming preview and a send without a due date fail every December, and the model keeps that behaviour. | any `today` in December, e.g. 2024-12-10 | the last day of today's month, with a year carry, as the scheduler computes it | not executed | RemindersApi.DecemberFailures | RemindersApi.DefaultDueAgrees |
| app/api/messages.py:24 | `r"https?://\\S+"` in a raw string matches a scheme followed by a literal backslash and capital `S`s, so ordinary links are never removed from the body. The model's send loop uses the pattern as written. | body `Payez ici https://locatus.app/pay` | `https?://\S+`, the pattern the send loop uses at line 147 to find the same link | not executed | MessagesApi.ComposeKeepsLink | MessagesApi.LinkRemovedAfterGreeting |

=== FILE: auth_api.dfy ===
/** The authentication endpoints (`app/api/auth.py`): registration, login
    and the `me` echo, over the list of stored users. Hashing, password
    verification and the new user's id are parameters; the token itself
    is represented by the claims it carries. */
module AuthApi {
  import opened Wrappers
  import opened Text
  import opened Values
  import opened Users

  /** The claims put in an access token (its expiry aside). */
  datatype Claims = Claims(sub: string, email: string, role: string)

  function ClaimsOf(u: User): (c: Claims)
    ensures c.sub == u.id && c.email == u.email && c.role == u.role
  {
    Claims(u.id, u.email, u.role)
  }

  const MinPasswordLength: int := 8

  /** `register`: 409 when the address is taken, in any case (checked
      first); 400 for a password shorter than 8; otherwise the list with
      one new user appended, and the claims of that user. */
  function Register(users: seq<User>, name: string, email: string, password: string,
                    newId: string, hash: string -> string): (r: Result<(seq<User>, Claims)>)
    ensures HasEmail(users, email) ==> r == Fail(Conflict)
    ensures !HasEmail(users, email) && |password| < MinPasswordLength ==> r == Fail(BadRequest)
    ensures r.Ok? <==> !HasEmail(users, email) && |password| >= MinPasswordLength
    ensures r.Ok? ==> |r.value.0| == |users| + 1 && r.value.0[..|users|] == users
    ensures r.Ok? ==> var u := r.value.0[|users|];
      u.id == newId && u.name == name && u.email == Lower(email) && u.role == "user"
      && u.passwordHash == hash(password) && r.value.1 == ClaimsOf(u)
  {
    if exists i :: 0 <= i < |users| && Lower(users[i].email) == Lower(email) then Fail(Conflict)
    else if |password| < MinPasswordLength then Fail(BadRequest)
    else
      var u := User(newId, name, Lower(email), hash(password), "user", None, None);
      var r := users + [u];
      assert r[..|users|] == users;
      Ok((r, ClaimsOf(u)))
  }

  /** The first stored user with the address, compared lower-cased. */
  function FirstWithEmail(users: seq<User>, email: string): (r: Option<nat>)
    ensures r.None? <==> !HasEmail(users, email)
    ensures r.Some? ==> r.value < |users| && SameIgnoringCase(users[r.value].email, email)
    ensures r.Some? ==> forall k :: 0 <= k < r.value ==> !SameIgnoringCase(users[k].email, email)
  {
    if |users| == 0 then None
    else if SameIgnoringCase(users[0].email, email) then Some(0)
    else
      var rest := FirstWithEmail(users[1..], email);
      assert forall k :: 1 <= k < |users| ==> users[k] == users[1..][k - 1];
      if rest.None? then None else Some(rest.value + 1)
  }

  /** `login`: 401, with the same message, when no user has the address,
      when the first one has no hash, or when the password does not verify
      against that first one; otherwise that user and its claims. */
  function Login(users: seq<User>, email: string, password: string, verify: (string, string) -> bool): (r: Result<(User, Claims)>)
    ensures r.Fail? ==> r.status == Unauthorized
    ensures r.Ok? <==> var i := FirstWithEmail(users, email);
      i.Some? && users[i.value].passwordHash != "" && verify(password, users[i.value].passwordHash)
    ensures r.Ok? ==> r.value.0 == users[FirstWithEmail(users, email).value] && r.value.1 == ClaimsOf(r.value.0)
  {
    var i := FirstWithEmail(users, email);
    if i.None? || users[i.value].passwordHash == "" then Fail(Unauthorized)
    else if !verify(password, users[i.value].passwordHash) then Fail(Unauthorized)
    else Ok((users[i.value], ClaimsOf(users[i.value])))
  }

  /** The token payload as the `me` endpoint decodes it. */
  function ClaimsRecord(c: Claims): Record {
    map["sub" := Str(c.sub), "email" := Str(c.email), "role" := Str(c.role)]
  }

  /** `me`: the `sub`, `email` and `role` of the token, each `None` when
      missing. */
  function Me(payload: Record): (r: (Value, Value, Value))
    ensures r.0 == Get(payload, "sub") && r.1 == Get(payload, "email") && r.2 == Get(payload, "role")
  {
    (Get(payload, "sub"), Get(payload, "email"), Get(payload, "role"))
  }

  /** `me` gives back the claims a token was issued with. */
  lemma MeEchoesClaims(c: Claims)
    ensures Me(ClaimsRecord(c)) == (Str(c.sub), Str(c.email), Str(c.role))
  {
    assert "sub" in ClaimsRecord(c) && "email" in ClaimsRecord(c) && "role" in ClaimsRecord(c);
  }

  /** A user just registered can log in with the same password, provided
      the hash verifies against it and is not empty. */
  lemma RegisterThenLogin(users: seq<User>, name: string, email: string, password: string,
                          newId: string, hash: string -> string, verify: (string, string) -> bool)
    requires Register(users, name, email, password, newId, hash).Ok?
    requires verify(password, hash(password)) && hash(password) != ""
    ensures var (after, claims) := Register(users, name, email, password, newId, hash).value;
      Login(after, email, password, verify).Ok? && Login(after, email, password, verify).value.1 == claims
  {
    var after := Register(users, name, email, password, newId, hash).value.0;
    LowerIdempotent(email);
    assert SameIgnoringCase(after[|users|].email, email);
  }

  /** Login stops at the first user with the address: with two accounts
      sharing an address, a password that only the second verifies is
      refused by `login` and accepted by `authenticate`. */
  lemma LoginStopsAtFirstMatch(verify: (string, string) -> bool)
    requires !verify("pw", "h1") && verify("pw", "h2")
    ensures var users := [User("1", "A", "a@x.fr", "h1", "user", None, None),
                          User("2", "B", "a@x.fr", "h2", "user", None, None)];
      Login(users, "a@x.fr", "pw", verify).Fail? && Authenticate(users, "a@x.fr", "pw", verify).Some?
  {
    var users := [User("1", "A", "a@x.fr", "h1", "user", None, None),
                  User("2", "B", "a@x.fr", "h2", "user", None, None)];
    assert SameIgnoringCase(users[1].email, "a@x.fr");
  }
}

=== FILE: calendar.dfy ===
/** Gregorian calendar dates and the month-safe date arithmetic of the billing
    core (`add_months_safe`, `date - timedelta(days=k)`).

    Years are unbounded integers here: Python's `date` refuses years outside
    1..9999, which `InRange` captures for dates the service parses. */
module Calendar {
  import opened Wrappers

  datatype Date = Date(year: int, month: int, day: int)

  const MinYear: int := 1
  const MaxYear: int := 9999

  /** Divisible by 4, and not by 100 unless by 400. */
  predicate IsLeap(year: int) {
    year % 4 == 0 && (year % 100 != 0 || year % 400 == 0)
  }

  /** The month-length table of `add_months_safe`. */
  function DaysInMonth(year: int, month: int): (n: int)
    requires 1 <= month <= 12
    ensures 28 <= n <= 31
    ensures month == 2 ==> (n == 29 <==> IsLeap(year))
  {
    if month == 2 then (if IsLeap(year) then 29 else 28)
    else if month == 4 || month == 6 || month == 9 || month == 11 then 30
    else 31
  }

  /** A real calendar day (of any year). */
  predicate WellFormed(d: Date) {
    1 <= d.month <= 12 && 1 <= d.day <= DaysInMonth(d.year, d.month)
  }

  /** A value Python's `date` accepts. */
  predicate InRange(d: Date) {
    WellFormed(d) && MinYear <= d.year <= MaxYear
  }

  type PyDate = d: Date | InRange(d) witness Date(1, 1, 1)

  /** Python's `date(year, month, day)`; `None` is the `ValueError` it raises. */
  function MakeDate(year: int, month: int, day: int): (r: Option<PyDate>)
    ensures r.Some? <==> InRange(Date(year, month, day))
    ensures r.Some? ==> r.value == Date(year, month, day)
  {
    if InRange(Date(year, month, day)) then Some(Date(year, month, day)) else None
  }

  /** `a < b` on Python dates: year, then month, then day. */
  predicate Before(a: Date, b: Date) {
    a.year < b.year || (a.year == b.year && (a.month < b.month || (a.month == b.month && a.day < b.day)))
  }

  lemma BeforeIrreflexive(a: Date)
    ensures !Before(a, a)
  {
  }

  lemma BeforeTransitive(a: Date, b: Date, c: Date)
    requires Before(a, b) && Before(b, c)
    ensures Before(a, c)
  {
  }

  lemma BeforeTotal(a: Date, b: Date)
    ensures Before(a, b) || a == b || Before(b, a)
  {
  }

  /** Months elapsed since January of year 0. */
  function MonthIndex(d: Date): int {
    d.year * 12 + d.month - 1
  }

  /** The month index orders dates by month. */
  lemma MonthIndexOrder(a: Date, b: Date)
    requires 1 <= a.month <= 12 && 1 <= b.month <= 12
    ensures MonthIndex(a) < MonthIndex(b) ==> Before(a, b)
    ensures Before(a, b) ==> MonthIndex(a) <= MonthIndex(b)
    ensures MonthIndex(a) == MonthIndex(b) <==> a.year == b.year && a.month == b.month
  {
    if a.year < b.year {
      assert a.year * 12 + 12 <= b.year * 12;
    } else if a.year > b.year {
      assert b.year * 12 + 12 <= a.year * 12;
    }
  }

  /** `add_months_safe(dt, months)`: the month index moves by exactly
      `months` (year carry included, for any `months`), and the day is kept
      when the target month has it and clamped to its last day otherwise. */
  function AddMonthsSafe(d: Date, months: int): (r: Date)
    ensures 1 <= r.month <= 12
    ensures MonthIndex(r) == MonthIndex(d) + months
    ensures d.day <= DaysInMonth(r.year, r.month) ==> r.day == d.day
    ensures d.day > DaysInMonth(r.year, r.month) ==> r.day == DaysInMonth(r.year, r.month)
    ensures d.day >= 1 ==> WellFormed(r)
  {
    var m := d.month - 1 + months;
    var year := d.year + m / 12;
    var month := m % 12 + 1;
    Date(year, month, Min(d.day, DaysInMonth(year, month)))
  }

  /** January 31 lands on the last day of February, leap years included,
      and December rolls over into January of the next year. */
  lemma AddMonthsSafeExamples()
    ensures AddMonthsSafe(Date(2024, 1, 31), 1) == Date(2024, 2, 29)
    ensures AddMonthsSafe(Date(2023, 1, 31), 1) == Date(2023, 2, 28)
    ensures AddMonthsSafe(Date(2024, 12, 15), 1) == Date(2025, 1, 15)
    ensures AddMonthsSafe(Date(1900, 1, 31), 1) == Date(1900, 2, 28)
    ensures AddMonthsSafe(Date(2000, 1, 31), 1) == Date(2000, 2, 29)
    ensures AddMonthsSafe(Date(2024, 3, 31), 25) == Date(2026, 4, 30)
  {
  }

  /** Adding at least one month always moves strictly forward. */
  lemma AddMonthsSafeAdvances(d: Date, months: int)
    requires 1 <= d.month <= 12 && months >= 1
    ensures Before(d, AddMonthsSafe(d, months))
  {
    MonthIndexOrder(d, AddMonthsSafe(d, months));
  }

  /** `k` successive additions of `months`, as the due-date loop performs them. */
  function Iterate(d: Date, months: int, k: nat): Date
    decreases k
  {
    if k == 0 then d else Iterate(AddMonthsSafe(d, months), months, k - 1)
  }

  /** One more step is one more addition at the end. */
  lemma {:induction false} IterateLast(d: Date, months: int, k: nat)
    ensures Iterate(d, months, k + 1) == AddMonthsSafe(Iterate(d, months, k), months)
    decreases k
  {
    if k > 0 {
      IterateLast(AddMonthsSafe(d, months), months, k - 1);
    }
  }

  /** Iterating moves the month index by `months` per step, and the day can
      only shrink: clamping sticks once it has happened. */
  lemma {:induction false} IterateMonthsAndDay(d: Date, months: int, k: nat)
    ensures MonthIndex(Iterate(d, months, k)) == MonthIndex(d) + months * k
    ensures Iterate(d, months, k).day <= d.day
    ensures k >= 1 ==> 1 <= Iterate(d, months, k).month <= 12
  {
    if k > 0 {
      var prev := Iterate(d, months, k - 1);
      IterateMonthsAndDay(d, months, k - 1);
      IterateLast(d, months, k - 1);
      AddMonthsStep(prev, months);
      MulStep(months, k);
    }
  }

  /** One addition as the iteration sees it: the index moves by `months`
      and the day does not grow. */
  lemma AddMonthsStep(x: Date, months: int)
    ensures MonthIndex(AddMonthsSafe(x, months)) == MonthIndex(x) + months
    ensures AddMonthsSafe(x, months).day <= x.day
    ensures 1 <= AddMonthsSafe(x, months).month <= 12
  {
  }

  lemma MulStep(a: int, k: nat)
    requires k >= 1
    ensures a * k == a * (k - 1) + a
  {
  }

  /** Iterating is the same as one big addition as long as the day fits in
      every month (days up to the 28th). */
  lemma {:induction false} IterateWithoutClamping(d: Date, months: int, k: nat)
    requires WellFormed(d) && d.day <= 28
    ensures Iterate(d, months, k) == AddMonthsSafe(d, months * k)
  {
    if k == 0 {
      MonthIndexOrder(d, AddMonthsSafe(d, 0));
    } else {
      IterateWithoutClamping(d, months, k - 1);
      IterateLast(d, months, k - 1);
      var a := Iterate(d, months, k);
      var b := AddMonthsSafe(d, months * k);
      MulStep(months, k);
      MonthIndexOrder(a, b);
    }
  }

  /** Clamping sticks: January 31 stepped month by month reaches March 28,
      while adding two months at once reaches March 31. */
  lemma StickyClampExample()
    ensures Iterate(Date(2023, 1, 31), 1, 2) == Date(2023, 3, 28)
    ensures AddMonthsSafe(Date(2023, 1, 31), 2) == Date(2023, 3, 31)
  {
    assert AddMonthsSafe(Date(2023, 1, 31), 1) == Date(2023, 2, 28);
    assert Iterate(Date(2023, 2, 28), 1, 1) == AddMonthsSafe(Date(2023, 2, 28), 1) == Date(2023, 3, 28);
  }

  // ---- whole days ----

  /** `d + timedelta(days=1)`. */
  function NextDay(d: Date): (r: Date)
    requires WellFormed(d)
    ensures WellFormed(r) && Before(d, r)
  {
    if d.day < DaysInMonth(d.year, d.month) then Date(d.year, d.month, d.day + 1)
    else if d.month < 12 then Date(d.year, d.month + 1, 1)
    else Date(d.year + 1, 1, 1)
  }

  /** `d - timedelta(days=1)` (`d - date.resolution`). */
  function PrevDay(d: Date): (r: Date)
    requires WellFormed(d)
    ensures WellFormed(r) && Before(r, d)
  {
    if d.day > 1 then Date(d.year, d.month, d.day - 1)
    else if d.month > 1 then Date(d.year, d.month - 1, DaysInMonth(d.year, d.month - 1))
    else Date(d.year - 1, 12, 31)
  }

  lemma NextPrevRoundTrip(d: Date)
    requires WellFormed(d)
    ensures NextDay(PrevDay(d)) == d
    ensures PrevDay(NextDay(d)) == d
  {
  }

  /** `d - timedelta(days=k)`. */
  function MinusDays(d: Date, k: nat): (r: Date)
    requires WellFormed(d)
    decreases k
    ensures WellFormed(r)
    ensures k > 0 ==> Before(r, d)
  {
    if k == 0 then d
    else
      var r := MinusDays(PrevDay(d), k - 1);
      assert k - 1 > 0 ==> Before(r, PrevDay(d));
      r
  }

  /** `d + timedelta(days=k)`. */
  function PlusDays(d: Date, k: nat): (r: Date)
    requires WellFormed(d)
    ensures WellFormed(r)
  {
    if k == 0 then d else NextDay(PlusDays(d, k - 1))
  }

  /** Going back `k` days and then forward `k` days returns to the start. */
  lemma {:induction false} MinusPlusRoundTrip(d: Date, k: nat)
    requires WellFormed(d)
    ensures PlusDays(MinusDays(d, k), k) == d
    decreases k
  {
    if k > 0 {
      MinusPlusRoundTrip(PrevDay(d), k - 1);
      NextPrevRoundTrip(d);
    }
  }

  /** Within a month, going back `k` days just lowers the day number. */
  lemma {:induction false} MinusDaysSameMonth(d: Date, k: nat)
    requires WellFormed(d) && k < d.day
    ensures MinusDays(d, k) == Date(d.year, d.month, d.day - k)
    decreases k
  {
    if k > 0 {
      MinusDaysSameMonth(PrevDay(d), k - 1);
    }
  }

  /** Going back at most 28 days stays in the year unless it crosses the
      first of January, and then lands in the year before. */
  lemma {:induction false} MinusDaysYear(d: Date, k: nat)
    requires WellFormed(d) && k <= 28
    ensures d.month > 1 || d.day > k ==> MinusDays(d, k).year == d.year
    ensures d.month == 1 && d.day <= k ==> MinusDays(d, k).year == d.year - 1
    decreases k
  {
    if k > 0 {
      var p := PrevDay(d);
      if d.day > 1 {
        MinusDaysYear(p, k - 1);
      } else {
        MinusDaysSameMonth(p, k - 1);
      }
    }
  }

  /** `d - timedelta(days=7)` is a Python date exactly when `d` is after
      the seventh of January of year 1. */
  lemma MinusWeekInRange(d: PyDate)
    ensures InRange(MinusDays(d, 7)) <==> Before(Date(MinYear, 1, 7), d)
  {
    MinusDaysYear(d, 7);
  }

  /** `date(y', m', 1) - date.resolution` with `m' = m % 12 + 1` and the year
      carried in December: the last day of `d`'s month. */
  function LastDayOfMonth(d: Date): (r: Date)
    requires WellFormed(d)
    ensures WellFormed(r)
    ensures r.year == d.year && r.month == d.month
    ensures r.day == DaysInMonth(d.year, d.month)
    ensures NextDay(r).day == 1
    ensures !Before(r, d)
  {
    var nextMonth := d.month % 12 + 1;
    var year := d.year + (if d.month == 12 then 1 else 0);
    PrevDay(Date(year, nextMonth, 1))
  }
}

=== FILE: due_dates.dfy ===
/** The next-payment-due computation shared by the late-status sweep and the
    reminder mailer: step the entry date forward by whole billing cycles with
    `add_months_safe` until it is no longer before today. */
module DueDates {
  import opened Calendar

  /** The loop `while due < today: due = add_months_safe(due, cycle)`.
      Each step moves the month index forward by `cycle >= 1`, so the number
      of months left before today's month shrinks. */
  function Advance(due: Date, cycle: int, today: Date): (r: Date)
    requires cycle >= 1 && 1 <= due.month <= 12 && 1 <= today.month <= 12
    ensures 1 <= r.month <= 12
    ensures !Before(r, today)
    ensures r == due || Before(due, r)
    ensures !Before(due, today) ==> r == due
    ensures WellFormed(due) ==> WellFormed(r)
    decreases MonthIndex(today) - MonthIndex(due) + 1
  {
    if Before(due, today) then
      MonthIndexOrder(due, today);
      AddMonthsSafeAdvances(due, cycle);
      Advance(AddMonthsSafe(due, cycle), cycle, today)
    else due
  }

  /** How many times the loop body of `Advance` runs. */
  function Steps(due: Date, cycle: int, today: Date): nat
    requires cycle >= 1 && 1 <= due.month <= 12 && 1 <= today.month <= 12
    decreases MonthIndex(today) - MonthIndex(due) + 1
  {
    if Before(due, today) then
      MonthIndexOrder(due, today);
      1 + Steps(AddMonthsSafe(due, cycle), cycle, today)
    else 0
  }

  /** `compute_next_due_date(entry, cycle)` with today as a parameter. */
  function NextDue(entry: Date, cycle: int, today: Date): Date
    requires cycle >= 1 && 1 <= entry.month <= 12 && 1 <= today.month <= 12
  {
    Advance(AddMonthsSafe(entry, cycle), cycle, today)
  }

  /** The loop ends on the first iterate that is not before today. */
  lemma {:induction false} AdvanceIsFirstIterate(due: Date, cycle: int, today: Date)
    requires cycle >= 1 && 1 <= due.month <= 12 && 1 <= today.month <= 12
    ensures Advance(due, cycle, today) == Iterate(due, cycle, Steps(due, cycle, today))
    ensures forall j :: 0 <= j < Steps(due, cycle, today) ==> Before(Iterate(due, cycle, j), today)
    decreases MonthIndex(today) - MonthIndex(due) + 1
  {
    if Before(due, today) {
      MonthIndexOrder(due, today);
      AddMonthsSafeAdvances(due, cycle);
      var next := AddMonthsSafe(due, cycle);
      AdvanceIsFirstIterate(next, cycle, today);
      forall j | 0 <= j < Steps(due, cycle, today)
        ensures Before(Iterate(due, cycle, j), today)
      {
        if j > 0 {
          assert Iterate(due, cycle, j) == Iterate(next, cycle, j - 1);
        }
      }
    }
  }

  /** Every iterate of the cycle from the first to the one before the
      `k`-th falls before today. */
  predicate EarlierIteratesBefore(entry: Date, cycle: int, k: nat, today: Date) {
    forall j :: 1 <= j < k ==> Before(Iterate(entry, cycle, j), today)
  }

  /** The due date is `f^K(entry)` for the smallest `K >= 1` whose iterate is
      not before today, where `f` adds one billing cycle. */
  lemma NextDueIsFirstIterate(entry: Date, cycle: int, today: Date)
    requires cycle >= 1 && 1 <= entry.month <= 12 && 1 <= today.month <= 12
    ensures var k := 1 + Steps(AddMonthsSafe(entry, cycle), cycle, today);
      && NextDue(entry, cycle, today) == Iterate(entry, cycle, k)
      && !Before(Iterate(entry, cycle, k), today)
      && EarlierIteratesBefore(entry, cycle, k, today)
  {
    var first := AddMonthsSafe(entry, cycle);
    AdvanceIsFirstIterate(first, cycle, today);
    var k := Steps(first, cycle, today);
    forall j | 1 <= j < k + 1
      ensures Before(Iterate(entry, cycle, j), today)
    {
      assert Iterate(entry, cycle, j) == Iterate(first, cycle, j - 1);
    }
  }

  /** The due date is never the entry date: it is strictly later, and not
      before today. */
  lemma NextDueAfterEntry(entry: Date, cycle: int, today: Date)
    requires cycle >= 1 && 1 <= entry.month <= 12 && 1 <= today.month <= 12
    ensures Before(entry, NextDue(entry, cycle, today))
    ensures !Before(NextDue(entry, cycle, today), today)
  {
    AddMonthsSafeAdvances(entry, cycle);
  }

  /** The due date lies less than one cycle of months past today's month. */
  lemma {:induction false} AdvanceBound(due: Date, cycle: int, today: Date)
    requires cycle >= 1 && 1 <= due.month <= 12 && 1 <= today.month <= 12
    requires MonthIndex(due) <= MonthIndex(today) + cycle
    ensures MonthIndex(Advance(due, cycle, today)) <= MonthIndex(today) + cycle
    decreases MonthIndex(today) - MonthIndex(due) + 1
  {
    if Before(due, today) {
      MonthIndexOrder(due, today);
      AddMonthsSafeAdvances(due, cycle);
      AdvanceBound(AddMonthsSafe(due, cycle), cycle, today);
    }
  }

  /** A zero-month cycle never moves: for `cycle = 0` the loop would spin
      forever on any entry date before today, which is why every caller
      clamps the cycle to at least one month first. */
  lemma {:induction false} ZeroCycleStandsStill(entry: Date, k: nat)
    requires WellFormed(entry)
    ensures Iterate(entry, 0, k) == entry
  {
    if k > 0 {
      ZeroCycleStandsStill(entry, k - 1);
      MonthIndexOrder(entry, AddMonthsSafe(entry, 0));
    }
  }

  /** `compute_next_due_date` as the loop the source runs. */
  method ComputeNextDueDate(entry: PyDate, cycle: int, today: PyDate) returns (due: Date)
    requires cycle >= 1
    ensures due == NextDue(entry, cycle, today)
    ensures !Before(due, today)
    ensures Before(entry, due)
  {
    AddMonthsSafeAdvances(entry, cycle);
    due := AddMonthsSafe(entry, cycle);
    while Before(due, today)
      invariant 1 <= due.month <= 12
      invariant Advance(due, cycle, today) == NextDue(entry, cycle, today)
      invariant Before(entry, due)
      decreases MonthIndex(today) - MonthIndex(due) + 1
    {
      MonthIndexOrder(due, today);
      AddMonthsSafeAdvances(due, cycle);
      due := AddMonthsSafe(due, cycle);
    }
  }
}

=== FILE: firebase.dfy ===
/** The Firebase REST helpers (`app/core/firebase.py`): the URL of a
    resource or record, and how a response is classified. The HTTP call
    itself is not modelled; its status code and text are inputs. */
module Firebase {
  import opened Wrappers
  import opened Text
  import opened Values
  import opened Settings

  /** `{base}/{resource}[/{record_id}].json`, the base without its
      trailing slashes. */
  function FirebasePath(base: string, resource: string, recordId: Option<string>): string {
    RStripChar(base, '/') + "/" + resource + (if Present(recordId) then "/" + recordId.value else "") + ".json"
  }

  /** `build_firebase_url`: 500 without a database URL; otherwise the path,
      with the secret, when there is one, appended as the `auth` query
      parameter. */
  function BuildFirebaseUrl(s: Settings, resource: string, recordId: Option<string>): (r: Result<string>)
    ensures r.Fail? <==> !Present(s.firebaseDatabaseUrl)
    ensures r.Fail? ==> r.status == ServerError
    ensures r.Ok? ==> FirebasePath(s.firebaseDatabaseUrl.value, resource, recordId) <= r.value
    ensures r.Ok? && !Present(s.firebaseDatabaseSecret) ==> r.value == FirebasePath(s.firebaseDatabaseUrl.value, resource, recordId)
    ensures r.Ok? && Present(s.firebaseDatabaseSecret) ==>
      var path := FirebasePath(s.firebaseDatabaseUrl.value, resource, recordId);
      && |r.value| > |path|
      && r.value[|path| + 1..] == "auth=" + s.firebaseDatabaseSecret.value
      && r.value[|path|] == (if '?' in path then '&' else '?')
  {
    if !Present(s.firebaseDatabaseUrl) then Fail(ServerError)
    else
      var path := FirebasePath(s.firebaseDatabaseUrl.value, resource, recordId);
      if Present(s.firebaseDatabaseSecret) then
        var sep := if '?' in path then '&' else '?';
        var r := path + [sep] + "auth=" + s.firebaseDatabaseSecret.value;
        assert r[|path| + 1..] == "auth=" + s.firebaseDatabaseSecret.value;
        Ok(r)
      else Ok(path)
  }

  /** Read back: cutting the URL at `?` gives the path and the query
      `auth=<secret>`, when neither the path nor the secret holds a `?`. */
  lemma {:induction false} SecretIsTheQuery(s: Settings, resource: string, recordId: Option<string>)
    requires Present(s.firebaseDatabaseUrl) && Present(s.firebaseDatabaseSecret)
    requires '?' !in FirebasePath(s.firebaseDatabaseUrl.value, resource, recordId)
    requires '?' !in s.firebaseDatabaseSecret.value
    ensures SplitOn(BuildFirebaseUrl(s, resource, recordId).value, '?')
            == [FirebasePath(s.firebaseDatabaseUrl.value, resource, recordId), "auth=" + s.firebaseDatabaseSecret.value]
  {
    var path := FirebasePath(s.firebaseDatabaseUrl.value, resource, recordId);
    var query := "auth=" + s.firebaseDatabaseSecret.value;
    QueryHasNoMark(s.firebaseDatabaseSecret.value);
    SecretUrlShape(s, resource, recordId);
    SplitOnLeadingPart(path, query, '?');
    SplitOnLeadingPart(query, [], '?');
  }

  /** Without a `?` in the path, the secret follows a `?`. */
  lemma SecretUrlShape(s: Settings, resource: string, recordId: Option<string>)
    requires Present(s.firebaseDatabaseUrl) && Present(s.firebaseDatabaseSecret)
    requires '?' !in FirebasePath(s.firebaseDatabaseUrl.value, resource, recordId)
    ensures BuildFirebaseUrl(s, resource, recordId).value
         == FirebasePath(s.firebaseDatabaseUrl.value, resource, recordId) + ['?'] + ("auth=" + s.firebaseDatabaseSecret.value)
  {
  }

  lemma QueryHasNoMark(secret: string)
    requires '?' !in secret
    ensures '?' !in "auth=" + secret
  {
    var query := "auth=" + secret;
    assert forall i :: 0 <= i < |query| ==> query[i] == (if i < 5 then "auth="[i] else secret[i - 5]);
  }

  /** Read back: after the base, a record path splits at `/` into the
      resource and the record id (with the `.json` suffix), when neither
      holds a slash. */
  lemma {:induction false} RecordPathSegments(base: string, resource: string, id: string)
    requires id != "" && '/' !in resource && '/' !in id
    ensures var path := FirebasePath(base, resource, Some(id));
      SplitOn(path[|RStripChar(base, '/')|..], '/') == ["", resource, id + ".json"]
  {
    var b := RStripChar(base, '/');
    var path := FirebasePath(base, resource, Some(id));
    var leaf := id + ".json";
    assert '/' !in leaf by {
      assert forall i :: 0 <= i < |leaf| ==> leaf[i] == (if i < |id| then id[i] else ".json"[i - |id|]);
    }
    assert path[|b|..] == [] + ['/'] + (resource + ['/'] + leaf);
    SplitOnLeadingPart([], resource + ['/'] + leaf, '/');
    SplitOnLeadingPart(resource, leaf, '/');
    SplitOnLeadingPart(leaf, [], '/');
    assert leaf + ['/'] + [] == leaf + ['/'];
  }

  /** A response from the database: its status code and its body text. */
  datatype Response = Response(code: int, text: string)

  /** How `firebase_request` treats a response: 502 for an error status;
      no data for 204 or an empty body; otherwise the parsed body. */
  function Classify(resp: Response, parseJson: string -> Value): (r: Result<(int, Option<Value>)>)
    ensures r.Fail? <==> resp.code >= 400
    ensures r.Fail? ==> r.status == BadGateway
    ensures r.Ok? ==> r.value.0 == resp.code
    ensures r.Ok? ==> (r.value.1.None? <==> resp.code == 204 || resp.text == "")
    ensures r.Ok? && r.value.1.Some? ==> r.value.1.value == parseJson(resp.text)
  {
    if resp.code >= 400 then Fail(BadGateway)
    else if resp.code == 204 then Ok((resp.code, None))
    else if resp.text == "" then Ok((resp.code, None))
    else Ok((resp.code, Some(parseJson(resp.text))))
  }

  /** A successful response whose body is a serialised value reads back as
      that value, whenever the parser reads the serialiser's output back;
      an error status never does, whatever the body. This is `Classify`'s
      contract applied to a serialised body. `Value` is a scalar, so the
      JSON object a collection read returns is not covered here: the
      collection is modelled as a `Snapshot` instead. */
  lemma ClassifyReadsBack(v: Value, code: int, toJson: Value -> string, parseJson: string -> Value)
    requires toJson(v) != "" && parseJson(toJson(v)) == v
    ensures 200 <= code < 400 && code != 204 ==> Classify(Response(code, toJson(v)), parseJson) == Ok((code, Some(v)))
    ensures code >= 400 ==> Classify(Response(code, toJson(v)), parseJson) == Fail(BadGateway)
  {
  }
}

=== FILE: html.dfy ===
/** The HTML escaping the mail builders apply to plain text: a chain of
    `str.replace` calls that starts with `&`, so that no entity it writes
    is escaped again. Two chains exist: the message builder escapes `&`,
    `<`, `>` and line breaks; `format_html_from_text` also escapes both
    quote characters. */
module Html {
  import opened Text

  /** What one character becomes; `quotes` selects the longer chain. */
  function EscapeChar(c: char, quotes: bool): (r: string)
    ensures |r| >= 1
    ensures '\n' !in r
    ensures quotes ==> '"' !in r && '\'' !in r
  {
    if c == '&' then "&amp;"
    else if c == '<' then "&lt;"
    else if c == '>' then "&gt;"
    else if quotes && c == '"' then "&quot;"
    else if quotes && c == '\'' then "&#39;"
    else if c == '\n' then "<br>"
    else [c]
  }

  /** The escaped text, one character at a time. */
  function Escape(s: string, quotes: bool): (r: string)
    ensures |r| >= |s|
    ensures '\n' !in r
    ensures quotes ==> '"' !in r && '\'' !in r
  {
    if |s| == 0 then "" else EscapeChar(s[0], quotes) + Escape(s[1..], quotes)
  }

  /** Reads the escaped text back: each entity and each `<br>` becomes the
      character it stands for. */
  function Unescape(t: string, quotes: bool): string
    decreases |t|
  {
    if |t| == 0 then ""
    else if StartsWith(t, "&amp;") then "&" + Unescape(t[5..], quotes)
    else if StartsWith(t, "&lt;") then "<" + Unescape(t[4..], quotes)
    else if StartsWith(t, "&gt;") then ">" + Unescape(t[4..], quotes)
    else if quotes && StartsWith(t, "&quot;") then "\"" + Unescape(t[6..], quotes)
    else if quotes && StartsWith(t, "&#39;") then "'" + Unescape(t[5..], quotes)
    else if StartsWith(t, "<br>") then "\n" + Unescape(t[4..], quotes)
    else [t[0]] + Unescape(t[1..], quotes)
  }

  /** `t` does not start with `p` when they differ at position `i`. */
  lemma DiffersAt(t: string, p: string, i: nat)
    requires i < |p| && (|t| <= i || t[i] != p[i])
    ensures !StartsWith(t, p)
  {
    if |p| <= |t| {
      assert t[..|p|][i] == t[i];
    }
  }

  lemma StartsWithConcat(p: string, rest: string)
    ensures StartsWith(p + rest, p)
    ensures (p + rest)[|p|..] == rest
  {
    assert (p + rest)[..|p|] == p;
  }

  /** A character that starts no entity is read as itself. */
  lemma UnescapePlain(c: char, rest: string, quotes: bool)
    requires c != '&' && c != '<'
    ensures Unescape([c] + rest, quotes) == [c] + Unescape(rest, quotes)
  {
    var t := [c] + rest;
    DiffersAt(t, "&amp;", 0);
    DiffersAt(t, "&lt;", 0);
    DiffersAt(t, "&gt;", 0);
    DiffersAt(t, "&quot;", 0);
    DiffersAt(t, "&#39;", 0);
    DiffersAt(t, "<br>", 0);
    assert t[1..] == rest;
  }

  lemma UnescapeAmp(rest: string, quotes: bool)
    ensures Unescape("&amp;" + rest, quotes) == "&" + Unescape(rest, quotes)
  {
    StartsWithConcat("&amp;", rest);
  }

  lemma UnescapeLt(rest: string, quotes: bool)
    ensures Unescape("&lt;" + rest, quotes) == "<" + Unescape(rest, quotes)
  {
    var t := "&lt;" + rest;
    DiffersAt(t, "&amp;", 1);
    StartsWithConcat("&lt;", rest);
  }

  lemma UnescapeGt(rest: string, quotes: bool)
    ensures Unescape("&gt;" + rest, quotes) == ">" + Unescape(rest, quotes)
  {
    var t := "&gt;" + rest;
    DiffersAt(t, "&amp;", 1);
    DiffersAt(t, "&lt;", 1);
    StartsWithConcat("&gt;", rest);
  }

  lemma UnescapeQuot(rest: string)
    ensures Unescape("&quot;" + rest, true) == "\"" + Unescape(rest, true)
  {
    var t := "&quot;" + rest;
    DiffersAt(t, "&amp;", 1);
    DiffersAt(t, "&lt;", 1);
    DiffersAt(t, "&gt;", 1);
    StartsWithConcat("&quot;", rest);
  }

  lemma UnescapeApos(rest: string)
    ensures Unescape("&#39;" + rest, true) == "'" + Unescape(rest, true)
  {
    var t := "&#39;" + rest;
    DiffersAt(t, "&amp;", 1);
    DiffersAt(t, "&lt;", 1);
    DiffersAt(t, "&gt;", 1);
    DiffersAt(t, "&quot;", 1);
    StartsWithConcat("&#39;", rest);
  }

  lemma UnescapeBreak(rest: string, quotes: bool)
    ensures Unescape("<br>" + rest, quotes) == "\n" + Unescape(rest, quotes)
  {
    var t := "<br>" + rest;
    DiffersAt(t, "&amp;", 0);
    DiffersAt(t, "&lt;", 0);
    DiffersAt(t, "&gt;", 0);
    DiffersAt(t, "&quot;", 0);
    DiffersAt(t, "&#39;", 0);
    StartsWithConcat("<br>", rest);
  }

  /** Unescaping the escape of one character in front of any text gives
      the character back, in front of the unescaped text. */
  lemma UnescapeChar(c: char, rest: string, quotes: bool)
    ensures Unescape(EscapeChar(c, quotes) + rest, quotes) == [c] + Unescape(rest, quotes)
  {
    if c == '&' {
      UnescapeAmp(rest, quotes);
    } else if c == '<' {
      UnescapeLt(rest, quotes);
    } else if c == '>' {
      UnescapeGt(rest, quotes);
    } else if quotes && c == '"' {
      UnescapeQuot(rest);
    } else if quotes && c == '\'' {
      UnescapeApos(rest);
    } else if c == '\n' {
      UnescapeBreak(rest, quotes);
    } else {
      UnescapePlain(c, rest, quotes);
    }
  }

  /** The escape loses nothing: reading it back gives the text. */
  lemma {:induction false} EscapeRoundTrip(s: string, quotes: bool)
    ensures Unescape(Escape(s, quotes), quotes) == s
    decreases |s|
  {
    if |s| > 0 {
      UnescapeChar(s[0], Escape(s[1..], quotes), quotes);
      EscapeRoundTrip(s[1..], quotes);
      assert [s[0]] + s[1..] == s;
    }
  }

  /** Escaping a concatenation escapes each part. */
  lemma {:induction false} EscapeConcat(a: string, b: string, quotes: bool)
    ensures Escape(a + b, quotes) == Escape(a, quotes) + Escape(b, quotes)
    decreases |a|
  {
    if |a| > 0 {
      assert (a + b)[1..] == a[1..] + b;
      EscapeConcat(a[1..], b, quotes);
    } else {
      assert a + b == b;
    }
  }

  /** The message builder's chain: `&`, `<`, `>`, then line breaks. It
      leaves no raw line break, and text without any of the four
      characters passes unchanged. */
  function ReplaceChain(s: string): (r: string)
    ensures '\n' !in r
    ensures '&' !in s && '<' !in s && '>' !in s && '\n' !in s ==> r == s
  {
    ReplaceChar(ReplaceChar(ReplaceChar(ReplaceChar(s, '&', "&amp;"), '<', "&lt;"), '>', "&gt;"), '\n', "<br>")
  }

  /** `format_html_from_text`: `&`, `<`, `>`, `"`, `'`, then line breaks.
      It leaves no raw line break, and text without any of the six
      characters passes unchanged. */
  function FormatHtmlFromText(s: string): (r: string)
    ensures '\n' !in r
    ensures '&' !in s && '<' !in s && '>' !in s && '"' !in s && '\'' !in s && '\n' !in s ==> r == s
  {
    ReplaceChar(ReplaceChar(ReplaceChar(ReplaceChar(ReplaceChar(ReplaceChar(
      s, '&', "&amp;"), '<', "&lt;"), '>', "&gt;"), '"', "&quot;"), '\'', "&#39;"), '\n', "<br>")
  }

  /** Each replacement of the chain distributes over a concatenation. */
  lemma ReplaceChainConcat(a: string, b: string)
    ensures ReplaceChain(a + b) == ReplaceChain(a) + ReplaceChain(b)
  {
    var a1, b1 := ReplaceChar(a, '&', "&amp;"), ReplaceChar(b, '&', "&amp;");
    ReplaceCharConcat(a, b, '&', "&amp;");
    var a2, b2 := ReplaceChar(a1, '<', "&lt;"), ReplaceChar(b1, '<', "&lt;");
    ReplaceCharConcat(a1, b1, '<', "&lt;");
    var a3, b3 := ReplaceChar(a2, '>', "&gt;"), ReplaceChar(b2, '>', "&gt;");
    ReplaceCharConcat(a2, b2, '>', "&gt;");
    ReplaceCharConcat(a3, b3, '\n', "<br>");
  }

  lemma FormatHtmlConcat(a: string, b: string)
    ensures FormatHtmlFromText(a + b) == FormatHtmlFromText(a) + FormatHtmlFromText(b)
  {
    var a1, b1 := ReplaceChar(a, '&', "&amp;"), ReplaceChar(b, '&', "&amp;");
    ReplaceCharConcat(a, b, '&', "&amp;");
    var a2, b2 := ReplaceChar(a1, '<', "&lt;"), ReplaceChar(b1, '<', "&lt;");
    ReplaceCharConcat(a1, b1, '<', "&lt;");
    var a3, b3 := ReplaceChar(a2, '>', "&gt;"), ReplaceChar(b2, '>', "&gt;");
    ReplaceCharConcat(a2, b2, '>', "&gt;");
    var a4, b4 := ReplaceChar(a3, '"', "&quot;"), ReplaceChar(b3, '"', "&quot;");
    ReplaceCharConcat(a3, b3, '"', "&quot;");
    var a5, b5 := ReplaceChar(a4, '\'', "&#39;"), ReplaceChar(b4, '\'', "&#39;");
    ReplaceCharConcat(a4, b4, '\'', "&#39;");
    ReplaceCharConcat(a5, b5, '\n', "<br>");
  }

  /** Because `&` is replaced first, the chain escapes every character
      exactly once: it is the one-pass escape. */
  lemma {:induction false} ReplaceChainEscapes(s: string)
    ensures ReplaceChain(s) == Escape(s, false)
    decreases |s|
  {
    if |s| > 0 {
      assert s == [s[0]] + s[1..];
      ReplaceChainConcat([s[0]], s[1..]);
      ReplaceChainEscapes(s[1..]);
      ReplaceChainOne(s[0]);
    }
  }

  /** One replacement applied to a single character. */
  lemma ReplaceSingle(c: char, x: char, rep: string)
    ensures ReplaceChar([c], x, rep) == if c == x then rep else [c]
  {
    assert [c][1..] == [];
  }

  /** A replacement of a character the text does not hold changes nothing. */
  lemma Untouched(s: string, x: char, rep: string)
    requires x !in s
    ensures ReplaceChar(s, x, rep) == s
  {
  }

  /* The chain lemmas below take the replaced characters and their
     replacements as parameters: a single character meets the replacements
     in order, the first that matches decides what it becomes, and the
     later ones do not touch that text. */

  lemma Chain2(c: char, x1: char, r1: string, x2: char, r2: string)
    requires x2 !in r1
    ensures ReplaceChar(ReplaceChar([c], x1, r1), x2, r2)
         == if c == x1 then r1 else if c == x2 then r2 else [c]
  {
    ReplaceSingle(c, x1, r1);
    if c == x1 {
      Untouched(r1, x2, r2);
    } else {
      ReplaceSingle(c, x2, r2);
    }
  }

  lemma Chain3(c: char, x1: char, r1: string, x2: char, r2: string, x3: char, r3: string)
    requires x2 !in r1 && x3 !in r1
    requires x3 !in r2
    ensures ReplaceChar(ReplaceChar(ReplaceChar([c], x1, r1), x2, r2), x3, r3)
         == if c == x1 then r1 else if c == x2 then r2 else if c == x3 then r3 else [c]
  {
    ReplaceSingle(c, x1, r1);
    if c == x1 {
      Untouched(r1, x2, r2);
      Untouched(r1, x3, r3);
    } else {
      Chain2(c, x2, r2, x3, r3);
    }
  }

  lemma Chain4(c: char, x1: char, r1: string, x2: char, r2: string, x3: char, r3: string, x4: char, r4: string)
    requires x2 !in r1 && x3 !in r1 && x4 !in r1
    requires x3 !in r2 && x4 !in r2
    requires x4 !in r3
    ensures ReplaceChar(ReplaceChar(ReplaceChar(ReplaceChar([c], x1, r1), x2, r2), x3, r3), x4, r4)
         == if c == x1 then r1 else if c == x2 then r2 else if c == x3 then r3 else if c == x4 then r4 else [c]
  {
    ReplaceSingle(c, x1, r1);
    if c == x1 {
      Untouched(r1, x2, r2);
      Untouched(r1, x3, r3);
      Untouched(r1, x4, r4);
    } else {
      Chain3(c, x2, r2, x3, r3, x4, r4);
    }
  }

  lemma Chain5(c: char, x1: char, r1: string, x2: char, r2: string, x3: char, r3: string, x4: char, r4: string,
               x5: char, r5: string)
    requires x2 !in r1 && x3 !in r1 && x4 !in r1 && x5 !in r1
    requires x3 !in r2 && x4 !in r2 && x5 !in r2
    requires x4 !in r3 && x5 !in r3
    requires x5 !in r4
    ensures ReplaceChar(ReplaceChar(ReplaceChar(ReplaceChar(ReplaceChar([c], x1, r1), x2, r2), x3, r3), x4, r4), x5, r5)
         == if c == x1 then r1 else if c == x2 then r2 else if c == x3 then r3 else if c == x4 then r4
            else if c == x5 then r5 else [c]
  {
    ReplaceSingle(c, x1, r1);
    if c == x1 {
      Untouched(r1, x2, r2);
      Untouched(r1, x3, r3);
      Untouched(r1, x4, r4);
      Untouched(r1, x5, r5);
    } else {
      Chain4(c, x2, r2, x3, r3, x4, r4, x5, r5);
    }
  }

  lemma Chain6(c: char, x1: char, r1: string, x2: char, r2: string, x3: char, r3: string, x4: char, r4: string,
               x5: char, r5: string, x6: char, r6: string)
    requires x2 !in r1 && x3 !in r1 && x4 !in r1 && x5 !in r1 && x6 !in r1
    requires x3 !in r2 && x4 !in r2 && x5 !in r2 && x6 !in r2
    requires x4 !in r3 && x5 !in r3 && x6 !in r3
    requires x5 !in r4 && x6 !in r4
    requires x6 !in r5
    ensures ReplaceChar(ReplaceChar(ReplaceChar(ReplaceChar(ReplaceChar(ReplaceChar([c], x1, r1), x2, r2), x3, r3), x4, r4), x5, r5), x6, r6)
         == if c == x1 then r1 else if c == x2 then r2 else if c == x3 then r3 else if c == x4 then r4
            else if c == x5 then r5 else if c == x6 then r6 else [c]
  {
    ReplaceSingle(c, x1, r1);
    if c == x1 {
      Untouched(r1, x2, r2);
      Untouched(r1, x3, r3);
      Untouched(r1, x4, r4);
      Untouched(r1, x5, r5);
      Untouched(r1, x6, r6);
    } else {
      Chain5(c, x2, r2, x3, r3, x4, r4, x5, r5, x6, r6);
    }
  }

  /** Once a character has become its entity, the later replacements of
      the message builder's chain leave the entity alone. */
  lemma ReplaceChainOne(c: char)
    ensures ReplaceChain([c]) == EscapeChar(c, false)
  {
    Chain4(c, '&', "&amp;", '<', "&lt;", '>', "&gt;", '\n', "<br>");
  }

  /** The same for the chain of `format_html_from_text`. */
  lemma FormatHtmlOne(c: char)
    ensures FormatHtmlFromText([c]) == EscapeChar(c, true)
  {
    Chain6(c, '&', "&amp;", '<', "&lt;", '>', "&gt;", '"', "&quot;", '\'', "&#39;", '\n', "<br>");
  }

  lemma {:induction false} FormatHtmlEscapes(s: string)
    ensures FormatHtmlFromText(s) == Escape(s, true)
    decreases |s|
  {
    if |s| > 0 {
      assert s == [s[0]] + s[1..];
      FormatHtmlConcat([s[0]], s[1..]);
      FormatHtmlEscapes(s[1..]);
      FormatHtmlOne(s[0]);
    }
  }

  /** `format_html_from_text` has no raw line break or quote in its
      output, and the text can be read back from it. */
  lemma FormatHtmlFromTextSafe(s: string)
    ensures '\n' !in FormatHtmlFromText(s)
    ensures '"' !in FormatHtmlFromText(s) && '\'' !in FormatHtmlFromText(s)
    ensures Unescape(FormatHtmlFromText(s), true) == s
  {
    FormatHtmlEscapes(s);
    EscapeRoundTrip(s, true);
  }
}

=== FILE: iso_date.dfy ===
/** The `YYYY-MM-DD` text form of dates (the extended calendar date format of
    section 4.1.2.2 of ISO 8601:2004): `date.isoformat()` and the part of
    `datetime.fromisoformat` that reads that shape. */
module IsoDate {
  import opened Wrappers
  import opened Text
  import opened Calendar

  /** `len(s) == 10 and s[4] == "-" and s[7] == "-"`. */
  predicate IsoShaped(s: string) {
    |s| == 10 && s[4] == '-' && s[7] == '-'
  }

  /** `len(s) == 10 and s[2] == "/" and s[5] == "/"`. */
  predicate SlashShaped(s: string) {
    |s| == 10 && s[2] == '/' && s[5] == '/'
  }

  predicate AllDigits(s: string) {
    forall i :: 0 <= i < |s| ==> IsDigit(s[i])
  }

  function Pow10(w: nat): (p: nat)
    ensures p >= 1
  {
    if w == 0 then 1 else 10 * Pow10(w - 1)
  }

  /** The last `w` decimal digits of `n`, zero-padded: `f"{n:0{w}d}"` when
      `n < 10^w`. */
  function Pad(n: nat, w: nat): (r: string)
    ensures |r| == w && AllDigits(r)
  {
    if w == 0 then "" else Pad(n / 10, w - 1) + [DigitChar(n % 10)]
  }

  /** Padding writes exactly the number, as long as it fits the width. */
  lemma {:induction false} PadNumber(n: nat, w: nat)
    requires n < Pow10(w)
    ensures DigitsNumber(Pad(n, w)) == n
  {
    if w > 0 {
      PadNumber(n / 10, w - 1);
      var s := Pad(n, w);
      assert s[..|s| - 1] == Pad(n / 10, w - 1);
    }
  }

  /** Every digit string is the padding of the number it writes. */
  lemma {:induction false} DigitsPad(t: string)
    requires AllDigits(t)
    ensures DigitsNumber(t) < Pow10(|t|)
    ensures Pad(DigitsNumber(t), |t|) == t
  {
    if |t| > 0 {
      var u := t[..|t| - 1];
      DigitsPad(u);
      var n := DigitsNumber(t);
      assert n / 10 == DigitsNumber(u) && n % 10 == DigitValue(t[|t| - 1]);
      assert t == u + [t[|t| - 1]];
    }
  }

  /** For numbers that fit, padded text orders exactly as the numbers do. */
  lemma {:induction false} PadOrder(a: nat, b: nat, w: nat)
    requires a < Pow10(w) && b < Pow10(w)
    ensures StrLt(Pad(a, w), Pad(b, w)) <==> a < b
  {
    if w == 0 {
    } else {
      PadOrder(a / 10, b / 10, w - 1);
      PadNumber(a / 10, w - 1);
      PadNumber(b / 10, w - 1);
      var ca := [DigitChar(a % 10)];
      var cb := [DigitChar(b % 10)];
      StrLtConcat(Pad(a / 10, w - 1), ca, Pad(b / 10, w - 1), cb);
      assert StrLt(ca, cb) <==> a % 10 < b % 10 by {
        assert ca[1..] == [] && cb[1..] == [];
      }
      assert Pad(a / 10, w - 1) == Pad(b / 10, w - 1) <==> a / 10 == b / 10;
    }
  }

  /** `d.isoformat()`. */
  function IsoFormat(d: PyDate): (s: string)
    ensures IsoShaped(s)
  {
    Pad(d.year, 4) + ("-" + (Pad(d.month, 2) + ("-" + Pad(d.day, 2))))
  }

  lemma IsoFormatParts(d: PyDate)
    ensures IsoFormat(d)[..4] == Pad(d.year, 4)
    ensures IsoFormat(d)[5..7] == Pad(d.month, 2)
    ensures IsoFormat(d)[8..] == Pad(d.day, 2)
  {
  }

  /** `datetime.fromisoformat(s).date()` for a string of the `YYYY-MM-DD`
      shape: ASCII digits in every other position and a valid date. */
  function ParseIso10(s: string): (r: Option<PyDate>)
    requires IsoShaped(s)
    ensures r.Some? ==> AllDigits(s[..4]) && AllDigits(s[5..7]) && AllDigits(s[8..])
  {
    if AllDigits(s[..4]) && AllDigits(s[5..7]) && AllDigits(s[8..]) then
      MakeDate(DigitsNumber(s[..4]), DigitsNumber(s[5..7]), DigitsNumber(s[8..]))
    else None
  }

  /** Reading back what `isoformat` writes gives the same date. */
  lemma IsoRoundTrip(d: PyDate)
    ensures ParseIso10(IsoFormat(d)) == Some(d)
  {
    IsoFormatParts(d);
    PadNumber(d.year, 4);
    PadNumber(d.month, 2);
    PadNumber(d.day, 2);
  }

  /** Conversely, every shaped string that parses is the `isoformat` of the
      date it parses to: the two forms are in one-to-one correspondence. */
  lemma ParseIsoFormats(s: string)
    requires IsoShaped(s) && ParseIso10(s).Some?
    ensures IsoFormat(ParseIso10(s).value) == s
  {
    var d := ParseIso10(s).value;
    DigitsPad(s[..4]);
    DigitsPad(s[5..7]);
    DigitsPad(s[8..]);
    IsoFormatParts(d);
    var t := IsoFormat(d);
    assert t[..4] == s[..4] && t[5..7] == s[5..7] && t[8..] == s[8..];
    assert forall i | 0 <= i < 10 :: t[i] == s[i] by {
      forall i | 0 <= i < 10
        ensures t[i] == s[i]
      {
        if i < 4 {
          assert t[i] == t[..4][i];
        } else if 5 <= i < 7 {
          assert t[i] == t[5..7][i - 5] && s[i] == s[5..7][i - 5];
        } else if 8 <= i {
          assert t[i] == t[8..][i - 8] && s[i] == s[8..][i - 8];
        }
      }
    }
  }

  /** Comparing ISO strings compares the dates: sorting by the text is
      sorting by the date. */
  lemma IsoOrder(a: PyDate, b: PyDate)
    ensures StrLt(IsoFormat(a), IsoFormat(b)) <==> Before(a, b)
  {
    PadOrder(a.year, b.year, 4);
    PadOrder(a.month, b.month, 2);
    PadOrder(a.day, b.day, 2);
    PadNumber(a.year, 4);
    PadNumber(b.year, 4);
    PadNumber(a.month, 2);
    PadNumber(b.month, 2);
    var ra := "-" + (Pad(a.month, 2) + ("-" + Pad(a.day, 2)));
    var rb := "-" + (Pad(b.month, 2) + ("-" + Pad(b.day, 2)));
    StrLtConcat(Pad(a.year, 4), ra, Pad(b.year, 4), rb);
    StrLtConcat("-", Pad(a.month, 2) + ("-" + Pad(a.day, 2)), "-", Pad(b.month, 2) + ("-" + Pad(b.day, 2)));
    StrLtConcat(Pad(a.month, 2), "-" + Pad(a.day, 2), Pad(b.month, 2), "-" + Pad(b.day, 2));
    StrLtConcat("-", Pad(a.day, 2), "-", Pad(b.day, 2));
    StrLtIrreflexive("-");
  }

  /** `datetime.fromisoformat(s).date()`: the `YYYY-MM-DD` shape is read
      here; every other timestamp form goes to `general`, which stands for
      the rest of the standard-library parser (`None` is its `ValueError`). */
  function FromIsoFormat(s: string, general: string -> Option<PyDate>): (r: Option<PyDate>)
    ensures IsoShaped(s) ==> r == ParseIso10(s)
    ensures !IsoShaped(s) ==> r == general(s)
  {
    if IsoShaped(s) then ParseIso10(s) else general(s)
  }

  lemma TwoDigits(s: string)
    requires |s| == 2 && AllDigits(s)
    ensures DigitsNumber(s) == DigitValue(s[0]) * 10 + DigitValue(s[1])
  {
    var h := s[..1];
    assert h[..0] == [] && h[0] == s[0];
    assert DigitsNumber(h) == DigitValue(s[0]);
  }

  lemma FourDigits(s: string)
    requires |s| == 4 && AllDigits(s)
    ensures DigitsNumber(s) == ((DigitValue(s[0]) * 10 + DigitValue(s[1])) * 10 + DigitValue(s[2])) * 10 + DigitValue(s[3])
  {
    var h3 := s[..3];
    var h2 := h3[..2];
    assert h3[..2] == s[..2];
    TwoDigits(h2);
    assert DigitsNumber(h3) == DigitsNumber(h2) * 10 + DigitValue(s[2]);
  }

  /** Out-of-range months and days in the right shape are rejected. */
  lemma ParseIsoRejectsMonth()
    ensures ParseIso10("2024-13-45").None?
  {
    var t := "2024-13-45";
    TwoDigits(t[5..7]);
  }

  /** February 29 exists in 2024 ... */
  lemma ParseIsoLeapDay()
    ensures ParseIso10("2024-02-29") == Some(Date(2024, 2, 29))
  {
    var s := "2024-02-29";
    assert s[..4] == "2024" && s[5..7] == "02" && s[8..] == "29";
    FourDigits(s[..4]);
    TwoDigits(s[5..7]);
    TwoDigits(s[8..]);
  }

  /** ... and not in 2023. */
  lemma ParseIsoNoLeapDay()
    ensures ParseIso10("2023-02-29").None?
  {
    var s := "2023-02-29";
    assert s[..4] == "2023" && s[5..7] == "02" && s[8..] == "29";
    FourDigits(s[..4]);
    TwoDigits(s[5..7]);
    TwoDigits(s[8..]);
  }
}

=== FILE: late_payment_service.dfy ===
/** The daily late-status sweep over the tenant collection
    (`app/services/late_payment_service.py`).

    The sweep reads every tenant, computes its next due date from the entry
    date and the billing cycle, and patches the stored status. Because the
    due date is never before today, the branch that would mark a tenant
    `late` cannot run: the sweep only ever moves `late` tenants back to
    `active`. */
module LatePaymentService {
  import opened Wrappers
  import opened Text
  import opened Values
  import opened Calendar
  import opened IsoDate
  import opened DueDates
  import opened Lists

  /** `normalize_entry_date(value)`: `YYYY-MM-DD`, then `DD/MM/YYYY` read
      with `int()` on each part, then the general timestamp parser; every
      exception (including `len()` of a non-string) becomes `None`. */
  function NormalizeEntryDate(value: Value, general: string -> Option<PyDate>): (r: Option<PyDate>)
    ensures !Truthy(value) ==> r.None?
    ensures !value.Str? ==> r.None?
    ensures value.Str? && IsoShaped(value.s) ==> r == ParseIso10(value.s)
    ensures value.Str? && |value.s| > 0 && !IsoShaped(value.s) && !SlashShaped(value.s) ==> r == general(value.s)
  {
    if !Truthy(value) || !value.Str? then None
    else
      var s := value.s;
      if IsoShaped(s) then FromIsoFormat(s, general)
      else if SlashShaped(s) then ParseSlashDate(s)
      else FromIsoFormat(s, general)
  }

  /** `day, month, year = value.split("/")` and `date(int(year), int(month),
      int(day))`: more or fewer than three parts, a part `int()` rejects, or
      an invalid date all raise. */
  function ParseSlashDate(s: string): (r: Option<PyDate>)
  {
    var parts := SplitOn(s, '/');
    if |parts| != 3 then None
    else
      match (PyInt(parts[0]), PyInt(parts[1]), PyInt(parts[2]))
      case (Some(day), Some(month), Some(year)) => MakeDate(year, month, day)
      case _ => None
  }

  /** Three `/`-free parts joined by `/` split back into those parts, and
      `ParseSlashDate` reads them as day, month and year. */
  lemma SlashParts(dd: string, mm: string, yyyy: string)
    requires '/' !in dd && '/' !in mm && '/' !in yyyy
    ensures SplitOn(dd + "/" + mm + "/" + yyyy, '/') == [dd, mm, yyyy]
    ensures ParseSlashDate(dd + "/" + mm + "/" + yyyy)
         == if PyInt(dd).Some? && PyInt(mm).Some? && PyInt(yyyy).Some?
            then MakeDate(PyInt(yyyy).value, PyInt(mm).value, PyInt(dd).value)
            else None
  {
    var s := dd + "/" + mm + "/" + yyyy;
    assert s == dd + ['/'] + (mm + ['/'] + yyyy);
    SplitOnLeadingPart(dd, mm + ['/'] + yyyy, '/');
    SplitOnLeadingPart(mm, yyyy, '/');
  }

  /** `DD/MM/YYYY` written with digits gives exactly the date those digits
      name, and `None` when that is not a valid date (a 13th month, a 31st of
      April). */
  lemma SlashDateDigits(dd: string, mm: string, yyyy: string)
    requires |dd| == 2 && |mm| == 2 && |yyyy| == 4
    requires AllDigits(dd) && AllDigits(mm) && AllDigits(yyyy)
    ensures SlashShaped(dd + "/" + mm + "/" + yyyy)
    ensures ParseSlashDate(dd + "/" + mm + "/" + yyyy)
         == MakeDate(DigitsNumber(yyyy), DigitsNumber(mm), DigitsNumber(dd))
  {
    assert IsDigit(mm[1]);
    SlashTextShape(dd, mm, yyyy);
    ParseSlashDigits(dd, mm, yyyy);
  }

  /** Two characters, a slash, two, a slash and four make the `DD/MM/YYYY`
      shape, and not the ISO one when the month does not end in `-`. */
  lemma SlashTextShape(dd: string, mm: string, yyyy: string)
    requires |dd| == 2 && |mm| == 2 && |yyyy| == 4 && mm[1] != '-'
    ensures SlashShaped(dd + "/" + mm + "/" + yyyy)
    ensures !IsoShaped(dd + "/" + mm + "/" + yyyy)
  {
    var s := dd + "/" + mm + "/" + yyyy;
    assert s[2] == '/' && s[5] == '/' && s[4] == mm[1];
  }

  lemma ParseSlashDigits(dd: string, mm: string, yyyy: string)
    requires |dd| == 2 && |mm| == 2 && |yyyy| == 4
    requires AllDigits(dd) && AllDigits(mm) && AllDigits(yyyy)
    ensures ParseSlashDate(dd + "/" + mm + "/" + yyyy)
         == MakeDate(DigitsNumber(yyyy), DigitsNumber(mm), DigitsNumber(dd))
  {
    assert IsDigit(dd[0]) && IsDigit(dd[1]) && IsDigit(mm[0]) && IsDigit(mm[1]);
    assert IsDigit(yyyy[0]) && IsDigit(yyyy[1]) && IsDigit(yyyy[2]) && IsDigit(yyyy[3]);
    SlashParts(dd, mm, yyyy);
    PyIntDigits(dd);
    PyIntDigits(mm);
    PyIntDigits(yyyy);
  }

  /** Text of the `DD/MM/YYYY` shape goes to the slash reader. */
  lemma NormalizeSlashShaped(s: string, general: string -> Option<PyDate>)
    requires SlashShaped(s) && !IsoShaped(s)
    ensures NormalizeEntryDate(Str(s), general) == ParseSlashDate(s)
  {
    assert Truthy(Str(s));
  }

  /** The ISO text of a date reads back as that date. */
  lemma NormalizeEntryDateReadsIso(d: PyDate, general: string -> Option<PyDate>)
    ensures NormalizeEntryDate(Str(IsoFormat(d)), general) == Some(d)
  {
    IsoRoundTrip(d);
  }

  /** `DD/MM/YYYY` in digits gives the date the digits name, or `None`
      when there is no such date. */
  lemma NormalizeEntryDateSlashDigits(dd: string, mm: string, yyyy: string, general: string -> Option<PyDate>)
    requires |dd| == 2 && |mm| == 2 && |yyyy| == 4
    requires AllDigits(dd) && AllDigits(mm) && AllDigits(yyyy)
    ensures NormalizeEntryDate(Str(dd + "/" + mm + "/" + yyyy), general)
         == MakeDate(DigitsNumber(yyyy), DigitsNumber(mm), DigitsNumber(dd))
  {
    assert IsDigit(mm[1]);
    SlashTextShape(dd, mm, yyyy);
    NormalizeSlashShaped(dd + "/" + mm + "/" + yyyy, general);
    ParseSlashDigits(dd, mm, yyyy);
  }

  /** The `DD/MM/YYYY` text of a date reads back as that date. */
  lemma NormalizeEntryDateReadsSlash(d: PyDate, general: string -> Option<PyDate>)
    ensures NormalizeEntryDate(Str(Pad(d.day, 2) + "/" + Pad(d.month, 2) + "/" + Pad(d.year, 4)), general) == Some(d)
  {
    NormalizeEntryDateSlashDigits(Pad(d.day, 2), Pad(d.month, 2), Pad(d.year, 4), general);
    PadNumber(d.day, 2);
    PadNumber(d.month, 2);
    PadNumber(d.year, 4);
  }

  /** A `+` sign before the day is accepted by `int()`, so `+D/MM/YYYY` reads
      as a date here although the reminder service rejects it. */
  lemma SlashDateAcceptsSignedDay(digit: char, mm: string, yyyy: string)
    requires IsDigit(digit) && |mm| == 2 && |yyyy| == 4 && AllDigits(mm) && AllDigits(yyyy)
    ensures SlashShaped(['+', digit] + "/" + mm + "/" + yyyy)
    ensures ParseSlashDate(['+', digit] + "/" + mm + "/" + yyyy)
         == MakeDate(DigitsNumber(yyyy), DigitsNumber(mm), DigitValue(digit))
  {
    assert IsDigit(mm[1]);
    SlashTextShape(['+', digit], mm, yyyy);
    ParseSlashSignedDay(digit, mm, yyyy);
  }

  lemma ParseSlashSignedDay(digit: char, mm: string, yyyy: string)
    requires IsDigit(digit) && |mm| == 2 && |yyyy| == 4 && AllDigits(mm) && AllDigits(yyyy)
    ensures ParseSlashDate(['+', digit] + "/" + mm + "/" + yyyy)
         == MakeDate(DigitsNumber(yyyy), DigitsNumber(mm), DigitValue(digit))
  {
    assert IsDigit(mm[0]) && IsDigit(mm[1]);
    assert IsDigit(yyyy[0]) && IsDigit(yyyy[1]) && IsDigit(yyyy[2]) && IsDigit(yyyy[3]);
    SlashParts(['+', digit], mm, yyyy);
    PyIntDigits(mm);
    PyIntDigits(yyyy);
    PyIntSignedDigit(digit);
  }

  /** `int("+7") == 7`. */
  lemma PyIntSignedDigit(digit: char)
    requires IsDigit(digit)
    ensures PyInt(['+', digit]) == Some(DigitValue(digit))
  {
    var dd := ['+', digit];
    assert !IsSpace(dd[0]) && !IsSpace(dd[1]);
    PyIntOfTrimmed(dd);
    assert dd[1..] == [digit];
    ParseUnsignedDigits([digit]);
    assert DigitsNumber([digit]) == DigitValue(digit) by {
      assert [digit][..0] == [];
    }
  }

  /** The reader takes a signed day as `int()` does. */
  lemma NormalizeEntryDateSignedDay(digit: char, mm: string, yyyy: string, general: string -> Option<PyDate>)
    requires IsDigit(digit) && |mm| == 2 && |yyyy| == 4 && AllDigits(mm) && AllDigits(yyyy)
    ensures NormalizeEntryDate(Str(['+', digit] + "/" + mm + "/" + yyyy), general)
         == MakeDate(DigitsNumber(yyyy), DigitsNumber(mm), DigitValue(digit))
  {
    assert IsDigit(mm[1]);
    SlashTextShape(['+', digit], mm, yyyy);
    NormalizeSlashShaped(['+', digit] + "/" + mm + "/" + yyyy, general);
    ParseSlashSignedDay(digit, mm, yyyy);
  }

  /** `max(1, min(12, int(record.get("paymentMonths") or 1)))`; `None` is
      the exception `int()` raises. */
  function CycleMonths(rec: Record): (r: Option<int>)
    ensures r.Some? ==> 1 <= r.value <= 12
    ensures !Truthy(Get(rec, "paymentMonths")) ==> r == Some(1)
    ensures Get(rec, "paymentMonths").Int? && 1 <= Get(rec, "paymentMonths").i <= 12
            ==> r == Some(Get(rec, "paymentMonths").i)
  {
    match PyIntOf(Or(Get(rec, "paymentMonths"), Int(1)))
    case None => None
    case Some(n) => Some(Clamp(n, 1, 12))
  }

  const Late: string := "late"
  const Active: string := "active"
  const Pending: string := "pending"

  /** What the sweep does with one tenant. */
  datatype Decision =
    | Skip              // no usable entry date: counted, not patched
    | Keep              // status already agrees with the due date
    | SetStatus(status: string)
    | Crash             // `int()` raised: the sweep stops

  /** The body of the loop in `check_and_update_late_payments`. */
  function Decide(rec: Record, today: PyDate, general: string -> Option<PyDate>): (d: Decision)
    ensures d.SetStatus? ==> d.status == Late || d.status == Active
  {
    var raw := Get(rec, "entryDate");
    if !Truthy(raw) then Skip
    else
      match NormalizeEntryDate(raw, general)
      case None => Skip
      case Some(entry) =>
        match CycleMonths(rec)
        case None => Crash
        case Some(cycle) =>
          var due := NextDue(entry, cycle, today);
          var status := GetOr(rec, "status", Str(Pending));
          if Before(due, today) && status != Str(Late) then SetStatus(Late)
          else if !Before(due, today) && status == Str(Late) then SetStatus(Active)
          else Keep
  }

  /** A tenant the sweep flips back to `active`: stored status `late`, a
      readable entry date and a readable cycle. No date comparison is
      involved. */
  predicate BackToActive(rec: Record, general: string -> Option<PyDate>) {
    && NormalizeEntryDate(Get(rec, "entryDate"), general).Some?
    && CycleMonths(rec).Some?
    && GetOr(rec, "status", Str(Pending)) == Str(Late)
  }

  /** The late branch is dead: the decision is `active` exactly for
      `BackToActive` tenants, never `late`, and a crash exactly when the
      cycle is unreadable. */
  lemma DecideCharacterised(rec: Record, today: PyDate, general: string -> Option<PyDate>)
    ensures Decide(rec, today, general) != SetStatus(Late)
    ensures Decide(rec, today, general) == SetStatus(Active) <==> BackToActive(rec, general)
    ensures Decide(rec, today, general) == Crash
            <==> NormalizeEntryDate(Get(rec, "entryDate"), general).Some? && CycleMonths(rec).None?
  {
    var entry := NormalizeEntryDate(Get(rec, "entryDate"), general);
    if entry.Some? && CycleMonths(rec).Some? {
      NextDueAfterEntry(entry.value, CycleMonths(rec).value, today);
    }
  }

  /** A tenant whose stored status is missing (read as `pending`) or anything
      but `late` is never patched. */
  lemma PendingUntouched(rec: Record, today: PyDate, general: string -> Option<PyDate>)
    requires GetOr(rec, "status", Str(Pending)) != Str(Late)
    ensures !Decide(rec, today, general).SetStatus?
  {
    DecideCharacterised(rec, today, general);
  }

  datatype StatusPatch = StatusPatch(id: string, status: string)
  datatype Counts = Counts(checked: nat, updated: nat)

  /** The writes the sweep made, and its return value; `None` when it raised
      (an unreadable cycle or a failed write) instead of returning. */
  datatype SweepResult = SweepResult(patches: seq<StatusPatch>, outcome: Option<Counts>)

  /** The loop over the snapshot's items. `writeFails` holds the ids whose
      PATCH request raises. */
  function Sweep(items: seq<(string, Record)>, today: PyDate, general: string -> Option<PyDate>, writeFails: set<string>): (r: SweepResult)
    ensures r.outcome.Some? ==> r.outcome.value == Counts(|items|, |r.patches|)
    ensures forall k :: 0 <= k < |r.patches| ==> r.patches[k].status == Active
  {
    if |items| == 0 then SweepResult([], Some(Counts(0, 0)))
    else
      var (id, rec) := items[0];
      var rest := Sweep(items[1..], today, general, writeFails);
      var d := Decide(rec, today, general);
      DecideCharacterised(rec, today, general);
      if d.Crash? then SweepResult([], None)
      else if d.SetStatus? then
        if id in writeFails then SweepResult([], None)
        else SweepResult([StatusPatch(id, d.status)] + rest.patches,
                         if rest.outcome.Some? then Some(Counts(|items|, 1 + |rest.patches|)) else None)
      else SweepResult(rest.patches, if rest.outcome.Some? then Some(Counts(|items|, |rest.patches|)) else None)
  }

  /** `check_and_update_late_payments` on the snapshot it reads. */
  function CheckAndUpdateLatePayments(snapshot: Snapshot, today: PyDate, general: string -> Option<PyDate>, writeFails: set<string>): (r: SweepResult)
    ensures snapshot.NotDict? ==> r == SweepResult([], Some(Counts(0, 0)))
    ensures snapshot.Dict? && r.outcome.Some? ==> r.outcome.value.checked == |snapshot.items|
    ensures r.outcome.Some? ==> r.outcome.value.updated == |r.patches|
  {
    match snapshot
    case NotDict => SweepResult([], Some(Counts(0, 0)))
    case Dict(items) => Sweep(items, today, general, writeFails)
  }

  /** The ids of the tenants that go back to `active`, in snapshot order. */
  function BackToActiveIds(items: seq<(string, Record)>, general: string -> Option<PyDate>): seq<string> {
    KeysWhere(items, (rec: Record) => BackToActive(rec, general))
  }

  function PatchIds(patches: seq<StatusPatch>): seq<string> {
    if |patches| == 0 then [] else [patches[0].id] + PatchIds(patches[1..])
  }

  /** A sweep that returns wrote exactly one `active` patch per `late`
      tenant with a readable date, and nothing for anyone else, whatever
      today is. */
  lemma {:induction false} SweepPatchesBackToActive(items: seq<(string, Record)>, today: PyDate, general: string -> Option<PyDate>, writeFails: set<string>)
    requires Sweep(items, today, general, writeFails).outcome.Some?
    ensures PatchIds(Sweep(items, today, general, writeFails).patches) == BackToActiveIds(items, general)
  {
    if |items| > 0 {
      DecideCharacterised(items[0].1, today, general);
      SweepPatchesBackToActive(items[1..], today, general, writeFails);
    }
  }

  /** The status a record ends up with after the patches were written: the
      last patch for its id wins. */
  function PatchedStatus(patches: seq<StatusPatch>, id: string): Option<string> {
    if |patches| == 0 then None
    else
      match PatchedStatus(patches[1..], id)
      case Some(st) => Some(st)
      case None => if patches[0].id == id then Some(patches[0].status) else None
  }

  /** The collection after the sweep's patches were written. */
  function ApplyPatches(items: seq<(string, Record)>, patches: seq<StatusPatch>): (r: seq<(string, Record)>)
    ensures |r| == |items|
    ensures forall k :: 0 <= k < |items| ==> r[k].0 == items[k].0
  {
    if |items| == 0 then []
    else
      var (id, rec) := items[0];
      var rec' := match PatchedStatus(patches, id)
                  case Some(st) => rec["status" := Str(st)]
                  case None => rec;
      [(id, rec')] + ApplyPatches(items[1..], patches)
  }

  lemma {:induction false} PatchedStatusActive(patches: seq<StatusPatch>, id: string)
    requires forall k :: 0 <= k < |patches| ==> patches[k].status == Active
    ensures PatchedStatus(patches, id).Some? ==> PatchedStatus(patches, id).value == Active
  {
    if |patches| > 0 {
      PatchedStatusActive(patches[1..], id);
    }
  }

  /** A second sweep over a completely swept collection changes nothing: no
      record is `BackToActive` any more. */
  lemma {:induction false} NoneBackToActiveAfterPatches(items: seq<(string, Record)>, patches: seq<StatusPatch>, today: PyDate, general: string -> Option<PyDate>, writeFails: set<string>)
    requires Sweep(items, today, general, writeFails).outcome.Some?
    requires forall k :: 0 <= k < |patches| ==> patches[k].status == Active
    requires forall k :: 0 <= k < |items| && BackToActive(items[k].1, general) ==> PatchedStatus(patches, items[k].0).Some?
    ensures Sweep(ApplyPatches(items, patches), today, general, {}) == SweepResult([], Some(Counts(|items|, 0)))
  {
    if |items| > 0 {
      var (id, rec) := items[0];
      var applied := ApplyPatches(items, patches);
      assert applied[1..] == ApplyPatches(items[1..], patches);
      DecideCharacterised(rec, today, general);
      PatchedStatusActive(patches, id);
      var rec' := applied[0].1;
      assert Get(rec', "entryDate") == Get(rec, "entryDate");
      assert Get(rec', "paymentMonths") == Get(rec, "paymentMonths");
      assert CycleMonths(rec') == CycleMonths(rec);
      DecideCharacterised(rec', today, general);
      assert !BackToActive(rec', general);
      forall k | 0 <= k < |items[1..]| && BackToActive(items[1..][k].1, general)
        ensures PatchedStatus(patches, items[1..][k].0).Some?
      {
        assert items[1..][k] == items[k + 1];
      }
      NoneBackToActiveAfterPatches(items[1..], patches, today, general, writeFails);
    }
  }

  /** Membership of an id in the patch list means it has a patched status. */
  lemma {:induction false} PatchIdsStatus(patches: seq<StatusPatch>, id: string)
    requires id in PatchIds(patches)
    ensures PatchedStatus(patches, id).Some?
  {
    if patches[0].id != id {
      PatchIdsStatus(patches[1..], id);
    }
  }

  /** Idempotence: once one sweep's patches are written, a second sweep with
      the same reference date patches nobody and reports `updated = 0`. */
  lemma SweepIdempotent(items: seq<(string, Record)>, today: PyDate, general: string -> Option<PyDate>, writeFails: set<string>)
    requires Sweep(items, today, general, writeFails).outcome.Some?
    ensures var first := Sweep(items, today, general, writeFails);
      Sweep(ApplyPatches(items, first.patches), today, general, {}) == SweepResult([], Some(Counts(|items|, 0)))
  {
    var first := Sweep(items, today, general, writeFails);
    SweepPatchesBackToActive(items, today, general, writeFails);
    forall k | 0 <= k < |items| && BackToActive(items[k].1, general)
      ensures PatchedStatus(first.patches, items[k].0).Some?
    {
      KeysWhereMember(items, (rec: Record) => BackToActive(rec, general), k);
      PatchIdsStatus(first.patches, items[k].0);
    }
    NoneBackToActiveAfterPatches(items, first.patches, today, general, writeFails);
  }
}

=== FILE: lists.dfy ===
/** The list idioms the endpoints share: a comprehension filter,
    `sorted(..., key=..., reverse=...)` on `x or ""` keys, and `items[:n]`. */
module Lists {
  import opened Wrappers
  import opened Text
  import opened Values

  /** A dictionary built from `(id, record)` pairs in order, where a
      conversion that raises aborts the whole build and a later id
      replaces an earlier one. Each converted value carries its own id. */
  function KeyedMap<R(!new), T>(items: seq<(string, R)>, f: (string, R) -> Option<T>, key: T -> string): (r: Option<map<string, T>>)
    requires forall id, x :: f(id, x).Some? ==> key(f(id, x).value) == id
    ensures r.Some? <==> forall k :: 0 <= k < |items| ==> f(items[k].0, items[k].1).Some?
    ensures r.Some? ==> forall k :: 0 <= k < |items| ==> items[k].0 in r.value
    ensures r.Some? ==> forall id :: id in r.value ==> key(r.value[id]) == id
    decreases |items|
  {
    if |items| == 0 then Some(map[])
    else
      var init := items[..|items| - 1];
      var last := items[|items| - 1];
      assert forall k :: 0 <= k < |init| ==> init[k] == items[k];
      match (KeyedMap(init, f, key), f(last.0, last.1))
      case (Some(m), Some(x)) => Some(m[last.0 := x])
      case _ => None
  }

  /** A list built from `(id, record)` pairs in order, where a conversion
      that raises aborts the whole build. */
  function MapItems<R, T>(items: seq<(string, R)>, f: (string, R) -> Option<T>): (r: Option<seq<T>>)
    ensures r.Some? <==> forall k :: 0 <= k < |items| ==> f(items[k].0, items[k].1).Some?
    ensures r.Some? ==> |r.value| == |items|
    ensures r.Some? ==> forall k :: 0 <= k < |items| ==> f(items[k].0, items[k].1) == Some(r.value[k])
  {
    if |items| == 0 then Some([])
    else
      assert forall k :: 1 <= k < |items| ==> items[k] == items[1..][k - 1];
      match (f(items[0].0, items[0].1), MapItems(items[1..], f))
      case (Some(x), Some(rest)) => Some([x] + rest)
      case _ => None
  }

  /** `[x for x in s if keep(x)]`: the kept elements, in order. */
  function Filter<T>(s: seq<T>, keep: T -> bool): (r: seq<T>)
    ensures |r| <= |s|
    ensures forall i :: 0 <= i < |r| ==> keep(r[i]) && r[i] in s
    ensures forall i :: 0 <= i < |s| && keep(s[i]) ==> s[i] in r
  {
    if |s| == 0 then []
    else (if keep(s[0]) then [s[0]] else []) + Filter(s[1..], keep)
  }

  /** Keeping everything keeps the list as it is. */
  lemma {:induction false} FilterAll<T>(s: seq<T>, keep: T -> bool)
    requires forall i :: 0 <= i < |s| ==> keep(s[i])
    ensures Filter(s, keep) == s
  {
    if |s| > 0 {
      FilterAll(s[1..], keep);
    }
  }

  /** Filtering twice with the same test is filtering once. */
  lemma {:induction false} FilterIdempotent<T>(s: seq<T>, keep: T -> bool)
    ensures Filter(Filter(s, keep), keep) == Filter(s, keep)
  {
    var r := Filter(s, keep);
    FilterAll(r, keep);
  }

  /** A Python sort key: text, or a number (`True` counts as 1). */
  datatype SortKey = TextKey(s: string) | NumKey(n: int)

  /** `v or ""` as a sort key: an unset or falsy value sorts as "". */
  function OrEmptyKey(v: Value): (k: SortKey)
    ensures !Truthy(v) ==> k == TextKey("")
    ensures v.Str? ==> k == TextKey(v.s)
    ensures Truthy(v) && v.Int? ==> k == NumKey(v.i)
    ensures Truthy(v) && v.Bool? ==> k == NumKey(1)
  {
    match v
    case Null => TextKey("")
    case Bool(b) => if b then NumKey(1) else TextKey("")
    case Int(i) => if i == 0 then TextKey("") else NumKey(i)
    case Str(s) => TextKey(s)
  }

  /** `a <= b` on keys of one kind. Python's `<` between text and a number
      raises `TypeError`; putting numbers first only makes the order total
      for the proofs, since a sort that meets both kinds fails before it
      returns (`MixedKeys`). */
  predicate KeyLe(a: SortKey, b: SortKey) {
    match (a, b)
    case (TextKey(x), TextKey(y)) => StrLe(x, y)
    case (NumKey(x), NumKey(y)) => x <= y
    case (NumKey(_), TextKey(_)) => true
    case (TextKey(_), NumKey(_)) => false
  }

  lemma KeyLeTransitive(a: SortKey, b: SortKey, c: SortKey)
    requires KeyLe(a, b) && KeyLe(b, c)
    ensures KeyLe(a, c)
  {
    if a.TextKey? && b.TextKey? && c.TextKey? && StrLt(a.s, b.s) && StrLt(b.s, c.s) {
      StrLtTransitive(a.s, b.s, c.s);
    }
  }

  lemma KeyLeTotal(a: SortKey, b: SortKey)
    ensures KeyLe(a, b) || KeyLe(b, a)
  {
    if a.TextKey? && b.TextKey? {
      StrLtTotal(a.s, b.s);
    }
  }

  /** Some key of `s` is text and another a number: every comparison sort
      must compare some text key with some number key (two neighbours of
      the result), so Python's sort raises `TypeError`. */
  predicate MixedKeys<T>(s: seq<T>, key: T -> SortKey) {
    exists i, j :: 0 <= i < |s| && 0 <= j < |s| && key(s[i]).TextKey? && key(s[j]).NumKey?
  }

  /** A text key and a number key among the elements make the keys mixed. */
  lemma MixedKeysOf<T>(s: seq<T>, key: T -> SortKey, a: T, b: T)
    requires a in s && b in s && key(a).TextKey? && key(b).NumKey?
    ensures MixedKeys(s, key)
  {
    var i :| 0 <= i < |s| && s[i] == a;
    var j :| 0 <= j < |s| && s[j] == b;
  }

  /** `a` comes no later than `b` in a sort on `key` (descending when
      `reverse`). */
  predicate InOrder<T>(a: T, b: T, key: T -> SortKey, reverse: bool) {
    if reverse then KeyLe(key(b), key(a)) else KeyLe(key(a), key(b))
  }

  predicate SortedBy<T>(s: seq<T>, key: T -> SortKey, reverse: bool) {
    forall i, j :: 0 <= i < j < |s| ==> InOrder(s[i], s[j], key, reverse)
  }

  lemma InOrderTransitive<T>(a: T, b: T, c: T, key: T -> SortKey, reverse: bool)
    requires InOrder(a, b, key, reverse) && InOrder(b, c, key, reverse)
    ensures InOrder(a, c, key, reverse)
  {
    if reverse {
      KeyLeTransitive(key(c), key(b), key(a));
    } else {
      KeyLeTransitive(key(a), key(b), key(c));
    }
  }

  lemma InOrderTotal<T>(a: T, b: T, key: T -> SortKey, reverse: bool)
    ensures InOrder(a, b, key, reverse) || InOrder(b, a, key, reverse)
  {
    KeyLeTotal(key(a), key(b));
  }

  /** Insert `x` in front of the first element it may precede. An element
      already there with an equal key stays behind `x`, so when `x` comes
      from earlier in the input the sort is stable. */
  function Insert<T>(x: T, s: seq<T>, key: T -> SortKey, reverse: bool): (r: seq<T>)
    requires SortedBy(s, key, reverse)
    ensures SortedBy(r, key, reverse)
    ensures multiset(r) == multiset(s) + multiset{x}
    ensures |r| == |s| + 1
  {
    if |s| == 0 then [x]
    else if InOrder(x, s[0], key, reverse) then
      var r := [x] + s;
      forall j | 1 <= j < |r|
        ensures InOrder(x, r[j], key, reverse)
      {
        if j > 1 {
          InOrderTransitive(x, s[0], s[j - 1], key, reverse);
        }
      }
      r
    else
      InOrderTotal(x, s[0], key, reverse);
      var tail := Insert(x, s[1..], key, reverse);
      var r := [s[0]] + tail;
      forall j | 0 <= j < |tail|
        ensures InOrder(s[0], tail[j], key, reverse)
      {
        assert tail[j] in multiset(tail);
        if tail[j] != x {
          assert tail[j] in multiset(s[1..]);
          var i :| 0 <= i < |s[1..]| && s[1..][i] == tail[j];
          assert s[i + 1] == tail[j];
        }
      }
      assert s == [s[0]] + s[1..];
      r
  }

  /** `sorted(s, key=key, reverse=reverse)`: a permutation of `s` in order
      of the keys. */
  function SortBy<T>(s: seq<T>, key: T -> SortKey, reverse: bool): (r: seq<T>)
    ensures SortedBy(r, key, reverse)
    ensures multiset(r) == multiset(s)
    ensures |r| == |s|
  {
    if |s| == 0 then []
    else
      assert s == [s[0]] + s[1..];
      Insert(s[0], SortBy(s[1..], key, reverse), key, reverse)
  }

  /** A sorted list starts with an extreme element: the first key is no
      later than any key of the input. */
  lemma SortByFirst<T>(s: seq<T>, key: T -> SortKey, reverse: bool, i: nat)
    requires i < |s|
    ensures InOrder(SortBy(s, key, reverse)[0], s[i], key, reverse)
  {
    var r := SortBy(s, key, reverse);
    assert s[i] in multiset(r) by {
      assert s[i] in multiset(s);
    }
    var j :| 0 <= j < |r| && r[j] == s[i];
  }

  /** The keys of the pairs whose value passes the test, in order. */
  function KeysWhere<T>(items: seq<(string, T)>, keep: T -> bool): seq<string> {
    if |items| == 0 then []
    else (if keep(items[0].1) then [items[0].0] else []) + KeysWhere(items[1..], keep)
  }

  /** The key of every pair that passes the test is listed. */
  lemma {:induction false} KeysWhereMember<T>(items: seq<(string, T)>, keep: T -> bool, k: nat)
    requires k < |items| && keep(items[k].1)
    ensures items[k].0 in KeysWhere(items, keep)
  {
    if k > 0 {
      assert items[1..][k - 1] == items[k];
      KeysWhereMember(items[1..], keep, k - 1);
    }
  }

  /** The ids of the elements that pass the test, in order. */
  function IdsWhere<T>(s: seq<T>, pick: T -> bool, id: T -> string): seq<string> {
    if |s| == 0 then []
    else (if pick(s[0]) then [id(s[0])] else []) + IdsWhere(s[1..], pick, id)
  }

  /** Every listed id belongs to an element that passes the test. */
  lemma {:induction false} IdsWhereFrom<T>(s: seq<T>, pick: T -> bool, id: T -> string, x: string)
    requires x in IdsWhere(s, pick, id)
    ensures exists k :: 0 <= k < |s| && id(s[k]) == x && pick(s[k])
  {
    if |s| > 0 {
      if !(pick(s[0]) && id(s[0]) == x) {
        IdsWhereFrom(s[1..], pick, id, x);
        var k :| 0 <= k < |s[1..]| && id(s[1..][k]) == x && pick(s[1..][k]);
        assert s[k + 1] == s[1..][k];
      }
    }
  }

  /** A loop that sends to each element passing the test and stops at the
      first one whose id is in `fails`: the ids sent, and whether the loop
      ran to its end. */
  function SendUntil<T>(s: seq<T>, pick: T -> bool, id: T -> string, fails: set<string>): (r: (seq<string>, bool)) {
    if |s| == 0 then ([], true)
    else if !pick(s[0]) then SendUntil(s[1..], pick, id, fails)
    else if id(s[0]) in fails then ([], false)
    else
      var rest := SendUntil(s[1..], pick, id, fails);
      ([id(s[0])] + rest.0, rest.1)
  }

  /** A loop that ends sends to exactly the picked elements, in order; one
      that stops early sends to a prefix of them; and with no failing id the
      loop always ends. */
  lemma {:induction false} SendUntilPicked<T>(s: seq<T>, pick: T -> bool, id: T -> string, fails: set<string>)
    ensures var (sent, done) := SendUntil(s, pick, id, fails);
      && (done ==> sent == IdsWhere(s, pick, id))
      && sent <= IdsWhere(s, pick, id)
    ensures (forall k :: 0 <= k < |s| ==> id(s[k]) !in fails) ==> SendUntil(s, pick, id, fails).1
  {
    if |s| > 0 {
      SendUntilPicked(s[1..], pick, id, fails);
      if forall k :: 0 <= k < |s| ==> id(s[k]) !in fails {
        assert forall k :: 0 <= k < |s[1..]| ==> s[1..][k] == s[k + 1];
      }
    }
  }

  /** `s[:n]`. */
  function Take<T>(s: seq<T>, n: nat): (r: seq<T>)
    ensures |r| == if n <= |s| then n else |s|
    ensures r <= s
  {
    if n <= |s| then s[..n] else s
  }

  /** Taking at least as many as there are takes them all. */
  lemma TakeAll<T>(s: seq<T>, n: nat)
    ensures n >= |s| ==> Take(s, n) == s
  {
    if n == |s| {
      assert s[..n] == s;
    }
  }

  /** How many elements pass the test. */
  function Count<T>(s: seq<T>, p: T -> bool): (n: nat)
    ensures n <= |s|
    ensures n == |Filter(s, p)|
  {
    if |s| == 0 then 0 else (if p(s[0]) then 1 else 0) + Count(s[1..], p)
  }

  /** `[f(x) for x in s]` where `f` may raise: the first failure fails the
      whole list. */
  function MapResults<T, U>(s: seq<T>, f: T -> Result<U>): (r: Result<seq<U>>)
    ensures r.Ok? <==> forall k :: 0 <= k < |s| ==> f(s[k]).Ok?
    ensures r.Ok? ==> |r.value| == |s|
    ensures r.Ok? ==> forall k :: 0 <= k < |s| ==> f(s[k]) == Ok(r.value[k])
    ensures r.Fail? ==> exists k :: 0 <= k < |s| && f(s[k]) == Fail(r.status)
  {
    if |s| == 0 then Ok([])
    else
      match f(s[0])
      case Fail(e) => Fail(e)
      case Ok(one) =>
        match MapResults(s[1..], f)
        case Fail(e) =>
          var j :| 0 <= j < |s[1..]| && f(s[1..][j]) == Fail(e);
          assert s[j + 1] == s[1..][j];
          Fail(e)
        case Ok(rest) =>
          assert forall k :: 1 <= k < |s| ==> s[k] == s[1..][k - 1];
          Ok([one] + rest)
  }

  /** Each value of a successful `MapResults` comes from an element. */
  lemma MapResultsSource<T, U>(s: seq<T>, f: T -> Result<U>, x: U) returns (t: T)
    requires MapResults(s, f).Ok? && x in MapResults(s, f).value
    ensures t in s && f(t) == Ok(x)
  {
    var r := MapResults(s, f).value;
    var k :| 0 <= k < |r| && r[k] == x;
    t := s[k];
  }

  /** Each element of a successful `MapResults` has its value in the list. */
  lemma MapResultsHit<T, U>(s: seq<T>, f: T -> Result<U>, t: T) returns (x: U)
    requires MapResults(s, f).Ok? && t in s
    ensures x in MapResults(s, f).value && f(t) == Ok(x)
  {
    var r := MapResults(s, f).value;
    var k :| 0 <= k < |s| && s[k] == t;
    x := r[k];
  }

  /** A prefix of a sorted list is sorted. */
  lemma TakeSorted<T>(s: seq<T>, key: T -> SortKey, reverse: bool, n: nat)
    requires SortedBy(s, key, reverse)
    ensures SortedBy(Take(s, n), key, reverse)
  {
    var r := Take(s, n);
    forall i, j | 0 <= i < j < |r|
      ensures InOrder(r[i], r[j], key, reverse)
    {
      assert r[i] == s[i] && r[j] == s[j];
    }
  }

  /** What a sort returns comes from its input. */
  lemma SortMembers<T>(s: seq<T>, key: T -> SortKey, reverse: bool, n: nat)
    ensures forall k :: 0 <= k < |Take(SortBy(s, key, reverse), n)| ==> Take(SortBy(s, key, reverse), n)[k] in s
  {
    var sorted := SortBy(s, key, reverse);
    var r := Take(sorted, n);
    forall k | 0 <= k < |r|
      ensures r[k] in s
    {
      assert r[k] == sorted[k];
      assert sorted[k] in multiset(s);
    }
  }
  /** `sorted(s, key=key, reverse=reverse)[:n]`: as many of the elements as
      fit, in order, and none left out comes before one returned. */
  function TopBy<T>(s: seq<T>, key: T -> SortKey, reverse: bool, n: nat): (r: seq<T>)
    ensures |r| == Min(n, |s|)
    ensures SortedBy(r, key, reverse)
    ensures multiset(r) <= multiset(s)
    ensures forall x :: x in multiset(s) - multiset(r) ==> forall k :: 0 <= k < |r| ==> InOrder(r[k], x, key, reverse)
    ensures n >= |s| ==> multiset(r) == multiset(s)
  {
    var sorted := SortBy(s, key, reverse);
    TakeSorted(sorted, key, reverse, n);
    TakeAll(sorted, n);
    TopLeftOut(sorted, key, reverse, n);
    Take(sorted, n)
  }

  /** `sorted(s, key=key, reverse=reverse)[:n]` as Python runs it: the
      `TypeError` of comparing text with a number is a 500. */
  function PyTopBy<T>(s: seq<T>, key: T -> SortKey, reverse: bool, n: nat): (r: Result<seq<T>>)
    ensures r.Fail? <==> MixedKeys(s, key)
    ensures r.Fail? ==> r.status == ServerError
    ensures r.Ok? ==> r.value == TopBy(s, key, reverse, n)
    ensures r.Ok? ==> forall k :: 0 <= k < |r.value| ==> r.value[k] in s
  {
    if MixedKeys(s, key) then Fail(ServerError)
    else
      var top := TopBy(s, key, reverse, n);
      assert forall k :: 0 <= k < |top| ==> top[k] in s by {
        forall k | 0 <= k < |top|
          ensures top[k] in s
        {
          assert top[k] in multiset(s);
        }
      }
      Ok(top)
  }

  /** In a sorted list, what a prefix leaves out comes after all of it. */
  lemma TopLeftOut<T>(sorted: seq<T>, key: T -> SortKey, reverse: bool, n: nat)
    requires SortedBy(sorted, key, reverse)
    ensures multiset(Take(sorted, n)) <= multiset(sorted)
    ensures forall x :: x in multiset(sorted) - multiset(Take(sorted, n)) ==>
      forall k :: 0 <= k < |Take(sorted, n)| ==> InOrder(Take(sorted, n)[k], x, key, reverse)
  {
    var r := Take(sorted, n);
    var rest := sorted[|r|..];
    assert sorted == r + rest;
    assert multiset(sorted) == multiset(r) + multiset(rest);
    forall x | x in multiset(sorted) - multiset(r)
      ensures forall k :: 0 <= k < |r| ==> InOrder(r[k], x, key, reverse)
    {
      assert x in multiset(rest);
      var j :| 0 <= j < |rest| && rest[j] == x;
      assert sorted[|r| + j] == x;
      forall k | 0 <= k < |r|
        ensures InOrder(r[k], x, key, reverse)
      {
        assert r[k] == sorted[k];
      }
    }
  }

  /** A larger cap only adds elements at the end. */
  lemma TopByPrefix<T>(s: seq<T>, key: T -> SortKey, reverse: bool, n: nat, m: nat)
    requires n <= m
    ensures TopBy(s, key, reverse, n) <= TopBy(s, key, reverse, m)
  {
    var sorted := SortBy(s, key, reverse);
    assert TopBy(s, key, reverse, n) == Take(sorted, n);
    assert TopBy(s, key, reverse, m) == Take(sorted, m);
  }

  /** Mapping a prefix succeeds when mapping the whole list does, and gives
      a prefix of its values. */
  lemma MapResultsPrefix<T, U>(s: seq<T>, t: seq<T>, f: T -> Result<U>)
    requires s <= t && MapResults(t, f).Ok?
    ensures MapResults(s, f).Ok? && MapResults(s, f).value <= MapResults(t, f).value
  {
    assert forall k :: 0 <= k < |s| ==> s[k] == t[k];
    var a, b := MapResults(s, f).value, MapResults(t, f).value;
    assert forall k :: 0 <= k < |s| ==> f(s[k]) == Ok(a[k]) && f(t[k]) == Ok(b[k]);
  }
}

=== FILE: mailer.dfy ===
/** The decisions `send_mail` (`app/core/email_utils.py`) takes before it
    talks to the SMTP server: the guards, the recipient list, the headers,
    the HTML part and the TLS mode. The SMTP session itself is not
    modelled. */
module Mailer {
  import opened Wrappers
  import opened Text
  import opened Settings
  import opened Html

  /** The `to` argument: one address, or a list, tuple or set of them (a
      set is taken in some iteration order). */
  datatype Recipients = Single(address: string) | Collection(addresses: seq<string>)

  function RecipientList(to: Recipients): (r: seq<string>)
    ensures to.Single? ==> r == [to.address]
    ensures to.Collection? ==> r == to.addresses
  {
    match to
    case Single(a) => [a]
    case Collection(xs) => xs
  }

  /** Every string of `xs` with a space in front. */
  function Spaced(xs: seq<string>): (r: seq<string>)
    ensures |r| == |xs|
    ensures forall k :: 0 <= k < |xs| ==> r[k] == " " + xs[k]
  {
    seq(|xs|, k requires 0 <= k < |xs| => " " + xs[k])
  }

  /** `", ".join(xs)`: a comma join in which every address after the first
      keeps the space that follows the comma. */
  function JoinAddresses(xs: seq<string>): string {
    if |xs| == 0 then "" else Join([xs[0]] + Spaced(xs[1..]), ',')
  }

  /** The message and the connection `send_mail` sets up. */
  datatype Envelope = Envelope(
    sender: string, to: string, subject: string, replyTo: Option<string>,
    text: string, html: string, useTls: bool, startTls: bool, login: bool)

  const FallbackSender: string := "no-reply@locatus.local"

  /** `send_mail` up to the SMTP session: 503 when no SMTP host is set, 400
      for an empty collection of recipients, otherwise the message and the
      connection mode. */
  function SendMail(s: Settings, to: Recipients, subject: string, text: string,
                    html: Option<string>, replyTo: Option<string>): (r: Result<Envelope>)
    ensures r.Fail? <==> !MailerConfigured(s) || RecipientList(to) == []
    ensures !MailerConfigured(s) ==> r == Fail(Unavailable)
    ensures MailerConfigured(s) && RecipientList(to) == [] ==> r == Fail(BadRequest)
    ensures r.Ok? ==> r.value.sender != ""
    ensures r.Ok? && Present(s.mailFrom) ==> r.value.sender == s.mailFrom.value
    ensures r.Ok? && !Present(s.mailFrom) && Present(s.smtpUser) ==> r.value.sender == s.smtpUser.value
    ensures r.Ok? && !Present(s.mailFrom) && !Present(s.smtpUser) ==> r.value.sender == FallbackSender
    ensures r.Ok? ==> r.value.to == JoinAddresses(RecipientList(to)) && r.value.subject == subject && r.value.text == text
    ensures r.Ok? ==> (r.value.replyTo.Some? <==> Present(replyTo) || Present(s.mailReplyTo))
    ensures r.Ok? && Present(replyTo) ==> r.value.replyTo == replyTo
    ensures r.Ok? && !Present(replyTo) && Present(s.mailReplyTo) ==> r.value.replyTo == s.mailReplyTo
    ensures r.Ok? && Present(html) ==> r.value.html == html.value
    ensures r.Ok? && !Present(html) ==> '\n' !in r.value.html && Unescape(r.value.html, true) == text
    ensures r.Ok? ==> r.value.startTls == !r.value.useTls
    ensures r.Ok? && s.smtpSecure.Some? ==> r.value.useTls == s.smtpSecure.value
    ensures r.Ok? && s.smtpSecure.None? ==> (r.value.useTls <==> s.smtpPort == 465)
    ensures r.Ok? ==> (r.value.login <==> Present(s.smtpUser) && Present(s.smtpPassword))
  {
    if !MailerConfigured(s) then Fail(Unavailable)
    else if RecipientList(to) == [] then Fail(BadRequest)
    else
      var sender := if Present(s.mailFrom) then s.mailFrom.value
                    else if Present(s.smtpUser) then s.smtpUser.value
                    else FallbackSender;
      var reply := if Present(replyTo) then replyTo
                   else if Present(s.mailReplyTo) then s.mailReplyTo
                   else None;
      FormatHtmlFromTextSafe(text);
      var body := if Present(html) then html.value else FormatHtmlFromText(text);
      var useTls := if s.smtpSecure.Some? then s.smtpSecure.value else s.smtpPort == 465;
      Ok(Envelope(sender, JoinAddresses(RecipientList(to)), subject, reply, text, body,
                  useTls, !useTls, Present(s.smtpUser) && Present(s.smtpPassword)))
  }

  /** Read back: the `To` header, cut at the commas, gives the addresses
      (every one after the first with its leading space), when none holds
      a comma. */
  lemma {:induction false} AddressesReadBack(xs: seq<string>)
    requires |xs| >= 1
    requires forall k :: 0 <= k < |xs| ==> ',' !in xs[k]
    ensures SplitOn(JoinAddresses(xs), ',') == [xs[0]] + Spaced(xs[1..])
  {
    var parts := [xs[0]] + Spaced(xs[1..]);
    forall k | 0 <= k < |parts|
      ensures ',' !in parts[k]
    {
      if k > 0 {
        assert parts[k] == [' '] + xs[k];
      }
    }
    SplitJoinRoundTrip(parts, ',');
  }

  /** A single address is never rejected, not even the empty one: the 400
      only guards an empty collection. */
  lemma EmptyAddressAccepted(s: Settings, subject: string, text: string)
    requires MailerConfigured(s)
    ensures SendMail(s, Single(""), subject, text, None, None).Ok?
    ensures SendMail(s, Single(""), subject, text, None, None).value.to == ""
    ensures SendMail(s, Collection([]), subject, text, None, None) == Fail(BadRequest)
  {
    assert JoinAddresses([""]) == Join([""], ',');
  }
}

=== FILE: messages_api.dfy ===
/** The messages endpoints (`app/api/messages.py`): the HTML mail builder,
    the message list, the batch send and the single message log. Storage
    and the mail transport are parameters: the snapshot read, and the sets
    of tenant ids whose mail or whose log write fails. */
module MessagesApi {
  import opened Wrappers
  import opened Text
  import opened Values
  import opened Settings
  import opened Lists
  import opened Template
  import opened Html
  import opened ReminderService

  // ---- the link pattern ----

  /** The body cleaner's pattern as written, `https?://\\S+` in a raw
      string (a scheme, a literal backslash, then capital `S`s), or as
      evidently intended, `https?://\S+` (a scheme, then non-blanks), which
      is the pattern the send loop uses to find the call-to-action link. */
  datatype LinkPattern = AsWritten | Intended

  /** The length of `https?://` at the start of `t`, or 0. */
  function SchemeLength(t: string): (n: nat)
    ensures n == 0 || n == 7 || n == 8
    ensures n <= |t|
    ensures n > 0 ==> t[0] == 'h' && t[n - 1] == '/'
    ensures forall i :: 0 <= i < n ==> !IsSpace(t[i])
  {
    if StartsWith(t, "https://") then 8 else if StartsWith(t, "http://") then 7 else 0
  }

  /** How many non-blank characters `s` starts with: the greedy `\S+`. */
  function NonBlankRun(s: string): (n: nat)
    ensures n <= |s|
    ensures forall i :: 0 <= i < n ==> !IsSpace(s[i])
    ensures n == |s| || IsSpace(s[n])
  {
    if |s| > 0 && !IsSpace(s[0]) then 1 + NonBlankRun(s[1..]) else 0
  }

  /** How many copies of `c` `s` starts with. */
  function RunOf(s: string, c: char): (n: nat)
    ensures n <= |s|
    ensures forall i :: 0 <= i < n ==> s[i] == c
  {
    if |s| > 0 && s[0] == c then 1 + RunOf(s[1..], c) else 0
  }

  /** The length of the (greedy, hence longest) match of the pattern at the
      start of `t`, or 0 when it does not match there. */
  function MatchLength(p: LinkPattern, t: string): (n: nat)
    ensures n <= |t|
    ensures n > 0 ==> SchemeLength(t) > 0 && n > SchemeLength(t)
    ensures n > 0 && p.AsWritten? ==> t[SchemeLength(t)] == '\\'
    ensures n > 0 && p.Intended? ==> (forall i :: 0 <= i < n ==> !IsSpace(t[i]))
    ensures n > 0 && p.Intended? ==> n == |t| || IsSpace(t[n])
  {
    var k := SchemeLength(t);
    if k == 0 then 0
    else
      match p
      case Intended =>
        var run := NonBlankRun(t[k..]);
        NonBlankAfter(t, k, run);
        if run == 0 then 0 else k + run
      case AsWritten =>
        if |t| > k && t[k] == '\\' then
          var run := RunOf(t[k + 1..], 'S');
          if run == 0 then 0 else k + 1 + run
        else 0
  }

  /** A non-blank run that follows a non-blank prefix extends it. */
  lemma NonBlankAfter(t: string, k: nat, run: nat)
    requires k + run <= |t|
    requires forall i :: 0 <= i < k ==> !IsSpace(t[i])
    requires forall i :: 0 <= i < run ==> !IsSpace(t[k..][i])
    requires run == |t[k..]| || IsSpace(t[k..][run])
    ensures forall i :: 0 <= i < k + run ==> !IsSpace(t[i])
    ensures k + run == |t| || IsSpace(t[k + run])
  {
    assert forall i :: k <= i < k + run ==> t[i] == t[k..][i - k];
  }

  /** `re.sub(pattern, "", s)`: scan left to right, drop each match and go
      on after it. */
  function StripLinks(p: LinkPattern, s: string): (r: string)
    ensures |r| <= |s|
    decreases |s|
  {
    if |s| == 0 then ""
    else if s[0] != 'h' then [s[0]] + StripLinks(p, s[1..])
    else
      var n := MatchLength(p, s);
      if n > 0 then StripLinks(p, s[n..]) else [s[0]] + StripLinks(p, s[1..])
  }

  /** The pattern matches nowhere in `s`. */
  predicate NoLink(p: LinkPattern, s: string) {
    forall i :: 0 <= i < |s| ==> MatchLength(p, s[i..]) == 0
  }

  /** Text in which the pattern matches nowhere comes back unchanged. */
  lemma {:induction false} StripLinksUnchanged(p: LinkPattern, s: string)
    requires NoLink(p, s)
    ensures StripLinks(p, s) == s
    decreases |s|
  {
    if |s| > 0 {
      assert MatchLength(p, s[0..]) == 0 && s[0..] == s;
      forall i | 0 <= i < |s[1..]|
        ensures MatchLength(p, s[1..][i..]) == 0
      {
        assert s[1..][i..] == s[i + 1..];
      }
      StripLinksUnchanged(p, s[1..]);
    }
  }

  /** Text in which the pattern matches somewhere comes back shorter. */
  lemma {:induction false} StripLinksShortens(p: LinkPattern, s: string, i: nat)
    requires i < |s| && MatchLength(p, s[i..]) > 0
    ensures |StripLinks(p, s)| < |s|
    decreases |s|
  {
    if MatchLength(p, s) == 0 {
      assert s[0..] == s;
      assert s[1..][i - 1..] == s[i..];
      StripLinksShortens(p, s[1..], i - 1);
    }
  }

  /** So the cleaner changes the text exactly when the pattern occurs. */
  lemma StripLinksChangesIff(p: LinkPattern, s: string)
    ensures StripLinks(p, s) == s <==> NoLink(p, s)
  {
    if NoLink(p, s) {
      StripLinksUnchanged(p, s);
    } else {
      var i :| 0 <= i < |s| && MatchLength(p, s[i..]) > 0;
      StripLinksShortens(p, s, i);
    }
  }

  /** Text without an `h` is copied in front of what follows. */
  lemma {:induction false} StripLinksPlainPrefix(p: LinkPattern, a: string, t: string)
    requires 'h' !in a
    ensures StripLinks(p, a + t) == a + StripLinks(p, t)
    decreases |a|
  {
    if |a| > 0 {
      StripLinksPlainStep(p, a + t);
      assert (a + t)[1..] == a[1..] + t;
      StripLinksPlainPrefix(p, a[1..], t);
      ConsConcat(a, StripLinks(p, t));
    } else {
      assert a + t == t;
    }
  }

  /** A first character other than `h` is kept as it is. */
  lemma StripLinksPlainStep(p: LinkPattern, s: string)
    requires |s| > 0 && s[0] != 'h'
    ensures StripLinks(p, s) == [s[0]] + StripLinks(p, s[1..])
  {
    assert MatchLength(p, s) == 0;
  }

  /** A non-blank run of text after either scheme, up to a blank or the
      end, is dropped whole by the intended pattern. */
  lemma LinkRemoved(scheme: string, u: string, rest: string)
    requires scheme == "http://" || scheme == "https://"
    requires |u| >= 1 && forall i :: 0 <= i < |u| ==> !IsSpace(u[i])
    requires |rest| == 0 || IsSpace(rest[0])
    ensures StripLinks(Intended, scheme + u + rest) == StripLinks(Intended, rest)
  {
    var s := scheme + u + rest;
    assert s[..|scheme|] == scheme;
    if scheme == "http://" {
      assert s[..8] != "https://" by {
        assert s[4] == ':';
      }
    }
    assert SchemeLength(s) == |scheme|;
    var tail := s[|scheme|..];
    assert tail == u + rest;
    assert NonBlankRun(tail) == |u| by {
      NonBlankRunOf(u, rest);
    }
    assert s[|scheme| + |u|..] == rest;
  }

  lemma {:induction false} NonBlankRunOf(u: string, rest: string)
    requires forall i :: 0 <= i < |u| ==> !IsSpace(u[i])
    requires |rest| == 0 || IsSpace(rest[0])
    ensures NonBlankRun(u + rest) == |u|
    decreases |u|
  {
    if |u| > 0 {
      assert (u + rest)[1..] == u[1..] + rest;
      NonBlankRunOf(u[1..], rest);
    } else {
      assert u + rest == rest;
    }
  }

  /** The pattern as written needs a backslash, so text without one is never
      changed by it. */
  lemma NoBackslashUnchanged(s: string)
    requires '\\' !in s
    ensures StripLinks(AsWritten, s) == s
  {
    forall i | 0 <= i < |s|
      ensures MatchLength(AsWritten, s[i..]) == 0
    {
      var t := s[i..];
      if SchemeLength(t) < |t| {
        assert t[SchemeLength(t)] == s[i + SchemeLength(t)];
      }
    }
    StripLinksUnchanged(AsWritten, s);
  }

  /** An ordinary link such as `https://locatus.app/pay` after a greeting:
      the cleaner as written keeps it. */
  lemma LinkKeptAsWritten(greeting: string, u: string)
    requires '\\' !in greeting && '\\' !in u
    ensures StripLinks(AsWritten, greeting + "https://" + u) == greeting + "https://" + u
  {
    var body := greeting + "https://" + u;
    assert '\\' !in "https://";
    assert '\\' !in body;
    NoBackslashUnchanged(body);
  }

  /** The intended pattern removes the same link and keeps the greeting. */
  lemma LinkRemovedAfterGreeting(greeting: string, u: string)
    requires 'h' !in greeting
    requires |u| >= 1 && forall i :: 0 <= i < |u| ==> !IsSpace(u[i])
    ensures StripLinks(Intended, greeting + "https://" + u) == greeting
  {
    var link := "https://" + u;
    LinkAloneRemoved(u);
    StripLinksPlainPrefix(Intended, greeting, link);
    ConcatAssoc(greeting, "https://", u);
    assert greeting + "" == greeting;
  }

  /** A body that is nothing but a link becomes empty. */
  lemma LinkAloneRemoved(u: string)
    requires |u| >= 1 && forall i :: 0 <= i < |u| ==> !IsSpace(u[i])
    ensures StripLinks(Intended, "https://" + u) == ""
  {
    assert "https://" + u + "" == "https://" + u;
    LinkRemoved("https://", u, "");
  }

  /** `re.search(r"https?://\S+", body)`: the leftmost link, whole. */
  function FirstLink(s: string): (r: Option<string>)
    ensures r.Some? ==> |r.value| > 0 && r.value[0] == 'h'
    ensures r.Some? ==> forall i :: 0 <= i < |r.value| ==> !IsSpace(r.value[i])
    decreases |s|
  {
    if |s| == 0 then None
    else
      var n := MatchLength(Intended, s);
      if n > 0 then Some(s[..n]) else FirstLink(s[1..])
  }

  /** There is a link to call to action exactly when the body cleaner has
      one to remove. */
  lemma {:induction false} FirstLinkIff(s: string)
    ensures FirstLink(s).None? <==> NoLink(Intended, s)
    decreases |s|
  {
    if |s| > 0 {
      FirstLinkIff(s[1..]);
      assert s[0..] == s;
      forall i | 0 <= i < |s[1..]|
        ensures s[1..][i..] == s[i + 1..]
      {
      }
      if MatchLength(Intended, s) == 0 {
        assert NoLink(Intended, s) <==> NoLink(Intended, s[1..]) by {
          if NoLink(Intended, s[1..]) {
            forall i | 0 <= i < |s|
              ensures MatchLength(Intended, s[i..]) == 0
            {
              if i > 0 {
                assert s[i..] == s[1..][i - 1..];
              }
            }
          }
        }
      }
    }
  }

  // ---- build_html_email ----

  /** The parts of the mail that depend on its inputs; the surrounding
      markup is fixed text and is not modelled. */
  datatype EmailParts = EmailParts(nameLine: string, safeBody: string, ctaUrl: Option<string>)

  /** `build_html_email(body, recipient_name, cta_url)` with the link
      pattern `p`. */
  function BuildHtmlEmail(p: LinkPattern, body: string, recipientName: Value, ctaUrl: Option<string>): (r: EmailParts)
    ensures r.ctaUrl.Some? <==> ctaUrl.Some? && ctaUrl.value != ""
    ensures r.ctaUrl.Some? ==> r.ctaUrl == ctaUrl
    ensures r.nameLine == "" <==> !Truthy(recipientName)
    ensures Truthy(recipientName) ==> r.nameLine == "Bonjour " + PyStr(recipientName) + ","
    ensures '\n' !in r.safeBody
    ensures Unescape(r.safeBody, false) == Strip(StripLinks(p, body))
  {
    var cleaned := Strip(StripLinks(p, body));
    ReplaceChainEscapes(cleaned);
    EscapeRoundTrip(cleaned, false);
    EmailParts(
      if Truthy(recipientName) then "Bonjour " + PyStr(recipientName) + "," else "",
      ReplaceChain(cleaned),
      if ctaUrl.Some? && ctaUrl.value != "" then ctaUrl else None)
  }

  // ---- list_messages ----

  /** `{"id": message_id, **(value or {})}`: a stored `id` field wins. */
  function WithId(id: string, rec: Record): (m: Record)
    ensures "id" in m
    ensures "id" in rec ==> m["id"] == rec["id"]
    ensures "id" !in rec ==> m["id"] == Str(id)
    ensures forall k :: k in rec ==> k in m && m[k] == rec[k]
    ensures m.Keys == rec.Keys + {"id"}
  {
    map["id" := Str(id)] + rec
  }

  function WithIds(items: seq<(string, Record)>): (r: seq<Record>)
    ensures |r| == |items|
    ensures forall k :: 0 <= k < |items| ==> r[k] == WithId(items[k].0, items[k].1)
  {
    seq(|items|, k requires 0 <= k < |items| => WithId(items[k].0, items[k].1))
  }

  /** `m.get("sentAt") or ""`, the sort key of the list. */
  function SentKey(m: Record): SortKey {
    OrEmptyKey(Get(m, "sentAt"))
  }

  /** The two optional filters of the list. */
  predicate Kept(m: Record, ownerId: Option<string>, tenantId: Option<string>) {
    && (Present(ownerId) ==> Get(m, "ownerId") == Str(ownerId.value))
    && (Present(tenantId) ==> Get(m, "tenantId") == Str(tenantId.value))
  }

  /** The messages the filters keep, in snapshot order. */
  function KeptMessages(snapshot: Snapshot, ownerId: Option<string>, tenantId: Option<string>): (r: seq<Record>)
    ensures snapshot.NotDict? ==> r == []
    ensures forall k :: 0 <= k < |r| ==> Kept(r[k], ownerId, tenantId)
    ensures snapshot.Dict? ==> forall k :: 0 <= k < |r| ==> r[k] in WithIds(snapshot.items)
    ensures snapshot.Dict? ==> forall m :: m in WithIds(snapshot.items) && Kept(m, ownerId, tenantId) ==> m in r
  {
    if snapshot.NotDict? then []
    else
      var messages := WithIds(snapshot.items);
      var byOwner := if Present(ownerId) then Filter(messages, (m: Record) => Get(m, "ownerId") == Str(ownerId.value)) else messages;
      if Present(tenantId) then Filter(byOwner, (m: Record) => Get(m, "tenantId") == Str(tenantId.value)) else byOwner
  }

  /** `list_messages`: the `max(1, min(100, limit))` newest kept messages
      by `sentAt`, newest first; all of them when they fit. No message left
      out is newer than one returned. A 500 when the kept messages mix text
      time stamps with numeric ones, which Python's sort cannot compare. */
  function ListMessages(snapshot: Snapshot, ownerId: Option<string>, tenantId: Option<string>, limit: int): (r: Result<seq<Record>>)
    ensures r.Fail? <==> MixedKeys(KeptMessages(snapshot, ownerId, tenantId), SentKey)
    ensures r.Fail? ==> r.status == ServerError
    ensures r.Ok? ==> |r.value| == Min(Clamp(limit, 1, 100), |KeptMessages(snapshot, ownerId, tenantId)|)
    ensures r.Ok? ==> forall k :: 0 <= k < |r.value| ==> Kept(r.value[k], ownerId, tenantId)
    ensures r.Ok? ==> multiset(r.value) <= multiset(KeptMessages(snapshot, ownerId, tenantId))
    ensures r.Ok? ==> SortedBy(r.value, SentKey, true)
    ensures r.Ok? ==> forall m :: m in multiset(KeptMessages(snapshot, ownerId, tenantId)) - multiset(r.value) ==>
      forall k :: 0 <= k < |r.value| ==> KeyLe(SentKey(m), SentKey(r.value[k]))
    ensures r.Ok? && |KeptMessages(snapshot, ownerId, tenantId)| <= Clamp(limit, 1, 100)
            ==> multiset(r.value) == multiset(KeptMessages(snapshot, ownerId, tenantId))
  {
    var kept := KeptMessages(snapshot, ownerId, tenantId);
    PyTopBy(kept, SentKey, true, Clamp(limit, 1, 100))
  }

  /** Two kept messages, one stamped with text and one with a non-zero
      number, make the list a 500 whatever the limit. */
  lemma ListMessagesFailsOnMixedStamps(snapshot: Snapshot, ownerId: Option<string>, tenantId: Option<string>, limit: int, i: nat, j: nat)
    requires snapshot.Dict? && i < |snapshot.items| && j < |snapshot.items|
    requires Kept(WithId(snapshot.items[i].0, snapshot.items[i].1), ownerId, tenantId)
    requires Kept(WithId(snapshot.items[j].0, snapshot.items[j].1), ownerId, tenantId)
    requires Get(snapshot.items[i].1, "sentAt").Str?
    requires Get(snapshot.items[j].1, "sentAt").Int? && Get(snapshot.items[j].1, "sentAt").i != 0
    ensures ListMessages(snapshot, ownerId, tenantId, limit) == Fail(ServerError)
  {
    var a := WithId(snapshot.items[i].0, snapshot.items[i].1);
    var b := WithId(snapshot.items[j].0, snapshot.items[j].1);
    assert WithIds(snapshot.items)[i] == a && WithIds(snapshot.items)[j] == b;
    assert Get(a, "sentAt") == Get(snapshot.items[i].1, "sentAt");
    assert Get(b, "sentAt") == Get(snapshot.items[j].1, "sentAt");
    MixedKeysOf(KeptMessages(snapshot, ownerId, tenantId), SentKey, a, b);
  }

  /** When every stored `sentAt` is text or unset, the list never fails. */
  lemma ListMessagesTextStamps(snapshot: Snapshot, ownerId: Option<string>, tenantId: Option<string>, limit: int)
    requires snapshot.Dict? ==> forall k :: 0 <= k < |snapshot.items| ==>
      Get(snapshot.items[k].1, "sentAt").Str? || Get(snapshot.items[k].1, "sentAt").Null?
    ensures ListMessages(snapshot, ownerId, tenantId, limit).Ok?
  {
    var kept := KeptMessages(snapshot, ownerId, tenantId);
    forall j | 0 <= j < |kept|
      ensures SentKey(kept[j]).TextKey?
    {
      var items := snapshot.items;
      assert kept[j] in WithIds(items);
      var k :| 0 <= k < |items| && WithIds(items)[k] == kept[j];
      assert Get(kept[j], "sentAt") == Get(items[k].1, "sentAt");
    }
  }

  /** Raising the limit only appends older messages to the page; whether
      the list fails does not depend on the limit. */
  lemma ListMessagesPrefix(snapshot: Snapshot, ownerId: Option<string>, tenantId: Option<string>, limit: int, more: int)
    requires limit <= more
    ensures ListMessages(snapshot, ownerId, tenantId, limit).Ok? <==> ListMessages(snapshot, ownerId, tenantId, more).Ok?
    ensures ListMessages(snapshot, ownerId, tenantId, limit).Ok? ==>
      ListMessages(snapshot, ownerId, tenantId, limit).value <= ListMessages(snapshot, ownerId, tenantId, more).value
  {
    TopByPrefix(KeptMessages(snapshot, ownerId, tenantId), SentKey, true, Clamp(limit, 1, 100), Clamp(more, 1, 100));
  }

  // ---- log_message ----

  /** The body of a message log request. */
  datatype LogRequest = LogRequest(
    tenantId: Value, tenantName: Value, subject: Value, body: Value,
    channel: Value, ownerId: Value, sentAt: Value)

  /** The record `log_message` stores: 400 unless the tenant id and name,
      the subject and the body are all set; the channel defaults to
      "email", the owner to the configured one and `sentAt` to `now`. */
  function LogMessage(req: LogRequest, settings: Settings, now: string): (r: Result<Record>)
    ensures r.Fail? <==> !(Truthy(req.tenantId) && Truthy(req.tenantName) && Truthy(req.subject) && Truthy(req.body))
    ensures r.Fail? ==> r.status == BadRequest
    ensures r.Ok? ==> r.value.Keys == {"tenantId", "tenantName", "channel", "subject", "body", "ownerId", "sentAt"}
    ensures r.Ok? ==> Truthy(r.value["channel"]) && Truthy(r.value["tenantName"])
    ensures r.Ok? && settings.defaultOwnerId != "" ==> Truthy(r.value["ownerId"])
    ensures r.Ok? ==> r.value["tenantId"] == req.tenantId && r.value["subject"] == req.subject && r.value["body"] == req.body
    ensures r.Ok? ==> r.value["tenantName"] == req.tenantName
    ensures r.Ok? && Truthy(req.channel) ==> r.value["channel"] == req.channel
    ensures r.Ok? && !Truthy(req.channel) ==> r.value["channel"] == Str("email")
    ensures r.Ok? && Truthy(req.ownerId) ==> r.value["ownerId"] == req.ownerId
    ensures r.Ok? && !Truthy(req.ownerId) ==> r.value["ownerId"] == Str(settings.defaultOwnerId)
    ensures r.Ok? && Truthy(req.sentAt) ==> r.value["sentAt"] == req.sentAt
    ensures r.Ok? && !Truthy(req.sentAt) ==> r.value["sentAt"] == Str(now)
  {
    if !(Truthy(req.tenantId) && Truthy(req.tenantName) && Truthy(req.subject) && Truthy(req.body)) then Fail(BadRequest)
    else
      Ok(map[
        "tenantId" := req.tenantId,
        "tenantName" := req.tenantName,
        "channel" := Or(req.channel, Str("email")),
        "subject" := req.subject,
        "body" := req.body,
        "ownerId" := Or(req.ownerId, Str(settings.defaultOwnerId)),
        "sentAt" := Or(req.sentAt, Str(now))])
  }

  /** `{"id": msg_id, **message_data}`: the stored fields, under the id the
      store returned unless the data carries its own. */
  function LogResponse(msgId: string, data: Record): (m: Record)
    ensures m.Keys == data.Keys + {"id"}
    ensures forall k :: k in data ==> m[k] == data[k]
    ensures "id" !in data ==> m["id"] == Str(msgId)
  {
    WithId(msgId, data)
  }

  /** A logged message, stored under the id the store returned, is listed
      back, as the response showed it, under its own owner and tenant. */
  lemma LoggedMessageListed(req: LogRequest, settings: Settings, now: string, msgId: string, limit: int)
    requires LogMessage(req, settings, now).Ok?
    requires req.ownerId.Str? && req.tenantId.Str?
    ensures var data := LogMessage(req, settings, now).value;
      ListMessages(Dict([(msgId, data)]), Some(req.ownerId.s), Some(req.tenantId.s), limit) == Ok([LogResponse(msgId, data)])
  {
    var data := LogMessage(req, settings, now).value;
    var snapshot := Dict([(msgId, data)]);
    var m := LogResponse(msgId, data);
    assert WithIds(snapshot.items) == [m];
    assert Kept(m, Some(req.ownerId.s), Some(req.tenantId.s));
    var kept := KeptMessages(snapshot, Some(req.ownerId.s), Some(req.tenantId.s));
    assert kept == [m];
    assert !MixedKeys(kept, SentKey);
    var r := ListMessages(snapshot, Some(req.ownerId.s), Some(req.tenantId.s), limit).value;
    assert multiset(r) == multiset{m};
    assert |r| == 1 && r[0] in multiset(r);
  }

  // ---- send_messages ----

  /** The body of a send request; an absent `tenantIds` is the empty list. */
  datatype MessageRequest = MessageRequest(subject: Value, body: Value, tenantIds: seq<string>, ownerId: Value)

  /** `(value or "").strip()`; `Fail(500)` when a set value is not text. */
  function StrippedText(v: Value): (r: Result<string>)
    ensures r.Ok? <==> !Truthy(v) || v.Str?
    ensures r.Fail? ==> r.status == ServerError
    ensures r.Ok? && v.Str? ==> r.value == Strip(v.s)
    ensures r.Ok? && !v.Str? ==> r.value == ""
  {
    var t := Or(v, Str(""));
    if t.Str? then Ok(Strip(t.s)) else Fail(ServerError)
  }

  /** `t.get("id") in tenant_set and t.get("ownerId") == owner_id and t.get("email")`. */
  predicate Recipient(t: Tenant, owner: string, tenantIds: seq<string>) {
    t.id in tenantIds && t.ownerId == Str(owner) && t.email != ""
  }

  function Recipients(tenants: seq<Tenant>, owner: string, tenantIds: seq<string>): (r: seq<Tenant>)
    ensures forall k :: 0 <= k < |r| ==> Recipient(r[k], owner, tenantIds) && r[k] in tenants
    ensures forall t :: t in tenants && Recipient(t, owner, tenantIds) ==> t in r
  {
    Filter(tenants, (t: Tenant) => Recipient(t, owner, tenantIds))
  }

  /** `prop.get(key) if prop else ""`: the stored value, whatever it is. */
  function PropertyValue(prop: Option<Property>, address: bool): (v: Value)
    ensures prop.None? ==> v == Str("")
    ensures prop.Some? ==> v == (if address then prop.value.address else prop.value.name)
  {
    if prop.None? then Str("") else if address then prop.value.address else prop.value.name
  }

  /** The placeholder values for one recipient; `Fail(500)` when the name is
      set but is not text (`.split` raises). The property's name and address
      go in as stored, so they may be `None`, a number or a boolean. */
  function MessageContext(t: Tenant, prop: Option<Property>): (r: Result<map<string, Value>>)
    ensures r.Ok? <==> !Truthy(t.name) || t.name.Str?
    ensures r.Fail? ==> r.status == ServerError
    ensures r.Ok? ==> r.value.Keys == {"nom", "name", "prenom", "first", "email", "logement", "property", "adresse", "address"}
    ensures r.Ok? ==> r.value["nom"] == r.value["name"] == (if t.name.Str? then t.name else Str(""))
    ensures r.Ok? ==> r.value["prenom"] == r.value["first"] == Str(FirstWord(r.value["nom"].s))
    ensures r.Ok? ==> r.value["email"] == Str(t.email)
    ensures r.Ok? ==> r.value["logement"] == r.value["property"] == PropertyValue(prop, false)
    ensures r.Ok? ==> r.value["adresse"] == r.value["address"] == PropertyValue(prop, true)
  {
    if Truthy(t.name) && !t.name.Str? then Fail(ServerError)
    else
      var name := if t.name.Str? then t.name.s else "";
      var first := FirstWord(name);
      Ok(map[
        "nom" := Str(name), "name" := Str(name), "prenom" := Str(first), "first" := Str(first),
        "email" := Str(t.email),
        "logement" := PropertyValue(prop, false), "property" := PropertyValue(prop, false),
        "adresse" := PropertyValue(prop, true), "address" := PropertyValue(prop, true)])
  }

  /** The mail handed to `send_mail`. */
  datatype OutMail = OutMail(to: string, subject: string, text: string, html: EmailParts)

  /** One result: `status` is "sent" when `sent`. */
  datatype MessageResult = MessageResult(tenantId: string, tenantEmail: string, sent: bool)

  datatype MessageResponse = MessageResponse(
    total: nat, sent: nat, failed: int, results: seq<MessageResult>, mails: seq<OutMail>)

  /** A recipient's mail can be written: the name is text or unset, and
      every placeholder of the subject and the body finds text, `None` or
      nothing. */
  predicate Composable(t: Tenant, properties: map<string, Property>, subject: string, body: string) {
    var context := MessageContext(t, PropertyOf(t, properties));
    && context.Ok?
    && RendersAll(Tokens(subject), context.value)
    && RendersAll(Tokens(body), context.value)
  }

  /** The personalised mail for one recipient: the subject and the body
      rendered (both before the `try`, so a failure is a 500), the first
      link of the body as the call to action, and the body cleaned by the
      link pattern as written. */
  function Compose(t: Tenant, properties: map<string, Property>, subject: string, body: string): (r: Result<OutMail>)
    ensures r.Ok? <==> Composable(t, properties, subject, body)
    ensures r.Fail? ==> r.status == ServerError
    ensures r.Ok? ==> r.value.to == t.email
    ensures r.Ok? ==> var context := TextContext(MessageContext(t, PropertyOf(t, properties)).value);
      r.value.subject == RenderTemplate(subject, context) && r.value.text == RenderTemplate(body, context)
    ensures r.Ok? ==> r.value.html.ctaUrl == FirstLink(r.value.text)
    ensures r.Ok? ==> Unescape(r.value.html.safeBody, false) == Strip(StripLinks(AsWritten, r.value.text))
    ensures r.Ok? ==> r.value.html.nameLine == (if Truthy(t.name) then "Bonjour " + PyStr(t.name) + "," else "")
  {
    match MessageContext(t, PropertyOf(t, properties))
    case Fail(e) => Fail(e)
    case Ok(context) => ComposeWith(t, context, subject, body)
  }

  /** The mail for one recipient and a context already built. */
  function ComposeWith(t: Tenant, context: map<string, Value>, subject: string, body: string): (r: Result<OutMail>)
    ensures r.Ok? <==> RendersAll(Tokens(subject), context) && RendersAll(Tokens(body), context)
    ensures r.Fail? ==> r.status == ServerError
    ensures r.Ok? ==> r.value.to == t.email
    ensures r.Ok? ==> r.value.subject == RenderTemplate(subject, TextContext(context))
    ensures r.Ok? ==> r.value.text == RenderTemplate(body, TextContext(context))
    ensures r.Ok? ==> r.value.html.ctaUrl == FirstLink(r.value.text)
    ensures r.Ok? ==> Unescape(r.value.html.safeBody, false) == Strip(StripLinks(AsWritten, r.value.text))
    ensures r.Ok? ==> r.value.html.nameLine == (if Truthy(t.name) then "Bonjour " + PyStr(t.name) + "," else "")
  {
    var personalSubject := RenderValues(subject, context);
    var text := RenderValues(body, context);
    if personalSubject.None? || text.None? then Fail(ServerError)
    else
      var cta := FirstLink(text.value);
      Ok(OutMail(t.email, personalSubject.value, text.value, BuildHtmlEmail(AsWritten, text.value, t.name, cta)))
  }

  /** Every mail sent keeps an ordinary link in its body: without a
      backslash, the cleaner removes nothing, so the link shows both in the
      text and as the call to action. */
  lemma ComposeKeepsLink(t: Tenant, properties: map<string, Property>, subject: string, body: string)
    requires Compose(t, properties, subject, body).Ok?
    requires '\\' !in Compose(t, properties, subject, body).value.text
    ensures var mail := Compose(t, properties, subject, body).value;
      Unescape(mail.html.safeBody, false) == Strip(mail.text)
  {
    NoBackslashUnchanged(Compose(t, properties, subject, body).value.text);
  }

  /** A property whose name is stored as a number fails the mail of every
      tenant living there as soon as the body says `{{logement}}`. */
  lemma ComposeFailsOnNumberName(t: Tenant, properties: map<string, Property>, subject: string,
                                 sp1: string, token: string, sp2: string, rest: string)
    requires IsBlank(sp1) && IsBlank(sp2) && IsWord(token) && Lower(token) == "logement"
    requires !Truthy(t.name) || t.name.Str?
    requires PropertyOf(t, properties).Some? && PropertyOf(t, properties).value.name.Int?
    ensures Compose(t, properties, subject, "{{" + sp1 + token + sp2 + "}}" + rest) == Fail(ServerError)
  {
    var context := MessageContext(t, PropertyOf(t, properties)).value;
    RenderValuesFailsAt(sp1, token, sp2, rest, context);
  }

  /** A mail counts as sent once `send_mail` returns; its result only says
      "sent" once the log write after it has returned too. */
  function ResultOf(t: Tenant, mailFails: set<string>, logFails: set<string>): MessageResult {
    MessageResult(t.id, t.email, t.id !in mailFails && t.id !in logFails)
  }

  predicate Mailed(t: Tenant, mailFails: set<string>) {
    t.id !in mailFails
  }

  predicate IsSent(d: MessageResult) {
    d.sent
  }

  /** The mail of every recipient, or the failure of the first that has
      none. */
  function ComposeAll(recipients: seq<Tenant>, properties: map<string, Property>, subject: string, body: string)
    : (r: Result<seq<OutMail>>)
    ensures r.Ok? <==> forall k :: 0 <= k < |recipients| ==> Composable(recipients[k], properties, subject, body)
    ensures r.Fail? ==> r.status == ServerError
    ensures r.Ok? ==> |r.value| == |recipients|
    ensures r.Ok? ==> forall k :: 0 <= k < |recipients| ==> Compose(recipients[k], properties, subject, body) == Ok(r.value[k])
  {
    MapResults(recipients, (t: Tenant) => Compose(t, properties, subject, body))
  }

  /** The send loop over a non-empty recipient list: one mail and one
      result per recipient, in order. */
  function DeliverMessages(recipients: seq<Tenant>, properties: map<string, Property>, subject: string, body: string,
                           mailFails: set<string>, logFails: set<string>): (r: Result<MessageResponse>)
    ensures r.Ok? <==> forall k :: 0 <= k < |recipients| ==> Composable(recipients[k], properties, subject, body)
    ensures r.Fail? ==> r.status == ServerError
    ensures r.Ok? ==> |r.value.results| == r.value.total == |recipients|
    ensures r.Ok? ==> forall k :: 0 <= k < |recipients| ==> r.value.results[k] == ResultOf(recipients[k], mailFails, logFails)
    ensures r.Ok? ==> r.value.sent == Count(recipients, (t: Tenant) => Mailed(t, mailFails))
    ensures r.Ok? ==> r.value.failed == r.value.total - r.value.sent
    ensures r.Ok? ==> |r.value.mails| == |recipients|
    ensures r.Ok? ==> forall k :: 0 <= k < |recipients| ==> Compose(recipients[k], properties, subject, body) == Ok(r.value.mails[k])
  {
    match ComposeAll(recipients, properties, subject, body)
    case Fail(e) => Fail(e)
    case Ok(mails) => Ok(Tally(recipients, mails, mailFails, logFails))
  }

  /** The response of a send: one result per recipient and the counts. */
  function Tally(recipients: seq<Tenant>, mails: seq<OutMail>, mailFails: set<string>, logFails: set<string>)
    : (r: MessageResponse)
    ensures |r.results| == r.total == |recipients| && r.mails == mails
    ensures forall k :: 0 <= k < |recipients| ==> r.results[k] == ResultOf(recipients[k], mailFails, logFails)
    ensures r.sent == Count(recipients, (t: Tenant) => Mailed(t, mailFails))
    ensures r.failed == r.total - r.sent
  {
    var results := seq(|recipients|, k requires 0 <= k < |recipients| => ResultOf(recipients[k], mailFails, logFails));
    var sent := Count(recipients, (t: Tenant) => Mailed(t, mailFails));
    MessageResponse(|results|, sent, |results| - sent, results, mails)
  }

  /** `(payload.get("ownerId") or settings.default_owner_id).strip()`: a
      set owner id must be text; an unset one falls back to the configured
      owner. */
  function MessageOwner(req: MessageRequest, settings: Settings): (r: Result<string>)
    ensures Truthy(req.ownerId) ==> (r.Ok? <==> req.ownerId.Str?)
    ensures Truthy(req.ownerId) && req.ownerId.Str? ==> r == Ok(Strip(req.ownerId.s))
    ensures !Truthy(req.ownerId) ==> r == Ok(Strip(settings.defaultOwnerId))
    ensures r.Fail? ==> r.status == ServerError
  {
    StrippedText(Or(req.ownerId, Str(settings.defaultOwnerId)))
  }

  /** The checks `send_messages` makes before it reads the store: 503
      without a mailer, 500 when the subject, body or owner is set but is
      not text, 400 for a blank subject or body, 400 without tenant ids;
      otherwise the stripped subject, body and owner. */
  function SendInputs(req: MessageRequest, settings: Settings): (r: Result<(string, string, string)>)
    ensures !MailerConfigured(settings) ==> r == Fail(Unavailable)
    ensures MailerConfigured(settings)
            && (StrippedText(req.subject).Fail? || StrippedText(req.body).Fail? || MessageOwner(req, settings).Fail?)
            ==> r == Fail(ServerError)
    ensures (MailerConfigured(settings) && StrippedText(req.subject).Ok? && StrippedText(req.body).Ok? && MessageOwner(req, settings).Ok?
             && (StrippedText(req.subject).value == "" || StrippedText(req.body).value == ""))
            ==> r == Fail(BadRequest)
    ensures (MailerConfigured(settings) && StrippedText(req.subject).Ok? && StrippedText(req.body).Ok? && MessageOwner(req, settings).Ok?
             && |req.tenantIds| == 0)
            ==> r == Fail(BadRequest)
    ensures r.Ok? ==> (
      && MailerConfigured(settings) && |req.tenantIds| > 0
      && StrippedText(req.subject).Ok? && StrippedText(req.subject).value != ""
      && StrippedText(req.body).Ok? && StrippedText(req.body).value != ""
      && MessageOwner(req, settings).Ok?
      && r.value == (StrippedText(req.subject).value, StrippedText(req.body).value, MessageOwner(req, settings).value))
  {
    if !MailerConfigured(settings) then Fail(Unavailable)
    else
      var subjectText := StrippedText(req.subject);
      var bodyText := StrippedText(req.body);
      var ownerText := MessageOwner(req, settings);
      if subjectText.Fail? || bodyText.Fail? || ownerText.Fail? then Fail(ServerError)
      else
        var subject, body, owner := subjectText.value, bodyText.value, ownerText.value;
        if subject == "" || body == "" then Fail(BadRequest)
        else if |req.tenantIds| == 0 then Fail(BadRequest)
        else Ok((subject, body, owner))
  }

  /** `send_messages` once the collections are fetched: the input checks,
      404 without a recipient, then the send loop. */
  function SendMessagesFetched(req: MessageRequest, settings: Settings, tenants: seq<Tenant>, properties: map<string, Property>,
                               mailFails: set<string>, logFails: set<string>): (r: Result<MessageResponse>)
    ensures SendInputs(req, settings).Fail? ==> r == Fail(SendInputs(req, settings).status)
    ensures r.Ok? ==> (
      && SendInputs(req, settings).Ok?
      && |Recipients(tenants, MessageOwner(req, settings).value, req.tenantIds)| > 0
      && r == DeliverMessages(Recipients(tenants, MessageOwner(req, settings).value, req.tenantIds), properties,
                              StrippedText(req.subject).value, StrippedText(req.body).value, mailFails, logFails))
    ensures SendInputs(req, settings).Ok? && |Recipients(tenants, MessageOwner(req, settings).value, req.tenantIds)| == 0
            ==> r == Fail(NotFound)
    ensures SendInputs(req, settings).Ok? && |Recipients(tenants, MessageOwner(req, settings).value, req.tenantIds)| > 0
            ==> r == DeliverMessages(Recipients(tenants, MessageOwner(req, settings).value, req.tenantIds), properties,
                                     StrippedText(req.subject).value, StrippedText(req.body).value, mailFails, logFails)
  {
    match SendInputs(req, settings)
    case Fail(e) => Fail(e)
    case Ok((subject, body, owner)) =>
      var recipients := Recipients(tenants, owner, req.tenantIds);
      if |recipients| == 0 then Fail(NotFound)
      else DeliverMessages(recipients, properties, subject, body, mailFails, logFails)
  }

  /** `send_messages`: the input checks come before the store is read; then
      a 500 when the fetch raises, and otherwise the send over the fetched
      collections. */
  function SendMessages(req: MessageRequest, settings: Settings, tenantSnapshot: Snapshot, propertySnapshot: Snapshot,
                        mailFails: set<string>, logFails: set<string>): (r: Result<MessageResponse>)
    ensures SendInputs(req, settings).Fail? ==> r == Fail(SendInputs(req, settings).status)
    ensures SendInputs(req, settings).Ok? && FetchTenantsAndProperties(tenantSnapshot, propertySnapshot, settings.defaultOwnerId).None?
            ==> r == Fail(ServerError)
    ensures FetchTenantsAndProperties(tenantSnapshot, propertySnapshot, settings.defaultOwnerId).Some? ==>
      var fetched := FetchTenantsAndProperties(tenantSnapshot, propertySnapshot, settings.defaultOwnerId).value;
      r == SendMessagesFetched(req, settings, fetched.tenants, fetched.properties, mailFails, logFails)
  {
    match SendInputs(req, settings)
    case Fail(e) => Fail(e)
    case Ok(_) =>
      match FetchTenantsAndProperties(tenantSnapshot, propertySnapshot, settings.defaultOwnerId)
      case None => Fail(ServerError)
      case Some(fetched) => SendMessagesFetched(req, settings, fetched.tenants, fetched.properties, mailFails, logFails)
  }

  /** The send succeeds exactly when the inputs pass, the store read
      succeeds, some fetched tenant is a recipient and every recipient's
      mail renders; it is then the send loop over those recipients. */
  lemma SendMessagesOkIff(req: MessageRequest, settings: Settings, tenantSnapshot: Snapshot, propertySnapshot: Snapshot,
                          mailFails: set<string>, logFails: set<string>)
    ensures SendMessages(req, settings, tenantSnapshot, propertySnapshot, mailFails, logFails).Ok? <==>
      && SendInputs(req, settings).Ok?
      && FetchTenantsAndProperties(tenantSnapshot, propertySnapshot, settings.defaultOwnerId).Some?
      && var fetched := FetchTenantsAndProperties(tenantSnapshot, propertySnapshot, settings.defaultOwnerId).value;
         var recipients := Recipients(fetched.tenants, MessageOwner(req, settings).value, req.tenantIds);
         && |recipients| > 0
         && forall k :: 0 <= k < |recipients| ==>
              Composable(recipients[k], fetched.properties, StrippedText(req.subject).value, StrippedText(req.body).value)
  {
  }

  /** With valid inputs, one property with a rent written as a word makes
      the send a 500, whatever the tenants are. */
  lemma SendMessagesFailsOnWordRent(req: MessageRequest, settings: Settings, tenantSnapshot: Snapshot, propertyItems: seq<(string, Record)>,
                                    mailFails: set<string>, logFails: set<string>, k: nat, c: char, rest: string)
    requires SendInputs(req, settings).Ok?
    requires k < |propertyItems|
    requires 'a' <= c <= 'z' && c != 'i' && c != 'n'
    requires Get(propertyItems[k].1, "rent") == Str([c] + rest)
    ensures SendMessages(req, settings, tenantSnapshot, Dict(propertyItems), mailFails, logFails) == Fail(ServerError)
  {
    FetchFailsOnWordRent(tenantSnapshot, propertyItems, settings.defaultOwnerId, k, c, rest);
  }

  /** `sent` counts the mails `send_mail` accepted, not the results marked
      "sent": it is at least their number, and it is more as soon as the log
      write after an accepted mail fails. */
  lemma {:induction false} SentAtLeastSentResults(recipients: seq<Tenant>, mailFails: set<string>, logFails: set<string>)
    ensures Count(seq(|recipients|, k requires 0 <= k < |recipients| => ResultOf(recipients[k], mailFails, logFails)), IsSent)
            <= Count(recipients, (t: Tenant) => Mailed(t, mailFails))
    ensures (exists k :: 0 <= k < |recipients| && Mailed(recipients[k], mailFails) && recipients[k].id in logFails)
            ==> Count(seq(|recipients|, k requires 0 <= k < |recipients| => ResultOf(recipients[k], mailFails, logFails)), IsSent)
                < Count(recipients, (t: Tenant) => Mailed(t, mailFails))
    decreases |recipients|
  {
    if |recipients| > 0 {
      var results := seq(|recipients|, k requires 0 <= k < |recipients| => ResultOf(recipients[k], mailFails, logFails));
      var tail := recipients[1..];
      var tailResults := seq(|tail|, k requires 0 <= k < |tail| => ResultOf(tail[k], mailFails, logFails));
      assert results[1..] == tailResults;
      SentAtLeastSentResults(tail, mailFails, logFails);
      if exists k :: 0 <= k < |recipients| && Mailed(recipients[k], mailFails) && recipients[k].id in logFails {
        var k :| 0 <= k < |recipients| && Mailed(recipients[k], mailFails) && recipients[k].id in logFails;
        if k > 0 {
          assert tail[k - 1] == recipients[k];
        }
      }
    }
  }

  /** Without a failing log write, `sent` is the number of "sent" results. */
  lemma {:induction false} SentIsSentResults(recipients: seq<Tenant>, mailFails: set<string>, logFails: set<string>)
    requires forall k :: 0 <= k < |recipients| ==> recipients[k].id !in logFails
    ensures Count(seq(|recipients|, k requires 0 <= k < |recipients| => ResultOf(recipients[k], mailFails, logFails)), IsSent)
            == Count(recipients, (t: Tenant) => Mailed(t, mailFails))
    decreases |recipients|
  {
    if |recipients| > 0 {
      var results := seq(|recipients|, k requires 0 <= k < |recipients| => ResultOf(recipients[k], mailFails, logFails));
      var tail := recipients[1..];
      var tailResults := seq(|tail|, k requires 0 <= k < |tail| => ResultOf(tail[k], mailFails, logFails));
      assert results[1..] == tailResults;
      assert forall k :: 0 <= k < |tail| ==> tail[k] == recipients[k + 1];
      SentIsSentResults(tail, mailFails, logFails);
    }
  }
}

=== FILE: models.dfy ===
/** The pydantic models (`app/models/tenant.py`, `app/models/property.py`,
    `app/models/payment.py`): the month and limit clamps, the field
    defaults, and how a response model reads the JSON values of a stored
    record. */
module Models {
  import opened Wrappers
  import opened Values

  /** The default status and month count of a tenant. */
  const DefaultTenantStatus: string := "pending"
  const DefaultPaymentMonths: int := 1
  /** The default page size of the payment history. */
  const DefaultHistoryLimit: int := 20

  /** `validate_months`: any count into 1..12. */
  function ValidateMonths(value: int): (r: int)
    ensures 1 <= r <= 12
    ensures 1 <= value <= 12 ==> r == value
    ensures value < 1 ==> r == 1
    ensures value > 12 ==> r == 12
  {
    Clamp(value, 1, 12)
  }

  /** The validator of `TenantUpdate`: an unset count stays unset. */
  function ValidateOptionalMonths(value: Option<int>): (r: Option<int>)
    ensures r.None? <==> value.None?
    ensures r.Some? ==> r.value == ValidateMonths(value.value)
  {
    if value.None? then None else Some(ValidateMonths(value.value))
  }

  /** `cap_limit`: any page size into 1..50. */
  function CapLimit(value: int): (r: int)
    ensures 1 <= r <= 50
    ensures 1 <= value <= 50 ==> r == value
    ensures value < 1 ==> r == 1
    ensures value > 50 ==> r == 50
  {
    Clamp(value, 1, 50)
  }

  /** Both clamps are idempotent and keep the order of their inputs. */
  lemma ClampsIdempotentMonotone(a: int, b: int)
    ensures ValidateMonths(ValidateMonths(a)) == ValidateMonths(a)
    ensures CapLimit(CapLimit(a)) == CapLimit(a)
    ensures ValidateOptionalMonths(ValidateOptionalMonths(Some(a))) == ValidateOptionalMonths(Some(a))
    ensures a <= b ==> ValidateMonths(a) <= ValidateMonths(b) && CapLimit(a) <= CapLimit(b)
  {
  }

  /** How pydantic's lax mode reads text into the fields of a response
      model: which strings an `int` field parses and to what, which strings
      a `float` field accepts, and what an `EmailStr` field makes of an
      address. These are pydantic-core's and email-validator's parsers,
      which are not part of this model. */
  datatype Coercions = Coercions(
    intText: string -> Option<int>, floatText: string -> bool, email: string -> Option<string>)

  /** An `int` field: it reads every non-text value as Python's `int()`
      does (`None` rejected, a boolean as 0 or 1), and text through the
      parser. */
  function LaxInt(v: Value, c: Coercions): (r: Option<int>)
    ensures !v.Str? ==> r == PyIntOf(v)
    ensures v.Str? ==> r == c.intText(v.s)
  {
    match v
    case Null => None
    case Bool(b) => Some(if b then 1 else 0)
    case Int(i) => Some(i)
    case Str(s) => c.intText(s)
  }

  /** A `float` field: every number and boolean, no `None`, and the text
      the parser accepts. */
  function LaxFloat(v: Value, c: Coercions): (r: bool)
    ensures v.Null? ==> !r
    ensures v.Int? || v.Bool? ==> r
    ensures v.Str? ==> r == c.floatText(v.s)
  {
    match v
    case Null => false
    case Str(s) => c.floatText(s)
    case _ => true
  }

  /** An `Optional[str]` field: `None` or text, and a 500 for anything
      else. */
  function OptionalText(v: Value): (r: Result<Option<string>>)
    ensures r.Ok? <==> v.Null? || v.Str?
    ensures r.Fail? ==> r.status == ServerError
    ensures v.Str? ==> r == Ok(Some(v.s))
    ensures v.Null? ==> r == Ok(None)
  {
    match v
    case Null => Ok(None)
    case Str(s) => Ok(Some(s))
    case _ => Fail(ServerError)
  }
}

=== FILE: payment_service.dfy ===
/** The pure part of the Stripe service (`app/services/payment_service.py`):
    the currency, the amount ceiling and the metadata filter. The calls to
    the Stripe SDK are not modelled. */
module PaymentService {
  import opened Wrappers
  import opened Text
  import opened Values

  /** The CFA franc, a zero-decimal currency for Stripe. */
  const StripeCurrency: string := "xof"
  /** The largest amount the checkout accepts. */
  const StripeMaxAmount: int := 655_959_993

  /** Whether `v` survives the filter: not `None`, and `str(v).strip()` is
      not empty. */
  predicate Kept(v: Option<Value>) {
    v.Some? && Strip(PyStr(v.value)) != ""
  }

  /** `build_metadata`: the fields whose value is set and not blank, each
      as its trimmed text. */
  function BuildMetadata(fields: map<string, Option<Value>>): (r: map<string, string>)
    ensures r.Keys <= fields.Keys
    ensures forall k :: k in fields ==> (k in r <==> Kept(fields[k]))
    ensures forall k :: k in r ==> k in fields && fields[k].Some? && r[k] == Strip(PyStr(fields[k].value))
    ensures forall k :: k in r ==> r[k] != "" && Strip(r[k]) == r[k]
  {
    var r := map k | k in fields && Kept(fields[k]) :: Strip(PyStr(fields[k].value));
    forall k | k in r
      ensures Strip(r[k]) == r[k]
    {
      StripIdempotent(PyStr(fields[k].value));
    }
    r
  }

  /** A set, trimmed, non-empty text field is kept as it is. */
  lemma MetadataText(fields: map<string, Option<Value>>, key: string, t: string)
    requires key in fields && fields[key] == Some(Str(t))
    requires t != "" && Strip(t) == t
    ensures key in BuildMetadata(fields) && BuildMetadata(fields)[key] == t
  {
    assert PyStr(Str(t)) == t;
  }

  /** A number field is kept as its decimal text, which reads back as the
      number. */
  lemma MetadataNumber(fields: map<string, Option<Value>>, key: string, n: int)
    requires key in fields && fields[key] == Some(Int(n))
    ensures key in BuildMetadata(fields) && PyInt(BuildMetadata(fields)[key]) == Some(n)
  {
    NumberKept(n);
  }

  /** The text of a number is already trimmed, not empty, and reads back
      as the number. */
  lemma NumberKept(n: int)
    ensures Kept(Some(Int(n)))
    ensures Strip(PyStr(Int(n))) == DecimalString(n) && PyInt(DecimalString(n)) == Some(n)
  {
    var t := DecimalString(n);
    assert PyStr(Int(n)) == t;
    StripTrimmed(t);
    PyIntReadsDecimalString(n);
  }

  /** The metadata as the input of another call: every value as text. */
  function AsFields(m: map<string, string>): (r: map<string, Option<Value>>)
    ensures r.Keys == m.Keys
    ensures forall k :: k in r ==> r[k] == Some(Str(m[k]))
  {
    map k | k in m :: Some(Str(m[k]))
  }

  /** Filtering metadata again changes nothing. */
  lemma BuildMetadataIdempotent(fields: map<string, Option<Value>>)
    ensures BuildMetadata(AsFields(BuildMetadata(fields))) == BuildMetadata(fields)
  {
    CleanMetadataFixed(BuildMetadata(fields));
  }

  /** Metadata whose values are all trimmed and non-empty passes the
      filter unchanged. */
  lemma CleanMetadataFixed(m: map<string, string>)
    requires forall k :: k in m ==> m[k] != "" && Strip(m[k]) == m[k]
    ensures BuildMetadata(AsFields(m)) == m
  {
    var r := BuildMetadata(AsFields(m));
    CleanMetadataKeys(m);
    forall k | k in r
      ensures r[k] == m[k]
    {
      CleanMetadataKey(m, k);
    }
    SameEntries(r, m);
  }

  /** Such metadata loses no key to the filter. */
  lemma CleanMetadataKeys(m: map<string, string>)
    requires forall k :: k in m ==> m[k] != "" && Strip(m[k]) == m[k]
    ensures BuildMetadata(AsFields(m)).Keys == m.Keys
  {
    forall k | k in m
      ensures k in BuildMetadata(AsFields(m))
    {
      CleanMetadataKey(m, k);
    }
  }

  /** One key of such metadata passes the filter with its value. */
  lemma CleanMetadataKey(m: map<string, string>, k: string)
    requires k in m && m[k] != "" && Strip(m[k]) == m[k]
    ensures k in BuildMetadata(AsFields(m)) && BuildMetadata(AsFields(m))[k] == m[k]
  {
    var fields := AsFields(m);
    assert fields[k] == Some(Str(m[k]));
    KeptAgain(m[k]);
  }

  /** Two maps with the same keys and the same value at each key are equal. */
  lemma SameEntries(a: map<string, string>, b: map<string, string>)
    requires a.Keys == b.Keys
    requires forall k :: k in a ==> a[k] == b[k]
    ensures a == b
  {
  }

  /** A trimmed, non-empty text passes the filter as itself. */
  lemma KeptAgain(t: string)
    requires t != "" && Strip(t) == t
    ensures Kept(Some(Str(t))) && Strip(PyStr(Str(t))) == t
  {
  }
}

=== FILE: payments_api.dfy ===
/** The payment endpoints (`app/api/payments.py`): the checkout request
    checks and metadata, the history filter and page, and the webhook's
    guards and receipt dispatch. Stripe is a parameter: whether it is
    configured, the sessions it lists, whether a signature verifies and
    the receipt URL it returns. Amounts are `real`; the conversion to
    minor units and the float formatting are not modelled. */
module PaymentsApi {
  import opened Wrappers
  import opened Text
  import opened Values
  import opened Settings
  import opened Lists
  import opened Models
  import opened PaymentService

  // ---- checkout ----

  /** A validated `CheckoutRequest`. */
  datatype CheckoutRequest = CheckoutRequest(
    amount: real, tenantName: Option<string>, tenantEmail: string, tenantId: string,
    ownerId: Option<string>, propertyId: Option<string>, propertyName: Option<string>,
    dueDate: Option<string>, paymentMonths: int, successUrl: Option<string>, cancelUrl: Option<string>)

  /** What the checkout session is created with (the line item's amount
      aside). */
  datatype CheckoutSession = CheckoutSession(
    customerEmail: string, clientReferenceId: string, metadata: map<string, string>,
    currency: string, productName: string, description: Option<string>,
    successUrl: string, cancelUrl: string)

  function TextField(v: Option<string>): Option<Value> {
    if v.Some? then Some(Str(v.value)) else None
  }

  /** `max(1, min(12, int(payload.paymentMonths or 1)))`. */
  function CheckoutMonths(req: CheckoutRequest): (m: int)
    ensures 1 <= m <= 12
    ensures 1 <= req.paymentMonths <= 12 ==> m == req.paymentMonths
  {
    ValidateMonths(if req.paymentMonths != 0 then req.paymentMonths else 1)
  }

  /** The fields handed to `build_metadata`. */
  function CheckoutFields(req: CheckoutRequest, s: Settings): map<string, Option<Value>> {
    map["tenantName" := TextField(req.tenantName),
        "tenantEmail" := Some(Str(Lower(req.tenantEmail))),
        "tenantId" := Some(Str(req.tenantId)),
        "ownerId" := Some(Str(if Present(req.ownerId) then req.ownerId.value else s.defaultOwnerId)),
        "propertyName" := TextField(req.propertyName),
        "propertyId" := TextField(req.propertyId),
        "dueDate" := TextField(req.dueDate),
        "paymentMonths" := Some(Int(CheckoutMonths(req)))]
  }

  /** The two lookups the webhook relies on. */
  lemma CheckoutFieldsAt(req: CheckoutRequest, s: Settings)
    ensures "tenantEmail" in CheckoutFields(req, s) && CheckoutFields(req, s)["tenantEmail"] == Some(Str(Lower(req.tenantEmail)))
    ensures "paymentMonths" in CheckoutFields(req, s) && CheckoutFields(req, s)["paymentMonths"] == Some(Int(CheckoutMonths(req)))
  {
  }

  /** `client_origin` without its trailing slashes, then `path`. */
  function ClientPage(s: Settings, path: string): string {
    RStripChar(s.clientOrigin, '/') + path
  }

  /** `create_checkout`: 500 when Stripe is not configured, 400 for an
      amount outside (0, 655 959 993]; otherwise the session request. */
  function CreateCheckout(req: CheckoutRequest, s: Settings, stripeReady: bool): (r: Result<CheckoutSession>)
    ensures !stripeReady ==> r == Fail(ServerError)
    ensures stripeReady && (req.amount <= 0.0 || req.amount > StripeMaxAmount as real) ==> r == Fail(BadRequest)
    ensures r.Ok? <==> stripeReady && 0.0 < req.amount <= StripeMaxAmount as real
    ensures r.Ok? ==> r.value.currency == StripeCurrency
    ensures r.Ok? ==> r.value.customerEmail == Lower(req.tenantEmail) && r.value.clientReferenceId == req.tenantId
    ensures r.Ok? ==> r.value.metadata == BuildMetadata(CheckoutFields(req, s))
    ensures r.Ok? ==> forall k :: k in r.value.metadata ==> r.value.metadata[k] != "" && Strip(r.value.metadata[k]) == r.value.metadata[k]
    ensures r.Ok? ==> r.value.metadata.Keys <= CheckoutFields(req, s).Keys
    ensures r.Ok? ==> (r.value.description.Some? <==> Present(req.tenantName))
    ensures r.Ok? && !Present(req.successUrl) ==> r.value.successUrl == ClientPage(s, "/dashbord/paiements?status=success")
    ensures r.Ok? && !Present(req.cancelUrl) ==> r.value.cancelUrl == ClientPage(s, "/dashbord/paiements?status=cancel")
    ensures r.Ok? && Present(req.successUrl) ==> r.value.successUrl == req.successUrl.value
    ensures r.Ok? && Present(req.cancelUrl) ==> r.value.cancelUrl == req.cancelUrl.value
  {
    if !stripeReady then Fail(ServerError)
    else if req.amount <= 0.0 then Fail(BadRequest)
    else if req.amount > StripeMaxAmount as real then Fail(BadRequest)
    else
      Ok(CheckoutSession(
        Lower(req.tenantEmail), req.tenantId, BuildMetadata(CheckoutFields(req, s)), StripeCurrency,
        if Present(req.propertyName) then "Loyer " + req.propertyName.value else "Paiement loyer",
        if Present(req.tenantName) then Some("Locataire: " + req.tenantName.value) else None,
        if Present(req.successUrl) then req.successUrl.value else ClientPage(s, "/dashbord/paiements?status=success"),
        if Present(req.cancelUrl) then req.cancelUrl.value else ClientPage(s, "/dashbord/paiements?status=cancel")))
  }

  /** The month count always reaches the metadata, clamped, and reads back
      as that number. */
  lemma CheckoutMonthsInMetadata(req: CheckoutRequest, s: Settings, stripeReady: bool)
    requires CreateCheckout(req, s, stripeReady).Ok?
    ensures var md := CreateCheckout(req, s, stripeReady).value.metadata;
      "paymentMonths" in md && PyInt(md["paymentMonths"]) == Some(CheckoutMonths(req))
  {
    CheckoutFieldsAt(req, s);
    MetadataNumber(CheckoutFields(req, s), "paymentMonths", CheckoutMonths(req));
  }

  // ---- history ----

  /** A charge of a payment intent. `created` is 0 when absent. */
  datatype Charge = Charge(receiptUrl: Option<string>, created: int)

  /** The `payment_intent` of a listed session: not expanded, or expanded
      with or without a `charges.data` list. */
  datatype Intent = NoIntent | Intent(charges: Option<seq<Charge>>)

  /** A checkout session as Stripe lists it. `created` is the Unix time. */
  datatype StripeSession = StripeSession(
    id: string, metadata: map<string, string>, paymentStatus: string, status: string,
    currency: Option<string>, customerEmail: Option<string>, created: int, intent: Intent)

  /** A `PaymentHistoryItem` (times as Unix timestamps, amount not
      modelled). */
  datatype HistoryItem = HistoryItem(
    id: string, currency: string, paymentStatus: string, sessionStatus: string,
    tenantName: Option<string>, tenantEmail: Option<string>, tenantId: Option<string>,
    propertyName: Option<string>, propertyId: Option<string>, ownerId: Option<string>,
    dueDate: Option<string>, paymentMonths: Option<int>, createdAt: int,
    paidAt: Option<int>, receiptUrl: Option<string>)

  /** A `PaymentHistoryQuery` before its limit is capped. */
  datatype HistoryQuery = HistoryQuery(ownerId: Option<string>, tenantEmail: Option<string>, tenantId: Option<string>, limit: int)

  /** `metadata.get(key)`. */
  function MetaGet(md: map<string, string>, key: string): (r: Option<string>)
    ensures r.Some? <==> key in md
    ensures r.Some? ==> r.value == md[key]
  {
    if key in md then Some(md[key]) else None
  }

  /** The three filters of the history: each applies only when given; the
      email compares case-insensitively. */
  predicate HistoryMatches(q: HistoryQuery, md: map<string, string>) {
    && (Present(q.ownerId) ==> MetaGet(md, "ownerId") == q.ownerId)
    && (Present(q.tenantId) ==> MetaGet(md, "tenantId") == q.tenantId)
    && (Present(q.tenantEmail) ==> SameIgnoringCase(MetaGet(md, "tenantEmail").GetOr(""), q.tenantEmail.value))
  }

  /** `(payment_intent or {}).get("charges", {}).get("data", [None])[0]`:
      an empty charge list raises `IndexError`, a 500. */
  function FirstCharge(intent: Intent): (r: Result<Option<Charge>>)
    ensures r.Fail? <==> intent.Intent? && intent.charges == Some([])
    ensures r.Fail? ==> r.status == ServerError
    ensures r.Ok? && r.value.Some? ==> intent.Intent? && intent.charges.Some? && r.value.value == intent.charges.value[0]
  {
    match intent
    case NoIntent => Ok(None)
    case Intent(charges) =>
      if charges.None? then Ok(None)
      else if charges.value == [] then Fail(ServerError)
      else Ok(Some(charges.value[0]))
  }

  /** One history item; 500 when the charge list is empty or the stored
      month count is not a number. */
  function HistoryItemOf(session: StripeSession): (r: Result<HistoryItem>)
    ensures r.Fail? <==> || FirstCharge(session.intent).Fail?
                         || (Present(MetaGet(session.metadata, "paymentMonths")) && PyInt(session.metadata["paymentMonths"]).None?)
    ensures r.Fail? ==> r.status == ServerError
    ensures r.Ok? ==> r.value.id == session.id && r.value.createdAt == session.created
    ensures r.Ok? && Present(MetaGet(session.metadata, "paymentMonths"))
            ==> r.value.paymentMonths.Some? && r.value.paymentMonths == PyInt(session.metadata["paymentMonths"])
    ensures r.Ok? && !Present(MetaGet(session.metadata, "paymentMonths")) ==> r.value.paymentMonths.None?
    ensures r.Ok? ==> (r.value.paidAt.Some? <==> && session.paymentStatus == "paid"
                                                 && FirstCharge(session.intent).value.Some?
                                                 && FirstCharge(session.intent).value.value.created != 0)
    ensures r.Ok? && r.value.paidAt.Some? ==> r.value.paidAt.value == FirstCharge(session.intent).value.value.created
    ensures r.Ok? && FirstCharge(session.intent).value.None? ==> r.value.receiptUrl.None?
    ensures r.Ok? && FirstCharge(session.intent).value.Some? ==> r.value.receiptUrl == FirstCharge(session.intent).value.value.receiptUrl
    ensures r.Ok? ==> r.value.ownerId == MetaGet(session.metadata, "ownerId") && r.value.tenantId == MetaGet(session.metadata, "tenantId")
    ensures r.Ok? && r.value.paidAt.Some? ==> session.paymentStatus == "paid" && r.value.paidAt.value != 0
    ensures r.Ok? && Present(MetaGet(session.metadata, "tenantEmail")) ==> r.value.tenantEmail == MetaGet(session.metadata, "tenantEmail")
    ensures r.Ok? && !Present(MetaGet(session.metadata, "tenantEmail")) ==> r.value.tenantEmail == session.customerEmail
    ensures r.Ok? ==> r.value.currency == (if Present(session.currency) then session.currency.value else StripeCurrency)
  {
    match FirstCharge(session.intent)
    case Fail(e) => Fail(e)
    case Ok(charge) =>
      var md := session.metadata;
      var monthsText := MetaGet(md, "paymentMonths");
      if Present(monthsText) && PyInt(monthsText.value).None? then Fail(ServerError)
      else
        var months := if Present(monthsText) then PyInt(monthsText.value) else None;
        var paidAt := if session.paymentStatus == "paid" && charge.Some? && charge.value.created != 0
                      then Some(charge.value.created) else None;
        Ok(HistoryItem(
          session.id, if Present(session.currency) then session.currency.value else StripeCurrency,
          session.paymentStatus, session.status, MetaGet(md, "tenantName"),
          if Present(MetaGet(md, "tenantEmail")) then MetaGet(md, "tenantEmail") else session.customerEmail,
          MetaGet(md, "tenantId"), MetaGet(md, "propertyName"), MetaGet(md, "propertyId"), MetaGet(md, "ownerId"),
          MetaGet(md, "dueDate"), months, session.created, paidAt,
          if charge.Some? then charge.value.receiptUrl else None))
  }

  /** A session created from a checkout request, once paid or still
      without charges, lists the month count the request chose. */
  lemma CheckoutThenHistory(req: CheckoutRequest, s: Settings, stripeReady: bool, session: StripeSession)
    requires CreateCheckout(req, s, stripeReady).Ok?
    requires session.metadata == CreateCheckout(req, s, stripeReady).value.metadata
    requires FirstCharge(session.intent).Ok?
    ensures HistoryItemOf(session).Ok?
    ensures HistoryItemOf(session).value.paymentMonths == Some(CheckoutMonths(req))
  {
    CheckoutMonthsInMetadata(req, s, stripeReady);
  }

  /** The sessions that pass the query's filters, in Stripe's order. */
  function Matching(sessions: seq<StripeSession>, q: HistoryQuery): seq<StripeSession> {
    Filter(sessions, (x: StripeSession) => HistoryMatches(q, x.metadata))
  }

  /** `payment_history`: the items of the matching sessions, in Stripe's
      order, cut to the capped limit. Every matching session is converted,
      so one that cannot be fails the request even past the limit. */
  function PaymentHistory(sessions: seq<StripeSession>, q: HistoryQuery, stripeReady: bool): (r: Result<seq<HistoryItem>>)
    ensures !stripeReady ==> r == Fail(ServerError)
    ensures stripeReady ==> (r.Ok? <==> forall k :: 0 <= k < |Matching(sessions, q)| ==> HistoryItemOf(Matching(sessions, q)[k]).Ok?)
    ensures r.Ok? ==> |r.value| == Min(CapLimit(q.limit), |Matching(sessions, q)|)
    ensures r.Ok? ==> forall k :: 0 <= k < |r.value| ==> HistoryItemOf(Matching(sessions, q)[k]) == Ok(r.value[k])
    ensures r.Ok? ==> forall k :: 0 <= k < |r.value| ==>
      exists j :: 0 <= j < |sessions| && sessions[j].id == r.value[k].id && HistoryMatches(q, sessions[j].metadata)
  {
    if !stripeReady then Fail(ServerError)
    else
      var matching := Matching(sessions, q);
      match MapResults(matching, HistoryItemOf)
      case Fail(e) => Fail(e)
      case Ok(items) =>
        var page := Take(items, CapLimit(q.limit));
        forall k | 0 <= k < |page|
          ensures exists j :: 0 <= j < |sessions| && sessions[j].id == page[k].id && HistoryMatches(q, sessions[j].metadata)
        {
          assert page[k] == items[k];
          assert matching[k] in sessions;
        }
        Ok(page)
  }

  /** With no filter, the page is the first sessions Stripe listed, in its
      order. */
  lemma HistoryUnfiltered(sessions: seq<StripeSession>, limit: int)
    requires PaymentHistory(sessions, HistoryQuery(None, None, None, limit), true).Ok?
    ensures var r := PaymentHistory(sessions, HistoryQuery(None, None, None, limit), true).value;
      |r| == Min(CapLimit(limit), |sessions|) && forall k :: 0 <= k < |r| ==> r[k].id == sessions[k].id
  {
    var q := HistoryQuery(None, None, None, limit);
    FilterAll(sessions, (x: StripeSession) => HistoryMatches(q, x.metadata));
  }

  /** A listed session whose expanded intent has an empty charge list
      fails the whole history with a 500. */
  lemma EmptyChargeListFails(session: StripeSession)
    requires session.intent == Intent(Some([]))
    ensures PaymentHistory([session], HistoryQuery(None, None, None, 20), true) == Fail(ServerError)
  {
    var q := HistoryQuery(None, None, None, 20);
    FilterAll([session], (x: StripeSession) => HistoryMatches(q, x.metadata));
  }

  // ---- webhook ----

  /** The parts of a verified event the webhook reads. */
  datatype WebhookEvent = WebhookEvent(
    kind: string, metadata: map<string, string>, customerEmail: Option<string>, paymentIntentId: Option<string>)

  /** The receipt mail the webhook tries to send (its HTML markup and the
      amount aside). */
  datatype ReceiptMail = ReceiptMail(
    to: string, subject: string, tenantName: string, propertyName: string,
    dueDate: string, paymentMonths: int, ctaUrl: string, primaryLabel: string)

  const CompletedEvent: string := "checkout.session.completed"

  /** `metadata.get(key) or default`. */
  function MetaOr(md: map<string, string>, key: string, default: string): (r: string)
    ensures Present(MetaGet(md, key)) ==> r == md[key]
    ensures !Present(MetaGet(md, key)) ==> r == default
  {
    if Present(MetaGet(md, key)) then md[key] else default
  }

  /** The address a completed checkout is confirmed to: the metadata's,
      else the customer's. */
  function ReceiptAddress(e: WebhookEvent): Option<string> {
    if Present(MetaGet(e.metadata, "tenantEmail")) then MetaGet(e.metadata, "tenantEmail") else e.customerEmail
  }

  /** `stripe_webhook`: 500 without Stripe or a webhook secret, 400 without
      a signature or with one that does not verify; otherwise the receipt
      to send, if any, and the response is `{"received": true}` whatever
      the mail does. A stored month count that is not a number raises a
      500. `receiptUrl` is what retrieving the intent yields (nothing when
      that fails); `today` is the ISO date of the day. */
  function StripeWebhook(s: Settings, stripeReady: bool, signature: Option<string>, signatureValid: bool,
                         e: WebhookEvent, receiptUrl: Option<string>, today: string): (r: Result<Option<ReceiptMail>>)
    ensures !stripeReady || !Present(s.stripeWebhookSecret) ==> r == Fail(ServerError)
    ensures stripeReady && Present(s.stripeWebhookSecret) && (!Present(signature) || !signatureValid) ==> r == Fail(BadRequest)
    ensures r.Ok? ==> stripeReady && Present(s.stripeWebhookSecret) && Present(signature) && signatureValid
    ensures r.Ok? ==> (r.value.Some? <==> e.kind == CompletedEvent && Present(ReceiptAddress(e)))
    ensures r.Ok? && r.value.Some? ==> r.value.value.to == ReceiptAddress(e).value
    ensures r.Ok? && r.value.Some? ==> r.value.value.subject == "Facture - Paiement reçu pour " + r.value.value.propertyName
    ensures r.Ok? && r.value.Some? && !Present(MetaGet(e.metadata, "paymentMonths")) ==> r.value.value.paymentMonths == 1
    ensures r.Ok? && r.value.Some? && Present(MetaGet(e.metadata, "paymentMonths"))
            ==> PyInt(e.metadata["paymentMonths"]) == Some(r.value.value.paymentMonths)
    ensures r.Fail? && stripeReady && Present(s.stripeWebhookSecret) && Present(signature) && signatureValid
            ==> r.status == ServerError && e.kind == CompletedEvent && Present(ReceiptAddress(e))
    ensures stripeReady && Present(s.stripeWebhookSecret) && Present(signature) && signatureValid ==>
      (r.Fail? <==> && e.kind == CompletedEvent && Present(ReceiptAddress(e))
                    && Present(MetaGet(e.metadata, "paymentMonths"))
                    && PyInt(MetaGet(e.metadata, "paymentMonths").value).None?)
  {
    if !stripeReady || !Present(s.stripeWebhookSecret) then Fail(ServerError)
    else if !Present(signature) || !signatureValid then Fail(BadRequest)
    else if e.kind != CompletedEvent || !Present(ReceiptAddress(e)) then Ok(None)
    else
      var md := e.metadata;
      var monthsText := MetaGet(md, "paymentMonths");
      if Present(monthsText) && PyInt(monthsText.value).None? then Fail(ServerError)
      else
        var months := if Present(monthsText) then PyInt(monthsText.value).value else 1;
        var receipt := if Present(e.paymentIntentId) then receiptUrl else None;
        var propertyName := MetaOr(md, "propertyName", "votre logement");
        Ok(Some(ReceiptMail(
          ReceiptAddress(e).value, "Facture - Paiement reçu pour " + propertyName,
          MetaOr(md, "tenantName", "Locataire"), propertyName, MetaOr(md, "dueDate", today), months,
          if Present(receipt) then receipt.value else s.appUrl,
          if Present(receipt) then "Voir mon reçu" else "Accéder au tableau de bord")))
  }

  /** A checkout's metadata, once paid, brings the receipt to the lower-cased
      address of the checkout with the month count the checkout clamped. */
  lemma CheckoutThenWebhook(req: CheckoutRequest, s: Settings, signature: Option<string>,
                            receiptUrl: Option<string>, today: string)
    requires CreateCheckout(req, s, true).Ok?
    requires Present(s.stripeWebhookSecret) && Present(signature)
    requires Lower(req.tenantEmail) != "" && Strip(Lower(req.tenantEmail)) == Lower(req.tenantEmail)
    ensures var md := CreateCheckout(req, s, true).value.metadata;
      var r := StripeWebhook(s, true, signature, true, WebhookEvent(CompletedEvent, md, None, None), receiptUrl, today);
      && r.Ok? && r.value.Some?
      && r.value.value.to == Lower(req.tenantEmail)
      && r.value.value.paymentMonths == CheckoutMonths(req)
  {
    var md := CreateCheckout(req, s, true).value.metadata;
    CheckoutMonthsInMetadata(req, s, true);
    CheckoutEmailInMetadata(req, s);
    WebhookReadsMetadata(s, signature, md, receiptUrl, today, Lower(req.tenantEmail), CheckoutMonths(req));
  }

  /** A completed checkout whose metadata names an address and a month
      count sends the receipt there, with that count. */
  lemma WebhookReadsMetadata(s: Settings, signature: Option<string>, md: map<string, string>,
                             receiptUrl: Option<string>, today: string, email: string, months: int)
    requires Present(s.stripeWebhookSecret) && Present(signature)
    requires "tenantEmail" in md && md["tenantEmail"] == email && email != ""
    requires "paymentMonths" in md && PyInt(md["paymentMonths"]) == Some(months)
    ensures var r := StripeWebhook(s, true, signature, true, WebhookEvent(CompletedEvent, md, None, None), receiptUrl, today);
      r.Ok? && r.value.Some? && r.value.value.to == email && r.value.value.paymentMonths == months
  {
  }

  /** A trimmed, non-empty lower-cased address reaches the metadata as it is. */
  lemma CheckoutEmailInMetadata(req: CheckoutRequest, s: Settings)
    requires CreateCheckout(req, s, true).Ok?
    requires Lower(req.tenantEmail) != "" && Strip(Lower(req.tenantEmail)) == Lower(req.tenantEmail)
    ensures var md := CreateCheckout(req, s, true).value.metadata;
      "tenantEmail" in md && md["tenantEmail"] == Lower(req.tenantEmail)
  {
    CheckoutFieldsAt(req, s);
    MetadataText(CheckoutFields(req, s), "tenantEmail", Lower(req.tenantEmail));
  }
}

=== FILE: properties_api.dfy ===
/** The property endpoints (`app/api/properties.py`): the input sanitiser,
    the patch filter, the record mappers and the update merge. Storage is
    a parameter: the record read back. Rent and charges are floats in the
    service; here they are whatever JSON value the store holds. */
module PropertiesApi {
  import opened Wrappers
  import opened Text
  import opened Values
  import opened Models
  import ReminderService
  import Lists

  /** A validated `PropertyCreate` body. */
  datatype PropertyCreate = PropertyCreate(
    name: string, address: string, status: string, kind: string,
    bedrooms: int, rent: Value, charges: Value, ownerId: string)

  /** A property record as stored and answered (without its id); `kind` is
      the field stored under the key `type`. */
  datatype PropertyFields = PropertyFields(
    name: Value, address: Value, status: Value, kind: Value,
    bedrooms: Value, rent: Value, charges: Value, ownerId: Value)

  /** A `PropertyUpdate` dumped with `exclude_unset`: `None` for a field
      the client did not send. The model declares neither `id` nor
      `ownerId`, so the filter's two `pop` calls never remove anything. */
  datatype PropertyPatch = PropertyPatch(
    name: Option<Value>, address: Option<Value>, status: Option<Value>, kind: Option<Value>,
    bedrooms: Option<Value>, rent: Option<Value>, charges: Option<Value>)

  /** `sanitize_property_input`: 400 when the name, the address or the type
      is blank; otherwise those three trimmed and the owner defaulted. */
  function SanitizePropertyInput(p: PropertyCreate, defaultOwner: string): (r: Result<PropertyFields>)
    ensures r.Fail? <==> IsBlank(p.name) || IsBlank(p.address) || IsBlank(p.kind)
    ensures r.Fail? ==> r.status == BadRequest
    ensures r.Ok? ==> r.value.name.Str? && r.value.name.s != "" && Strip(r.value.name.s) == r.value.name.s
    ensures r.Ok? ==> r.value.address.Str? && r.value.address.s != "" && Strip(r.value.address.s) == r.value.address.s
    ensures r.Ok? ==> r.value.kind.Str? && r.value.kind.s != "" && Strip(r.value.kind.s) == r.value.kind.s
    ensures r.Ok? ==> r.value.ownerId == Str(if p.ownerId != "" then p.ownerId else defaultOwner)
    ensures r.Ok? ==> r.value.status == Str(p.status) && r.value.bedrooms == Int(p.bedrooms)
    ensures r.Ok? ==> r.value.rent == p.rent && r.value.charges == p.charges
  {
    StripBlank(p.name);
    StripBlank(p.address);
    StripBlank(p.kind);
    StripIdempotent(p.name);
    StripIdempotent(p.address);
    StripIdempotent(p.kind);
    if IsBlank(p.name) || IsBlank(p.address) || IsBlank(p.kind) then Fail(BadRequest)
    else
      Ok(PropertyFields(
        Str(Strip(p.name)), Str(Strip(p.address)), Str(p.status), Str(Strip(p.kind)),
        Int(p.bedrooms), p.rent, p.charges, Str(if p.ownerId != "" then p.ownerId else defaultOwner)))
  }

  /** The body a client would send to store the sanitised record again. */
  function ResubmittedProperty(p: PropertyCreate, defaultOwner: string): PropertyCreate {
    p.(name := Strip(p.name), address := Strip(p.address), kind := Strip(p.kind),
       ownerId := if p.ownerId != "" then p.ownerId else defaultOwner)
  }

  /** Sanitising a sanitised body changes nothing. */
  lemma SanitizePropertyInputIdempotent(p: PropertyCreate, defaultOwner: string)
    requires SanitizePropertyInput(p, defaultOwner).Ok?
    requires defaultOwner != ""
    ensures SanitizePropertyInput(ResubmittedProperty(p, defaultOwner), defaultOwner) == SanitizePropertyInput(p, defaultOwner)
  {
    StripTwice(p.name);
    StripTwice(p.address);
    StripTwice(p.kind);
  }

  /** A field that passed the check passes it again once trimmed. */
  lemma StripTwice(s: string)
    requires !IsBlank(s)
    ensures !IsBlank(Strip(s)) && Strip(Strip(s)) == Strip(s)
  {
    StripBlank(s);
    StripBlank(Strip(s));
    StripIdempotent(s);
  }

  /** `sanitize_property_patch`: exactly the fields the client sent. The
      filter pops `id` and `ownerId`, which `PropertyUpdate` does not
      declare, so it never removes anything. */
  function SanitizePropertyPatch(patch: PropertyPatch): (r: PropertyPatch)
    ensures r == patch
  {
    patch
  }

  /** `map_single` (and each item of `map_snapshot`): the stored fields,
      with status, bedrooms, rent, charges and owner defaulted. */
  function MapPropertyRecord(rec: Record, defaultOwner: string): (r: PropertyFields)
    ensures Truthy(r.status)
    ensures defaultOwner != "" ==> Truthy(r.ownerId)
    ensures r.name == Get(rec, "name") && r.address == Get(rec, "address") && r.kind == Get(rec, "type")
    ensures Truthy(Get(rec, "status")) ==> r.status == rec["status"]
    ensures !Truthy(Get(rec, "status")) ==> r.status == Str("vacant")
    ensures Truthy(Get(rec, "bedrooms")) ==> r.bedrooms == rec["bedrooms"]
    ensures !Truthy(Get(rec, "bedrooms")) ==> r.bedrooms == Int(0)
    ensures !Truthy(Get(rec, "rent")) ==> r.rent == Int(0)
    ensures !Truthy(Get(rec, "charges")) ==> r.charges == Int(0)
    ensures Truthy(Get(rec, "ownerId")) ==> r.ownerId == rec["ownerId"]
    ensures !Truthy(Get(rec, "ownerId")) ==> r.ownerId == Str(defaultOwner)
  {
    PropertyFields(
      Get(rec, "name"), Get(rec, "address"), Or(Get(rec, "status"), Str("vacant")), Get(rec, "type"),
      Or(Get(rec, "bedrooms"), Int(0)), Or(Get(rec, "rent"), Int(0)), Or(Get(rec, "charges"), Int(0)),
      Or(Get(rec, "ownerId"), Str(defaultOwner)))
  }

  /** The stored form of a property record. */
  function StoredProperty(f: PropertyFields): Record {
    map["name" := f.name, "address" := f.address, "status" := f.status, "type" := f.kind,
        "bedrooms" := f.bedrooms, "rent" := f.rent, "charges" := f.charges, "ownerId" := f.ownerId]
  }

  /** Reading back a record the mapper produced gives it back. */
  lemma MapPropertyRecordIdempotent(rec: Record, defaultOwner: string)
    ensures MapPropertyRecord(StoredProperty(MapPropertyRecord(rec, defaultOwner)), defaultOwner)
            == MapPropertyRecord(rec, defaultOwner)
  {
  }

  /** A record stored by the create endpoint reads back as it was stored:
      the mapper's defaults never replace a sanitised value, except a
      falsy bedroom count, rent or charges, which read back as 0. */
  lemma CreatedPropertyReadsBack(p: PropertyCreate, defaultOwner: string)
    requires SanitizePropertyInput(p, defaultOwner).Ok?
    requires defaultOwner != "" && p.status != ""
    requires Truthy(p.rent) && Truthy(p.charges) && p.bedrooms != 0
    ensures MapPropertyRecord(StoredProperty(SanitizePropertyInput(p, defaultOwner).value), defaultOwner)
            == SanitizePropertyInput(p, defaultOwner).value
  {
    var f := SanitizePropertyInput(p, defaultOwner).value;
    StoredReadsBack(f, defaultOwner);
  }

  /** A record whose defaulted fields are all truthy reads back unchanged. */
  lemma StoredReadsBack(f: PropertyFields, defaultOwner: string)
    requires Truthy(f.status) && Truthy(f.bedrooms) && Truthy(f.rent) && Truthy(f.charges) && Truthy(f.ownerId)
    ensures MapPropertyRecord(StoredProperty(f), defaultOwner) == f
  {
  }

  /** `map_snapshot`: one mapped record per stored record, with its id;
      nothing for a snapshot that is not a dictionary. */
  function MapPropertySnapshot(snapshot: Snapshot, defaultOwner: string): (r: seq<(string, PropertyFields)>)
    ensures snapshot.NotDict? ==> r == []
    ensures snapshot.Dict? ==> |r| == |snapshot.items|
    ensures snapshot.Dict? ==> forall k :: 0 <= k < |r| ==> r[k].0 == snapshot.items[k].0
  {
    if snapshot.NotDict? then []
    else seq(|snapshot.items|, k requires 0 <= k < |snapshot.items| =>
               (snapshot.items[k].0, MapPropertyRecord(snapshot.items[k].1, defaultOwner)))
  }

  /** The list endpoint and the single-record mapper show a stored property
      the same way. */
  lemma PropertySnapshotAgreesWithSingle(items: seq<(string, Record)>, defaultOwner: string, k: nat)
    requires k < |items|
    ensures MapPropertySnapshot(Dict(items), defaultOwner)[k] == (items[k].0, MapPropertyRecord(items[k].1, defaultOwner))
  {
  }

  /** The patch as the dictionary `model_dump(exclude_unset=True)` gives:
      one entry per sent field. */
  function PropertyPatchRecord(p: PropertyPatch): Record {
    SentEntry("name", p.name) + SentEntry("address", p.address) + SentEntry("status", p.status)
    + SentEntry("type", p.kind) + SentEntry("bedrooms", p.bedrooms) + SentEntry("rent", p.rent)
    + SentEntry("charges", p.charges)
  }

  /** `mapped | patch`: a sent field overrides the mapped one, and the
      owner, which is never sent, never changes. */
  function ApplyPropertyPatch(f: PropertyFields, p: PropertyPatch): (r: PropertyFields)
    ensures r.ownerId == f.ownerId
    ensures p == PropertyPatch(None, None, None, None, None, None, None) ==> r == f
  {
    PropertyFields(
      p.name.GetOr(f.name), p.address.GetOr(f.address), p.status.GetOr(f.status), p.kind.GetOr(f.kind),
      p.bedrooms.GetOr(f.bedrooms), p.rent.GetOr(f.rent), p.charges.GetOr(f.charges), f.ownerId)
  }

  /** The merge is Python's dictionary union: the stored form of the
      merged record is the stored form of the mapped one with the sent
      entries written over it. */
  lemma ApplyPropertyPatchIsUnion(f: PropertyFields, p: PropertyPatch)
    ensures StoredProperty(ApplyPropertyPatch(f, p)) == StoredProperty(f) + PropertyPatchRecord(p)
  {
    var m0 := StoredProperty(f);
    var e1 := SentEntry("name", p.name);
    var e2 := e1 + SentEntry("address", p.address);
    var e3 := e2 + SentEntry("status", p.status);
    var e4 := e3 + SentEntry("type", p.kind);
    var e5 := e4 + SentEntry("bedrooms", p.bedrooms);
    var e6 := e5 + SentEntry("rent", p.rent);
    UnionAssociative(m0, e6, SentEntry("charges", p.charges));
    UnionAssociative(m0, e5, SentEntry("rent", p.rent));
    UnionAssociative(m0, e4, SentEntry("bedrooms", p.bedrooms));
    UnionAssociative(m0, e3, SentEntry("type", p.kind));
    UnionAssociative(m0, e2, SentEntry("status", p.status));
    UnionAssociative(m0, e1, SentEntry("address", p.address));
    SentEntryOverrides(m0, "name", p.name);
    var m1 := m0["name" := p.name.GetOr(f.name)];
    SentEntryOverrides(m1, "address", p.address);
    var m2 := m1["address" := p.address.GetOr(f.address)];
    SentEntryOverrides(m2, "status", p.status);
    var m3 := m2["status" := p.status.GetOr(f.status)];
    SentEntryOverrides(m3, "type", p.kind);
    var m4 := m3["type" := p.kind.GetOr(f.kind)];
    SentEntryOverrides(m4, "bedrooms", p.bedrooms);
    var m5 := m4["bedrooms" := p.bedrooms.GetOr(f.bedrooms)];
    SentEntryOverrides(m5, "rent", p.rent);
    var m6 := m5["rent" := p.rent.GetOr(f.rent)];
    SentEntryOverrides(m6, "charges", p.charges);
    StoredPropertyOverwritten(f, p);
  }

  /** The stored form of a merged record, as the stored form of the
      mapped one with each patchable entry overwritten in turn. */
  lemma StoredPropertyOverwritten(f: PropertyFields, p: PropertyPatch)
    ensures StoredProperty(ApplyPropertyPatch(f, p))
            == StoredProperty(f)["name" := p.name.GetOr(f.name)]["address" := p.address.GetOr(f.address)]
                                ["status" := p.status.GetOr(f.status)]["type" := p.kind.GetOr(f.kind)]
                                ["bedrooms" := p.bedrooms.GetOr(f.bedrooms)]["rent" := p.rent.GetOr(f.rent)]
                                ["charges" := p.charges.GetOr(f.charges)]
  {
  }

  /** `map_single(...) | patch` in `update_property`: the mapped record
      merged with the patch. */
  function MergeProperty(patch: PropertyPatch, existing: Record, defaultOwner: string): (r: PropertyFields)
    ensures r.ownerId == MapPropertyRecord(existing, defaultOwner).ownerId
    ensures patch.name.Some? ==> r.name == patch.name.value
    ensures patch.name.None? ==> r.name == Get(existing, "name")
    ensures patch.status.None? && !Truthy(Get(existing, "status")) ==> r.status == Str("vacant")
  {
    ApplyPropertyPatch(MapPropertyRecord(existing, defaultOwner), SanitizePropertyPatch(patch))
  }

  /** An empty patch only fills in the defaults, and applying a patch to
      its own result changes nothing. */
  lemma UpdatePropertyProperties(patch: PropertyPatch, existing: Record, defaultOwner: string)
    ensures MergeProperty(PropertyPatch(None, None, None, None, None, None, None), existing, defaultOwner)
            == MapPropertyRecord(existing, defaultOwner)
    ensures var once := MergeProperty(patch, existing, defaultOwner);
      ApplyPropertyPatch(once, patch) == once
  {
  }

  /** A `PropertyOut` as answered. Rent and charges are floats and are not
      kept, only whether the response model accepts them. */
  datatype PropertyOut = PropertyOut(
    id: string, name: string, address: string, status: string, kind: string,
    bedrooms: int, ownerId: string)

  /** Every field of the record has the type `PropertyOut` declares: text
      for the four strings and the owner, a bedroom count an `int` field
      accepts, and a rent and charges a `float` field accepts. */
  predicate PropertyOutValid(f: PropertyFields, c: Coercions) {
    && f.name.Str? && f.address.Str? && f.status.Str? && f.kind.Str?
    && LaxInt(f.bedrooms, c).Some? && LaxFloat(f.rent, c) && LaxFloat(f.charges, c) && f.ownerId.Str?
  }

  /** `PropertyOut.model_validate`: the answered property; a 500 when a
      field does not have its declared type. */
  function ValidatePropertyOut(id: string, f: PropertyFields, c: Coercions): (r: Result<PropertyOut>)
    ensures r.Ok? <==> PropertyOutValid(f, c)
    ensures r.Fail? ==> r.status == ServerError
    ensures r.Ok? ==> r.value.id == id
    ensures r.Ok? ==> Str(r.value.name) == f.name && Str(r.value.address) == f.address
    ensures r.Ok? ==> Str(r.value.status) == f.status && Str(r.value.kind) == f.kind && Str(r.value.ownerId) == f.ownerId
    ensures r.Ok? ==> Some(r.value.bedrooms) == LaxInt(f.bedrooms, c)
  {
    match LaxInt(f.bedrooms, c)
    case Some(bedrooms) =>
      if f.name.Str? && f.address.Str? && f.status.Str? && f.kind.Str? && f.ownerId.Str?
         && LaxFloat(f.rent, c) && LaxFloat(f.charges, c) then
        Ok(PropertyOut(id, f.name.s, f.address.s, f.status.s, f.kind.s, bedrooms, f.ownerId.s))
      else Fail(ServerError)
    case None => Fail(ServerError)
  }

  /** `list_properties`: every stored property mapped and validated, in
      snapshot order, with its key as id; a 500 when one of them does not
      validate. */
  function ListProperties(snapshot: Snapshot, defaultOwner: string, c: Coercions): (r: Result<seq<PropertyOut>>)
    ensures snapshot.NotDict? ==> r == Ok([])
    ensures snapshot.Dict? ==> (r.Ok? <==> forall k :: 0 <= k < |snapshot.items| ==>
                                 PropertyOutValid(MapPropertyRecord(snapshot.items[k].1, defaultOwner), c))
    ensures r.Fail? ==> r.status == ServerError
    ensures r.Ok? && snapshot.Dict? ==> |r.value| == |snapshot.items|
    ensures r.Ok? && snapshot.Dict? ==> forall k :: 0 <= k < |r.value| ==>
              Ok(r.value[k]) == ValidatePropertyOut(snapshot.items[k].0, MapPropertyRecord(snapshot.items[k].1, defaultOwner), c)
  {
    var mapped := MapPropertySnapshot(snapshot, defaultOwner);
    var r := Lists.MapResults(mapped, (e: (string, PropertyFields)) => ValidatePropertyOut(e.0, e.1, c));
    assert snapshot.Dict? ==> forall k :: 0 <= k < |mapped| ==>
      mapped[k] == (snapshot.items[k].0, MapPropertyRecord(snapshot.items[k].1, defaultOwner));
    r
  }

  /** `update_property`: 404 when the record is missing; otherwise the
      merged record validated as a `PropertyOut`, which is a 500 when a
      stored field the patch does not replace has the wrong type. */
  function UpdateProperty(propertyId: string, patch: PropertyPatch, existing: Option<Record>, defaultOwner: string, c: Coercions)
    : (r: Result<PropertyOut>)
    ensures existing.None? ==> r == Fail(NotFound)
    ensures existing.Some? ==> (r.Ok? <==> PropertyOutValid(MergeProperty(patch, existing.value, defaultOwner), c))
    ensures existing.Some? && r.Fail? ==> r.status == ServerError
    ensures r.Ok? ==> r.value.id == propertyId
    ensures r.Ok? ==> Str(r.value.ownerId) == MapPropertyRecord(existing.value, defaultOwner).ownerId
    ensures r.Ok? && patch.name.Some? ==> Str(r.value.name) == patch.name.value
    ensures r.Ok? && patch.name.None? ==> Str(r.value.name) == Get(existing.value, "name")
    ensures r.Ok? && patch.status.None? && !Truthy(Get(existing.value, "status")) ==> r.value.status == "vacant"
    ensures r.Ok? && patch.bedrooms.None? && !Truthy(Get(existing.value, "bedrooms")) ==> r.value.bedrooms == 0
  {
    if existing.None? then Fail(NotFound)
    else ValidatePropertyOut(propertyId, MergeProperty(patch, existing.value, defaultOwner), c)
  }

  /** A stored property without an address cannot be answered: patching
      any other field fails with 500 after the patch was written. */
  lemma UpdateFailsWithoutAddress(propertyId: string, patch: PropertyPatch, existing: Record, defaultOwner: string, c: Coercions)
    requires patch.address.None? && "address" !in existing
    ensures UpdateProperty(propertyId, patch, Some(existing), defaultOwner, c) == Fail(ServerError)
  {
  }

  /** The reminder service reads a stored property as the property
      endpoints answer it: the same fields with the same defaults and,
      unless a number is stored as text (which two different parsers
      read), the same bedroom count; a property the list answers is one
      the reminder service can read. */
  lemma ReminderReadsAsListed(id: string, rec: Record, defaultOwner: string, c: Coercions)
    ensures var q := ReminderService.MapProperty(id, rec, defaultOwner); var f := MapPropertyRecord(rec, defaultOwner);
      q.Some? ==> && q.value.name == f.name && q.value.address == f.address && q.value.status == f.status
                  && q.value.kind == f.kind && q.value.ownerId == f.ownerId
    ensures var q := ReminderService.MapProperty(id, rec, defaultOwner); var f := MapPropertyRecord(rec, defaultOwner);
      var v := ValidatePropertyOut(id, f, c);
      v.Ok? && !f.bedrooms.Str? && !f.rent.Str? && !f.charges.Str? ==> q.Some? && q.value.bedrooms == v.value.bedrooms
  {
  }
}

=== FILE: reminder_service.dfy ===
/** The reminder service (`app/services/reminder_service.py`): its own copy
    of the entry-date reader, which works on text, the due-date computation
    built on it, the record mapping, `{{token}}` templates and the choice of
    tenants the monthly mailer writes to. */
module ReminderService {
  import opened Wrappers
  import opened Text
  import opened Values
  import opened Calendar
  import opened IsoDate
  import opened DueDates
  import LatePaymentService
  import Lists

  /** `to_clean_string(value)`: `str(value).strip()`, with `None` for `None`
      and for text that is blank. */
  function ToCleanString(v: Value): (r: Option<string>)
    ensures r.None? <==> v.Null? || IsBlank(PyStr(v))
    ensures r.Some? ==> r.value != "" && !IsSpace(r.value[0]) && !IsSpace(r.value[|r.value| - 1])
    ensures r.Some? ==> Strip(r.value) == r.value
  {
    StripBlank(PyStr(v));
    if v.Null? then None
    else
      var t := Strip(PyStr(v));
      StripIdempotent(PyStr(v));
      if t == "" then None else Some(t)
  }

  /** The split of a `DD/MM/YYYY`-shaped string with exactly two slashes is
      its three fixed fields. */
  lemma SlashFields(s: string)
    requires SlashShaped(s) && |SplitOn(s, '/')| == 3
    ensures SplitOn(s, '/') == [s[..2], s[3..5], s[6..]]
  {
    var p := SplitOn(s, '/');
    assert p[1..][1..] == [p[2]];
    assert Join(p[1..], '/') == p[1] + ['/'] + p[2];
    assert s == p[0] + ['/'] + (p[1] + ['/'] + p[2]);
    var a, b := |p[0]|, |p[0]| + 1 + |p[1]|;
    assert s[a] == '/' && s[b] == '/';
    assert forall i :: 0 <= i < a ==> s[i] == p[0][i];
    assert forall i :: a < i < b ==> s[i] == p[1][i - a - 1];
    assert forall i :: b < i < |s| ==> s[i] == p[2][i - b - 1];
    assert forall i :: 0 <= i < |s| && s[i] == '/' ==> i == a || i == b;
    assert a == 2 && b == 5;
    assert p[0] == s[..2];
    assert p[1] == s[3..5];
    assert p[2] == s[6..];
  }

  /** The `DD/MM/YYYY` branch: split on `/` and, when there are exactly
      three parts, reorder them as `YYYY-MM-DD` without checking them. */
  function SlashToIso(s: string): (r: Option<string>)
    requires SlashShaped(s)
    ensures r.Some? ==> IsoShaped(r.value)
    ensures r.Some? <==> |SplitOn(s, '/')| == 3
  {
    var parts := SplitOn(s, '/');
    if |parts| != 3 then None
    else
      SlashFields(s);
      Some(parts[2] + "-" + parts[1] + "-" + parts[0])
  }

  /** `normalize_entry_date(value)` of this service: the cleaned text is kept
      verbatim in the `YYYY-MM-DD` shape (unvalidated), reordered textually
      from `DD/MM/YYYY`, and otherwise parsed and written back in ISO form.
      Any result has the `YYYY-MM-DD` shape. */
  function NormalizeEntryText(v: Value, general: string -> Option<PyDate>): (r: Option<string>)
    ensures ToCleanString(v).None? ==> r.None?
    ensures r.Some? ==> IsoShaped(r.value)
    ensures ToCleanString(v).Some? && IsoShaped(ToCleanString(v).value) ==> r == ToCleanString(v)
  {
    match ToCleanString(v)
    case None => None
    case Some(s) =>
      if IsoShaped(s) then Some(s)
      else if SlashShaped(s) then SlashToIso(s)
      else
        match FromIsoFormat(s, general)
        case None => None
        case Some(d) => Some(IsoFormat(d))
  }

  /** `datetime.fromisoformat(normalized).date()` in `compute_next_due_date`:
      the start date, or `None` for every early return. */
  function EntryStart(entry: Value, general: string -> Option<PyDate>): Option<PyDate> {
    if !Truthy(entry) then None
    else
      match NormalizeEntryText(entry, general)
      case None => None
      case Some(n) => FromIsoFormat(n, general)
  }

  /** `max(1, min(12, int(cycle_months or 1)))` for the integer the callers pass. */
  function ClampCycle(cycleMonths: int): (c: int)
    ensures 1 <= c <= 12
    ensures 1 <= cycleMonths <= 12 ==> c == cycleMonths
    ensures cycleMonths == 0 ==> c == 1
  {
    Clamp(if cycleMonths == 0 then 1 else cycleMonths, 1, 12)
  }

  /** `compute_next_due_date(entry, cycle_months)` of this service. */
  function ComputeNextDueDate(entry: Value, cycleMonths: int, today: PyDate, general: string -> Option<PyDate>): (r: Option<Date>)
    ensures r.Some? <==> EntryStart(entry, general).Some?
    ensures r.Some? ==> r.value == NextDue(EntryStart(entry, general).value, ClampCycle(cycleMonths), today)
  {
    match EntryStart(entry, general)
    case None => None
    case Some(start) => Some(NextDue(start, ClampCycle(cycleMonths), today))
  }

  /** Missing, blank and shaped-but-impossible entry dates give no due date. */
  lemma ComputeNextDueDateRejects(cycleMonths: int, today: PyDate, general: string -> Option<PyDate>)
    ensures ComputeNextDueDate(Null, cycleMonths, today, general).None?
    ensures ComputeNextDueDate(Str(""), cycleMonths, today, general).None?
    ensures ComputeNextDueDate(Str("2024-13-45"), cycleMonths, today, general).None?
  {
    var s := "2024-13-45";
    assert !IsSpace(s[0]) && !IsSpace(s[9]);
    ParseIsoRejectsMonth();
    ImpossibleIsoRejected(s, cycleMonths, today, general);
  }

  /** A trimmed `YYYY-MM-DD`-shaped entry naming no calendar day gives no
      due date. */
  lemma ImpossibleIsoRejected(s: string, cycleMonths: int, today: PyDate, general: string -> Option<PyDate>)
    requires IsoShaped(s) && !IsSpace(s[0]) && !IsSpace(s[9]) && ParseIso10(s).None?
    ensures ComputeNextDueDate(Str(s), cycleMonths, today, general).None?
  {
    StripTrimmed(s);
  }

  /** Both services read a trimmed `YYYY-MM-DD` entry date alike. */
  lemma CopiesAgreeOnIso(s: string, general: string -> Option<PyDate>)
    requires IsoShaped(s) && !IsSpace(s[0]) && !IsSpace(s[9])
    ensures EntryStart(Str(s), general) == LatePaymentService.NormalizeEntryDate(Str(s), general)
  {
    StripTrimmed(s);
  }

  /** A trimmed `DD/MM/YYYY`-shaped entry is reordered textually, whatever
      its fields hold. */
  lemma EntryTextOfSlash(dd: string, mm: string, yyyy: string, general: string -> Option<PyDate>)
    requires |dd| == 2 && |mm| == 2 && |yyyy| == 4
    requires '/' !in dd && '/' !in mm && '/' !in yyyy
    requires !IsSpace(dd[0]) && !IsSpace(yyyy[3]) && mm[1] != '-'
    ensures NormalizeEntryText(Str(dd + "/" + mm + "/" + yyyy), general) == Some(yyyy + "-" + mm + "-" + dd)
  {
    var s := dd + "/" + mm + "/" + yyyy;
    assert s[0] == dd[0] && s[9] == yyyy[3];
    StripTrimmed(s);
    assert ToCleanString(Str(s)) == Some(s);
    assert s[4] == mm[1] && !IsoShaped(s);
    SlashToIsoOf(dd, mm, yyyy);
  }

  /** The slash branch on three fields reorders them. */
  lemma SlashToIsoOf(dd: string, mm: string, yyyy: string)
    requires |dd| == 2 && |mm| == 2 && |yyyy| == 4
    requires '/' !in dd && '/' !in mm && '/' !in yyyy
    ensures SlashShaped(dd + "/" + mm + "/" + yyyy)
    ensures SlashToIso(dd + "/" + mm + "/" + yyyy) == Some(yyyy + "-" + mm + "-" + dd)
  {
    var s := dd + "/" + mm + "/" + yyyy;
    assert s[2] == '/' && s[5] == '/';
    LatePaymentService.SlashParts(dd, mm, yyyy);
  }

  /** The reordered text has the ISO shape, with the fields in place. */
  lemma IsoFields(dd: string, mm: string, yyyy: string)
    requires |dd| == 2 && |mm| == 2 && |yyyy| == 4
    ensures var n := yyyy + "-" + mm + "-" + dd;
      IsoShaped(n) && n[..4] == yyyy && n[5..7] == mm && n[8..] == dd
  {
  }

  /** Both services read a `DD/MM/YYYY` entry date written in digits alike. */
  lemma CopiesAgreeOnSlashDigits(dd: string, mm: string, yyyy: string, general: string -> Option<PyDate>)
    requires |dd| == 2 && |mm| == 2 && |yyyy| == 4
    requires AllDigits(dd) && AllDigits(mm) && AllDigits(yyyy)
    ensures EntryStart(Str(dd + "/" + mm + "/" + yyyy), general)
         == LatePaymentService.NormalizeEntryDate(Str(dd + "/" + mm + "/" + yyyy), general)
  {
    assert IsDigit(dd[0]) && IsDigit(mm[1]) && IsDigit(yyyy[3]);
    assert '/' !in dd && '/' !in mm && '/' !in yyyy;
    EntryTextOfSlash(dd, mm, yyyy, general);
    IsoFields(dd, mm, yyyy);
    LatePaymentService.NormalizeEntryDateSlashDigits(dd, mm, yyyy, general);
  }

  /** Both services read any other trimmed timestamp alike: this one writes
      the parsed date back in ISO form and reads it again, which is the
      round trip of `IsoRoundTrip`. */
  lemma CopiesAgreeOnGeneral(s: string, general: string -> Option<PyDate>)
    requires |s| > 0 && !IsSpace(s[0]) && !IsSpace(s[|s| - 1])
    requires !IsoShaped(s) && !SlashShaped(s)
    ensures EntryStart(Str(s), general) == LatePaymentService.NormalizeEntryDate(Str(s), general)
  {
    OtherEntryText(s, general);
    if general(s).Some? {
      IsoRoundTrip(general(s).value);
    }
  }

  /** A trimmed timestamp of neither fixed shape is parsed by the general
      reader and written back in ISO form. */
  lemma OtherEntryText(s: string, general: string -> Option<PyDate>)
    requires |s| > 0 && !IsSpace(s[0]) && !IsSpace(s[|s| - 1])
    requires !IsoShaped(s) && !SlashShaped(s)
    ensures general(s).None? ==> EntryStart(Str(s), general).None?
    ensures general(s).Some? ==> EntryStart(Str(s), general) == ParseIso10(IsoFormat(general(s).value))
  {
    StripTrimmed(s);
  }

  /** The copies differ on a signed day: `int("+1")` accepts it, while the
      textual reordering here yields `2024-03-+1`, which no ISO reader takes. */
  lemma CopiesDisagreeOnSignedDay(digit: char, mm: string, yyyy: string, general: string -> Option<PyDate>)
    requires IsDigit(digit) && |mm| == 2 && |yyyy| == 4 && AllDigits(mm) && AllDigits(yyyy)
    ensures EntryStart(Str(['+', digit] + "/" + mm + "/" + yyyy), general).None?
    ensures LatePaymentService.NormalizeEntryDate(Str(['+', digit] + "/" + mm + "/" + yyyy), general)
         == MakeDate(DigitsNumber(yyyy), DigitsNumber(mm), DigitValue(digit))
  {
    SignedDayUnread(digit, mm, yyyy, general);
    LatePaymentService.NormalizeEntryDateSignedDay(digit, mm, yyyy, general);
  }

  lemma SignedDayUnread(digit: char, mm: string, yyyy: string, general: string -> Option<PyDate>)
    requires IsDigit(digit) && |mm| == 2 && |yyyy| == 4 && AllDigits(mm) && AllDigits(yyyy)
    ensures EntryStart(Str(['+', digit] + "/" + mm + "/" + yyyy), general).None?
  {
    var dd := ['+', digit];
    assert IsDigit(mm[1]) && IsDigit(yyyy[3]);
    assert '/' !in mm && '/' !in yyyy;
    EntryTextOfSlash(dd, mm, yyyy, general);
    IsoFields(dd, mm, yyyy);
    var n := yyyy + "-" + mm + "-" + dd;
    assert n[8..][0] == '+';
    assert !AllDigits(n[8..]);
  }

  // ---- record mapping in fetch_tenants_and_properties ----

  /** A tenant as the reminder code sees it. */
  datatype Tenant = Tenant(
    id: string, name: Value, email: string, phone: Value, status: Value,
    propertyId: Value, ownerId: Value, note: Value, entryDate: Value,
    paymentMonths: int)

  /** A property as the reminder code sees it; the values of rent and
      charges are floats and are not kept, only whether they convert. */
  datatype Property = Property(
    id: string, name: Value, address: Value, status: Value, kind: Value,
    bedrooms: int, ownerId: Value)

  /** `float(value)` returns: numbers and booleans convert, text must spell
      a float, and `None` raises. */
  predicate PyFloatOk(v: Value) {
    match v
    case Null => false
    case Str(s) => PyFloatText(s)
    case _ => true
  }

  /** The tenant dictionary built from one stored record; `None` when a
      conversion raises (`.lower()` on a non-string email, `int()` on an
      unreadable `paymentMonths`). */
  function MapTenant(id: string, rec: Record, defaultOwner: string): (r: Option<Tenant>)
    ensures r.Some? ==> r.value.id == id
    ensures r.Some? && Truthy(Get(rec, "email")) ==> Get(rec, "email").Str? && r.value.email == Lower(Get(rec, "email").s)
    ensures r.Some? && !Truthy(Get(rec, "email")) ==> r.value.email == ""
    ensures r.Some? ==> (Truthy(Get(rec, "status")) ==> r.value.status == Get(rec, "status"))
    ensures r.Some? ==> (!Truthy(Get(rec, "status")) ==> r.value.status == Str("pending"))
    ensures r.Some? ==> (!Truthy(Get(rec, "ownerId")) ==> r.value.ownerId == Str(defaultOwner))
    ensures r.Some? ==> 1 <= r.value.paymentMonths <= 12
    ensures r.Some? <==> (!Truthy(Get(rec, "email")) || Get(rec, "email").Str?)
                         && LatePaymentService.CycleMonths(rec).Some?
  {
    var email := Or(Get(rec, "email"), Str(""));
    if !email.Str? then None
    else
      match LatePaymentService.CycleMonths(rec)
      case None => None
      case Some(months) =>
        Some(Tenant(
          id, Get(rec, "name"), Lower(email.s), Get(rec, "phone"),
          Or(Get(rec, "status"), Str("pending")), Get(rec, "propertyId"),
          Or(Get(rec, "ownerId"), Str(defaultOwner)), Get(rec, "note"),
          Get(rec, "entryDate"), months))
  }

  /** The property dictionary built from one stored record; `None` when
      `int()` on `bedrooms` or `float()` on `rent` or `charges` raises. */
  function MapProperty(id: string, rec: Record, defaultOwner: string): (r: Option<Property>)
    ensures r.Some? ==> r.value.id == id
    ensures r.Some? ==> r.value.name == Get(rec, "name") && r.value.address == Get(rec, "address")
    ensures r.Some? && !Truthy(Get(rec, "status")) ==> r.value.status == Str("vacant")
    ensures r.Some? && !Truthy(Get(rec, "bedrooms")) ==> r.value.bedrooms == 0
    ensures r.Some? && !Truthy(Get(rec, "ownerId")) ==> r.value.ownerId == Str(defaultOwner)
    ensures r.None? <==> || PyIntOf(Or(Get(rec, "bedrooms"), Int(0))).None?
                         || !PyFloatOk(Or(Get(rec, "rent"), Int(0)))
                         || !PyFloatOk(Or(Get(rec, "charges"), Int(0)))
  {
    match PyIntOf(Or(Get(rec, "bedrooms"), Int(0)))
    case None => None
    case Some(bedrooms) =>
      if !PyFloatOk(Or(Get(rec, "rent"), Int(0))) || !PyFloatOk(Or(Get(rec, "charges"), Int(0))) then None
      else
        Some(Property(
          id, Get(rec, "name"), Get(rec, "address"), Or(Get(rec, "status"), Str("vacant")),
          Get(rec, "type"), bedrooms, Or(Get(rec, "ownerId"), Str(defaultOwner))))
  }

  /** A rent written in words, such as "mille", makes the property read
      raise. */
  lemma MapPropertyRentWords(id: string, rec: Record, defaultOwner: string, c: char, rest: string)
    requires 'a' <= c <= 'z' && c != 'i' && c != 'n'
    ensures MapProperty(id, rec["rent" := Str([c] + rest)], defaultOwner).None?
  {
    PyFloatRejectsWord(c, rest);
    var r := rec["rent" := Str([c] + rest)];
    assert Or(Get(r, "rent"), Int(0)) == Str([c] + rest);
  }

  /** A rent written as an integer converts. */
  lemma RentDigitsConvert(digits: string)
    requires PyInt(digits).Some?
    ensures PyFloatOk(Str(digits))
  {
    PyFloatOfInt(digits);
  }

  /** `property_dict.get(tenant.get("propertyId") or "")`: a falsy id looks
      up the empty key, a text id itself, and any other id finds nothing,
      since every key is text. */
  function PropertyOf(t: Tenant, properties: map<string, Property>): (r: Option<Property>)
    ensures !Truthy(t.propertyId) ==> r == (if "" in properties then Some(properties[""]) else None)
    ensures t.propertyId.Str? && t.propertyId.s != "" ==>
              r == (if t.propertyId.s in properties then Some(properties[t.propertyId.s]) else None)
    ensures t.propertyId.Int? || t.propertyId.Bool? ==> Truthy(t.propertyId) ==> r.None?
  {
    var key := if !Truthy(t.propertyId) then Some("") else if t.propertyId.Str? then Some(t.propertyId.s) else None;
    if key.Some? && key.value in properties then Some(properties[key.value]) else None
  }

  /** A tenant whose `propertyId` names a property read from the snapshot
      finds that property. */
  lemma PropertyOfMapped(t: Tenant, snapshot: Snapshot, defaultOwner: string, k: nat)
    requires snapshot.Dict? && k < |snapshot.items|
    requires MapProperties(snapshot, defaultOwner).Some?
    requires t.propertyId == Str(snapshot.items[k].0)
    ensures PropertyOf(t, MapProperties(snapshot, defaultOwner).value).Some?
    ensures PropertyOf(t, MapProperties(snapshot, defaultOwner).value).value.id == snapshot.items[k].0
  {
  }

  /** The tenant list; a non-dict snapshot gives none, a raising record
      aborts the whole read. */
  function MapTenants(snapshot: Snapshot, defaultOwner: string): (r: Option<seq<Tenant>>)
    ensures snapshot.NotDict? ==> r == Some([])
    ensures snapshot.Dict? && r.Some? ==> |r.value| == |snapshot.items|
    ensures snapshot.Dict? && r.Some? ==> forall k :: 0 <= k < |r.value| ==> r.value[k].id == snapshot.items[k].0
  {
    match snapshot
    case NotDict => Some([])
    case Dict(items) =>
      var f := (id: string, rec: Record) => MapTenant(id, rec, defaultOwner);
      var r := Lists.MapItems(items, f);
      assert r.Some? ==> forall k :: 0 <= k < |r.value| ==> r.value[k].id == items[k].0 by {
        if r.Some? {
          forall k | 0 <= k < |r.value|
            ensures r.value[k].id == items[k].0
          {
            assert f(items[k].0, items[k].1) == Some(r.value[k]);
          }
        }
      }
      r
  }

  /** The tenant read succeeds exactly when every stored record maps: one
      non-text email or unreadable `paymentMonths` aborts the whole fetch.
      Each tenant is then the mapping of its own record. */
  lemma MapTenantsSomeIff(items: seq<(string, Record)>, defaultOwner: string)
    ensures MapTenants(Dict(items), defaultOwner).Some?
            <==> forall k :: 0 <= k < |items| ==> MapTenant(items[k].0, items[k].1, defaultOwner).Some?
    ensures MapTenants(Dict(items), defaultOwner).Some? ==>
      forall k :: 0 <= k < |items| ==> MapTenant(items[k].0, items[k].1, defaultOwner) == Some(MapTenants(Dict(items), defaultOwner).value[k])
  {
    var f := (id: string, rec: Record) => MapTenant(id, rec, defaultOwner);
    assert forall k :: 0 <= k < |items| ==> f(items[k].0, items[k].1) == MapTenant(items[k].0, items[k].1, defaultOwner);
  }

  /** The property dictionary keyed by id (a later record with the same id
      replaces an earlier one). */
  function MapProperties(snapshot: Snapshot, defaultOwner: string): (r: Option<map<string, Property>>)
    ensures snapshot.NotDict? ==> r == Some(map[])
    ensures snapshot.Dict? && r.Some? ==> forall k :: 0 <= k < |snapshot.items| ==> snapshot.items[k].0 in r.value
    ensures r.Some? ==> forall id :: id in r.value ==> r.value[id].id == id
  {
    match snapshot
    case NotDict => Some(map[])
    case Dict(items) =>
      Lists.KeyedMap(items, (id: string, rec: Record) => MapProperty(id, rec, defaultOwner), (p: Property) => p.id)
  }

  /** The property read succeeds exactly when every stored record maps:
      one `int()` or `float()` that raises aborts the whole fetch. */
  lemma MapPropertiesSomeIff(items: seq<(string, Record)>, defaultOwner: string)
    ensures MapProperties(Dict(items), defaultOwner).Some?
            <==> forall k :: 0 <= k < |items| ==> MapProperty(items[k].0, items[k].1, defaultOwner).Some?
  {
    var f := (id: string, rec: Record) => MapProperty(id, rec, defaultOwner);
    assert forall k :: 0 <= k < |items| ==> f(items[k].0, items[k].1) == MapProperty(items[k].0, items[k].1, defaultOwner);
  }

  /** What `fetch_tenants_and_properties` returns. */
  datatype Fetched = Fetched(tenants: seq<Tenant>, properties: map<string, Property>)

  /** `fetch_tenants_and_properties`: the tenant list in snapshot order and
      the property dictionary keyed by id; `None` when a record of either
      collection raises, which reaches the caller. */
  function FetchTenantsAndProperties(tenantSnapshot: Snapshot, propertySnapshot: Snapshot, defaultOwner: string): (r: Option<Fetched>)
    ensures tenantSnapshot.NotDict? && propertySnapshot.NotDict? ==> r == Some(Fetched([], map[]))
    ensures r.Some? && tenantSnapshot.NotDict? ==> r.value.tenants == []
    ensures r.Some? && tenantSnapshot.Dict? ==>
      && |r.value.tenants| == |tenantSnapshot.items|
      && forall k :: 0 <= k < |tenantSnapshot.items| ==> r.value.tenants[k].id == tenantSnapshot.items[k].0
    ensures r.Some? && propertySnapshot.Dict? ==> forall k :: 0 <= k < |propertySnapshot.items| ==> propertySnapshot.items[k].0 in r.value.properties
    ensures r.Some? ==> forall id :: id in r.value.properties ==> r.value.properties[id].id == id
    ensures r.Some? ==> MapTenants(tenantSnapshot, defaultOwner).Some? && MapProperties(propertySnapshot, defaultOwner).Some?
  {
    match (MapTenants(tenantSnapshot, defaultOwner), MapProperties(propertySnapshot, defaultOwner))
    case (Some(tenants), Some(properties)) => Some(Fetched(tenants, properties))
    case _ => None
  }

  /** The fetch succeeds exactly when every tenant record and every property
      record maps. */
  lemma FetchSomeIff(tenantItems: seq<(string, Record)>, propertyItems: seq<(string, Record)>, defaultOwner: string)
    ensures FetchTenantsAndProperties(Dict(tenantItems), Dict(propertyItems), defaultOwner).Some?
            <==> && (forall k :: 0 <= k < |tenantItems| ==> MapTenant(tenantItems[k].0, tenantItems[k].1, defaultOwner).Some?)
                 && (forall k :: 0 <= k < |propertyItems| ==> MapProperty(propertyItems[k].0, propertyItems[k].1, defaultOwner).Some?)
  {
    MapTenantsSomeIff(tenantItems, defaultOwner);
    MapPropertiesSomeIff(propertyItems, defaultOwner);
  }

  /** One property whose rent is a word, such as "abc", makes the whole
      fetch raise, whatever the tenants are. */
  lemma FetchFailsOnWordRent(tenantSnapshot: Snapshot, propertyItems: seq<(string, Record)>, defaultOwner: string,
                             k: nat, c: char, rest: string)
    requires k < |propertyItems|
    requires 'a' <= c <= 'z' && c != 'i' && c != 'n'
    requires Get(propertyItems[k].1, "rent") == Str([c] + rest)
    ensures FetchTenantsAndProperties(tenantSnapshot, Dict(propertyItems), defaultOwner).None?
  {
    var (id, rec) := propertyItems[k];
    MapPropertyRentWords(id, rec, defaultOwner, c, rest);
    assert rec["rent" := Str([c] + rest)] == rec;
    MapPropertiesSomeIff(propertyItems, defaultOwner);
  }

  /** The default reminder text: it greets the tenant and names the amount,
      the home and the date through the four placeholders. */
  const DefaultTemplate: string :=
    "Bonjour {{locataire}},\n\nCeci est un rappel concernant votre loyer de {{montant}} pour {{logement}}, "
    + "dû avant le {{date}}.\nMerci de procéder au paiement dès que possible.\n"

  // ---- emit_monthly_reminder ----

  /** The tenants `emit_monthly_reminder(last_day)` writes to: a non-empty
      email and a computed due date in `last_day`'s month and year. */
  predicate Selected(t: Tenant, lastDay: Date, today: PyDate, general: string -> Option<PyDate>) {
    && t.email != ""
    && var due := ComputeNextDueDate(t.entryDate, ClampCycle(t.paymentMonths), today, general);
       due.Some? && due.value.month == lastDay.month && due.value.year == lastDay.year
  }

  /** `Selected` as a test on one tenant, for the generic list helpers. */
  function Picks(lastDay: Date, today: PyDate, general: string -> Option<PyDate>): Tenant -> bool {
    (t: Tenant) => Selected(t, lastDay, today, general)
  }

  /** The ids of the selected tenants, in order. */
  function SelectedIds(tenants: seq<Tenant>, lastDay: Date, today: PyDate, general: string -> Option<PyDate>): seq<string> {
    Lists.IdsWhere(tenants, Picks(lastDay, today, general), (t: Tenant) => t.id)
  }

  /** The mail loop of `emit_monthly_reminder` over the fetched tenants
      (an empty list mails nobody, as its early return does); `mailFails`
      holds the tenant ids whose `send_mail`
      raises, which ends the loop (the scheduler logs the error). The
      result is the ids mailed, and whether the loop ran to its end: a run
      that ends has written to exactly the selected tenants, in order, a
      failing run to a prefix of them, and without failing ids the run
      always ends. */
  function EmitMonthlyReminderFetched(tenants: seq<Tenant>, lastDay: Date, today: PyDate, general: string -> Option<PyDate>, mailFails: set<string>): (r: (seq<string>, bool))
    ensures r.1 ==> r.0 == SelectedIds(tenants, lastDay, today, general)
    ensures r.0 <= SelectedIds(tenants, lastDay, today, general)
    ensures (forall k :: 0 <= k < |tenants| ==> tenants[k].id !in mailFails) ==> r.1
  {
    Lists.SendUntilPicked(tenants, Picks(lastDay, today, general), (t: Tenant) => t.id, mailFails);
    Lists.SendUntil(tenants, Picks(lastDay, today, general), (t: Tenant) => t.id, mailFails)
  }

  /** `emit_monthly_reminder(last_day)`: the fetch first; when it raises,
      nobody is mailed and the run does not complete (the scheduler logs the
      error); otherwise the mail loop over the fetched tenants. */
  function EmitMonthlyReminder(tenantSnapshot: Snapshot, propertySnapshot: Snapshot, defaultOwner: string, lastDay: Date,
                               today: PyDate, general: string -> Option<PyDate>, mailFails: set<string>): (r: (seq<string>, bool))
    ensures FetchTenantsAndProperties(tenantSnapshot, propertySnapshot, defaultOwner).None? ==> r == ([], false)
    ensures FetchTenantsAndProperties(tenantSnapshot, propertySnapshot, defaultOwner).Some? ==>
      r == EmitMonthlyReminderFetched(FetchTenantsAndProperties(tenantSnapshot, propertySnapshot, defaultOwner).value.tenants,
                                      lastDay, today, general, mailFails)
    ensures r.1 ==> FetchTenantsAndProperties(tenantSnapshot, propertySnapshot, defaultOwner).Some?
  {
    match FetchTenantsAndProperties(tenantSnapshot, propertySnapshot, defaultOwner)
    case None => ([], false)
    case Some(fetched) => EmitMonthlyReminderFetched(fetched.tenants, lastDay, today, general, mailFails)
  }
}

=== FILE: reminders_api.dfy ===
/** The reminder endpoints (`app/api/reminders.py`): the upcoming-reminder
    preview, the manual batch send and the send history. Today is a
    parameter, the stored collections are snapshots, and `send_mail` is the
    set of tenant ids whose mail fails. */
module RemindersApi {
  import opened Wrappers
  import opened Text
  import opened Values
  import opened Calendar
  import opened IsoDate
  import opened DueDates
  import opened Settings
  import opened Lists
  import opened Template
  import opened ReminderService
  import LatePaymentService
  import Models

  // ---- the default due date ----

  /** `date(today.year, today.month + 1, 1) - date.resolution`, as written:
      `None` is the `ValueError` of month 13. */
  function DefaultDueAsWritten(today: PyDate): (r: Option<Date>)
    ensures r.Some? <==> today.month < 12
  {
    match MakeDate(today.year, today.month + 1, 1)
    case None => None
    case Some(first) => Some(PrevDay(first))
  }

  /** The expression raises in every December. */
  lemma DefaultDueAsWrittenFailsInDecember(year: int)
    requires MinYear <= year <= MaxYear
    ensures DefaultDueAsWritten(Date(year, 12, 1)).None?
  {
  }

  /** The intended default: the last day of today's month, with the
      December carry of the scheduler. */
  function DefaultDue(today: PyDate): (r: PyDate)
    ensures r.year == today.year && r.month == today.month
    ensures r.day == DaysInMonth(today.year, today.month)
    ensures !Before(r, today)
  {
    LastDayOfMonth(today)
  }

  /** Where the written expression is defined it agrees with the intended
      one. */
  lemma DefaultDueAgrees(today: PyDate)
    requires today.month < 12
    ensures DefaultDueAsWritten(today) == Some(DefaultDue(today))
  {
  }

  /** `d.strftime("%d/%m/%Y")`. */
  function SlashText(d: PyDate): (s: string)
    ensures SlashShaped(s)
  {
    Pad(d.day, 2) + "/" + Pad(d.month, 2) + "/" + Pad(d.year, 4)
  }

  /** A Python `date`, or `None` where Python refuses one outside years
      1..9999: `date(year, month, day)` raises `ValueError`, and
      subtracting a `timedelta` raises `OverflowError`. */
  function AsPyDate(d: Date): (r: Option<PyDate>)
    ensures r.Some? <==> InRange(d)
    ensures r.Some? ==> r.value == d
  {
    if InRange(d) then Some(d) else None
  }

  // ---- upcoming_reminders ----

  datatype UpcomingReminder = UpcomingReminder(
    tenantId: string, tenantName: string, tenantEmail: string,
    propertyName: string, paymentMonths: int, dueDate: string)

  datatype UpcomingResponse = UpcomingResponse(
    reminderDate: string, dueDate: string, totalRecipients: nat,
    reminders: seq<UpcomingReminder>)

  /** `compute_next_due_date(...) or default_due`: the computed date, or
      the default when there is none; `None` is the `ValueError` that
      `date(year, month, day)` in `add_months_safe` raises for a computed
      date past year 9999. */
  function DueOrDefault(t: Tenant, today: PyDate, general: string -> Option<PyDate>, defaultDue: PyDate): (r: Option<PyDate>)
    ensures ReminderService.ComputeNextDueDate(t.entryDate, t.paymentMonths, today, general).None?
            ==> r == Some(defaultDue)
    ensures ReminderService.ComputeNextDueDate(t.entryDate, t.paymentMonths, today, general).Some?
            ==> (r.Some? <==> InRange(ReminderService.ComputeNextDueDate(t.entryDate, t.paymentMonths, today, general).value))
    ensures r.Some? && ReminderService.ComputeNextDueDate(t.entryDate, t.paymentMonths, today, general).Some?
            ==> (r.value == ReminderService.ComputeNextDueDate(t.entryDate, t.paymentMonths, today, general).value
                 && !Before(r.value, today))
  {
    match ReminderService.ComputeNextDueDate(t.entryDate, t.paymentMonths, today, general)
    case None => Some(defaultDue)
    case Some(d) => AsPyDate(d)
  }

  /** One `UpcomingReminder`; `Fail(500)` for a tenant name or a property
      name the response model refuses (not text), or a due date past year
      9999. */
  function ReminderFor(t: Tenant, properties: map<string, Property>, today: PyDate, general: string -> Option<PyDate>, defaultDue: PyDate): (r: Result<UpcomingReminder>)
    ensures r.Ok? <==> && DueOrDefault(t, today, general, defaultDue).Some?
                       && t.name.Str?
                       && (PropertyOf(t, properties).Some? ==> PropertyOf(t, properties).value.name.Str?)
    ensures r.Fail? ==> r.status == ServerError
    ensures r.Ok? ==> r.value.tenantId == t.id && r.value.tenantEmail == t.email && r.value.tenantName == t.name.s
    ensures r.Ok? ==> r.value.paymentMonths == t.paymentMonths
    ensures r.Ok? ==> r.value.dueDate == IsoFormat(DueOrDefault(t, today, general, defaultDue).value)
    ensures r.Ok? && PropertyOf(t, properties).None? ==> r.value.propertyName == "Logement"
    ensures r.Ok? && PropertyOf(t, properties).Some? ==> r.value.propertyName == PropertyOf(t, properties).value.name.s
  {
    var prop := PropertyOf(t, properties);
    match DueOrDefault(t, today, general, defaultDue)
    case None => Fail(ServerError)
    case Some(due) =>
      if !t.name.Str? then Fail(ServerError)
      else if prop.Some? && !prop.value.name.Str? then Fail(ServerError)
      else
        Ok(UpcomingReminder(
          t.id, t.name.s, t.email,
          if prop.Some? then prop.value.name.s else "Logement",
          t.paymentMonths, IsoFormat(due)))
  }

  predicate HasEmail(t: Tenant) {
    t.email != ""
  }

  /** `not ownerId or t.get("ownerId") == ownerId`. */
  predicate OwnedBy(t: Tenant, ownerId: Option<string>) {
    !Present(ownerId) || t.ownerId == Str(ownerId.value)
  }

  /** The tenants the preview covers: owned (when an owner is given) and
      with an email. */
  function Candidates(tenants: seq<Tenant>, ownerId: Option<string>): seq<Tenant> {
    Filter(Filter(tenants, (t: Tenant) => OwnedBy(t, ownerId)), HasEmail)
  }

  /** `key=lambda r: r.dueDate`. */
  function DueKey(x: UpcomingReminder): SortKey {
    TextKey(x.dueDate)
  }

  /** The tail of `upcoming_reminders`: the reminders sorted by their ISO
      due date, the earliest due date (or the default) and the day seven
      days before it. */
  function Summarize(reminders: seq<UpcomingReminder>, defaultDue: PyDate): (r: Result<UpcomingResponse>)
    ensures r.Ok? ==> r.value.totalRecipients == |r.value.reminders| == |reminders|
    ensures r.Ok? ==> SortedBy(r.value.reminders, DueKey, false)
    ensures r.Ok? ==> multiset(r.value.reminders) == multiset(reminders)
    ensures r.Ok? && |reminders| == 0 ==> r.value.dueDate == IsoFormat(defaultDue)
    ensures r.Ok? && |reminders| > 0 ==> r.value.dueDate == r.value.reminders[0].dueDate
    ensures r.Ok? ==> IsoShaped(r.value.dueDate) && ParseIso10(r.value.dueDate).Some?
    ensures r.Ok? ==> IsoShaped(r.value.reminderDate) && ParseIso10(r.value.reminderDate).Some?
    ensures r.Ok? ==> PlusDays(ParseIso10(r.value.reminderDate).value, 7) == ParseIso10(r.value.dueDate).value
  {
    var ordered := SortBy(reminders, DueKey, false);
    var summary :=
      if |ordered| == 0 then Some(defaultDue)
      else if IsoShaped(ordered[0].dueDate) then ParseIso10(ordered[0].dueDate)
      else None;
    match summary
    case None => Fail(ServerError)
    case Some(d) =>
      match AsPyDate(MinusDays(d, 7))
      case None => Fail(ServerError)
      case Some(reminderDay) =>
        IsoRoundTrip(d);
        IsoRoundTrip(reminderDay);
        MinusPlusRoundTrip(d, 7);
        if |ordered| > 0 then
          ParseIsoFormats(ordered[0].dueDate);
          Ok(UpcomingResponse(IsoFormat(reminderDay), IsoFormat(d), |reminders|, ordered))
        else
          Ok(UpcomingResponse(IsoFormat(reminderDay), IsoFormat(d), |reminders|, ordered))
  }

  /** `upcoming_reminders` once the collections are fetched: the default
      due date is computed first, as written, so every December fails with
      a 500; otherwise the reminder of every candidate, summarized. */
  function UpcomingFetched(tenants: seq<Tenant>, properties: map<string, Property>, ownerId: Option<string>, today: PyDate, general: string -> Option<PyDate>): (r: Result<UpcomingResponse>)
    ensures DefaultDueAsWritten(today).None? ==> r == Fail(ServerError)
    ensures DefaultDueAsWritten(today).Some? ==> r == UpcomingWith(tenants, properties, ownerId, today, general, DefaultDue(today))
  {
    match DefaultDueAsWritten(today)
    case None => Fail(ServerError)
    case Some(_) =>
      DefaultDueAgrees(today);
      UpcomingWith(tenants, properties, ownerId, today, general, DefaultDue(today))
  }

  /** `upcoming_reminders`: a 500 when the fetch raises, and otherwise the
      preview of the fetched collections. */
  function Upcoming(tenantSnapshot: Snapshot, propertySnapshot: Snapshot, settings: Settings, ownerId: Option<string>,
                    today: PyDate, general: string -> Option<PyDate>): (r: Result<UpcomingResponse>)
    ensures FetchTenantsAndProperties(tenantSnapshot, propertySnapshot, settings.defaultOwnerId).None? ==> r == Fail(ServerError)
    ensures FetchTenantsAndProperties(tenantSnapshot, propertySnapshot, settings.defaultOwnerId).Some? ==>
      var fetched := FetchTenantsAndProperties(tenantSnapshot, propertySnapshot, settings.defaultOwnerId).value;
      r == UpcomingFetched(fetched.tenants, fetched.properties, ownerId, today, general)
    ensures today.month == 12 ==> r == Fail(ServerError)
  {
    match FetchTenantsAndProperties(tenantSnapshot, propertySnapshot, settings.defaultOwnerId)
    case None => Fail(ServerError)
    case Some(fetched) => UpcomingFetched(fetched.tenants, fetched.properties, ownerId, today, general)
  }

  /** The preview once the default due date is known. */
  function UpcomingWith(tenants: seq<Tenant>, properties: map<string, Property>, ownerId: Option<string>, today: PyDate,
                        general: string -> Option<PyDate>, defaultDue: PyDate): (r: Result<UpcomingResponse>)
    ensures r.Ok? ==> MapResults(Candidates(tenants, ownerId), (t: Tenant) => ReminderFor(t, properties, today, general, defaultDue)).Ok?
    ensures r.Ok? ==> r == Summarize(MapResults(Candidates(tenants, ownerId), (t: Tenant) => ReminderFor(t, properties, today, general, defaultDue)).value, defaultDue)
    ensures r.Ok? <==> && MapResults(Candidates(tenants, ownerId), (t: Tenant) => ReminderFor(t, properties, today, general, defaultDue)).Ok?
                       && Summarize(MapResults(Candidates(tenants, ownerId), (t: Tenant) => ReminderFor(t, properties, today, general, defaultDue)).value, defaultDue).Ok?
  {
    match MapResults(Candidates(tenants, ownerId), (t: Tenant) => ReminderFor(t, properties, today, general, defaultDue))
    case Fail(e) => Fail(e)
    case Ok(reminders) => Summarize(reminders, defaultDue)
  }

  /** Once the default due date is known, the preview succeeds exactly
      when every candidate's reminder can be built and every due date it
      uses (the default one when there is no candidate) is after the
      seventh of January of year 1. */
  lemma UpcomingWithOkIff(tenants: seq<Tenant>, properties: map<string, Property>, ownerId: Option<string>, today: PyDate,
                          general: string -> Option<PyDate>, defaultDue: PyDate)
    ensures var cs := Candidates(tenants, ownerId);
      UpcomingWith(tenants, properties, ownerId, today, general, defaultDue).Ok? <==>
        && (|cs| == 0 ==> Before(Date(MinYear, 1, 7), defaultDue))
        && (forall k :: 0 <= k < |cs| ==>
              && ReminderFor(cs[k], properties, today, general, defaultDue).Ok?
              && Before(Date(MinYear, 1, 7), DueOrDefault(cs[k], today, general, defaultDue).value))
  {
    var cs := Candidates(tenants, ownerId);
    var f := (t: Tenant) => ReminderFor(t, properties, today, general, defaultDue);
    var built := MapResults(cs, f);
    if built.Ok? {
      var reminders := built.value;
      forall k | 0 <= k < |reminders|
        ensures IsoShaped(reminders[k].dueDate) && ParseIso10(reminders[k].dueDate) == Some(DueOrDefault(cs[k], today, general, defaultDue).value)
      {
        IsoRoundTrip(DueOrDefault(cs[k], today, general, defaultDue).value);
      }
      SummarizeOkIff(reminders, defaultDue);
    }
  }

  /** The preview fails in every December, whoever the tenants are. */
  lemma UpcomingFailsInDecember(tenants: seq<Tenant>, properties: map<string, Property>, ownerId: Option<string>, today: PyDate, general: string -> Option<PyDate>)
    requires today.month == 12
    ensures UpcomingFetched(tenants, properties, ownerId, today, general) == Fail(ServerError)
  {
  }

  /** Every reminder of the preview is the reminder of an owned tenant
      with an email. */
  lemma UpcomingFromCandidates(tenants: seq<Tenant>, properties: map<string, Property>, ownerId: Option<string>, today: PyDate, general: string -> Option<PyDate>, x: UpcomingReminder)
    requires UpcomingFetched(tenants, properties, ownerId, today, general).Ok?
    requires x in UpcomingFetched(tenants, properties, ownerId, today, general).value.reminders
    ensures exists t :: t in tenants && OwnedBy(t, ownerId) && t.email != "" && ReminderFor(t, properties, today, general, DefaultDue(today)) == Ok(x)
  {
    var f := (t: Tenant) => ReminderFor(t, properties, today, general, DefaultDue(today));
    var cs := Candidates(tenants, ownerId);
    SummarizeMember(MapResults(cs, f).value, DefaultDue(today), x);
    var t := MapResultsSource(cs, f, x);
    CandidateFacts(tenants, ownerId, t);
  }

  /** A sorted summary holds only the reminders it was given. */
  lemma SummarizeMember(reminders: seq<UpcomingReminder>, defaultDue: PyDate, x: UpcomingReminder)
    requires Summarize(reminders, defaultDue).Ok? && x in Summarize(reminders, defaultDue).value.reminders
    ensures x in reminders
  {
    var out := Summarize(reminders, defaultDue).value.reminders;
    assert x in multiset(out);
  }

  /** A sorted summary holds every reminder it was given. */
  lemma SummarizeContains(reminders: seq<UpcomingReminder>, defaultDue: PyDate, x: UpcomingReminder)
    requires Summarize(reminders, defaultDue).Ok? && x in reminders
    ensures x in Summarize(reminders, defaultDue).value.reminders
  {
    assert x in multiset(reminders);
  }

  /** A candidate is an owned tenant with an email. */
  lemma CandidateFacts(tenants: seq<Tenant>, ownerId: Option<string>, t: Tenant)
    requires t in Candidates(tenants, ownerId)
    ensures t in tenants && OwnedBy(t, ownerId) && t.email != ""
  {
    var owned := Filter(tenants, (t: Tenant) => OwnedBy(t, ownerId));
    var cs := Filter(owned, HasEmail);
    var k :| 0 <= k < |cs| && cs[k] == t;
    var j :| 0 <= j < |owned| && owned[j] == t;
  }

  /** An owned tenant with an email is a candidate. */
  lemma CandidateMember(tenants: seq<Tenant>, ownerId: Option<string>, t: Tenant)
    requires t in tenants && OwnedBy(t, ownerId) && t.email != ""
    ensures t in Candidates(tenants, ownerId)
  {
    var owned := Filter(tenants, (t: Tenant) => OwnedBy(t, ownerId));
    var i :| 0 <= i < |tenants| && tenants[i] == t;
    assert t in owned;
    var j :| 0 <= j < |owned| && owned[j] == t;
    assert HasEmail(owned[j]);
  }

  /** Every owned tenant with an email has a reminder in the preview, and
      the preview counts exactly those tenants. */
  lemma CandidatesInUpcoming(tenants: seq<Tenant>, properties: map<string, Property>, ownerId: Option<string>, today: PyDate, general: string -> Option<PyDate>, t: Tenant)
    requires UpcomingFetched(tenants, properties, ownerId, today, general).Ok?
    requires t in tenants && OwnedBy(t, ownerId) && t.email != ""
    ensures exists x :: x in UpcomingFetched(tenants, properties, ownerId, today, general).value.reminders && x.tenantId == t.id
    ensures UpcomingFetched(tenants, properties, ownerId, today, general).value.totalRecipients == |Candidates(tenants, ownerId)|
  {
    var f := (t: Tenant) => ReminderFor(t, properties, today, general, DefaultDue(today));
    var cs := Candidates(tenants, ownerId);
    CandidateMember(tenants, ownerId, t);
    var x := MapResultsHit(cs, f, t);
    SummarizeContains(MapResults(cs, f).value, DefaultDue(today), x);
  }

  /** The summary due date is the earliest: no reminder is due before it. */
  lemma UpcomingEarliest(tenants: seq<Tenant>, properties: map<string, Property>, ownerId: Option<string>, today: PyDate, general: string -> Option<PyDate>, k: nat)
    requires UpcomingFetched(tenants, properties, ownerId, today, general).Ok?
    requires k < |UpcomingFetched(tenants, properties, ownerId, today, general).value.reminders|
    ensures var resp := UpcomingFetched(tenants, properties, ownerId, today, general).value;
      && IsoShaped(resp.reminders[k].dueDate)
      && ParseIso10(resp.reminders[k].dueDate).Some?
      && !Before(ParseIso10(resp.reminders[k].dueDate).value, ParseIso10(resp.dueDate).value)
  {
    var f := (t: Tenant) => ReminderFor(t, properties, today, general, DefaultDue(today));
    var cs := Candidates(tenants, ownerId);
    var mapped := MapResults(cs, f).value;
    var x := Summarize(mapped, DefaultDue(today)).value.reminders[k];
    SummarizeMember(mapped, DefaultDue(today), x);
    var t := MapResultsSource(cs, f, x);
    SummaryEarliest(mapped, DefaultDue(today), k, DueOrDefault(t, today, general, DefaultDue(today)).value);
  }

  /** A reminder of the summary whose due date is the ISO text of a date is
      due no earlier than the summary's due date. */
  lemma SummaryEarliest(reminders: seq<UpcomingReminder>, defaultDue: PyDate, k: nat, due: PyDate)
    requires Summarize(reminders, defaultDue).Ok? && k < |Summarize(reminders, defaultDue).value.reminders|
    requires Summarize(reminders, defaultDue).value.reminders[k].dueDate == IsoFormat(due)
    ensures var resp := Summarize(reminders, defaultDue).value;
      && IsoShaped(resp.reminders[k].dueDate)
      && ParseIso10(resp.reminders[k].dueDate).Some?
      && !Before(ParseIso10(resp.reminders[k].dueDate).value, ParseIso10(resp.dueDate).value)
  {
    var resp := Summarize(reminders, defaultDue).value;
    var x := resp.reminders[k];
    IsoRoundTrip(due);
    var first := resp.reminders[0];
    var firstDue := ParseIso10(first.dueDate).value;
    ParseIsoFormats(first.dueDate);
    if k > 0 {
      assert StrLe(first.dueDate, x.dueDate);
      IsoOrder(due, firstDue);
      if StrLt(IsoFormat(due), IsoFormat(firstDue)) {
        StrLtIrreflexive(first.dueDate);
        assert first.dueDate != x.dueDate;
        StrLtTotal(first.dueDate, x.dueDate);
        StrLtTransitive(first.dueDate, x.dueDate, first.dueDate);
      }
    }
  }

  /** With ISO due dates, the first reminder of the sorted list carries the
      earliest date. */
  lemma SortedFirstEarliest(reminders: seq<UpcomingReminder>, k: nat)
    requires forall k :: 0 <= k < |reminders| ==> IsoShaped(reminders[k].dueDate) && ParseIso10(reminders[k].dueDate).Some?
    requires k < |reminders|
    ensures var first := SortBy(reminders, DueKey, false)[0];
      && IsoShaped(first.dueDate) && ParseIso10(first.dueDate).Some?
      && var d, e := ParseIso10(first.dueDate).value, ParseIso10(reminders[k].dueDate).value;
         d == e || Before(d, e)
  {
    var ordered := SortBy(reminders, DueKey, false);
    var first, x := ordered[0], reminders[k];
    assert first in multiset(reminders);
    assert x in multiset(ordered);
    var j :| 0 <= j < |ordered| && ordered[j] == x;
    if first.dueDate != x.dueDate {
      assert InOrder(ordered[0], ordered[j], DueKey, false);
      ParseIsoFormats(first.dueDate);
      ParseIsoFormats(x.dueDate);
      IsoOrder(ParseIso10(first.dueDate).value, ParseIso10(x.dueDate).value);
    }
  }

  /** With ISO due dates, the summary succeeds exactly when going back a
      week from the first sorted due date stays in years 1 to 9999. */
  lemma SummarizeOkAtFirst(reminders: seq<UpcomingReminder>, defaultDue: PyDate)
    requires forall k :: 0 <= k < |reminders| ==> IsoShaped(reminders[k].dueDate) && ParseIso10(reminders[k].dueDate).Some?
    requires |reminders| > 0
    ensures IsoShaped(SortBy(reminders, DueKey, false)[0].dueDate)
    ensures ParseIso10(SortBy(reminders, DueKey, false)[0].dueDate).Some?
    ensures Summarize(reminders, defaultDue).Ok? <==>
      InRange(MinusDays(ParseIso10(SortBy(reminders, DueKey, false)[0].dueDate).value, 7))
  {
    SortedFirstEarliest(reminders, 0);
  }

  /** When every due date is the ISO text of a date, the summary fails
      exactly when its earliest date, or the default one when there is no
      reminder, lies in the first week of year 1: `summary_date - 7 days`
      then leaves the years Python's `date` accepts. */
  lemma SummarizeOkIff(reminders: seq<UpcomingReminder>, defaultDue: PyDate)
    requires forall k :: 0 <= k < |reminders| ==> IsoShaped(reminders[k].dueDate) && ParseIso10(reminders[k].dueDate).Some?
    ensures Summarize(reminders, defaultDue).Ok? <==>
      && (|reminders| == 0 ==> Before(Date(MinYear, 1, 7), defaultDue))
      && (forall k :: 0 <= k < |reminders| ==> Before(Date(MinYear, 1, 7), ParseIso10(reminders[k].dueDate).value))
  {
    if |reminders| == 0 {
      MinusWeekInRange(defaultDue);
    } else {
      var first := SortBy(reminders, DueKey, false)[0];
      SummarizeOkAtFirst(reminders, defaultDue);
      var d := ParseIso10(first.dueDate).value;
      MinusWeekInRange(d);
      assert first in multiset(reminders);
      forall k | 0 <= k < |reminders| && Before(Date(MinYear, 1, 7), d)
        ensures Before(Date(MinYear, 1, 7), ParseIso10(reminders[k].dueDate).value)
      {
        SortedFirstEarliest(reminders, k);
        if d != ParseIso10(reminders[k].dueDate).value {
          BeforeTransitive(Date(MinYear, 1, 7), d, ParseIso10(reminders[k].dueDate).value);
        }
      }
    }
  }

  // ---- send_reminders ----

  datatype SendRequest = SendRequest(
    ownerId: Option<string>, tenantIds: Option<seq<string>>,
    dueDate: Option<string>, message: Option<string>)

  /** One entry of `results`: `status` is "sent" when `sent`. */
  datatype Delivery = Delivery(tenantId: string, tenantEmail: string, sent: bool)

  /** The mail handed to `send_mail`: address, subject and text part (its
      HTML part is not modelled). */
  datatype Mail = Mail(to: string, subject: string, text: string)

  /** The record written to `remindersLogs`. */
  datatype SendLog = SendLog(
    ownerId: string, total: nat, sent: nat, failed: int, dueDate: string,
    templatePreview: string, results: seq<Delivery>)

  datatype SendResponse = SendResponse(
    total: nat, sent: nat, failed: int, dueDate: string,
    results: seq<Delivery>, mails: seq<Mail>, log: SendLog)

  /** `payload.ownerId or settings.default_owner_id`. */
  function SendOwner(req: SendRequest, settings: Settings): string {
    if Present(req.ownerId) then req.ownerId.value else settings.defaultOwnerId
  }

  /** The tenants of the owner with an email, narrowed to `tenantIds` when
      that list is non-empty. */
  predicate Eligible(t: Tenant, owner: string, tenantIds: Option<seq<string>>) {
    && t.ownerId == Str(owner)
    && t.email != ""
    && (tenantIds.Some? && |tenantIds.value| > 0 ==> t.id in tenantIds.value)
  }

  function EligibleTenants(tenants: seq<Tenant>, owner: string, tenantIds: Option<seq<string>>): (r: seq<Tenant>)
    ensures forall k :: 0 <= k < |r| ==> Eligible(r[k], owner, tenantIds) && r[k] in tenants
    ensures forall t :: t in tenants && Eligible(t, owner, tenantIds) ==> t in r
  {
    var byOwner := Filter(tenants, (t: Tenant) => t.ownerId == Str(owner) && t.email != "");
    if tenantIds.Some? && |tenantIds.value| > 0 then
      Filter(byOwner, (t: Tenant) => t.id in tenantIds.value)
    else byOwner
  }

  /** `payload.message.strip() if payload.message else default_template()`. */
  function SendTemplate(req: SendRequest): (r: string)
    ensures Present(req.message) ==> r == Strip(req.message.value)
    ensures !Present(req.message) ==> r == DefaultTemplate
  {
    if Present(req.message) then Strip(req.message.value) else DefaultTemplate
  }

  /** The placeholder values for one tenant; `Fail(500)` when the name is
      set but is not text (`.split` raises). The property's name goes in as
      stored, so it may be `None`, a number or a boolean. `amount` is the
      formatted amount, which is floating-point money and is not modelled. */
  function ReminderContext(t: Tenant, prop: Option<Property>, dueText: string, amount: string): (r: Result<map<string, Value>>)
    ensures r.Ok? <==> !Truthy(t.name) || t.name.Str?
    ensures r.Fail? ==> r.status == ServerError
    ensures r.Ok? ==> r.value.Keys == {"locataire", "montant", "date", "logement", "prenom"}
    ensures r.Ok? ==> r.value["locataire"] == (if t.name.Str? then t.name else Str(""))
    ensures r.Ok? ==> r.value["date"] == Str(dueText) && r.value["montant"] == Str(amount)
    ensures r.Ok? ==> r.value["prenom"] == Str(FirstWord(r.value["locataire"].s))
    ensures r.Ok? ==> r.value["logement"] == (if prop.None? then Str("votre logement") else prop.value.name)
  {
    if Truthy(t.name) && !t.name.Str? then Fail(ServerError)
    else
      var name := if t.name.Str? then t.name.s else "";
      Ok(map[
        "locataire" := Str(name),
        "montant" := Str(amount),
        "date" := Str(dueText),
        "logement" := if prop.None? then Str("votre logement") else prop.value.name,
        "prenom" := Str(FirstWord(name))])
  }

  /** The reminder of one tenant can be written: the name is text or unset
      and every placeholder of the template finds text, `None` or nothing. */
  predicate Writable(t: Tenant, properties: map<string, Property>, template: string, dueText: string, amount: Tenant -> string) {
    var context := ReminderContext(t, PropertyOf(t, properties), dueText, amount(t));
    context.Ok? && RendersAll(Tokens(template), context.value)
  }

  /** One pass of the send loop: the rendered body (before the `try`, so a
      failure is a 500), then the mail and its result. */
  function SendOne(t: Tenant, properties: map<string, Property>, template: string, dueText: string,
                   amount: Tenant -> string, appUrl: string, mailFails: set<string>): (r: Result<(Delivery, Mail)>)
    ensures r.Ok? <==> Writable(t, properties, template, dueText, amount)
    ensures r.Fail? ==> r.status == ServerError
    ensures r.Ok? ==> r.value.0 == Delivery(t.id, t.email, t.id !in mailFails)
    ensures r.Ok? ==> r.value.1.to == t.email && r.value.1.subject == "Rappel de paiement - échéance du " + dueText
    ensures r.Ok? ==>
      r.value.1.text == RenderTemplate(template, TextContext(ReminderContext(t, PropertyOf(t, properties), dueText, amount(t)).value))
                        + "\n\nMontant dû : " + amount(t) + "\n" + appUrl
  {
    match ReminderContext(t, PropertyOf(t, properties), dueText, amount(t))
    case Fail(e) => Fail(e)
    case Ok(context) =>
      match RenderValues(template, context)
      case None => Fail(ServerError)
      case Some(body) =>
        Ok((Delivery(t.id, t.email, t.id !in mailFails),
            Mail(t.email, "Rappel de paiement - échéance du " + dueText,
                 body + "\n\nMontant dû : " + amount(t) + "\n" + appUrl)))
  }

  /** A property whose name is stored as a number fails the reminder of
      every tenant living there as soon as the template says `{{logement}}`. */
  lemma SendOneFailsOnNumberName(t: Tenant, properties: map<string, Property>, dueText: string, amount: Tenant -> string,
                                 appUrl: string, mailFails: set<string>, sp1: string, token: string, sp2: string, rest: string)
    requires IsBlank(sp1) && IsBlank(sp2) && IsWord(token) && Lower(token) == "logement"
    requires !Truthy(t.name) || t.name.Str?
    requires PropertyOf(t, properties).Some? && PropertyOf(t, properties).value.name.Int?
    ensures SendOne(t, properties, "{{" + sp1 + token + sp2 + "}}" + rest, dueText, amount, appUrl, mailFails) == Fail(ServerError)
  {
    var context := ReminderContext(t, PropertyOf(t, properties), dueText, amount(t)).value;
    RenderValuesFailsAt(sp1, token, sp2, rest, context);
  }

  predicate IsSent(d: Delivery) {
    d.sent
  }

  /** The send loop and the log record, for a non-empty list of eligible
      tenants and a known due date. */
  function Deliver(owner: string, eligible: seq<Tenant>, properties: map<string, Property>, template: string,
                   dueDate: PyDate, amount: Tenant -> string, appUrl: string, mailFails: set<string>): (r: Result<SendResponse>)
    ensures r.Ok? <==> forall k :: 0 <= k < |eligible| ==> Writable(eligible[k], properties, template, SlashText(dueDate), amount)
    ensures r.Fail? ==> r.status == ServerError
    ensures r.Ok? ==> |r.value.results| == |eligible| == r.value.total
    ensures r.Ok? ==> forall k :: 0 <= k < |eligible| ==>
      r.value.results[k] == Delivery(eligible[k].id, eligible[k].email, eligible[k].id !in mailFails)
    ensures r.Ok? ==> |r.value.mails| == |eligible|
    ensures r.Ok? ==> forall k :: 0 <= k < |eligible| ==>
      SendOne(eligible[k], properties, template, SlashText(dueDate), amount, appUrl, mailFails) == Ok((r.value.results[k], r.value.mails[k]))
    ensures r.Ok? ==> forall k :: 0 <= k < |eligible| ==>
      r.value.mails[k].to == eligible[k].email && r.value.mails[k].subject == "Rappel de paiement - échéance du " + SlashText(dueDate)
    ensures r.Ok? ==> r.value.sent == Count(r.value.results, IsSent) && r.value.sent + r.value.failed == r.value.total
    ensures r.Ok? ==> r.value.dueDate == IsoFormat(dueDate)
    ensures r.Ok? ==> r.value.log.results == Take(r.value.results, 25) && r.value.log.templatePreview == Take(template, 280)
    ensures r.Ok? ==> r.value.log.ownerId == owner && r.value.log.dueDate == r.value.dueDate
    ensures r.Ok? ==> r.value.log.total == r.value.total && r.value.log.sent == r.value.sent && r.value.log.failed == r.value.failed
  {
    match SendEach(eligible, properties, template, SlashText(dueDate), amount, appUrl, mailFails)
    case Fail(e) => Fail(e)
    case Ok(pairs) => Ok(Respond(owner, pairs, template, dueDate))
  }

  /** The result and the mail of every eligible tenant, or the failure of
      the first whose reminder cannot be written. */
  function SendEach(eligible: seq<Tenant>, properties: map<string, Property>, template: string, dueText: string,
                    amount: Tenant -> string, appUrl: string, mailFails: set<string>): (r: Result<seq<(Delivery, Mail)>>)
    ensures r.Ok? <==> forall k :: 0 <= k < |eligible| ==> Writable(eligible[k], properties, template, dueText, amount)
    ensures r.Fail? ==> r.status == ServerError
    ensures r.Ok? ==> |r.value| == |eligible|
    ensures r.Ok? ==> forall k :: 0 <= k < |eligible| ==>
      SendOne(eligible[k], properties, template, dueText, amount, appUrl, mailFails) == Ok(r.value[k])
    ensures r.Ok? ==> forall k :: 0 <= k < |eligible| ==>
      r.value[k].0 == Delivery(eligible[k].id, eligible[k].email, eligible[k].id !in mailFails)
    ensures r.Ok? ==> forall k :: 0 <= k < |eligible| ==>
      r.value[k].1.to == eligible[k].email && r.value[k].1.subject == "Rappel de paiement - échéance du " + dueText
  {
    MapResults(eligible, (t: Tenant) => SendOne(t, properties, template, dueText, amount, appUrl, mailFails))
  }

  /** The response and the log record built from the per-tenant results
      and mails of a send. */
  function Respond(owner: string, pairs: seq<(Delivery, Mail)>, template: string, dueDate: PyDate): (r: SendResponse)
    ensures |r.results| == |pairs| == r.total && |r.mails| == |pairs|
    ensures forall k :: 0 <= k < |pairs| ==> r.results[k] == pairs[k].0 && r.mails[k] == pairs[k].1
    ensures r.sent == Count(r.results, IsSent) && r.sent + r.failed == r.total
    ensures r.dueDate == IsoFormat(dueDate)
    ensures r.log.results == Take(r.results, 25) && r.log.templatePreview == Take(template, 280)
    ensures r.log.ownerId == owner && r.log.dueDate == r.dueDate
    ensures r.log.total == r.total && r.log.sent == r.sent && r.log.failed == r.failed
  {
    var results := seq(|pairs|, i requires 0 <= i < |pairs| => pairs[i].0);
    var mails := seq(|pairs|, i requires 0 <= i < |pairs| => pairs[i].1);
    var sent := Count(results, IsSent);
    var log := SendLog(owner, |results|, sent, |results| - sent, IsoFormat(dueDate), Take(template, 280), Take(results, 25));
    SendResponse(|results|, sent, |results| - sent, IsoFormat(dueDate), results, mails, log)
  }

  /** The due date of a send: the request's, read by `fromisoformat`
      (400 when it cannot be read), or the default as written, which
      raises in December (500). */
  function SendDueDate(req: SendRequest, today: PyDate, general: string -> Option<PyDate>): (r: Result<PyDate>)
    ensures Present(req.dueDate) ==> (r.Ok? <==> FromIsoFormat(req.dueDate.value, general).Some?)
    ensures Present(req.dueDate) && r.Ok? ==> r.value == FromIsoFormat(req.dueDate.value, general).value
    ensures Present(req.dueDate) && r.Fail? ==> r.status == BadRequest
    ensures !Present(req.dueDate) && today.month < 12 ==> r == Ok(DefaultDue(today))
    ensures !Present(req.dueDate) && today.month == 12 ==> r == Fail(ServerError)
  {
    if Present(req.dueDate) then
      match FromIsoFormat(req.dueDate.value, general)
      case None => Fail(BadRequest)
      case Some(d) => Ok(d)
    else
      match DefaultDueAsWritten(today)
      case None => Fail(ServerError)
      case Some(_) =>
        DefaultDueAgrees(today);
        Ok(DefaultDue(today))
  }

  /** `send_reminders` once the collections are fetched: 503 when
      reminders are off, 404 without an eligible tenant, 400 for an
      unreadable `dueDate`, 500 without one in December; otherwise the send
      loop. */
  function SendRemindersFetched(req: SendRequest, settings: Settings, tenants: seq<Tenant>, properties: map<string, Property>,
                         today: PyDate, general: string -> Option<PyDate>, amount: Tenant -> string,
                         mailFails: set<string>): (r: Result<SendResponse>)
    ensures !ReminderActive(settings) ==> r == Fail(Unavailable)
    ensures ReminderActive(settings) && |EligibleTenants(tenants, SendOwner(req, settings), req.tenantIds)| == 0
            ==> r == Fail(NotFound)
    ensures (ReminderActive(settings) && |EligibleTenants(tenants, SendOwner(req, settings), req.tenantIds)| > 0
             && SendDueDate(req, today, general).Fail?) ==> r == Fail(SendDueDate(req, today, general).status)
    ensures r.Ok? ==> (ReminderActive(settings) && SendDueDate(req, today, general).Ok?
      && |EligibleTenants(tenants, SendOwner(req, settings), req.tenantIds)| > 0
      && r == Deliver(SendOwner(req, settings), EligibleTenants(tenants, SendOwner(req, settings), req.tenantIds),
                      properties, SendTemplate(req), SendDueDate(req, today, general).value, amount, settings.appUrl, mailFails))
    ensures (ReminderActive(settings) && |EligibleTenants(tenants, SendOwner(req, settings), req.tenantIds)| > 0
             && SendDueDate(req, today, general).Ok?)
            ==> r == Deliver(SendOwner(req, settings), EligibleTenants(tenants, SendOwner(req, settings), req.tenantIds),
                             properties, SendTemplate(req), SendDueDate(req, today, general).value, amount, settings.appUrl, mailFails)
  {
    if !ReminderActive(settings) then Fail(Unavailable)
    else
      var owner := SendOwner(req, settings);
      var eligible := EligibleTenants(tenants, owner, req.tenantIds);
      if |eligible| == 0 then Fail(NotFound)
      else
        match SendDueDate(req, today, general)
        case Fail(e) => Fail(e)
        case Ok(dueDate) => Deliver(owner, eligible, properties, SendTemplate(req), dueDate, amount, settings.appUrl, mailFails)
  }

  /** `send_reminders`: 503 when reminders are off, then a 500 when the
      fetch raises, and otherwise the send over the fetched collections. */
  function SendReminders(req: SendRequest, settings: Settings, tenantSnapshot: Snapshot, propertySnapshot: Snapshot,
                         today: PyDate, general: string -> Option<PyDate>, amount: Tenant -> string,
                         mailFails: set<string>): (r: Result<SendResponse>)
    ensures !ReminderActive(settings) ==> r == Fail(Unavailable)
    ensures ReminderActive(settings) && FetchTenantsAndProperties(tenantSnapshot, propertySnapshot, settings.defaultOwnerId).None?
            ==> r == Fail(ServerError)
    ensures FetchTenantsAndProperties(tenantSnapshot, propertySnapshot, settings.defaultOwnerId).Some? ==>
      var fetched := FetchTenantsAndProperties(tenantSnapshot, propertySnapshot, settings.defaultOwnerId).value;
      r == SendRemindersFetched(req, settings, fetched.tenants, fetched.properties, today, general, amount, mailFails)
  {
    if !ReminderActive(settings) then Fail(Unavailable)
    else
      match FetchTenantsAndProperties(tenantSnapshot, propertySnapshot, settings.defaultOwnerId)
      case None => Fail(ServerError)
      case Some(fetched) => SendRemindersFetched(req, settings, fetched.tenants, fetched.properties, today, general, amount, mailFails)
  }

  /** The send succeeds exactly when reminders are on, the store read
      succeeds, some fetched tenant is eligible, the due date reads and
      every eligible tenant's mail renders; it is then the send loop over
      the eligible tenants. */
  lemma SendRemindersOkIff(req: SendRequest, settings: Settings, tenantSnapshot: Snapshot, propertySnapshot: Snapshot,
                           today: PyDate, general: string -> Option<PyDate>, amount: Tenant -> string, mailFails: set<string>)
    ensures SendReminders(req, settings, tenantSnapshot, propertySnapshot, today, general, amount, mailFails).Ok? <==>
      && ReminderActive(settings)
      && FetchTenantsAndProperties(tenantSnapshot, propertySnapshot, settings.defaultOwnerId).Some?
      && SendDueDate(req, today, general).Ok?
      && var fetched := FetchTenantsAndProperties(tenantSnapshot, propertySnapshot, settings.defaultOwnerId).value;
         var eligible := EligibleTenants(fetched.tenants, SendOwner(req, settings), req.tenantIds);
         && |eligible| > 0
         && forall k :: 0 <= k < |eligible| ==>
              Writable(eligible[k], fetched.properties, SendTemplate(req), SlashText(SendDueDate(req, today, general).value), amount)
  {
  }

  /** One property with a rent written as a word makes the preview and an
      active send fail with a 500, whatever the tenants are. */
  lemma EndpointsFailOnWordRent(req: SendRequest, settings: Settings, tenantSnapshot: Snapshot, propertyItems: seq<(string, Record)>,
                                ownerId: Option<string>, today: PyDate, general: string -> Option<PyDate>, amount: Tenant -> string,
                                mailFails: set<string>, k: nat, c: char, rest: string)
    requires ReminderActive(settings)
    requires k < |propertyItems|
    requires 'a' <= c <= 'z' && c != 'i' && c != 'n'
    requires Get(propertyItems[k].1, "rent") == Str([c] + rest)
    ensures Upcoming(tenantSnapshot, Dict(propertyItems), settings, ownerId, today, general) == Fail(ServerError)
    ensures SendReminders(req, settings, tenantSnapshot, Dict(propertyItems), today, general, amount, mailFails) == Fail(ServerError)
  {
    FetchFailsOnWordRent(tenantSnapshot, propertyItems, settings.defaultOwnerId, k, c, rest);
  }

  /** Both endpoints that fall back on the default due date fail in every
      December: the preview always, and a send without a due date once it
      has found its tenants. */
  lemma DecemberFailures(req: SendRequest, settings: Settings, tenants: seq<Tenant>, properties: map<string, Property>,
                         ownerId: Option<string>, today: PyDate, general: string -> Option<PyDate>, amount: Tenant -> string,
                         mailFails: set<string>)
    requires today.month == 12
    requires ReminderActive(settings) && !Present(req.dueDate)
    requires |EligibleTenants(tenants, SendOwner(req, settings), req.tenantIds)| > 0
    ensures UpcomingFetched(tenants, properties, ownerId, today, general) == Fail(ServerError)
    ensures SendRemindersFetched(req, settings, tenants, properties, today, general, amount, mailFails) == Fail(ServerError)
  {
  }

  /** Without a failing mail every result is "sent" and none failed. */
  lemma SendAllDelivered(req: SendRequest, settings: Settings, tenants: seq<Tenant>, properties: map<string, Property>,
                         today: PyDate, general: string -> Option<PyDate>, amount: Tenant -> string)
    requires SendRemindersFetched(req, settings, tenants, properties, today, general, amount, {}).Ok?
    ensures var resp := SendRemindersFetched(req, settings, tenants, properties, today, general, amount, {}).value;
      resp.sent == resp.total && resp.failed == 0
  {
    var owner := SendOwner(req, settings);
    DeliverAllSent(owner, EligibleTenants(tenants, owner, req.tenantIds), properties, SendTemplate(req),
                   SendDueDate(req, today, general).value, amount, settings.appUrl);
  }

  /** The send loop with no failing mail sends every mail. */
  lemma DeliverAllSent(owner: string, eligible: seq<Tenant>, properties: map<string, Property>, template: string,
                       dueDate: PyDate, amount: Tenant -> string, appUrl: string)
    requires Deliver(owner, eligible, properties, template, dueDate, amount, appUrl, {}).Ok?
    ensures var resp := Deliver(owner, eligible, properties, template, dueDate, amount, appUrl, {}).value;
      resp.sent == resp.total && resp.failed == 0
  {
    var resp := Deliver(owner, eligible, properties, template, dueDate, amount, appUrl, {}).value;
    FilterAll(resp.results, IsSent);
  }

  /** The date in every mail reads back, through the `DD/MM/YYYY` branch of
      the entry-date reader, as the due date itself. */
  lemma SlashTextReadsBack(d: PyDate, general: string -> Option<PyDate>)
    ensures LatePaymentService.NormalizeEntryDate(Str(SlashText(d)), general) == Some(d)
  {
    LatePaymentService.NormalizeEntryDateReadsSlash(d, general);
  }

  // ---- reminder_history ----

  /** One log entry as built from the stored record, before the response
      model checks it. */
  datatype LogEntry = LogEntry(
    id: string, ownerId: Value, total: int, sent: int, failed: int,
    dueDate: Value, templatePreview: Value, createdAt: Value)

  /** A `ReminderHistoryItem`. */
  datatype HistoryItem = HistoryItem(
    id: string, ownerId: string, total: int, sent: int, failed: int,
    dueDate: Option<string>, templatePreview: Option<string>, createdAt: Option<string>)

  /** `int(value.get(key) or 0)`. */
  function CountField(rec: Record, key: string): (r: Option<int>)
    ensures !Truthy(Get(rec, key)) ==> r == Some(0)
    ensures Get(rec, key).Int? ==> r == Some(Get(rec, key).i)
  {
    PyIntOf(Or(Get(rec, key), Int(0)))
  }

  /** The entry of one stored log; `Fail(500)` when a count is unreadable. */
  function BuildLogEntry(id: string, rec: Record, defaultOwner: string): (r: Result<LogEntry>)
    ensures r.Ok? ==> r.value.id == id
    ensures r.Ok? && !Truthy(Get(rec, "ownerId")) ==> r.value.ownerId == Str(defaultOwner)
    ensures r.Ok? && !Truthy(Get(rec, "total")) ==> r.value.total == 0
    ensures r.Ok? && !Truthy(Get(rec, "sent")) ==> r.value.sent == 0
    ensures r.Ok? && !Truthy(Get(rec, "failed")) ==> r.value.failed == 0
    ensures r.Ok? <==> CountField(rec, "total").Some? && CountField(rec, "sent").Some? && CountField(rec, "failed").Some?
    ensures r.Fail? ==> r.status == ServerError
  {
    match (CountField(rec, "total"), CountField(rec, "sent"), CountField(rec, "failed"))
    case (Some(total), Some(sent), Some(failed)) =>
      Ok(LogEntry(id, Or(Get(rec, "ownerId"), Str(defaultOwner)), total, sent, failed,
                  Get(rec, "dueDate"), Get(rec, "templatePreview"), Get(rec, "createdAt")))
    case _ => Fail(ServerError)
  }

  /** `e.get("createdAt") or ""`, the sort key of the history. */
  function CreatedKey(e: LogEntry): SortKey {
    OrEmptyKey(e.createdAt)
  }

  /** `ReminderHistoryItem.model_validate`: the owner must be text and the
      three optional fields text or `None`. */
  function Validate(e: LogEntry): (r: Result<HistoryItem>)
    ensures r.Ok? <==> && e.ownerId.Str?
                       && (e.dueDate.Null? || e.dueDate.Str?)
                       && (e.templatePreview.Null? || e.templatePreview.Str?)
                       && (e.createdAt.Null? || e.createdAt.Str?)
    ensures r.Ok? ==> r.value.ownerId == e.ownerId.s
    ensures r.Ok? ==> r.value.id == e.id && r.value.total == e.total && r.value.sent == e.sent && r.value.failed == e.failed
    ensures r.Ok? ==> r.value.createdAt == Models.OptionalText(e.createdAt).value && r.value.dueDate == Models.OptionalText(e.dueDate).value
    ensures r.Fail? ==> r.status == ServerError
  {
    match (e.ownerId, Models.OptionalText(e.dueDate), Models.OptionalText(e.templatePreview), Models.OptionalText(e.createdAt))
    case (Str(owner), Ok(dueDate), Ok(preview), Ok(createdAt)) =>
      Ok(HistoryItem(e.id, owner, e.total, e.sent, e.failed, dueDate, preview, createdAt))
    case _ => Fail(ServerError)
  }

  /** The entries of every stored log, in snapshot order; `Fail(500)` as
      soon as one has an unreadable count. */
  function LogEntries(items: seq<(string, Record)>, defaultOwner: string): (r: Result<seq<LogEntry>>)
    ensures r.Ok? <==> forall k :: 0 <= k < |items| ==> BuildLogEntry(items[k].0, items[k].1, defaultOwner).Ok?
    ensures r.Ok? ==> |r.value| == |items|
    ensures r.Ok? ==> forall k :: 0 <= k < |items| ==> BuildLogEntry(items[k].0, items[k].1, defaultOwner) == Ok(r.value[k])
    ensures r.Fail? ==> r.status == ServerError
  {
    var f := (item: (string, Record)) => BuildLogEntry(item.0, item.1, defaultOwner);
    var r := MapResults(items, f);
    assert forall k :: 0 <= k < |items| ==> f(items[k]) == BuildLogEntry(items[k].0, items[k].1, defaultOwner);
    r
  }

  /** The owner's entries (all of them without an owner), in order. */
  function OwnedEntries(entries: seq<LogEntry>, ownerId: Option<string>): (r: seq<LogEntry>)
    ensures forall k :: 0 <= k < |r| ==> r[k] in entries
    ensures Present(ownerId) ==> forall k :: 0 <= k < |r| ==> r[k].ownerId == Str(ownerId.value)
    ensures Present(ownerId) ==> forall e :: e in entries && e.ownerId == Str(ownerId.value) ==> e in r
    ensures !Present(ownerId) ==> r == entries
  {
    if Present(ownerId) then Filter(entries, (e: LogEntry) => e.ownerId == Str(ownerId.value)) else entries
  }

  /** The `max(1, min(50, limit))` newest of the owner's entries by
      `createdAt`, newest first; all of them when they fit. No entry left
      out is newer than one returned. A 500 when the owner's entries mix
      text time stamps with numeric ones, which Python's sort cannot
      compare. */
  function SelectEntries(entries: seq<LogEntry>, ownerId: Option<string>, limit: int): (r: Result<seq<LogEntry>>)
    ensures r.Fail? <==> MixedKeys(OwnedEntries(entries, ownerId), CreatedKey)
    ensures r.Fail? ==> r.status == ServerError
    ensures r.Ok? ==> |r.value| == Min(Clamp(limit, 1, 50), |OwnedEntries(entries, ownerId)|)
    ensures r.Ok? ==> SortedBy(r.value, CreatedKey, true)
    ensures r.Ok? ==> multiset(r.value) <= multiset(OwnedEntries(entries, ownerId))
    ensures r.Ok? ==> forall e :: e in multiset(OwnedEntries(entries, ownerId)) - multiset(r.value) ==>
      forall k :: 0 <= k < |r.value| ==> KeyLe(CreatedKey(e), CreatedKey(r.value[k]))
    ensures r.Ok? && |OwnedEntries(entries, ownerId)| <= Clamp(limit, 1, 50)
            ==> multiset(r.value) == multiset(OwnedEntries(entries, ownerId))
    ensures r.Ok? && Present(ownerId) ==> forall k :: 0 <= k < |r.value| ==> r.value[k].ownerId == Str(ownerId.value)
  {
    var owned := OwnedEntries(entries, ownerId);
    PyTopBy(owned, CreatedKey, true, Clamp(limit, 1, 50))
  }

  /** The response items of one page: each selected entry through the
      response model, in order; a 500 as soon as one fails it. */
  function ValidatePage(page: seq<LogEntry>): (r: Result<seq<HistoryItem>>)
    ensures r.Ok? <==> forall k :: 0 <= k < |page| ==> Validate(page[k]).Ok?
    ensures r.Ok? ==> |r.value| == |page| && forall k :: 0 <= k < |page| ==> Validate(page[k]) == Ok(r.value[k])
    ensures r.Fail? ==> r.status == ServerError
  {
    MapResults(page, Validate)
  }

  /** `reminder_history`: every stored log must have readable counts,
      the owner's time stamps must be of one kind, and every entry of the
      page must pass the response model; otherwise a 500. The page holds
      one item per selected entry, in order. */
  function History(snapshot: Snapshot, ownerId: Option<string>, limit: int, defaultOwner: string): (r: Result<seq<HistoryItem>>)
    ensures snapshot.NotDict? ==> r == Ok([])
    ensures snapshot.Dict? ==> (r.Ok? <==> && LogEntries(snapshot.items, defaultOwner).Ok?
                                           && SelectEntries(LogEntries(snapshot.items, defaultOwner).value, ownerId, limit).Ok?
                                           && ValidatePage(SelectEntries(LogEntries(snapshot.items, defaultOwner).value, ownerId, limit).value).Ok?)
    ensures snapshot.Dict? && r.Ok? ==>
      r == ValidatePage(SelectEntries(LogEntries(snapshot.items, defaultOwner).value, ownerId, limit).value)
    ensures r.Fail? ==> r.status == ServerError
  {
    match snapshot
    case NotDict => Ok([])
    case Dict(items) =>
      match LogEntries(items, defaultOwner)
      case Fail(e) => Fail(e)
      case Ok(entries) =>
        match SelectEntries(entries, ownerId, limit)
        case Fail(e) => Fail(e)
        case Ok(page) => ValidatePage(page)
  }

  /** A served page holds at most `max(1, min(50, limit))` items, and only
      the given owner's when there is one. */
  lemma HistoryPage(snapshot: Snapshot, ownerId: Option<string>, limit: int, defaultOwner: string)
    requires History(snapshot, ownerId, limit, defaultOwner).Ok?
    ensures |History(snapshot, ownerId, limit, defaultOwner).value| <= Clamp(limit, 1, 50)
    ensures Present(ownerId) ==> forall k :: 0 <= k < |History(snapshot, ownerId, limit, defaultOwner).value| ==>
      History(snapshot, ownerId, limit, defaultOwner).value[k].ownerId == ownerId.value
  {
    if snapshot.Dict? {
      var page := SelectEntries(LogEntries(snapshot.items, defaultOwner).value, ownerId, limit).value;
      var items := ValidatePage(page).value;
      assert forall k :: 0 <= k < |page| ==> Validate(page[k]) == Ok(items[k]);
    }
  }

  /** Raising the limit only appends older entries to a page that could be
      served. */
  lemma HistoryPrefix(snapshot: Snapshot, ownerId: Option<string>, limit: int, more: int, defaultOwner: string)
    requires limit <= more
    requires History(snapshot, ownerId, more, defaultOwner).Ok?
    ensures History(snapshot, ownerId, limit, defaultOwner).Ok?
    ensures History(snapshot, ownerId, limit, defaultOwner).value <= History(snapshot, ownerId, more, defaultOwner).value
  {
    if snapshot.Dict? {
      var entries := LogEntries(snapshot.items, defaultOwner).value;
      var owned := OwnedEntries(entries, ownerId);
      TopByPrefix(owned, CreatedKey, true, Clamp(limit, 1, 50), Clamp(more, 1, 50));
      MapResultsPrefix(SelectEntries(entries, ownerId, limit).value, SelectEntries(entries, ownerId, more).value, Validate);
    }
  }

  /** Two stored logs of the owner, one stamped with text and one with a
      non-zero number, make the history a 500 whatever the limit. */
  lemma HistoryFailsOnMixedStamps(snapshot: Snapshot, ownerId: Option<string>, limit: int, defaultOwner: string, i: nat, j: nat)
    requires snapshot.Dict? && LogEntries(snapshot.items, defaultOwner).Ok?
    requires i < |snapshot.items| && j < |snapshot.items|
    requires !Present(ownerId)
    requires Get(snapshot.items[i].1, "createdAt").Str?
    requires Get(snapshot.items[j].1, "createdAt").Int? && Get(snapshot.items[j].1, "createdAt").i != 0
    ensures History(snapshot, ownerId, limit, defaultOwner) == Fail(ServerError)
  {
    var entries := LogEntries(snapshot.items, defaultOwner).value;
    assert BuildLogEntry(snapshot.items[i].0, snapshot.items[i].1, defaultOwner) == Ok(entries[i]);
    assert BuildLogEntry(snapshot.items[j].0, snapshot.items[j].1, defaultOwner) == Ok(entries[j]);
    MixedKeysOf(OwnedEntries(entries, ownerId), CreatedKey, entries[i], entries[j]);
  }
}

=== FILE: scheduler.dfy ===
/** The cron jobs (`app/cron/scheduler.py`): whether a scheduler is created
    at all, and the daily reminder job, which mails only on the seventh day
    before the last day of the month. Today is a parameter. */
module Scheduler {
  import opened Wrappers
  import opened Values
  import opened Calendar
  import Lists
  import opened DueDates
  import opened Settings
  import opened ReminderService

  datatype Task = Reminders | LatePayments

  /** A job run every day at `hour:minute`. */
  datatype Job = Job(task: Task, hour: nat, minute: nat)

  /** `create_scheduler`: no scheduler unless reminders are active; the
      reminder job runs at 9:00 and the late-payment job at 1:00, so the
      late statuses are refreshed before the reminders go out. */
  function CreateScheduler(s: Settings): (r: Option<seq<Job>>)
    ensures r.None? <==> !ReminderActive(s)
    ensures r.Some? ==> |r.value| == 2
    ensures r.Some? ==> forall k :: 0 <= k < |r.value| ==> r.value[k].minute == 0
    ensures r.Some? ==> exists k :: 0 <= k < |r.value| && r.value[k] == Job(Reminders, 9, 0)
    ensures r.Some? ==> exists k :: 0 <= k < |r.value| && r.value[k] == Job(LatePayments, 1, 0)
  {
    if !ReminderActive(s) then None
    else
      var jobs := [Job(Reminders, 9, 0), Job(LatePayments, 1, 0)];
      assert jobs[0] == Job(Reminders, 9, 0) && jobs[1] == Job(LatePayments, 1, 0);
      Some(jobs)
  }

  /** `target_day = last_day - 7 days`, in the month of `today`. */
  function ReminderTarget(today: PyDate): (r: Date)
    ensures r.year == today.year && r.month == today.month
    ensures r.day == DaysInMonth(today.year, today.month) - 7
    ensures WellFormed(r)
  {
    var lastDay := LastDayOfMonth(today);
    MinusDaysSameMonth(lastDay, 7);
    MinusDays(lastDay, 7)
  }

  /** The job mails exactly on the target day. */
  predicate ReminderFires(today: PyDate) {
    today == ReminderTarget(today)
  }

  /** It fires on exactly one day of every month: the 21st to the 24th,
      depending on the length of the month. */
  lemma ReminderFiresOncePerMonth(a: PyDate, b: PyDate)
    ensures ReminderFires(a) <==> a.day == DaysInMonth(a.year, a.month) - 7
    ensures ReminderFires(a) ==> 21 <= a.day <= 24
    ensures ReminderFires(a) && ReminderFires(b) && a.year == b.year && a.month == b.month ==> a == b
  {
  }

  /** `reminder_job` on `today`: `None` when it returns before mailing;
      otherwise what `emit_monthly_reminder(last_day)` did over the stored
      collections: the ids mailed and whether it completed (a raised error,
      from the fetch or from a mail, is logged and swallowed). */
  function ReminderJob(today: PyDate, tenantSnapshot: Snapshot, propertySnapshot: Snapshot, settings: Settings,
                       general: string -> Option<PyDate>, mailFails: set<string>): (r: Option<(seq<string>, bool)>)
    ensures r.Some? <==> ReminderFires(today)
    ensures r.Some? && FetchTenantsAndProperties(tenantSnapshot, propertySnapshot, settings.defaultOwnerId).None?
            ==> r.value == ([], false)
    ensures r.Some? && FetchTenantsAndProperties(tenantSnapshot, propertySnapshot, settings.defaultOwnerId).Some?
            ==> r == ReminderJobFetched(today, FetchTenantsAndProperties(tenantSnapshot, propertySnapshot, settings.defaultOwnerId).value.tenants,
                                        general, mailFails)
  {
    if !ReminderFires(today) then None
    else
      Some(EmitMonthlyReminder(tenantSnapshot, propertySnapshot, settings.defaultOwnerId, LastDayOfMonth(today), today, general, mailFails))
  }

  /** The job once the collections are fetched. */
  function ReminderJobFetched(today: PyDate, tenants: seq<Tenant>, general: string -> Option<PyDate>, mailFails: set<string>): (r: Option<(seq<string>, bool)>)
    ensures r.Some? <==> ReminderFires(today)
    ensures r.Some? ==> r.value.0 <= SelectedIds(tenants, LastDayOfMonth(today), today, general)
    ensures r.Some? && r.value.1 ==> r.value.0 == SelectedIds(tenants, LastDayOfMonth(today), today, general)
  {
    if !ReminderFires(today) then None
    else
      Some(EmitMonthlyReminderFetched(tenants, LastDayOfMonth(today), today, general, mailFails))
  }

  /** On its day, a job whose fetch raises mails nobody: one property with
      a rent written as a word is enough. */
  lemma ReminderJobFailsOnWordRent(today: PyDate, tenantSnapshot: Snapshot, propertyItems: seq<(string, Record)>, settings: Settings,
                                   general: string -> Option<PyDate>, mailFails: set<string>, k: nat, c: char, rest: string)
    requires ReminderFires(today)
    requires k < |propertyItems|
    requires 'a' <= c <= 'z' && c != 'i' && c != 'n'
    requires Get(propertyItems[k].1, "rent") == Str([c] + rest)
    ensures ReminderJob(today, tenantSnapshot, Dict(propertyItems), settings, general, mailFails) == Some(([], false))
  {
    FetchFailsOnWordRent(tenantSnapshot, propertyItems, settings.defaultOwnerId, k, c, rest);
  }

  /** Every id in `SelectedIds` belongs to a tenant the mailer selects. */
  lemma SelectedIdsFrom(tenants: seq<Tenant>, lastDay: Date, today: PyDate, general: string -> Option<PyDate>, id: string)
    requires id in SelectedIds(tenants, lastDay, today, general)
    ensures exists k :: 0 <= k < |tenants| && tenants[k].id == id && Selected(tenants[k], lastDay, today, general)
  {
    Lists.IdsWhereFrom(tenants, Picks(lastDay, today, general), (t: Tenant) => t.id, id);
  }

  /** The tenant's computed due date lies between `today` and the last day
      of its month. */
  predicate DueInLastWeek(t: Tenant, today: PyDate, general: string -> Option<PyDate>) {
    var due := ReminderService.ComputeNextDueDate(t.entryDate, ClampCycle(t.paymentMonths), today, general);
    && due.Some?
    && !Before(due.value, today)
    && !Before(LastDayOfMonth(today), due.value)
  }

  /** A tenant mailed by the job on its target day has a due date in the
      last week of the month: not before today and not after the last day. */
  lemma MailedDueInLastWeek(today: PyDate, tenants: seq<Tenant>, general: string -> Option<PyDate>, mailFails: set<string>, id: string)
    requires ReminderJobFetched(today, tenants, general, mailFails).Some?
    requires id in ReminderJobFetched(today, tenants, general, mailFails).value.0
    ensures exists k :: 0 <= k < |tenants| && tenants[k].id == id && DueInLastWeek(tenants[k], today, general)
  {
    var lastDay := LastDayOfMonth(today);
    var mailed := ReminderJobFetched(today, tenants, general, mailFails).value.0;
    var selected := SelectedIds(tenants, lastDay, today, general);
    assert mailed <= selected;
    var i :| 0 <= i < |mailed| && mailed[i] == id;
    assert selected[i] == id;
    SelectedIdsFrom(tenants, lastDay, today, general, id);
    var k :| 0 <= k < |tenants| && tenants[k].id == id && Selected(tenants[k], lastDay, today, general);
    var t := tenants[k];
    var due := ReminderService.ComputeNextDueDate(t.entryDate, ClampCycle(t.paymentMonths), today, general).value;
    var start := EntryStart(t.entryDate, general).value;
    assert due == NextDue(start, ClampCycle(t.paymentMonths), today);
    assert WellFormed(AddMonthsSafe(start, ClampCycle(t.paymentMonths)));
    assert WellFormed(due);
  }
}

=== FILE: settings.dfy ===
/** Application settings (`app/core/settings.py`): the fields the modelled
    code reads, the comma-separated list parser, the boolean normaliser and
    the two derived flags. */
module Settings {
  import opened Wrappers
  import opened Text
  import opened Values

  datatype Settings = Settings(
    defaultOwnerId: string,
    clientOrigin: string,
    allowedOrigins: seq<string>,
    firebaseDatabaseUrl: Option<string>,
    firebaseDatabaseSecret: Option<string>,
    stripeWebhookSecret: Option<string>,
    smtpHost: Option<string>,
    smtpPort: int,
    smtpUser: Option<string>,
    smtpPassword: Option<string>,
    smtpSecure: Option<bool>,
    mailFrom: Option<string>,
    mailReplyTo: Option<string>,
    appUrl: string,
    reminderEnabled: Option<bool>)

  const DefaultOwnerId: string := "admin-1"
  const DefaultClientOrigin: string := "http://localhost:3000"

  /** Python truthiness of an optional string. */
  predicate Present(v: Option<string>) {
    v.Some? && v.value != ""
  }

  /** Keep the non-empty strings, in order. */
  function NonEmpty(items: seq<string>): (r: seq<string>)
    ensures |r| <= |items|
    ensures forall k :: 0 <= k < |r| ==> r[k] != ""
  {
    if |items| == 0 then []
    else (if items[0] != "" then [items[0]] else []) + NonEmpty(items[1..])
  }

  function StripAll(items: seq<string>): (r: seq<string>)
    ensures |r| == |items|
    ensures forall k :: 0 <= k < |items| ==> r[k] == Strip(items[k])
  {
    if |items| == 0 then [] else [Strip(items[0])] + StripAll(items[1..])
  }

  /** Stripping cannot bring in a character the string did not hold. */
  lemma StripKeepsOut(s: string, c: char)
    requires c !in s
    ensures c !in Strip(s)
  {
    var a := LeadingSpaces(s);
    var r := Strip(s);
    assert forall i :: 0 <= i < |r| ==> r[i] == s[a + i];
  }

  /** The items of a comma-separated setting: `[item.strip() for item in
      value.split(",") if item.strip()]`, and `[]` for `None` or `""`. Every
      item is non-empty, trimmed and free of commas. */
  function SplitCsv(value: Option<string>): (r: seq<string>)
    ensures !Present(value) ==> r == []
    ensures forall k :: 0 <= k < |r| ==> r[k] != "" && Strip(r[k]) == r[k] && ',' !in r[k]
  {
    if !Present(value) then []
    else
      var parts := SplitOn(value.value, ',');
      var stripped := StripAll(parts);
      forall k | 0 <= k < |stripped|
        ensures Strip(stripped[k]) == stripped[k] && ',' !in stripped[k]
      {
        StripIdempotent(parts[k]);
        StripKeepsOut(parts[k], ',');
      }
      var r := NonEmpty(stripped);
      NonEmptyFrom(stripped);
      r
  }

  /** What `NonEmpty` keeps comes from its input. */
  lemma {:induction false} NonEmptyFrom(items: seq<string>)
    ensures forall k :: 0 <= k < |NonEmpty(items)| ==> NonEmpty(items)[k] in items
  {
    if |items| > 0 {
      NonEmptyFrom(items[1..]);
      var r := NonEmpty(items);
      var rest := NonEmpty(items[1..]);
      forall k | 0 <= k < |r|
        ensures r[k] in items
      {
        if items[0] != "" && k == 0 {
        } else {
          var j := if items[0] != "" then k - 1 else k;
          assert r[k] == rest[j];
          assert rest[j] in items[1..];
        }
      }
    }
  }

  lemma {:induction false} NonEmptyKeepsAll(items: seq<string>)
    requires forall k :: 0 <= k < |items| ==> items[k] != ""
    ensures NonEmpty(items) == items
  {
    if |items| > 0 {
      NonEmptyKeepsAll(items[1..]);
    }
  }

  lemma {:induction false} StripAllTrimmed(items: seq<string>)
    requires forall k :: 0 <= k < |items| ==> Strip(items[k]) == items[k]
    ensures StripAll(items) == items
  {
    if |items| > 0 {
      StripAllTrimmed(items[1..]);
    }
  }

  /** Round trip: a non-empty list of non-empty, trimmed, comma-free items
      written as `a,b,c` is read back as the same list. */
  lemma SplitCsvJoin(items: seq<string>)
    requires |items| >= 1
    requires forall k :: 0 <= k < |items| ==> items[k] != "" && Strip(items[k]) == items[k] && ',' !in items[k]
    ensures SplitCsv(Some(Join(items, ','))) == items
  {
    SplitJoinRoundTrip(items, ',');
    StripAllTrimmed(items);
    NonEmptyKeepsAll(items);
    assert Join(items, ',') != "" by {
      JoinHoldsFirst(items, ',');
    }
  }

  lemma JoinHoldsFirst(parts: seq<string>, sep: char)
    requires |parts| >= 1
    ensures |Join(parts, sep)| >= |parts[0]|
  {
  }

  /** The `allowed_origins` validator: a non-empty value is kept, otherwise
      the origins come from `client_origin` (or its default). */
  function FillOrigins(value: seq<string>, clientOrigin: string): (r: seq<string>)
    ensures |value| > 0 ==> r == value
    ensures |value| == 0 ==> r == SplitCsv(Some(if clientOrigin != "" then clientOrigin else DefaultClientOrigin))
  {
    if |value| > 0 then value
    else SplitCsv(Some(if clientOrigin != "" then clientOrigin else DefaultClientOrigin))
  }

  /** With nothing configured, the one allowed origin is the default client. */
  lemma FillOriginsDefault()
    ensures FillOrigins([], "") == [DefaultClientOrigin]
  {
    var o := DefaultClientOrigin;
    assert ',' !in o && !IsSpace(o[0]) && !IsSpace(o[|o| - 1]);
    SplitCsvSingle(o);
  }

  /** One trimmed origin without a comma is read back as itself. */
  lemma SplitCsvSingle(o: string)
    requires o != "" && ',' !in o && !IsSpace(o[0]) && !IsSpace(o[|o| - 1])
    ensures SplitCsv(Some(o)) == [o]
  {
    StripTrimmed(o);
    SplitCsvJoin([o]);
  }

  predicate IsTrueWord(s: string) { s == "1" || s == "true" || s == "yes" || s == "on" }
  predicate IsFalseWord(s: string) { s == "0" || s == "false" || s == "no" || s == "off" }

  /** No word is read both ways. */
  lemma WordsDisjoint(w: string)
    ensures !(IsTrueWord(w) && IsFalseWord(w))
  {
    if IsTrueWord(w) {
      assert w[0] == '1' || w[0] == 't' || w[0] == 'y' || w[0] == 'o';
      assert |w| == 2 ==> w[1] == 'n';
    }
  }

  /** The `smtp_secure` validator: `None` and booleans pass through; other
      values are read through `str(v).strip().lower()` against the two word
      sets, and anything else becomes `None`. */
  function NormalizeBool(v: Value): (r: Option<bool>)
    ensures v.Null? ==> r.None?
    ensures v.Bool? ==> r == Some(v.b)
    ensures !v.Null? && !v.Bool? ==>
      (r == Some(true) <==> IsTrueWord(Lower(Strip(PyStr(v))))) &&
      (r == Some(false) <==> IsFalseWord(Lower(Strip(PyStr(v)))))
  {
    match v
    case Null => None
    case Bool(b) => Some(b)
    case _ =>
      var w := Lower(Strip(PyStr(v)));
      WordsDisjoint(w);
      if IsTrueWord(w) then Some(true)
      else if IsFalseWord(w) then Some(false)
      else None
  }

  /** Lowercasing does not change which characters are white space. */
  lemma LowerKeepsTrimmed(s: string)
    requires Strip(s) == s
    ensures Strip(Lower(s)) == Lower(s)
  {
    var t := Lower(s);
    if |s| > 0 {
      assert !IsSpace(s[0]) && !IsSpace(s[|s| - 1]);
      assert t[0] == LowerChar(s[0]) && t[|t| - 1] == LowerChar(s[|s| - 1]);
    }
    StripTrimmed(t);
  }

  /** Normalising is idempotent on text: a string and its trimmed lowercase
      form normalise alike, so surrounding blanks and letter case never
      matter. */
  lemma NormalizeBoolCanonical(s: string)
    ensures NormalizeBool(Str(Lower(Strip(s)))) == NormalizeBool(Str(s))
  {
    var t := Strip(s);
    var w := Lower(t);
    assert Lower(Strip(w)) == w by {
      StripIdempotent(s);
      LowerKeepsTrimmed(t);
      LowerIdempotent(t);
    }
    NormalizeBoolByWord(w, s);
  }

  /** Text normalises by its trimmed lowercase form alone. */
  lemma NormalizeBoolByWord(x: string, y: string)
    requires Lower(Strip(x)) == Lower(Strip(y))
    ensures NormalizeBool(Str(x)) == NormalizeBool(Str(y))
  {
    assert PyStr(Str(x)) == x && PyStr(Str(y)) == y;
  }

  /** `mailer_configured`: an SMTP host is set and non-empty. */
  predicate MailerConfigured(s: Settings) {
    Present(s.smtpHost)
  }

  /** `reminder_active`: the explicit flag when set, the mailer otherwise. */
  function ReminderActive(s: Settings): (r: bool)
    ensures s.reminderEnabled.Some? ==> r == s.reminderEnabled.value
    ensures s.reminderEnabled.None? ==> (r <==> Present(s.smtpHost))
  {
    if s.reminderEnabled.None? then MailerConfigured(s) else s.reminderEnabled.value
  }
}

=== FILE: template.dfy ===
/** `render_template` of the reminder service: every `{{ token }}` in a
    template is replaced by the context value of its lower-cased token, as
    `re.sub(r"{{\s*(\w+)\s*}}", ...)` does on ASCII text. */
module Template {
  import opened Wrappers
  import opened Text
  import opened Values

  /** `\w` on ASCII text. */
  predicate IsWordChar(c: char) {
    ('a' <= c <= 'z') || ('A' <= c <= 'Z') || ('0' <= c <= '9') || c == '_'
  }

  predicate IsWord(w: string) {
    |w| >= 1 && forall i :: 0 <= i < |w| ==> IsWordChar(w[i])
  }

  /** The end of the greedy `\s*` that starts at position `i` of `t`. */
  function SkipBlanks(t: string, i: nat): (j: nat)
    requires i <= |t|
    ensures i <= j <= |t|
    ensures forall k :: i <= k < j ==> IsSpace(t[k])
    ensures j == |t| || !IsSpace(t[j])
    decreases |t| - i
  {
    if i < |t| && IsSpace(t[i]) then SkipBlanks(t, i + 1) else i
  }

  /** The end of the greedy `\w*` that starts at position `i` of `t`. */
  function SkipWord(t: string, i: nat): (j: nat)
    requires i <= |t|
    ensures i <= j <= |t|
    ensures forall k :: i <= k < j ==> IsWordChar(t[k])
    ensures j == |t| || !IsWordChar(t[j])
    decreases |t| - i
  {
    if i < |t| && IsWordChar(t[i]) then SkipWord(t, i + 1) else i
  }

  /** A match of `{{\s*(\w+)\s*}}` at the start of `t`: the token and the
      length of the match. Blanks and word characters are disjoint, so the
      greedy runs never need to backtrack. */
  function PlaceholderAt(t: string): (r: Option<(string, nat)>)
    ensures r.Some? ==> 5 <= r.value.1 <= |t| && IsWord(r.value.0)
    ensures r.Some? ==> t[0] == '{' && t[1] == '{'
  {
    if |t| < 2 || t[0] != '{' || t[1] != '{' then None
    else
      var a := SkipBlanks(t, 2);
      var b := SkipWord(t, a);
      if b == a then None
      else
        var c := SkipBlanks(t, b);
        if c + 2 <= |t| && t[c] == '}' && t[c + 1] == '}' then
          Some((t[a..b], c + 2))
        else None
  }

  /** `context.get(token, "")`. */
  function Lookup(context: map<string, string>, token: string): (v: string)
    ensures token in context ==> v == context[token]
    ensures token !in context ==> v == ""
  {
    if token in context then context[token] else ""
  }

  /** `re.sub(r"{{\s*(\w+)\s*}}", replace, template)`: scan left to right,
      replace each match by the context value of its lower-cased token and
      continue after the match. */
  function RenderTemplate(template: string, context: map<string, string>): (r: string)
    decreases |template|
  {
    if |template| == 0 then ""
    else
      match PlaceholderAt(template)
      case Some((token, n)) => Lookup(context, Lower(token)) + RenderTemplate(template[n..], context)
      case None => [template[0]] + RenderTemplate(template[1..], context)
  }

  /** A template in which the pattern matches nowhere renders as itself. */
  lemma {:induction false} RenderWithoutTokens(template: string, context: map<string, string>)
    requires Tokens(template) == []
    ensures RenderTemplate(template, context) == template
    decreases |template|
  {
    if |template| > 0 {
      assert PlaceholderAt(template).None?;
      RenderWithoutTokens(template[1..], context);
    }
  }

  /** The lower-cased tokens of the matches, left to right: the keys the
      replacement callback looks up. */
  function Tokens(template: string): seq<string>
    decreases |template|
  {
    if |template| == 0 then []
    else
      match PlaceholderAt(template)
      case Some((token, n)) => [Lower(token)] + Tokens(template[n..])
      case None => Tokens(template[1..])
  }

  /** A value the callback may return: text, or `None`, which `re.sub`
      drops. */
  predicate Renderable(v: Value) {
    v.Null? || v.Str?
  }

  /** The context as text: `None` contributes nothing. */
  function TextContext(context: map<string, Value>): (c: map<string, string>)
    ensures c.Keys == context.Keys
    ensures forall k :: k in context ==> c[k] == (if context[k].Str? then context[k].s else "")
  {
    map k | k in context :: if context[k].Str? then context[k].s else ""
  }

  /** Every token looked up finds text, `None` or nothing. */
  predicate RendersAll(tokens: seq<string>, context: map<string, Value>) {
    forall k :: 0 <= k < |tokens| && tokens[k] in context ==> Renderable(context[tokens[k]])
  }

  lemma RendersAllCons(key: string, tokens: seq<string>, context: map<string, Value>)
    ensures RendersAll([key] + tokens, context)
            <==> (key in context ==> Renderable(context[key])) && RendersAll(tokens, context)
  {
    var all := [key] + tokens;
    assert forall k :: 0 < k < |all| ==> all[k] == tokens[k - 1];
    if RendersAll(all, context) {
      assert all[0] == key;
      forall k | 0 <= k < |tokens| && tokens[k] in context
        ensures Renderable(context[tokens[k]])
      {
        assert all[k + 1] == tokens[k];
      }
    }
    if (key in context ==> Renderable(context[key])) && RendersAll(tokens, context) {
      forall k | 0 <= k < |all| && all[k] in context
        ensures Renderable(context[all[k]])
      {
        if k > 0 {
          assert all[k] == tokens[k - 1];
        }
      }
    }
  }

  /** `render_template` over a context whose values need not be text:
      `None` when a matched token holds a value that is neither text nor
      `None`, which is the `TypeError` `re.sub` raises when it joins the
      replacements; otherwise the text rendering. */
  function RenderValues(template: string, context: map<string, Value>): (r: Option<string>)
    ensures r.Some? <==> RendersAll(Tokens(template), context)
    ensures r.Some? ==> r.value == RenderTemplate(template, TextContext(context))
    decreases |template|
  {
    if |template| == 0 then Some("")
    else
      match PlaceholderAt(template)
      case Some((token, n)) =>
        var key := Lower(token);
        var rest := RenderValues(template[n..], context);
        RendersAllCons(key, Tokens(template[n..]), context);
        if key in context && !Renderable(context[key]) then None
        else if rest.None? then None
        else Some(Lookup(TextContext(context), key) + rest.value)
      case None =>
        var rest := RenderValues(template[1..], context);
        if rest.None? then None else Some([template[0]] + rest.value)
  }

  /** A context of text and `None` only always renders. */
  lemma RenderTextValues(template: string, context: map<string, Value>)
    requires forall k :: k in context ==> Renderable(context[k])
    ensures RenderValues(template, context) == Some(RenderTemplate(template, TextContext(context)))
  {
  }

  /** A placeholder whose token holds a number or a boolean makes the whole
      rendering raise, whatever follows it. */
  lemma RenderValuesFailsAt(sp1: string, token: string, sp2: string, rest: string, context: map<string, Value>)
    requires IsBlank(sp1) && IsBlank(sp2) && IsWord(token)
    requires Lower(token) in context && !Renderable(context[Lower(token)])
    ensures RenderValues("{{" + sp1 + token + sp2 + "}}" + rest, context).None?
  {
    var t := "{{" + sp1 + token + sp2 + "}}" + rest;
    PlaceholderMatches(sp1, token, sp2, rest);
  }

  /** Text with no `{` at all is copied unchanged in front of what follows. */
  lemma {:induction false} RenderPlainPrefix(a: string, rest: string, context: map<string, string>)
    requires '{' !in a
    ensures RenderTemplate(a + rest, context) == a + RenderTemplate(rest, context)
    decreases |a|
  {
    if |a| > 0 {
      var t := a + rest;
      assert t[0] == a[0];
      RenderPlainStep(t, context);
      assert t[1..] == a[1..] + rest;
      assert '{' !in a[1..] by {
        assert forall i :: 0 <= i < |a| - 1 ==> a[1..][i] == a[i + 1];
      }
      RenderPlainPrefix(a[1..], rest, context);
    } else {
      assert a + rest == rest;
    }
  }

  /** A first character other than `{` is copied as it is. */
  lemma RenderPlainStep(t: string, context: map<string, string>)
    requires |t| > 0 && t[0] != '{'
    ensures RenderTemplate(t, context) == [t[0]] + RenderTemplate(t[1..], context)
  {
    assert PlaceholderAt(t).None?;
  }

  /** A template without `{{` is returned unchanged. */
  lemma {:induction false} RenderWithoutPlaceholders(t: string, context: map<string, string>)
    requires forall i :: 0 <= i < |t| - 1 ==> !OpensAt(t, i)
    ensures RenderTemplate(t, context) == t
    decreases |t|
  {
    if |t| > 0 {
      assert PlaceholderAt(t).None? by {
        if |t| >= 2 {
          assert !OpensAt(t, 0);
        }
      }
      assert forall i :: 0 <= i < |t| - 2 ==> OpensAt(t[1..], i) == OpensAt(t, i + 1);
      RenderWithoutPlaceholders(t[1..], context);
    }
  }

  /** `{{` starts at position `i` of `t`. */
  predicate OpensAt(t: string, i: int)
    requires 0 <= i < |t| - 1
  {
    t[i] == '{' && t[i + 1] == '{'
  }

  /** A run of blanks that ends where a non-blank starts is skipped exactly. */
  lemma SkipBlanksIs(t: string, i: nat, j: nat)
    requires i <= j <= |t| && (j == |t| || !IsSpace(t[j]))
    requires forall k :: i <= k < j ==> IsSpace(t[k])
    ensures SkipBlanks(t, i) == j
  {
  }

  /** A word that ends where a non-word character starts is taken whole. */
  lemma SkipWordIs(t: string, i: nat, j: nat)
    requires i <= j <= |t| && (j == |t| || !IsWordChar(t[j]))
    requires forall k :: i <= k < j ==> IsWordChar(t[k])
    ensures SkipWord(t, i) == j
  {
  }

  /** The match read off the positions of its parts: blanks from 2 to `a`,
      the token from `a` to `b`, blanks from `b` to `c`, braces at `c`. */
  lemma PlaceholderAtSpans(t: string, a: nat, b: nat, c: nat)
    requires 2 <= a < b <= c && c + 2 <= |t|
    requires t[0] == '{' && t[1] == '{' && t[c] == '}' && t[c + 1] == '}'
    requires forall i :: 2 <= i < a ==> IsSpace(t[i])
    requires forall i :: a <= i < b ==> IsWordChar(t[i])
    requires forall i :: b <= i < c ==> IsSpace(t[i])
    ensures PlaceholderAt(t) == Some((t[a..b], c + 2))
  {
    assert IsWordChar(t[a]);
    SkipBlanksIs(t, 2, a);
    SkipWordIs(t, a, b);
    SkipBlanksIs(t, b, c);
  }

  /** The regular expression matches a placeholder written with any blanks
      around its token. */
  lemma PlaceholderMatches(sp1: string, token: string, sp2: string, rest: string)
    requires IsBlank(sp1) && IsBlank(sp2) && IsWord(token)
    ensures PlaceholderAt("{{" + sp1 + token + sp2 + "}}" + rest) == Some((token, 4 + |sp1| + |token| + |sp2|))
  {
    var t := "{{" + sp1 + token + sp2 + "}}" + rest;
    var a := 2 + |sp1|;
    var b := a + |token|;
    var c := b + |sp2|;
    assert forall i :: 2 <= i < a ==> t[i] == sp1[i - 2];
    assert forall i :: a <= i < b ==> t[i] == token[i - a];
    assert forall i :: b <= i < c ==> t[i] == sp2[i - b];
    assert t[c] == '}' && t[c + 1] == '}';
    PlaceholderAtSpans(t, a, b, c);
    assert t[a..b] == token;
  }

  /** One placeholder, with any inner blanks and any letter case, becomes
      the context value of its lower-cased token, and the rest of the
      template is rendered on its own: the value is never rescanned. */
  lemma RenderPlaceholder(sp1: string, token: string, sp2: string, rest: string, context: map<string, string>)
    requires IsBlank(sp1) && IsBlank(sp2) && IsWord(token)
    ensures RenderTemplate("{{" + sp1 + token + sp2 + "}}" + rest, context)
         == Lookup(context, Lower(token)) + RenderTemplate(rest, context)
  {
    var t := "{{" + sp1 + token + sp2 + "}}" + rest;
    PlaceholderMatches(sp1, token, sp2, rest);
    assert t[4 + |sp1| + |token| + |sp2|..] == rest;
  }
}

=== FILE: tenants_api.dfy ===
/** The tenant endpoints (`app/api/tenants.py`): the input sanitiser, the
    patch filter, the record mappers, the update merge and the property
    status changes that creating and deleting a tenant cause. Storage is a
    parameter: the record read back, and the id the store assigns. */
module TenantsApi {
  import opened Wrappers
  import opened Text
  import opened Values
  import opened Models
  import ReminderService
  import Lists

  /** A validated `TenantCreate` body. */
  datatype TenantCreate = TenantCreate(
    name: string, email: string, phone: string, status: string,
    propertyId: Option<string>, ownerId: string, note: Option<string>,
    entryDate: string, paymentMonths: int)

  /** A tenant record as the endpoints store and answer it (without its
      id); each field is the JSON value stored under the key of that name. */
  datatype TenantFields = TenantFields(
    name: Value, email: Value, phone: Value, status: Value, propertyId: Value,
    ownerId: Value, note: Value, entryDate: Value, paymentMonths: Value)

  /** A `TenantUpdate` dumped with `exclude_unset`: `None` for a field the
      client did not send. The model declares neither `id` nor `ownerId`,
      so no patch holds them and the filter's two `pop` calls never remove
      anything. */
  datatype TenantPatch = TenantPatch(
    name: Option<Value>, email: Option<Value>, phone: Option<Value>, status: Option<Value>,
    propertyId: Option<Value>, note: Option<Value>, entryDate: Option<Value>, paymentMonths: Option<Value>)

  function OptionalValue(v: Option<string>): Value {
    if v.Some? then Str(v.value) else Null
  }

  /** An optional text is truthy exactly when it is present and not empty,
      and then reads back as itself. */
  lemma OptionalValueText(v: Option<string>)
    ensures Truthy(OptionalValue(v)) <==> v.Some? && v.value != ""
    ensures v.Some? ==> PyStr(OptionalValue(v)) == v.value
  {
  }

  /** `payload.note.strip() if payload.note else None`. */
  function SanitizedNote(note: Option<string>): (r: Value)
    ensures note.None? || note.value == "" ==> r == Null
    ensures note.Some? && note.value != "" ==> r == Str(Strip(note.value))
    ensures r.Null? || (r.Str? && Strip(r.s) == r.s)
  {
    StripIdempotent(if note.Some? then note.value else "");
    if note.Some? && note.value != "" then Str(Strip(note.value)) else Null
  }

  /** `sanitize_tenant_input`: 400 for a blank name; otherwise the stored
      record, with the text fields trimmed, the email lower-cased and the
      owner defaulted. */
  function SanitizeTenantInput(p: TenantCreate, defaultOwner: string): (r: Result<TenantFields>)
    ensures r.Fail? <==> IsBlank(p.name)
    ensures r.Fail? ==> r.status == BadRequest
    ensures r.Ok? ==> r.value.name.Str? && r.value.name.s != "" && Strip(r.value.name.s) == r.value.name.s
    ensures r.Ok? ==> r.value.email.Str? && Lower(r.value.email.s) == r.value.email.s
    ensures r.Ok? ==> r.value.phone.Str? && Strip(r.value.phone.s) == r.value.phone.s
    ensures r.Ok? ==> r.value.ownerId == Str(if p.ownerId != "" then p.ownerId else defaultOwner)
    ensures r.Ok? ==> r.value.note.Null? || (r.value.note.Str? && Strip(r.value.note.s) == r.value.note.s)
    ensures r.Ok? ==> r.value.status == Str(p.status) && r.value.propertyId == OptionalValue(p.propertyId)
    ensures r.Ok? ==> r.value.entryDate == Str(p.entryDate) && r.value.paymentMonths == Int(p.paymentMonths)
  {
    StripBlank(p.name);
    StripIdempotent(p.name);
    StripIdempotent(p.phone);
    LowerIdempotent(p.email);
    if IsBlank(p.name) then Fail(BadRequest)
    else
      Ok(TenantFields(
        Str(Strip(p.name)), Str(Lower(p.email)), Str(Strip(p.phone)), Str(p.status),
        OptionalValue(p.propertyId), Str(if p.ownerId != "" then p.ownerId else defaultOwner),
        SanitizedNote(p.note), Str(p.entryDate), Int(p.paymentMonths)))
  }

  /** The body a client would send to store the sanitised record again. */
  function Resubmitted(p: TenantCreate, defaultOwner: string): TenantCreate {
    p.(name := Strip(p.name), email := Lower(p.email), phone := Strip(p.phone),
       ownerId := if p.ownerId != "" then p.ownerId else defaultOwner,
       note := if p.note.Some? && p.note.value != "" then Some(Strip(p.note.value)) else None)
  }

  /** Sanitising a sanitised body changes nothing, unless its note was
      blank but not empty (see the next lemma). */
  lemma SanitizeTenantInputIdempotent(p: TenantCreate, defaultOwner: string)
    requires !IsBlank(p.name)
    requires defaultOwner != ""
    requires p.note.None? || p.note.value == "" || !IsBlank(p.note.value)
    ensures SanitizeTenantInput(Resubmitted(p, defaultOwner), defaultOwner) == SanitizeTenantInput(p, defaultOwner)
  {
    var q := Resubmitted(p, defaultOwner);
    StripBlank(p.name);
    StripIdempotent(p.name);
    StripIdempotent(p.phone);
    LowerIdempotent(p.email);
    StripBlank(Strip(p.name));
    ResubmittedNote(p.note);
    SameSanitized(q, p, defaultOwner);
  }

  /** Two bodies whose fields sanitise alike are sanitised alike. */
  lemma SameSanitized(q: TenantCreate, p: TenantCreate, defaultOwner: string)
    requires !IsBlank(q.name) && !IsBlank(p.name)
    requires Strip(q.name) == Strip(p.name) && Lower(q.email) == Lower(p.email) && Strip(q.phone) == Strip(p.phone)
    requires q.status == p.status && q.propertyId == p.propertyId && q.entryDate == p.entryDate
    requires q.paymentMonths == p.paymentMonths && SanitizedNote(q.note) == SanitizedNote(p.note)
    requires (if q.ownerId != "" then q.ownerId else defaultOwner) == (if p.ownerId != "" then p.ownerId else defaultOwner)
    ensures SanitizeTenantInput(q, defaultOwner) == SanitizeTenantInput(p, defaultOwner)
  {
  }

  /** A stripped note that was not blank is read back as itself. */
  lemma ResubmittedNote(note: Option<string>)
    requires note.None? || note.value == "" || !IsBlank(note.value)
    ensures SanitizedNote(if note.Some? && note.value != "" then Some(Strip(note.value)) else None) == SanitizedNote(note)
  {
    if note.Some? && note.value != "" {
      StripIdempotent(note.value);
      StripBlank(note.value);
    }
  }

  /** A note of white space only is stored as "" the first time and as
      `None` the second. */
  lemma BlankNoteNotIdempotent(p: TenantCreate, defaultOwner: string)
    requires !IsBlank(p.name)
    requires p.note == Some(" ")
    ensures SanitizeTenantInput(p, defaultOwner).value.note == Str("")
    ensures SanitizeTenantInput(Resubmitted(p, defaultOwner), defaultOwner).value.note == Null
  {
    assert IsBlank(" ");
    StripBlank(" ");
    var q := Resubmitted(p, defaultOwner);
    assert q.note == Some("");
  }

  /** `sanitize_tenant_patch`: the sent fields, with a falsy `propertyId`
      sent as `None` and an empty note dropped. */
  function SanitizeTenantPatch(patch: TenantPatch): (r: TenantPatch)
    ensures r.propertyId.Some? <==> patch.propertyId.Some?
    ensures r.propertyId.Some? ==> r.propertyId.value == Or(patch.propertyId.value, Null)
    ensures r.note.Some? <==> patch.note.Some? && patch.note.value != Str("")
    ensures r.note.Some? ==> r.note == patch.note
    ensures r.(propertyId := patch.propertyId, note := patch.note) == patch
  {
    patch.(
      propertyId := if patch.propertyId.Some? then Some(Or(patch.propertyId.value, Null)) else None,
      note := if patch.note == Some(Str("")) then None else patch.note)
  }

  /** Filtering a filtered patch changes nothing. */
  lemma SanitizeTenantPatchIdempotent(patch: TenantPatch)
    ensures SanitizeTenantPatch(SanitizeTenantPatch(patch)) == SanitizeTenantPatch(patch)
  {
  }

  /** `map_single` (and each item of `map_snapshot`): the stored fields,
      with status, owner and months defaulted. */
  function MapTenantRecord(rec: Record, defaultOwner: string): (r: TenantFields)
    ensures Truthy(r.status) && Truthy(r.paymentMonths)
    ensures defaultOwner != "" ==> Truthy(r.ownerId)
    ensures r.name == Get(rec, "name") && r.email == Get(rec, "email") && r.phone == Get(rec, "phone")
    ensures r.propertyId == Get(rec, "propertyId") && r.note == Get(rec, "note") && r.entryDate == Get(rec, "entryDate")
    ensures Truthy(Get(rec, "status")) ==> r.status == rec["status"]
    ensures Truthy(Get(rec, "ownerId")) ==> r.ownerId == rec["ownerId"]
    ensures Truthy(Get(rec, "paymentMonths")) ==> r.paymentMonths == rec["paymentMonths"]
    ensures !Truthy(Get(rec, "status")) ==> r.status == Str("pending")
    ensures !Truthy(Get(rec, "ownerId")) ==> r.ownerId == Str(defaultOwner)
    ensures !Truthy(Get(rec, "paymentMonths")) ==> r.paymentMonths == Int(1)
  {
    TenantFields(
      Get(rec, "name"), Get(rec, "email"), Get(rec, "phone"),
      Or(Get(rec, "status"), Str("pending")), Get(rec, "propertyId"),
      Or(Get(rec, "ownerId"), Str(defaultOwner)), Get(rec, "note"), Get(rec, "entryDate"),
      Or(Get(rec, "paymentMonths"), Int(1)))
  }

  /** The stored form of a tenant record. */
  function Stored(f: TenantFields): Record {
    map["name" := f.name, "email" := f.email, "phone" := f.phone, "status" := f.status,
        "propertyId" := f.propertyId, "ownerId" := f.ownerId, "note" := f.note,
        "entryDate" := f.entryDate, "paymentMonths" := f.paymentMonths]
  }

  /** The stored form is never empty and holds the property id. */
  lemma StoredPropertyId(f: TenantFields)
    ensures Stored(f) != map[]
    ensures "propertyId" in Stored(f) && Stored(f)["propertyId"] == f.propertyId
  {
    assert "propertyId" in Stored(f);
  }

  /** Reading back a record the mapper produced gives it back: the mapper
      is idempotent. */
  lemma MapTenantRecordIdempotent(rec: Record, defaultOwner: string)
    ensures MapTenantRecord(Stored(MapTenantRecord(rec, defaultOwner)), defaultOwner) == MapTenantRecord(rec, defaultOwner)
  {
    var f := MapTenantRecord(rec, defaultOwner);
    StoredReadsBack(f);
  }

  /** Every field of a stored record reads back as it was written. */
  lemma StoredReadsBack(f: TenantFields)
    ensures Get(Stored(f), "name") == f.name && Get(Stored(f), "email") == f.email && Get(Stored(f), "phone") == f.phone
    ensures Get(Stored(f), "status") == f.status && Get(Stored(f), "propertyId") == f.propertyId
    ensures Get(Stored(f), "ownerId") == f.ownerId && Get(Stored(f), "note") == f.note
    ensures Get(Stored(f), "entryDate") == f.entryDate && Get(Stored(f), "paymentMonths") == f.paymentMonths
  {
  }

  /** `map_snapshot`: one mapped record per stored record, with its id;
      nothing for a snapshot that is not a dictionary. */
  function MapTenantSnapshot(snapshot: Snapshot, defaultOwner: string): (r: seq<(string, TenantFields)>)
    ensures snapshot.NotDict? ==> r == []
    ensures snapshot.Dict? ==> |r| == |snapshot.items|
    ensures snapshot.Dict? ==> forall k :: 0 <= k < |r| ==> r[k].0 == snapshot.items[k].0
  {
    if snapshot.NotDict? then []
    else seq(|snapshot.items|, k requires 0 <= k < |snapshot.items| =>
               (snapshot.items[k].0, MapTenantRecord(snapshot.items[k].1, defaultOwner)))
  }

  /** The list endpoint and the single-record endpoint show a stored
      tenant the same way. */
  lemma SnapshotAgreesWithSingle(items: seq<(string, Record)>, defaultOwner: string, k: nat)
    requires k < |items|
    ensures MapTenantSnapshot(Dict(items), defaultOwner)[k] == (items[k].0, MapTenantRecord(items[k].1, defaultOwner))
  {
  }

  /** The patch as the dictionary `model_dump(exclude_unset=True)` gives:
      one entry per sent field. */
  function PatchRecord(p: TenantPatch): Record {
    SentEntry("name", p.name) + SentEntry("email", p.email) + SentEntry("phone", p.phone)
    + SentEntry("status", p.status) + SentEntry("propertyId", p.propertyId) + SentEntry("note", p.note)
    + SentEntry("entryDate", p.entryDate) + SentEntry("paymentMonths", p.paymentMonths)
  }

  /** `mapped | patch`: a sent field overrides the mapped one, and the
      owner, which is never sent, never changes. */
  function ApplyTenantPatch(f: TenantFields, p: TenantPatch): (r: TenantFields)
    ensures r.ownerId == f.ownerId
    ensures p == TenantPatch(None, None, None, None, None, None, None, None) ==> r == f
  {
    TenantFields(
      p.name.GetOr(f.name), p.email.GetOr(f.email), p.phone.GetOr(f.phone), p.status.GetOr(f.status),
      p.propertyId.GetOr(f.propertyId), f.ownerId, p.note.GetOr(f.note), p.entryDate.GetOr(f.entryDate),
      p.paymentMonths.GetOr(f.paymentMonths))
  }

  /** The merge is Python's dictionary union: the stored form of the
      merged record is the stored form of the mapped one with the sent
      entries written over it. */
  lemma ApplyTenantPatchIsUnion(f: TenantFields, p: TenantPatch)
    ensures Stored(ApplyTenantPatch(f, p)) == Stored(f) + PatchRecord(p)
  {
    var m0 := Stored(f);
    var e1 := SentEntry("name", p.name);
    var e2 := e1 + SentEntry("email", p.email);
    var e3 := e2 + SentEntry("phone", p.phone);
    var e4 := e3 + SentEntry("status", p.status);
    var e5 := e4 + SentEntry("propertyId", p.propertyId);
    var e6 := e5 + SentEntry("note", p.note);
    var e7 := e6 + SentEntry("entryDate", p.entryDate);
    UnionAssociative(m0, e7, SentEntry("paymentMonths", p.paymentMonths));
    UnionAssociative(m0, e6, SentEntry("entryDate", p.entryDate));
    UnionAssociative(m0, e5, SentEntry("note", p.note));
    UnionAssociative(m0, e4, SentEntry("propertyId", p.propertyId));
    UnionAssociative(m0, e3, SentEntry("status", p.status));
    UnionAssociative(m0, e2, SentEntry("phone", p.phone));
    UnionAssociative(m0, e1, SentEntry("email", p.email));
    SentEntryOverrides(m0, "name", p.name);
    var m1 := m0["name" := p.name.GetOr(f.name)];
    SentEntryOverrides(m1, "email", p.email);
    var m2 := m1["email" := p.email.GetOr(f.email)];
    SentEntryOverrides(m2, "phone", p.phone);
    var m3 := m2["phone" := p.phone.GetOr(f.phone)];
    SentEntryOverrides(m3, "status", p.status);
    var m4 := m3["status" := p.status.GetOr(f.status)];
    SentEntryOverrides(m4, "propertyId", p.propertyId);
    var m5 := m4["propertyId" := p.propertyId.GetOr(f.propertyId)];
    SentEntryOverrides(m5, "note", p.note);
    var m6 := m5["note" := p.note.GetOr(f.note)];
    SentEntryOverrides(m6, "entryDate", p.entryDate);
    var m7 := m6["entryDate" := p.entryDate.GetOr(f.entryDate)];
    SentEntryOverrides(m7, "paymentMonths", p.paymentMonths);
    StoredOverwritten(f, p);
  }

  /** The stored form of a merged record, as the stored form of the
      mapped one with each patchable entry overwritten in turn. */
  lemma StoredOverwritten(f: TenantFields, p: TenantPatch)
    ensures Stored(ApplyTenantPatch(f, p))
            == Stored(f)["name" := p.name.GetOr(f.name)]["email" := p.email.GetOr(f.email)]
                        ["phone" := p.phone.GetOr(f.phone)]["status" := p.status.GetOr(f.status)]
                        ["propertyId" := p.propertyId.GetOr(f.propertyId)]["note" := p.note.GetOr(f.note)]
                        ["entryDate" := p.entryDate.GetOr(f.entryDate)]["paymentMonths" := p.paymentMonths.GetOr(f.paymentMonths)]
  {
  }

  /** `map_single(...) | patch` in `update_tenant`: the mapped record
      merged with the filtered patch. */
  function MergeTenant(patch: TenantPatch, existing: Record, defaultOwner: string): (r: TenantFields)
    ensures r.ownerId == MapTenantRecord(existing, defaultOwner).ownerId
    ensures patch.name.Some? ==> r.name == patch.name.value
    ensures patch.name.None? ==> r.name == Get(existing, "name")
    ensures patch.propertyId.Some? ==> r.propertyId == Or(patch.propertyId.value, Null)
    ensures patch.note == Some(Str("")) ==> r.note == Get(existing, "note")
    ensures patch.paymentMonths.None? && !Truthy(Get(existing, "paymentMonths")) ==> r.paymentMonths == Int(1)
  {
    ApplyTenantPatch(MapTenantRecord(existing, defaultOwner), SanitizeTenantPatch(patch))
  }

  /** An empty patch only fills in the defaults; patching twice with the
      same patch is patching once. */
  lemma UpdateTenantProperties(patch: TenantPatch, existing: Record, defaultOwner: string)
    ensures MergeTenant(TenantPatch(None, None, None, None, None, None, None, None), existing, defaultOwner)
            == MapTenantRecord(existing, defaultOwner)
    ensures var once := MergeTenant(patch, existing, defaultOwner);
      ApplyTenantPatch(once, SanitizeTenantPatch(patch)) == once
  {
  }

  /** A `TenantOut` as answered. */
  datatype TenantOut = TenantOut(
    id: string, name: string, email: string, phone: string, status: string,
    propertyId: Option<string>, ownerId: string, note: Option<string>,
    entryDate: string, paymentMonths: int)

  /** Every field of the record has the type `TenantOut` declares: text for
      the required strings, text or `None` for the optional ones, an
      address the email validator accepts, and a month count an `int`
      field accepts. */
  predicate TenantOutValid(f: TenantFields, c: Coercions) {
    && f.name.Str? && f.email.Str? && c.email(f.email.s).Some? && f.phone.Str? && f.status.Str?
    && (f.propertyId.Null? || f.propertyId.Str?) && f.ownerId.Str?
    && (f.note.Null? || f.note.Str?) && f.entryDate.Str? && LaxInt(f.paymentMonths, c).Some?
  }

  /** `TenantOut.model_validate`: the answered tenant, with the address
      normalised and the month count clamped by `validate_months`; a 500
      when a field does not have its declared type. */
  function ValidateTenantOut(id: string, f: TenantFields, c: Coercions): (r: Result<TenantOut>)
    ensures r.Ok? <==> TenantOutValid(f, c)
    ensures r.Fail? ==> r.status == ServerError
    ensures r.Ok? ==> r.value.id == id
    ensures r.Ok? ==> Str(r.value.name) == f.name && Str(r.value.phone) == f.phone && Str(r.value.status) == f.status
    ensures r.Ok? ==> Str(r.value.ownerId) == f.ownerId && Str(r.value.entryDate) == f.entryDate
    ensures r.Ok? ==> Some(r.value.email) == c.email(f.email.s)
    ensures r.Ok? ==> Ok(r.value.propertyId) == OptionalText(f.propertyId) && Ok(r.value.note) == OptionalText(f.note)
    ensures r.Ok? ==> r.value.paymentMonths == ValidateMonths(LaxInt(f.paymentMonths, c).value)
    ensures r.Ok? ==> 1 <= r.value.paymentMonths <= 12
  {
    var email := if f.email.Str? then c.email(f.email.s) else None;
    match (email, OptionalText(f.propertyId), OptionalText(f.note), LaxInt(f.paymentMonths, c))
    case (Some(address), Ok(propertyId), Ok(note), Some(months)) =>
      if f.name.Str? && f.phone.Str? && f.status.Str? && f.ownerId.Str? && f.entryDate.Str? then
        Ok(TenantOut(id, f.name.s, address, f.phone.s, f.status.s, propertyId, f.ownerId.s, note,
                     f.entryDate.s, ValidateMonths(months)))
      else Fail(ServerError)
    case _ => Fail(ServerError)
  }

  /** `list_tenants`: every stored tenant mapped and validated, in snapshot
      order, with its key as id; a 500 when one of them does not validate. */
  function ListTenants(snapshot: Snapshot, defaultOwner: string, c: Coercions): (r: Result<seq<TenantOut>>)
    ensures snapshot.NotDict? ==> r == Ok([])
    ensures snapshot.Dict? ==> (r.Ok? <==> forall k :: 0 <= k < |snapshot.items| ==>
                                 TenantOutValid(MapTenantRecord(snapshot.items[k].1, defaultOwner), c))
    ensures r.Fail? ==> r.status == ServerError
    ensures r.Ok? && snapshot.Dict? ==> |r.value| == |snapshot.items|
    ensures r.Ok? && snapshot.Dict? ==> forall k :: 0 <= k < |r.value| ==>
              Ok(r.value[k]) == ValidateTenantOut(snapshot.items[k].0, MapTenantRecord(snapshot.items[k].1, defaultOwner), c)
  {
    var mapped := MapTenantSnapshot(snapshot, defaultOwner);
    var r := Lists.MapResults(mapped, (e: (string, TenantFields)) => ValidateTenantOut(e.0, e.1, c));
    assert snapshot.Dict? ==> forall k :: 0 <= k < |mapped| ==>
      mapped[k] == (snapshot.items[k].0, MapTenantRecord(snapshot.items[k].1, defaultOwner));
    r
  }

  /** `update_tenant`: 404 when the record is missing; otherwise the merged
      record validated as a `TenantOut`, which is a 500 when a stored field
      the patch does not replace has the wrong type. */
  function UpdateTenant(tenantId: string, patch: TenantPatch, existing: Option<Record>, defaultOwner: string, c: Coercions)
    : (r: Result<TenantOut>)
    ensures existing.None? ==> r == Fail(NotFound)
    ensures existing.Some? ==> (r.Ok? <==> TenantOutValid(MergeTenant(patch, existing.value, defaultOwner), c))
    ensures existing.Some? && r.Fail? ==> r.status == ServerError
    ensures r.Ok? ==> r.value.id == tenantId
    ensures r.Ok? ==> Str(r.value.ownerId) == MapTenantRecord(existing.value, defaultOwner).ownerId
    ensures r.Ok? && patch.name.Some? ==> Str(r.value.name) == patch.name.value
    ensures r.Ok? && patch.name.None? ==> Str(r.value.name) == Get(existing.value, "name")
    ensures r.Ok? && patch.propertyId.Some? && Truthy(patch.propertyId.value) ==> Some(r.value.propertyId) == Some(AsOptionalString(patch.propertyId.value))
    ensures r.Ok? && patch.propertyId.Some? && !Truthy(patch.propertyId.value) ==> r.value.propertyId.None?
    ensures r.Ok? && patch.paymentMonths.Some? ==> r.value.paymentMonths == ValidateMonths(LaxInt(patch.paymentMonths.value, c).value)
    ensures r.Ok? && patch.paymentMonths.None? && !Truthy(Get(existing.value, "paymentMonths")) ==> r.value.paymentMonths == 1
  {
    if existing.None? then Fail(NotFound)
    else ValidateTenantOut(tenantId, MergeTenant(patch, existing.value, defaultOwner), c)
  }

  /** A stored month count outside 1..12 is answered clamped, as the
      response model runs `validate_months` again. */
  lemma UpdateAnswersClampedMonths(tenantId: string, patch: TenantPatch, existing: Record, defaultOwner: string, c: Coercions)
    requires patch.paymentMonths.None? && Get(existing, "paymentMonths") == Int(24)
    ensures var r := UpdateTenant(tenantId, patch, Some(existing), defaultOwner, c);
      r.Ok? ==> r.value.paymentMonths == 12
  {
  }

  /** A stored tenant without a phone cannot be answered: patching any
      other field fails with 500 after the patch was written. */
  lemma UpdateFailsWithoutPhone(tenantId: string, patch: TenantPatch, existing: Record, defaultOwner: string, c: Coercions)
    requires patch.phone.None? && "phone" !in existing
    ensures UpdateTenant(tenantId, patch, Some(existing), defaultOwner, c) == Fail(ServerError)
  {
  }

  /** The reminder service reads a stored tenant as the tenant endpoints
      answer it: the same fields with the same defaults and, unless the
      month count is stored as text (which two different parsers read),
      the same month count; a tenant the list answers is one the reminder
      service can read. */
  lemma ReminderReadsAsListed(id: string, rec: Record, defaultOwner: string, c: Coercions)
    ensures var t := ReminderService.MapTenant(id, rec, defaultOwner); var f := MapTenantRecord(rec, defaultOwner);
      t.Some? ==> && t.value.name == f.name && t.value.phone == f.phone && t.value.status == f.status
                  && t.value.propertyId == f.propertyId && t.value.ownerId == f.ownerId
                  && t.value.note == f.note && t.value.entryDate == f.entryDate
    ensures var t := ReminderService.MapTenant(id, rec, defaultOwner); var v := ValidateTenantOut(id, MapTenantRecord(rec, defaultOwner), c);
      v.Ok? && !Get(rec, "paymentMonths").Str? ==> t.Some? && t.value.paymentMonths == v.value.paymentMonths
  {
  }

  /** A status write to a property record, as `(property id, status)`. */
  datatype PropertyStatusWrite = PropertyStatusWrite(propertyId: string, status: string)

  /** `create_tenant`: the stored record, answered with the id the store
      assigned, and the property of the tenant, if any, marked occupied. */
  function CreateTenant(p: TenantCreate, defaultOwner: string): (r: Result<(TenantFields, seq<PropertyStatusWrite>)>)
    ensures r.Fail? <==> IsBlank(p.name)
    ensures r.Ok? ==> r.value.0 == SanitizeTenantInput(p, defaultOwner).value
    ensures r.Ok? && p.propertyId.Some? && p.propertyId.value != ""
            ==> r.value.1 == [PropertyStatusWrite(p.propertyId.value, "occupied")]
    ensures r.Ok? && (p.propertyId.None? || p.propertyId.value == "") ==> r.value.1 == []
  {
    OptionalValueText(p.propertyId);
    match SanitizeTenantInput(p, defaultOwner)
    case Fail(e) => Fail(e)
    case Ok(body) =>
      var writes := if Truthy(body.propertyId) then [PropertyStatusWrite(PyStr(body.propertyId), "occupied")] else [];
      Ok((body, writes))
  }

  /** `delete_tenant`: the property of the deleted tenant, if the stored
      record names one, is marked vacant. */
  function DeleteTenant(existing: Option<Record>): (r: seq<PropertyStatusWrite>)
    ensures |r| <= 1
    ensures |r| == 1 <==> existing.Some? && existing.value != map[] && Truthy(Get(existing.value, "propertyId"))
    ensures |r| == 1 ==> r[0] == PropertyStatusWrite(PyStr(existing.value["propertyId"]), "vacant")
  {
    if existing.Some? && existing.value != map[] && Truthy(Get(existing.value, "propertyId")) then
      [PropertyStatusWrite(PyStr(existing.value["propertyId"]), "vacant")]
    else []
  }

  /** The same property writes with every status set to vacant. */
  function Released(writes: seq<PropertyStatusWrite>): (r: seq<PropertyStatusWrite>)
    ensures |r| == |writes|
    ensures forall k :: 0 <= k < |r| ==> r[k].propertyId == writes[k].propertyId && r[k].status == "vacant"
  {
    seq(|writes|, k requires 0 <= k < |writes| => writes[k].(status := "vacant"))
  }

  /** Deleting a tenant just created frees the property its creation
      occupied, and a tenant created without a property frees none. */
  lemma CreateThenDelete(p: TenantCreate, defaultOwner: string)
    requires !IsBlank(p.name)
    ensures DeleteTenant(Some(Stored(CreateTenant(p, defaultOwner).value.0)))
            == Released(CreateTenant(p, defaultOwner).value.1)
  {
    var (stored, occupied) := CreateTenant(p, defaultOwner).value;
    DeleteStored(stored);
    if Truthy(stored.propertyId) {
      assert Released(occupied) == [PropertyStatusWrite(PyStr(stored.propertyId), "vacant")];
    }
  }

  /** What deleting a record in its stored form writes. */
  lemma DeleteStored(f: TenantFields)
    ensures Truthy(f.propertyId) ==> DeleteTenant(Some(Stored(f))) == [PropertyStatusWrite(PyStr(f.propertyId), "vacant")]
    ensures !Truthy(f.propertyId) ==> DeleteTenant(Some(Stored(f))) == []
  {
    StoredPropertyId(f);
  }
}

=== FILE: text.dfy ===
/** Python `str` operations the service relies on, over `seq<char>`.

    Each function follows the CPython behaviour of the named method for the
    inputs the service passes it; case mapping is ASCII only. */
module Text {
  import opened Wrappers

  /** `c.isspace()` in Python: ASCII and Unicode white space. */
  predicate IsSpace(c: char) {
    var n := c as int;
    n == 0x20 || (0x09 <= n <= 0x0d) || (0x1c <= n <= 0x1f) || n == 0x85 || n == 0xa0
    || n == 0x1680 || (0x2000 <= n <= 0x200a) || n == 0x2028 || n == 0x2029
    || n == 0x202f || n == 0x205f || n == 0x3000
  }

  predicate IsDigit(c: char) { '0' <= c <= '9' }

  /** A string whose `strip()` is empty. */
  predicate IsBlank(s: string) {
    forall i :: 0 <= i < |s| ==> IsSpace(s[i])
  }

  /** How many white-space characters `s` starts with. */
  function LeadingSpaces(s: string): (i: nat)
    ensures i <= |s|
    ensures forall j :: 0 <= j < i ==> IsSpace(s[j])
    ensures i == |s| || !IsSpace(s[i])
  {
    if |s| > 0 && IsSpace(s[0]) then 1 + LeadingSpaces(s[1..]) else 0
  }

  function TrimRight(s: string): (r: string)
    ensures |r| <= |s| && r == s[..|r|]
    ensures |r| == 0 || !IsSpace(r[|r| - 1])
    ensures forall i :: |r| <= i < |s| ==> IsSpace(s[i])
  {
    if |s| > 0 && IsSpace(s[|s| - 1]) then TrimRight(s[..|s| - 1]) else s
  }

  /** `s.strip()`: the infix left once the white space at both ends is cut
      away, with no white space at either of its own ends. */
  function Strip(s: string): (r: string)
    ensures LeadingSpaces(s) + |r| <= |s|
    ensures r == s[LeadingSpaces(s)..LeadingSpaces(s) + |r|]
    ensures forall j :: LeadingSpaces(s) + |r| <= j < |s| ==> IsSpace(s[j])
    ensures |r| == 0 || (!IsSpace(r[0]) && !IsSpace(r[|r| - 1]))
  {
    TrimRight(s[LeadingSpaces(s)..])
  }

  lemma StripBlank(s: string)
    ensures Strip(s) == [] <==> IsBlank(s)
  {
  }

  /** Stripping twice strips nothing more. */
  lemma StripIdempotent(s: string)
    ensures Strip(Strip(s)) == Strip(s)
  {
    var t := Strip(s);
    assert LeadingSpaces(t) == 0;
    assert TrimRight(t) == t;
  }

  /** A string that already has no white space at either end is its own `strip()`. */
  lemma StripTrimmed(s: string)
    requires |s| == 0 || (!IsSpace(s[0]) && !IsSpace(s[|s| - 1]))
    ensures Strip(s) == s
  {
    assert LeadingSpaces(s) == 0;
    assert s[0..] == s;
    assert TrimRight(s) == s;
  }

  function LowerChar(c: char): char {
    if 'A' <= c <= 'Z' then (c as int + 32) as char else c
  }

  /** `s.lower()` restricted to the ASCII case mapping. */
  function Lower(s: string): (r: string)
    ensures |r| == |s|
    ensures forall i :: 0 <= i < |s| ==> r[i] == LowerChar(s[i])
  {
    if |s| == 0 then "" else [LowerChar(s[0])] + Lower(s[1..])
  }

  lemma LowerIdempotent(s: string)
    ensures Lower(Lower(s)) == Lower(s)
  {
  }

  /** Text without capital letters is its own lower case. */
  lemma LowerOfLowercase(s: string)
    requires forall i :: 0 <= i < |s| ==> !('A' <= s[i] <= 'Z')
    ensures Lower(s) == s
  {
  }

  /** Case-insensitive equality as the service writes it: `a.lower() == b.lower()`. */
  predicate SameIgnoringCase(a: string, b: string) {
    Lower(a) == Lower(b)
  }

  /** `sep.join(parts)` for a one-character separator. */
  function Join(parts: seq<string>, sep: char): string
    requires |parts| >= 1
  {
    if |parts| == 1 then parts[0] else parts[0] + [sep] + Join(parts[1..], sep)
  }

  /** `s.split(sep)` for a one-character separator: never empty, no part holds
      the separator, and joining the parts gives `s` back. */
  function SplitOn(s: string, sep: char): (parts: seq<string>)
    ensures |parts| >= 1
    ensures forall k :: 0 <= k < |parts| ==> sep !in parts[k]
    ensures Join(parts, sep) == s
  {
    if |s| == 0 then [""]
    else
      var rest := SplitOn(s[1..], sep);
      if s[0] == sep then
        assert Join([""] + rest, sep) == [sep] + Join(rest, sep) by {
          assert ([""] + rest)[1..] == rest;
        }
        [""] + rest
      else
        var parts := [[s[0]] + rest[0]] + rest[1..];
        assert Join(parts, sep) == s by {
          if |rest| > 1 {
            assert parts[1..] == rest[1..];
          }
        }
        parts
  }

  lemma {:induction false} SplitOnLeadingPart(a: string, t: string, sep: char)
    requires sep !in a
    ensures SplitOn(a + [sep] + t, sep) == [a] + SplitOn(t, sep)
    ensures SplitOn(a, sep) == [a]
    decreases |a|
  {
    if |a| == 0 {
      assert a + [sep] + t == [sep] + t;
      assert ([sep] + t)[1..] == t;
    } else {
      assert (a + [sep] + t)[1..] == a[1..] + [sep] + t;
      SplitOnLeadingPart(a[1..], t, sep);
      assert [a[0]] + a[1..] == a;
    }
  }

  /** Splitting a join gives the parts back when no part holds the separator. */
  lemma {:induction false} SplitJoinRoundTrip(parts: seq<string>, sep: char)
    requires |parts| >= 1
    requires forall k :: 0 <= k < |parts| ==> sep !in parts[k]
    ensures SplitOn(Join(parts, sep), sep) == parts
    decreases |parts|
  {
    SplitOnLeadingPart(parts[0], [], sep);
    if |parts| > 1 {
      SplitJoinRoundTrip(parts[1..], sep);
      SplitOnLeadingPart(parts[0], Join(parts[1..], sep), sep);
    }
  }

  /** `s.split(" ")[0]`: the text before the first space. */
  function FirstWord(s: string): (r: string)
    ensures |r| <= |s| && r == s[..|r|]
    ensures ' ' !in r
    ensures |r| == |s| || s[|r|] == ' '
  {
    var parts := SplitOn(s, ' ');
    if |parts| == 1 then parts[0]
    else
      assert s == parts[0] + [' '] + Join(parts[1..], ' ');
      parts[0]
  }

  /** `s.replace(c, rep)` for a one-character pattern. */
  function ReplaceChar(s: string, c: char, rep: string): (r: string)
    ensures c !in rep ==> c !in r
    ensures c !in s ==> r == s
  {
    if |s| == 0 then "" else (if s[0] == c then rep else [s[0]]) + ReplaceChar(s[1..], c, rep)
  }

  lemma {:induction false} ReplaceCharConcat(a: string, b: string, c: char, rep: string)
    ensures ReplaceChar(a + b, c, rep) == ReplaceChar(a, c, rep) + ReplaceChar(b, c, rep)
    decreases |a|
  {
    if |a| > 0 {
      assert (a + b)[1..] == a[1..] + b;
      ReplaceCharConcat(a[1..], b, c, rep);
    } else {
      assert a + b == b;
    }
  }

  /** `s.rstrip(c)`: drop every trailing `c`. */
  function RStripChar(s: string, c: char): (r: string)
    ensures |r| <= |s| && r == s[..|r|]
    ensures |r| == 0 || r[|r| - 1] != c
    ensures forall i :: |r| <= i < |s| ==> s[i] == c
  {
    if |s| > 0 && s[|s| - 1] == c then RStripChar(s[..|s| - 1], c) else s
  }

  /** Splitting off the head of the left operand of a concatenation. */
  lemma ConsConcat<T>(a: seq<T>, r: seq<T>)
    requires |a| > 0
    ensures a + r == [a[0]] + (a[1..] + r)
  {
    assert a == [a[0]] + a[1..];
  }

  lemma ConcatAssoc<T>(a: seq<T>, b: seq<T>, c: seq<T>)
    ensures a + b + c == a + (b + c)
  {
  }

  predicate StartsWith(s: string, p: string) {
    |p| <= |s| && s[..|p|] == p
  }

  // ---- integers and their decimal text ----

  function DigitChar(d: int): (c: char)
    requires 0 <= d <= 9
    ensures IsDigit(c)
  {
    (48 + d) as char
  }

  function DigitValue(c: char): (d: nat)
    requires IsDigit(c)
    ensures d <= 9
  {
    c as int - 48
  }

  /** `str(n)` for `n >= 0`. */
  function NatString(n: nat): (r: string)
    ensures |r| >= 1
    ensures forall i :: 0 <= i < |r| ==> IsDigit(r[i])
  {
    if n < 10 then [DigitChar(n)] else NatString(n / 10) + [DigitChar(n % 10)]
  }

  /** `str(n)` for any integer. */
  function DecimalString(n: int): (r: string)
    ensures |r| >= 1 && IsDigit(r[|r| - 1])
    ensures r[0] == '-' || IsDigit(r[0])
  {
    if n < 0 then "-" + NatString(-n) else NatString(n)
  }

  /** The number written by a string of decimal digits. */
  function DigitsNumber(s: string): nat
    requires forall i :: 0 <= i < |s| ==> IsDigit(s[i])
  {
    if |s| == 0 then 0 else DigitsNumber(s[..|s| - 1]) * 10 + DigitValue(s[|s| - 1])
  }

  /** Digits with single `_` separators between digits, as `int()` accepts. */
  predicate UnderscoredDigits(u: string) {
    && |u| > 0
    && IsDigit(u[0])
    && IsDigit(u[|u| - 1])
    && (forall i :: 0 <= i < |u| ==> IsDigit(u[i]) || u[i] == '_')
    && (forall i :: 0 < i < |u| ==> !DoubleUnderscoreAt(u, i))
  }

  /** Positions `i - 1` and `i` of `u` both hold `_`. */
  predicate DoubleUnderscoreAt(u: string, i: int)
    requires 0 < i < |u|
  {
    u[i - 1] == '_' && u[i] == '_'
  }

  function DropUnderscores(u: string): (r: string)
    requires forall i :: 0 <= i < |u| ==> IsDigit(u[i]) || u[i] == '_'
    ensures forall i :: 0 <= i < |r| ==> IsDigit(r[i])
  {
    if |u| == 0 then ""
    else if u[0] == '_' then DropUnderscores(u[1..])
    else [u[0]] + DropUnderscores(u[1..])
  }

  function ParseUnsigned(u: string): Option<nat> {
    if UnderscoredDigits(u) then Some(DigitsNumber(DropUnderscores(u))) else None
  }

  /** `int(s)` for a string in base 10: surrounding white space, one optional
      sign, ASCII digits with single underscores between them; `None` stands
      for the `ValueError` Python raises otherwise. */
  function PyInt(s: string): (r: Option<int>)
    ensures |s| > 0 && (forall i :: 0 <= i < |s| ==> IsDigit(s[i])) ==> r == Some(DigitsNumber(s) as int)
    ensures r.Some? ==> Strip(s) != ""
  {
    if |s| > 0 && forall i :: 0 <= i < |s| ==> IsDigit(s[i]) then
      assert IsDigit(s[0]) && IsDigit(s[|s| - 1]);
      StripTrimmed(s);
      PyIntTrimmedDigits(s);
      PyIntTrimmed(Strip(s))
    else PyIntTrimmed(Strip(s))
  }

  /** `int()` once the surrounding white space is gone. */
  function PyIntTrimmed(t: string): Option<int> {
    var signed := |t| > 0 && (t[0] == '+' || t[0] == '-');
    var body := if signed then t[1..] else t;
    match ParseUnsigned(body)
    case None => None
    case Some(v) => Some(if signed && t[0] == '-' then -(v as int) else v as int)
  }

  lemma {:induction false} DropUnderscoresOfDigits(s: string)
    requires forall i :: 0 <= i < |s| ==> IsDigit(s[i])
    ensures DropUnderscores(s) == s
    decreases |s|
  {
    if |s| > 0 {
      DropUnderscoresOfDigits(s[1..]);
    }
  }

  lemma {:induction false} NatStringNumber(n: nat)
    ensures DigitsNumber(NatString(n)) == n
  {
    if n >= 10 {
      NatStringNumber(n / 10);
      var s := NatString(n);
      assert s[..|s| - 1] == NatString(n / 10);
    }
  }

  /** A plain run of digits is read as the number it writes. */
  lemma ParseUnsignedDigits(s: string)
    requires |s| > 0 && forall i :: 0 <= i < |s| ==> IsDigit(s[i])
    ensures ParseUnsigned(s) == Some(DigitsNumber(s))
  {
    DropUnderscoresOfDigits(s);
  }

  /** `int()` reads a non-empty run of ASCII digits as the number it writes. */
  lemma PyIntDigits(t: string)
    requires |t| > 0 && forall i :: 0 <= i < |t| ==> IsDigit(t[i])
    ensures PyInt(t) == Some(DigitsNumber(t) as int)
  {
    assert IsDigit(t[0]) && IsDigit(t[|t| - 1]);
    PyIntOfTrimmed(t);
    PyIntTrimmedDigits(t);
  }

  lemma PyIntTrimmedDigits(t: string)
    requires |t| > 0 && forall i :: 0 <= i < |t| ==> IsDigit(t[i])
    ensures PyIntTrimmed(t) == Some(DigitsNumber(t) as int)
  {
    assert IsDigit(t[0]);
    ParseUnsignedDigits(t);
  }

  lemma PyIntTrimmedNegative(t: string)
    requires |t| > 1 && t[0] == '-' && forall i :: 1 <= i < |t| ==> IsDigit(t[i])
    ensures PyIntTrimmed(t) == Some(-(DigitsNumber(t[1..]) as int))
  {
    ParseUnsignedDigits(t[1..]);
  }

  /** Text without white space at either end is read as it is. */
  lemma PyIntOfTrimmed(t: string)
    requires |t| == 0 || (!IsSpace(t[0]) && !IsSpace(t[|t| - 1]))
    ensures PyInt(t) == PyIntTrimmed(t)
  {
    StripTrimmed(t);
  }

  /** The text of a negative number is read back as that number. */
  lemma PyIntTrimmedMinusNat(m: nat)
    ensures PyIntTrimmed("-" + NatString(m)) == Some(-(m as int))
  {
    var t := "-" + NatString(m);
    assert t[1..] == NatString(m);
    PyIntTrimmedNegative(t);
    NatStringNumber(m);
  }

  /** `int(str(n)) == n`: the parser reads back what `str` writes. */
  lemma PyIntReadsDecimalString(n: int)
    ensures PyInt(DecimalString(n)) == Some(n)
  {
    if n < 0 {
      PyIntReadsNegativeDecimal(n);
    } else {
      PyIntReadsNatDecimal(n);
    }
  }

  lemma PyIntReadsNegativeDecimal(n: int)
    requires n < 0
    ensures PyInt(DecimalString(n)) == Some(n)
  {
    var m: nat := -n;
    assert DecimalString(n) == "-" + NatString(m);
    PyIntReadsNegative(m);
  }

  lemma PyIntReadsNatDecimal(n: int)
    requires n >= 0
    ensures PyInt(DecimalString(n)) == Some(n)
  {
    NatStringNumber(n);
    PyIntDigits(NatString(n));
  }

  lemma PyIntReadsNegative(m: nat)
    ensures PyInt("-" + NatString(m)) == Some(-(m as int))
  {
    MinusNatTrimmed(m);
    PyIntTrimmedMinusNat(m);
  }

  lemma MinusNatTrimmed(m: nat)
    ensures PyInt("-" + NatString(m)) == PyIntTrimmed("-" + NatString(m))
  {
    var s := "-" + NatString(m);
    assert s[0] == '-' && IsDigit(s[|s| - 1]);
    PyIntOfTrimmed(s);
  }

  // ---- float() on text ----

  /** `float(s)` accepts `s`: surrounding white space, one optional sign,
      then `inf`, `infinity` or `nan` in any letter case, or a decimal
      number with an optional fraction and exponent whose digit runs are
      written as `int()` accepts them. */
  predicate PyFloatText(s: string) {
    var t := Strip(s);
    var word := Lower(if |t| > 0 && (t[0] == '+' || t[0] == '-') then t[1..] else t);
    word == "inf" || word == "infinity" || word == "nan" || FloatNumber(word)
  }

  /** A mantissa with an optional exponent, in lower case. */
  predicate FloatNumber(w: string) {
    var parts := SplitOn(w, 'e');
    && (|parts| == 1 || |parts| == 2)
    && Mantissa(parts[0])
    && (|parts| == 2 ==> Exponent(parts[1]))
  }

  /** `digits`, `digits.`, `.digits` or `digits.digits`. */
  predicate Mantissa(m: string) {
    var parts := SplitOn(m, '.');
    || (|parts| == 1 && UnderscoredDigits(parts[0]))
    || (|parts| == 2 && parts[0] == "" && UnderscoredDigits(parts[1]))
    || (|parts| == 2 && UnderscoredDigits(parts[0]) && (parts[1] == "" || UnderscoredDigits(parts[1])))
  }

  /** The digits after `e`, with one optional sign. */
  predicate Exponent(x: string) {
    UnderscoredDigits(if |x| > 0 && (x[0] == '+' || x[0] == '-') then x[1..] else x)
  }

  /** Everything `int()` reads as a number, `float()` reads too. */
  lemma PyFloatOfInt(s: string)
    requires PyInt(s).Some?
    ensures PyFloatText(s)
  {
    var t := Strip(s);
    var body := if |t| > 0 && (t[0] == '+' || t[0] == '-') then t[1..] else t;
    assert UnderscoredDigits(body);
    LowerOfDigits(body);
    DigitsAreFloat(body);
  }

  /** A run of digits with single underscores is a float mantissa. */
  lemma DigitsAreFloat(u: string)
    requires UnderscoredDigits(u)
    ensures FloatNumber(u)
  {
    assert 'e' !in u && '.' !in u by {
      assert forall i :: 0 <= i < |u| ==> IsDigit(u[i]) || u[i] == '_';
    }
    SplitOnLeadingPart(u, [], 'e');
    SplitOnLeadingPart(u, [], '.');
  }

  /** Digits and underscores have no upper case. */
  lemma {:induction false} LowerOfDigits(u: string)
    requires forall i :: 0 <= i < |u| ==> IsDigit(u[i]) || u[i] == '_'
    ensures Lower(u) == u
    decreases |u|
  {
    if |u| > 0 {
      LowerOfDigits(u[1..]);
    }
  }

  /** A mantissa starts with a digit or a point. */
  lemma MantissaStart(m: string)
    requires Mantissa(m)
    ensures |m| > 0 && (IsDigit(m[0]) || m[0] == '.')
  {
    var parts := SplitOn(m, '.');
    JoinHead(parts, '.');
    if parts[0] == "" {
      assert Join(parts, '.') == "" + ['.'] + Join(parts[1..], '.');
    }
  }

  /** A number starts with a digit or a point. */
  lemma FloatNumberStart(w: string)
    requires FloatNumber(w)
    ensures |w| > 0 && (IsDigit(w[0]) || w[0] == '.')
  {
    var parts := SplitOn(w, 'e');
    JoinHead(parts, 'e');
    MantissaStart(parts[0]);
  }

  /** Text that starts with a letter other than `i` or `n` is no number. */
  lemma PyFloatRejectsWord(c: char, rest: string)
    requires 'a' <= c <= 'z' && c != 'i' && c != 'n'
    ensures !PyFloatText([c] + rest)
  {
    var s := [c] + rest;
    StripTrimmedStart(s);
    var t := Strip(s);
    assert t[0] == c;
    var word := Lower(t);
    assert word[0] == c;
    WordStart(word, c);
  }

  /** A lower-case word that starts with `c` is neither a number nor one
      of the three names. */
  lemma WordStart(word: string, c: char)
    requires 'a' <= c <= 'z' && c != 'i' && c != 'n'
    requires |word| > 0 && word[0] == c
    ensures word != "inf" && word != "infinity" && word != "nan" && !FloatNumber(word)
  {
    if FloatNumber(word) {
      FloatNumberStart(word);
    }
  }

  /** The first part of a split is where the joined text starts. */
  lemma JoinHead(parts: seq<string>, sep: char)
    requires |parts| >= 1
    ensures parts[0] <= Join(parts, sep)
  {
  }

  /** Stripping text that starts with a non-blank keeps its first character. */
  lemma StripTrimmedStart(s: string)
    requires |s| > 0 && !IsSpace(s[0])
    ensures |Strip(s)| > 0 && Strip(s)[0] == s[0]
  {
    assert LeadingSpaces(s) == 0;
  }

  // ---- Python's ordering of strings ----

  /** `a < b` on Python strings: lexicographic by code point. */
  predicate StrLt(a: string, b: string)
    decreases |a|
  {
    if |a| == 0 then |b| > 0
    else if |b| == 0 then false
    else a[0] < b[0] || (a[0] == b[0] && StrLt(a[1..], b[1..]))
  }

  predicate StrLe(a: string, b: string) {
    StrLt(a, b) || a == b
  }

  lemma {:induction false} StrLtIrreflexive(a: string)
    ensures !StrLt(a, a)
    decreases |a|
  {
    if |a| > 0 {
      StrLtIrreflexive(a[1..]);
    }
  }

  lemma {:induction false} StrLtTransitive(a: string, b: string, c: string)
    requires StrLt(a, b) && StrLt(b, c)
    ensures StrLt(a, c)
    decreases |a|
  {
    if |a| > 0 && |b| > 0 && |c| > 0 && a[0] == b[0] && b[0] == c[0] {
      StrLtTransitive(a[1..], b[1..], c[1..]);
    }
  }

  lemma {:induction false} StrLtTotal(a: string, b: string)
    ensures StrLt(a, b) || a == b || StrLt(b, a)
    decreases |a|
  {
    if |a| > 0 && |b| > 0 && a[0] == b[0] {
      StrLtTotal(a[1..], b[1..]);
      if a[1..] == b[1..] {
        assert a == [a[0]] + a[1..] && b == [b[0]] + b[1..];
      }
    }
  }

  /** Comparing two concatenations whose first halves have equal length. */
  lemma {:induction false} StrLtConcat(p: string, q: string, p': string, q': string)
    requires |p| == |p'|
    ensures StrLt(p + q, p' + q') <==> StrLt(p, p') || (p == p' && StrLt(q, q'))
    decreases |p|
  {
    if |p| == 0 {
      assert p + q == q && p' + q' == q';
    } else {
      assert (p + q)[1..] == p[1..] + q;
      assert (p' + q')[1..] == p'[1..] + q';
      StrLtConcat(p[1..], q, p'[1..], q');
      if p[0] == p'[0] && p[1..] == p'[1..] {
        assert p == [p[0]] + p[1..] && p' == [p'[0]] + p'[1..];
      }
      if p == p' {
        assert p[1..] == p'[1..];
      }
    }
  }
}

=== FILE: users.dfy ===
/** The user registry (`app/models/user.py`): the default administrator
    and password authentication over the list of stored users. Reading and
    writing the JSON file is not modelled; the list is the input and the
    new list the output. Hashing and verification are parameters. */
module Users {
  import opened Wrappers
  import opened Text

  datatype User = User(
    id: string, name: string, email: string, passwordHash: string,
    role: string, phone: Option<string>, createdAt: Option<string>)

  const AdminEmail: string := "admin@locatus.com"

  /** Some stored user has `email`, compared lower-cased on both sides. */
  predicate HasEmail(users: seq<User>, email: string) {
    exists i :: 0 <= i < |users| && SameIgnoringCase(users[i].email, email)
  }

  /** Some stored user has the admin address, once lower-cased. */
  predicate HasAdmin(users: seq<User>) {
    exists i :: 0 <= i < |users| && Lower(users[i].email) == AdminEmail
  }

  /** The administrator `add_default_admin` creates; the id, the hash of
      the default password and the creation time are inputs. */
  function DefaultAdmin(id: string, passwordHash: string, now: string): User {
    User(id, "Emilie Aubert", AdminEmail, passwordHash, "admin", Some("+33 6 88 77 11 22"), Some(now))
  }

  /** `add_default_admin`: nothing when a user already has the admin
      address; otherwise one administrator appended. */
  function AddDefaultAdmin(users: seq<User>, id: string, passwordHash: string, now: string): (r: seq<User>)
    ensures HasAdmin(users) ==> r == users
    ensures !HasAdmin(users) ==> r == users + [DefaultAdmin(id, passwordHash, now)]
    ensures HasAdmin(r)
  {
    AdminEmailLower();
    if HasAdmin(users) then users
    else
      var r := users + [DefaultAdmin(id, passwordHash, now)];
      assert r[|users|].email == AdminEmail;
      r
  }

  /** The admin address is already lower-case. */
  lemma AdminEmailLower()
    ensures Lower(AdminEmail) == AdminEmail
  {
    var a := AdminEmail;
    assert forall i :: 0 <= i < |a| ==> !('A' <= a[i] <= 'Z') by {
      assert a == "admin@locatus.com";
    }
    LowerOfLowercase(a);
  }

  /** Running it twice adds no second administrator. */
  lemma AddDefaultAdminIdempotent(users: seq<User>, id: string, passwordHash: string, now: string,
                                  id': string, passwordHash': string, now': string)
    ensures var once := AddDefaultAdmin(users, id, passwordHash, now);
      AddDefaultAdmin(once, id', passwordHash', now') == once
  {
    AdminEmailLower();
  }

  /** `authenticate`: the first user with the address whose password
      verifies, or none. */
  function Authenticate(users: seq<User>, email: string, password: string, verify: (string, string) -> bool): (r: Option<User>)
    ensures r.Some? ==> exists i :: 0 <= i < |users| && users[i] == r.value
    ensures r.Some? ==> SameIgnoringCase(r.value.email, email) && verify(password, r.value.passwordHash)
    ensures r.None? <==> forall i :: 0 <= i < |users| ==> !(SameIgnoringCase(users[i].email, email) && verify(password, users[i].passwordHash))
  {
    if |users| == 0 then None
    else if SameIgnoringCase(users[0].email, email) && verify(password, users[0].passwordHash) then Some(users[0])
    else
      var rest := Authenticate(users[1..], email, password, verify);
      if rest.Some? then
        assert exists i :: 0 <= i < |users| && users[i] == rest.value by {
          var j :| 0 <= j < |users[1..]| && users[1..][j] == rest.value;
          assert users[j + 1] == rest.value;
        }
        rest
      else
        assert forall i :: 1 <= i < |users| ==> users[i] == users[1..][i - 1];
        None
  }

  /** The user found comes before every other user that would do. */
  lemma {:induction false} AuthenticateFirst(users: seq<User>, email: string, password: string,
                                             verify: (string, string) -> bool, j: nat)
    requires j < |users| && SameIgnoringCase(users[j].email, email) && verify(password, users[j].passwordHash)
    ensures Authenticate(users, email, password, verify).Some?
    ensures Authenticate(users, email, password, verify).value == users[FirstIndex(users, email, password, verify)]
    ensures FirstIndex(users, email, password, verify) <= j
  {
    if !(SameIgnoringCase(users[0].email, email) && verify(password, users[0].passwordHash)) {
      assert users[1..][j - 1] == users[j];
      AuthenticateFirst(users[1..], email, password, verify, j - 1);
    }
  }

  /** The index of the first user that would authenticate. */
  function FirstIndex(users: seq<User>, email: string, password: string, verify: (string, string) -> bool): (i: nat)
    ensures i <= |users|
    ensures forall k :: 0 <= k < i ==> !(SameIgnoringCase(users[k].email, email) && verify(password, users[k].passwordHash))
    ensures i < |users| ==> SameIgnoringCase(users[i].email, email) && verify(password, users[i].passwordHash)
  {
    if |users| == 0 then 0
    else if SameIgnoringCase(users[0].email, email) && verify(password, users[0].passwordHash) then 0
    else
      var i := FirstIndex(users[1..], email, password, verify);
      assert forall k :: 1 <= k < |users| ==> users[k] == users[1..][k - 1];
      i + 1
  }
}

=== FILE: values.dfy ===
/** Records as the document database hands them to the service: string-keyed
    maps of JSON scalars, and the Python coercions the service applies to them. */
module Values {
  import opened Wrappers
  import opened Text

  /** A JSON scalar stored in a record field. */
  datatype Value = Null | Bool(b: bool) | Int(i: int) | Str(s: string)

  /** One stored document: Python's `raw or {}` maps a null document to `{}`. */
  type Record = map<string, Value>

  /** A collection read back from the database: a JSON object keyed by record
      id, or anything else (`isinstance(snapshot, dict)` fails). Every child
      is a JSON object, or a falsy value read as `{}`; a truthy scalar
      child is not represented. */
  datatype Snapshot = Dict(items: seq<(string, Record)>) | NotDict

  /** Python truthiness of a scalar. */
  predicate Truthy(v: Value) {
    match v
    case Null => false
    case Bool(b) => b
    case Int(i) => i != 0
    case Str(s) => s != ""
  }

  /** `a or b`. */
  function Or(a: Value, b: Value): (r: Value)
    ensures Truthy(a) ==> r == a
    ensures !Truthy(a) ==> r == b
  {
    if Truthy(a) then a else b
  }

  /** `record.get(key)`. */
  function Get(r: Record, key: string): (v: Value)
    ensures key !in r ==> v == Null
    ensures key in r ==> v == r[key]
  {
    if key in r then r[key] else Null
  }

  /** `record.get(key, default)`: the default only replaces an absent key. */
  function GetOr(r: Record, key: string, default: Value): (v: Value)
    ensures key !in r ==> v == default
    ensures key in r ==> v == r[key]
  {
    if key in r then r[key] else default
  }

  /** The entry a field sent in a patch adds to the dumped dictionary:
      none for a field that was not sent. */
  function SentEntry(key: string, v: Option<Value>): (r: Record)
    ensures r.Keys <= {key}
    ensures key in r <==> v.Some?
    ensures v.Some? ==> r[key] == v.value
  {
    if v.Some? then map[key := v.value] else map[]
  }

  /** Writing a sent entry over a dictionary that has the key replaces
      its value when it was sent and keeps it otherwise. */
  lemma SentEntryOverrides(m: Record, key: string, v: Option<Value>)
    requires key in m
    ensures m + SentEntry(key, v) == m[key := v.GetOr(m[key])]
  {
  }

  /** Dictionary union is associative. */
  lemma UnionAssociative(a: Record, b: Record, c: Record)
    ensures a + (b + c) == (a + b) + c
  {
  }

  /** `str(v)`. */
  function PyStr(v: Value): string {
    match v
    case Null => "None"
    case Bool(b) => if b then "True" else "False"
    case Int(i) => DecimalString(i)
    case Str(s) => s
  }

  /** `int(v)`; `None` stands for the `TypeError` or `ValueError` Python raises. */
  function PyIntOf(v: Value): (r: Option<int>)
    ensures v.Int? ==> r == Some(v.i)
    ensures v.Null? ==> r.None?
  {
    match v
    case Null => None
    case Bool(b) => Some(if b then 1 else 0)
    case Int(i) => Some(i)
    case Str(s) => PyInt(s)
  }

  /** The optional string a field holds, as `Optional[str]` fields are read. */
  function AsOptionalString(v: Value): Option<string> {
    if v.Str? then Some(v.s) else None
  }
}

=== FILE: wrappers.dfy ===
/** Failure-carrying datatypes shared by every module of the model.

    Python's `None` becomes `Option.None`; an `HTTPException` raised by an
    endpoint becomes `Result.Fail` carrying the HTTP status code. */
module Wrappers {

  datatype Option<+T> = None | Some(value: T) {
    /** Python's `x or default` for an optional value. */
    function GetOr(default: T): T {
      match this
      case Some(v) => v
      case None => default
    }
  }

  /** The outcome of an endpoint: a value, or the HTTP status it raises. */
  datatype Result<+T> = Ok(value: T) | Fail(status: int)

  /** HTTP status codes the modelled endpoints raise. */
  const BadRequest: int := 400
  const Unauthorized: int := 401
  const NotFound: int := 404
  const Conflict: int := 409
  const ServerError: int := 500
  const BadGateway: int := 502
  const Unavailable: int := 503

  function Min(a: int, b: int): int { if a <= b then a else b }
  function Max(a: int, b: int): int { if a >= b then a else b }

  /** Python's `max(lo, min(hi, v))`. */
  function Clamp(v: int, lo: int, hi: int): (r: int)
    requires lo <= hi
    ensures lo <= r <= hi
    ensures lo <= v <= hi ==> r == v
    ensures v < lo ==> r == lo
    ensures v > hi ==> r == hi
  {
    Max(lo, Min(hi, v))
  }
}
